=== FILE: README.md ===
# Dream Stage: creator numbers, invites, OTP and payments in Dafny

Dream Stage is a signup journey for performers built on Express and MongoDB.
A visitor starts a session, answers the journey's questions, confirms a phone
number with a texted one-time code (which also draws a join rank), enters a
four-character invite code, and pays a founding membership through Razorpay.
A verified payment makes one *creator number* final for the player, with the
creator code `#0001`, `#0002`, ... printed from it. A reward wheel shown when
the journey is complete can win referral invite codes.

This project models the part of that system that allocates and redeems
scarce things, plus the browser helpers that feed it:

- the mongoose collections as classes over maps and sequences: players
  (`PlayerModel.Players`, with the sparse unique phone index), counters
  (`CounterModel.Counters`), the creator-number pool
  (`CreatorNumberModel.CreatorNumbers`, numbered 1..N without gaps), invite
  codes (`InviteCodeModel.InviteCodes`), payment orders
  (`PaymentOrderModel.PaymentOrders`) and spin attempts;
- the route handlers as methods over those collections, each proved equal to
  a specification function of the old state, with lemmas about the
  specification functions: `routes/pay.js` (reserve, preview, order, verify; not mounted, see below),
  `routes/payments.js` (the payment router mounted at `/api/pay`), `routes/otp.js`,
  `routes/invites.js`, `routes/spin.js`, `routes/player.js`,
  `routes/journey.js`, `routes/community.js` and `routes/levels.js`;
- the pure client helpers of `public/js/QuestionFlow.js`, `epk-pay.js`,
  `community.js` and `complete.js` (phone formatting, the join-rank
  redirect, ordinals, the founding-deal tiers, the weighted reward wheel),
  with the small pieces of page state they update as classes.

How the routers are mounted matters for what is reachable. `index.js` mounts
the API router of `routes/index.js` at `/api` (index.js:32) and only then
`routes/spin.js`, also at `/api` (index.js:37). The API router mounts
`routes/payments.js` at `/pay` (routes/index.js:18), and nothing requires
`routes/pay.js` or `routes/community.js`: as the repository stands, their
handlers and pay.js's one-minute sweep timer never run. `POST
/api/invites/claim` is answered by `routes/invites.js:109` (mounted at
routes/index.js:23), which always replies, so the spin router's handler for
the same path (routes/spin.js:162-196, `SpinRoutes.MultiClaim`) is shadowed.
These unreachable handlers are modelled as written, as the behaviour a mount
would serve.

The clock, the random rolls, SHA-256/HMAC, the Razorpay and Twilio replies
and the browser's storage are parameters: `now` is a number of
milliseconds, a random roll is a `real` in `[0, 1)`, a hash is a function
`string -> string`, and a gateway reply is a datatype. JavaScript request
values are `JsValues.JsValue`, with JavaScript's truthiness and `String()`.

The central properties:

- creator numbers stay exactly 1..N, each used once; a reservation takes the
  least number not held; an order is charged the tier of the number it
  reserved; a verified payment makes exactly one number final for its
  player, and replaying it changes nothing;
- a one-time code texted by `/otp/send` and typed back before its expiry
  confirms the phone, once; a join rank is drawn only for a player without
  one, and successive ranks are consecutive;
- phone numbers stay unique across players through every handler that
  writes one;
- an invite code is consumed at most as often as it allows, and a refused
  request changes nothing.

## Model

| member | source | states |
|---|---|---|
| PayRoutes.PriceFor | routes/pay.js:29 | the tier is 49 exactly for numbers up to 100, 199 exactly above 3000, and 99 otherwise |
| PayRoutes.PriceForMonotone | routes/pay.js:29 | a later creator number never pays less than an earlier one |
| PayRoutes.CodeStrIsCreatorCode | routes/pay.js:30 | `codeStr(n)` is the same creator code the other routes print: '#' and at least four digits that read back as `n` |
| PayRoutes.CodeStrOf | routes/pay.js:209-212 | the replayed code of an order with no stored number prints as "#undefined" |
| PayRoutes.Preview | routes/pay.js:86-98 | `/preview` sweeps expired holds, then names the number the next reservation takes and its tier |
| PayRoutes.PreviewIsNextReservation | routes/pay.js:86-98 | the number `/preview` names is the one an order placed at the same moment reserves (sweeping again changes nothing) and lies in 1..N+1 |
| PayRoutes.CreatedOrder | routes/pay.js:161-169 | the order record is created, keyed by the gateway id, charging the amount and remembering the reserved number and player |
| PayRoutes.PlaceOrder | routes/pay.js:133-186 | the sweep, the reservation, the final gateway order (releasing the hold when it fails), the order record and the repointed hold have the outcome `OrderWithHold` describes |
| PayRoutes.OrderFor | routes/pay.js:101-191 | `/order` on a normalised phone has the outcome `OrderSpec` describes, for players, pool and orders together |
| PayRoutes.Order | routes/pay.js:101-106 | `/order` normalises the phone, then behaves as `OrderSpec` |
| PayRoutes.OrderRefusals | routes/pay.js:103-114 | a player without an invite lock is refused with INVITE_REQUIRED; the configuration, phone, account and invite refusals reserve nothing and record nothing; a created order passed every check |
| PayRoutes.OrderSucceeded | routes/pay.js:101-191 | a created order came from a configured gateway, a non-empty phone, a found player and a successful pre-order |
| PayRoutes.OrderChargesReservedTier | routes/pay.js:133-175 | a created order is charged the tier of the number it reserved, in paise; that number is held for the final order id by the player; exactly one new order is recorded; every other slot is as the sweep left it |
| PayRoutes.HeldForNewReservation | routes/pay.js:33-74 | after a reservation, the first hold for its order id is the reserved number's slot |
| PayRoutes.SweptHoldsNothingNew | routes/pay.js:77-83 | a sweep never creates a hold for an order |
| PayRoutes.OrderFailureFreesHold | routes/pay.js:149-157 | when the final gateway order fails, the reserved number is free again, nothing is recorded, and every other slot is as the sweep left it |
| PayRoutes.PaidAsWritten | routes/pay.js:240-243 | the order saved after a good signature is paid and keeps the `reservedCodeNumber` it had |
| PayRoutes.PaidRecord | routes/pay.js:240-243 | the corrected paid record of the Findings row: paid, with the payment id and signature, and with the number actually assigned in place of the reserved one (the code as written keeps the reserved number, `PaidAsWritten`) |
| PayRoutes.Activated | routes/pay.js:245-267 | the player's membership is active for a year from `now` with the order, payment and amount; the creator number and code are set; the invite is marked verified only when the player has one; phone, session, rank and role are untouched |
| PayRoutes.FinalizeNumber | routes/pay.js:221-237 | the order's hold is made final when it exists; otherwise a fresh number is reserved after a sweep and made final |
| PayRoutes.MarkPaid | routes/pay.js:239-243 | only that order changes, into its paid record; the amount is returned for the reply |
| PayRoutes.ActivatePlayer | routes/pay.js:245-269 | the invite the player locked is consumed when it has one; `p.save()` succeeds exactly when the player's document validates, and then only that player changes, into its activated record; a failed save changes no player |
| PayRoutes.Settle | routes/pay.js:221-271 | the writes after a good signature have the outcome `SettleSpec` describes |
| PayRoutes.PayVerifyFor | routes/pay.js:194-276 | `/verify` on a normalised phone has the outcome `PayVerifySpec` describes, for all four collections |
| PayRoutes.PayVerify | routes/pay.js:194-199 | `/verify` normalises the phone, then behaves as `PayVerifySpec` |
| PayRoutes.FinalPoolOnlyThatSlot | routes/pay.js:221-236 | making the number final assigns exactly one slot to the player (the order's own hold when it still exists, else a fresh reservation after the sweep), every other slot is as it was (or as the sweep left it), the pool grows only when no slot was free, and it stays gap-free |
| PayRoutes.PayVerifyAssignsNumber | routes/pay.js:221-271 | after a good signature exactly one number is made final (the order's own hold when it still exists), assigned to the player, leaving every other slot as it was or as the sweep left it; the pool stays gap-free; the order is paid; when the player's document validates, its creator code is that number's and the membership is active for a year, otherwise the answer is a 500 and no player changes |
| PayRoutes.PayVerifyOnlyWhenPasses | routes/pay.js:196-219 | a request that fails any check (keys, phone, fields, account, order, not yet paid, signature) is neither verified nor settled |
| PayRoutes.PayVerifySettles | routes/pay.js:194-271 | a request that was verified, or whose final save failed, found its player and order and then did exactly the writes of `SettleSpec` |
| PayRoutes.PayVerifyRefusalKeeps | routes/pay.js:196-219 | a request failing a check leaves players, pool, orders and invites as they were |
| PayRoutes.PayVerifyRefusalsChangeNothing | routes/pay.js:194-276 | every answer except a verified payment or a failed final save changes nothing; both of those had an unpaid order and a signature equal to the HMAC of "order\|payment"; a failed final save changes no player |
| PayRoutes.PayVerifyReplay | routes/pay.js:209-212 | replaying a verified payment answers "already paid" with the amount and the creator code of the first answer, and changes nothing |
| PayRoutes.PayVerifyAfterFailedSettle | routes/pay.js:204-275 | after a final save that failed validation the order is paid but no player changed, and the same request is answered as already paid without further writes, so that player's membership never becomes active through it |
| PayRoutes.PayVerifyOfPaid | routes/pay.js:207-212 | a request for an order its player already paid is answered from the order and changes nothing |
| PayRoutes.FirstCodes | routes/pay.js:30 | the first two creator codes are "#0001" and "#0002" |
| PayRoutes.FallbackTakesNextNumber | routes/pay.js:228-237 | a payment whose hold was swept and taken by another order falls back to the next number |
| PayRoutes.ReplayAfterFallbackAsWritten | routes/pay.js:209-243 | as written, a replay after the fallback reports the number reserved at order time, not the one assigned (see Findings) |
| PayRoutes.PayVerifyReplayAsWritten | routes/pay.js:209-243 | against the order as written, a replay of a verified payment answers "already paid" with the first amount and the code of the number reserved at order time, changes nothing, and repeats the first answer's code when no fallback number was needed |
| PayRoutes.ReplayReportsAssignedCode | routes/pay.js:209-243 | with the assigned number recorded on the order, a replay always reports the code the player holds |
| PayRoutes.OrderSpec | routes/pay.js:101-191 | the reference outcome of `/order`: no existing order is changed or removed, and a created order adds exactly the gateway's order id; its refusals and holds are the lemmas `OrderRefusals`, `OrderSucceeded`, `OrderChargesReservedTier` and `OrderFailureFreesHold` |
| PayRoutes.SettleSpec | routes/pay.js:221-275 | the reference writes after a good signature: the payment is verified, for the order's amount, exactly when the player's document validates; otherwise the answer is a 500 and no player changes; no player or order is created or removed, and the order is paid either way; `SettleSpecParts` and `PayVerifyAssignsNumber` state the rest |
| PayRoutes.PayVerifySpec | routes/pay.js:194-276 | the reference outcome of `/verify`: no player or order is created or removed; its refusals, settlement and replay are the lemmas `PayVerifyRefusalsChangeNothing`, `PayVerifySettles`, `PayVerifyReplay` and `PayVerifyReplayAsWritten` |
| CreatorNumberModel.Hold | routes/pay.js:35-47 | a hold marks the slot reserved by the player for the order until `now + holdMs`, keeping its number and assignment fields |
| CreatorNumberModel.NewHeld | routes/pay.js:57-64 | a slot created already reserved for the player and order, unassigned |
| CreatorNumberModel.Released | routes/pay.js:79-82 | a released hold is free with the holder fields back at their defaults, keeping its number |
| CreatorNumberModel.Assign | routes/pay.js:222-226 | a finalised hold is assigned to the player at `now`, keeping its number and order id |
| CreatorNumberModel.Swept | routes/pay.js:77-83 | after a sweep no slot is expired; expired holds are released and every other slot is unchanged; the pool stays gap-free |
| CreatorNumberModel.SweptIdempotent | routes/pay.js:77-83 | sweeping twice at the same moment is sweeping once |
| CreatorNumberModel.SmallestFree | routes/pay.js:35-47 | the free slot with the smallest number, or none when no slot is free |
| CreatorNumberModel.LastN | routes/pay.js:53-54 | in a gap-free pool the largest number is the pool's size (0 when empty) |
| CreatorNumberModel.NextNumber | routes/pay.js:91 | the next number is positive in a gap-free pool |
| CreatorNumberModel.NextNumberIsLeastUnheld | routes/pay.js:33-74 | the next number is the least number not held: every smaller one is reserved or assigned, and it is free or one past the end |
| CreatorNumberModel.FirstHeldFor | routes/pay.js:222-223 | the first slot reserved for an order id, or none when no slot is |
| CreatorNumberModel.ReserveHoldsNextNumber | routes/pay.js:33-74 | a reservation holds exactly the next number for the player and order until `now + holdMs`; no other slot changes; the pool stays gap-free and grows only when nothing was free |
| CreatorNumberModel.ReleasedFor | routes/pay.js:151-153 | giving back an order's hold keeps the pool's size and gap-freedom |
| CreatorNumberModel.RepointedFor | routes/pay.js:172-175 | moving a hold onto another order id keeps the pool's size and gap-freedom |
| CreatorNumberModel.AssignedFor | routes/pay.js:222-226 | finalising an order's hold keeps the pool's size and gap-freedom |
| CreatorNumberModel.AssignedForOnlyThatSlot | routes/pay.js:222-226 | finalising touches only the order's first hold, which becomes assigned to the player with its number and order id |
| CreatorNumberModel.CreatorNumbers.constructor | models/CreatorNumber.js:4-18 | the pool starts empty and valid |
| CreatorNumberModel.CreatorNumbers.ReleaseExpiredHolds | routes/pay.js:77-83 | the pool becomes its sweep at `now` |
| CreatorNumberModel.CreatorNumbers.Reserve | routes/pay.js:33-74 | returns the next number and holds it, as `ReservedPool` |
| CreatorNumberModel.CreatorNumbers.ReleaseHoldFor | routes/pay.js:151-153 | the order's hold is given back |
| CreatorNumberModel.CreatorNumbers.RepointHold | routes/pay.js:172-175 | the order's hold moves to the final order id |
| CreatorNumberModel.CreatorNumbers.AssignHoldFor | routes/pay.js:222-226 | returns the held number (none exactly when the order holds nothing) and makes it assigned |
| CounterModel.Draws | models/Counter.js:13-20 | `n` successive draws return `n` values |
| CounterModel.DrawsConsecutive | models/Counter.js:13-20 | successive draws on one key return consecutive values starting just above the stored one |
| CounterModel.DrawsFromFreshKey | models/Counter.js:13-20 | on an unused key the draws are exactly 1, 2, ..., n |
| CounterModel.DrawsDistinct | models/Counter.js:13-20 | no value is drawn twice on the same key |
| CounterModel.Counters.constructor | models/Counter.js:5-11 | no counter exists yet |
| CounterModel.Counters.NextSequence | models/Counter.js:13-20 | the key's value rises by exactly one (from the default 0 when missing), is returned, and no other key changes |
| OtpRoutes.GenerateOtp | routes/otp.js:11 | every generated code has exactly six digits |
| OtpRoutes.IdentityOf | routes/otp.js:44-60 | a truthy player id wins and is a player identity exactly when valid; otherwise a session id must be a string with more than white space; no identity exactly when neither is truthy |
| OtpRoutes.Issued | routes/otp.js:74-79 | `/send` sets the number unverified, sets `steps.phone`, and stores the code's hash with a five-minute expiry |
| OtpRoutes.CheckOtp | routes/otp.js:137-145 | no challenge exactly when the hash or expiry is missing; expired exactly when `now` is past the expiry; a match exactly when present, unexpired and the candidate's hash is the stored one |
| OtpRoutes.Confirmed | routes/otp.js:147-151 | a confirmation marks the phone verified at `now`, sets `steps.phoneVerified` and clears the challenge |
| OtpRoutes.SendThenVerify | routes/otp.js:69-79 | the code `/send` draws is a well-formed candidate and, typed back before its expiry, matches the stored challenge |
| OtpRoutes.VerifyIsOneShot | routes/otp.js:150-151 | once confirmed, every further attempt finds no challenge |
| OtpRoutes.ExpiredChallengeFails | routes/otp.js:140-142 | past its expiry a challenge fails whatever code is typed |
| OtpRoutes.SendTarget | routes/otp.js:44-57 | the player `/send` works on is in the collection after the lookup (a new session creates it) |
| OtpRoutes.FindSendTarget | routes/otp.js:44-57 | the lookup or creation of the player has the outcome `SendTarget` describes, and an unknown player id changes nothing |
| OtpRoutes.IssueChallenge | routes/otp.js:62-107 | the phone guard, the stored challenge and the SMS reply have the outcome `SendIssue` describes |
| OtpRoutes.SendAs | routes/otp.js:35-112 | `/send` for a normalised phone and an identity has the outcome `SendSpec` describes |
| OtpRoutes.Send | routes/otp.js:35-40 | `/send` normalises the phone and reads the identity, then behaves as `SendSpec` |
| OtpRoutes.SendRefusals | routes/otp.js:39-111 | a phone shorter than 8 characters is refused first; the phone and identity refusals and the 500s (an unknown player id, a save that fails validation) write nothing and draw no code; a code is drawn exactly when its challenge was stored, whether or not the SMS then goes out |
| OtpRoutes.SendIssueOutcome | routes/otp.js:62-111 | once its player is known, `/send` answers 500 only for a document that does not validate, and then writes nothing and draws no code; a code is drawn exactly when the challenge was stored |
| OtpRoutes.IssueStoresChallenge | routes/otp.js:62-88 | once the guard passes and the save succeeds, the player's document validated and the challenge is stored on that player alone: the number unverified, the hash of the six-digit code drawn, its expiry, `steps.phone`, the role unchanged; phone numbers stay unique |
| OtpRoutes.SendFailsOnInvalidDocument | routes/otp.js:62-111 | `/send` for a known player whose stored document does not validate, once the phone guard passes, answers 500, draws no code and writes nothing |
| OtpRoutes.SendTargetValid | routes/otp.js:50-57 | the lookup keeps the collection's invariants and every other player; a created player is a fresh session record under the next id |
| OtpRoutes.SendSucceeded | routes/otp.js:35-107 | a `/send` that drew and stored a code passed the phone and identity gates and found its player |
| OtpRoutes.SendStoresChallenge | routes/otp.js:35-107 | a `/send` that stored a challenge stored it on the player it found or created, changed no other player, drew a six-digit code, and kept phone numbers unique; the SMS may still fail afterwards |
| OtpRoutes.SendPhoneExists | routes/otp.js:62-66 | a 409 PHONE_EXISTS means another player holds the number; at most the session's new player has been written |
| OtpRoutes.VerifyTarget | routes/otp.js:124-134 | the player `/verify` works on is in the collection |
| OtpRoutes.Confirm | routes/otp.js:147-159 | the confirmation writes, including the join-rank draw, have the outcome `ConfirmSpec` describes |
| OtpRoutes.Verify | routes/otp.js:115-164 | `/verify` has the outcome `VerifySpec` describes for players and counters |
| OtpRoutes.VerifyRefusalsChangeNothing | routes/otp.js:118-163 | a candidate that is not 4 to 8 digits is refused as invalid; every refusal, a wrong code included, changes nothing; a save that fails validation writes no player, and the counter has at most advanced by the one join rank drawn before it |
| OtpRoutes.MatchingCandidateConfirms | routes/otp.js:144-163 | a well-formed candidate matching the target's challenge reaches the confirmation, which succeeds exactly when the target's document validates; otherwise the answer is a 500 and no player changes |
| OtpRoutes.VerifyJoinOrder | routes/otp.js:144-159 | a confirmation required a matching challenge; it verifies the phone and clears the challenge; a positive rank is kept without advancing the counter, otherwise the rank is the counter's next value; no other player changes |
| OtpRoutes.VerifyReplayFails | routes/otp.js:137-139 | repeating a successful verification is refused with "No OTP issued" and changes nothing |
| OtpRoutes.TextedCodeIsCandidate | routes/otp.js:118 | the drawn code sent back as `code` is read as exactly that text |
| OtpRoutes.SendTargetFound | routes/otp.js:54 | a session lookup in `/verify` finds the player `/send` found or created for that session |
| OtpRoutes.SendThenVerifyConfirms | routes/otp.js:35-164 | after a `/send` that stored a challenge (even if the SMS then failed), typing the drawn code into `/verify` for the same identity before it expires confirms the phone |
| OtpRoutes.SendSpec | routes/otp.js:35-112 | the reference outcome of `/send`: a code is drawn only for a phone of at least 8 characters and a player or session identity, and a player id creates no player; the lemmas `SendRefusals`, `SendSucceeded` and `SendStoresChallenge` state the rest |
| OtpRoutes.VerifySpec | routes/otp.js:115-164 | the reference outcome of `/verify`: a confirmation needs a 4-to-8-digit candidate and a player or session identity and names an existing player, and no player is created or removed; `VerifyRefusalsChangeNothing` and `VerifyJoinOrder` state the rest |
| PaymentsRoutes.ComputeRupees | routes/payments.js:62-68 | 49 exactly for a numeric rank in 1..100, 99 exactly for one in 101..3000, and 199 for anything else (a later rank, 0, a negative rank or a non-number) |
| PaymentsRoutes.ComputeRupeesAgreesWithPriceFor | routes/payments.js:62-68 | for a real rank this router charges the tier routes/pay.js charges for the same number; a rank of 0 pays the top tier here and the bottom tier there |
| PaymentsRoutes.ComputeRupeesMonotone | routes/payments.js:62-68 | a higher rank never pays less |
| PaymentsRoutes.Receipt | routes/payments.js:86-89 | the receipt starts with "ds_", is at most 40 characters, and is "ds_", the id's last six characters, "_" and the time in base 36 when that fits |
| PaymentsRoutes.OrderRequest | routes/payments.js:82-96 | the gateway order asks for the player's tier in paise, in INR, with a receipt of at most 40 characters |
| PaymentsRoutes.CreatedUpsert | routes/payments.js:112-128 | the upsert sets amount, currency and status created; the player and phone are written only when the record is new, otherwise kept |
| PaymentsRoutes.OrderFor | routes/payments.js:71-146 | `/order` on a normalised phone has the outcome `OrderSpec` describes |
| PaymentsRoutes.Order | routes/payments.js:75-77 | `/order` normalises the phone, then behaves as `OrderSpec` |
| PaymentsRoutes.OrderWritesOnlyWithId | routes/payments.js:91-128 | nothing is written unless the gateway returned an order id; then exactly that order is written, created, at the gateway's amount or else the player's tier in paise |
| PaymentsRoutes.EnsureCreatorCode | routes/payments.js:32-59 | `ensureCreatorCode` has the outcome `EnsureSpec` describes for players and counters |
| PaymentsRoutes.DrawCreatorNumber | routes/payments.js:41-58 | the drawn number is the 'creator' counter's next value, its code is '#' and four digits, and it is written only under the guard |
| PaymentsRoutes.WriteGuarded | routes/payments.js:44-56 | the players become the guarded write of the number |
| PaymentsRoutes.EnsureKeepsAssigned | routes/payments.js:35-39 | a player whose number is positive is left alone, nothing is drawn, and its number (and stored code) are returned |
| PaymentsRoutes.EnsureDrawsOnce | routes/payments.js:41-58 | otherwise exactly one value is drawn, the next; it is written only on a player whose number is still 0; no other player or counter changes |
| PaymentsRoutes.GuardedWriteTouchesOne | routes/payments.js:44-56 | the guarded write changes at most that player, only when its number is 0, and keeps its membership |
| PaymentsRoutes.EnsureNeverOverwrites | routes/payments.js:44-56 | a creator number once set to a non-zero value is never overwritten |
| PaymentsRoutes.EnsureIdempotent | routes/payments.js:32-59 | ensuring twice hands out one number: the second call returns the first call's number and code and draws nothing |
| PaymentsRoutes.UpsertBase | routes/payments.js:171-185 | an upsert starts from the stored record, or from a new record with the schema defaults |
| PaymentsRoutes.FailedRecord | routes/payments.js:169-187 | a bad signature records the order as failed with "Invalid signature", the payment id, signature, phone and player, keeping any stored amount |
| PaymentsRoutes.AmountPaise | routes/payments.js:189-192 | a payment is booked at the stored amount, else at the player's tier in paise |
| PaymentsRoutes.PaidUpsert | routes/payments.js:194-210 | a good signature records the order as paid at that amount in INR with the payment id, signature, phone and player |
| PaymentsRoutes.MemberFor | routes/payments.js:212-223 | the membership is active for 365 days from `now` at the booked amount; phone, creator number, rank and steps are kept |
| PaymentsRoutes.MarkFailed | routes/payments.js:169-187 | only that order changes, into its failed record |
| PaymentsRoutes.MarkPaid | routes/payments.js:189-210 | only that order changes, into its paid record, and the booked amount is returned |
| PaymentsRoutes.Activate | routes/payments.js:189-237 | the writes after a good signature have the outcome `ActivationSpec` describes |
| PaymentsRoutes.VerifyFor | routes/payments.js:149-242 | `/verify` on a normalised phone has the outcome `VerifySpec` describes for players, counters and orders |
| PaymentsRoutes.Verify | routes/payments.js:153-155 | `/verify` normalises the phone, then behaves as `VerifySpec` |
| PaymentsRoutes.VerifyBadSignature | routes/payments.js:151-187 | only a verified payment touches players or counters; the refusals before the signature write nothing; a bad signature writes exactly one order, failed with "Invalid signature"; a verified payment had a good signature |
| PaymentsRoutes.VerifySucceeded | routes/payments.js:149-237 | a verified payment passed every check, on a player whose document validates, and then did exactly the writes of `ActivationSpec` |
| PaymentsRoutes.EnsureFrame | routes/payments.js:32-59 | `ensureCreatorCode` adds and removes no player, changes no other player, keeps the membership and the role, and leaves a non-negative player with the positive number returned |
| PaymentsRoutes.ActivationPays | routes/payments.js:189-240 | a good signature pays exactly that order at the booked amount; the answer is verified, with that amount and a year's validity, exactly when the player's document validates; otherwise `player.save()` fails, the answer is a 500, the paid order stays and no player or counter changes |
| PaymentsRoutes.ActivationActivates | routes/payments.js:212-237 | no player is added or removed and no other player changes; when the player's document validates, the membership is active for a year at the booked amount and the player has the positive creator number the reply names |
| PaymentsRoutes.ActivationDraws | routes/payments.js:223-226 | the payment is verified exactly when the player's document validates, and a failed save draws nothing; a verified payment keeps a positive creator number without drawing, else takes the counter's next value |
| PaymentsRoutes.ActivationReplayKeepsAmount | routes/payments.js:189-226 | verifying the same payment again books it at the same amount; after a failed save the replay fails the same way and still changes no player or counter |
| PaymentsRoutes.ActivationReplayKeepsNumber | routes/payments.js:223-226 | verifying the same payment again hands out no second creator number and draws nothing |
| PaymentOrderModel.NewOrder | models/PaymentOrder.js:5-38 | a new order record has the schema defaults: created, INR, no amount, player or number, stamped at `now` |
| PaymentOrderModel.WithStatus | routes/payments.js:247-250 | the ids of exactly the orders with a given status |
| PaymentOrderModel.CountByStatus | routes/payments.js:247-250 | summing a 0/1 status indicator over a set of orders counts the orders with that status |
| PaymentOrderModel.PaymentOrders.constructor | models/PaymentOrder.js:5-43 | no order exists yet |
| PaymentOrderModel.PaymentOrders.Put | routes/payments.js:112-128 | the record is written under its id and no other record changes |
| PaymentOrderModel.PaymentOrders.Stats | routes/payments.js:245-260 | `/stats` returns the number of created orders, the number of paid orders and the sum of the paid amounts |
| PaymentOrderModel.PaymentOrders.Total | routes/payments.js:263-270 | `/total` returns the number of paid orders, despite its field name |
| SpinAttemptModel.ResultName | models/SpinAttempt.js:6 | a result is stored as one of the enum's texts |
| SpinAttemptModel.SpinAttempts.constructor | models/SpinAttempt.js:4-9 | no attempt exists yet |
| SpinAttemptModel.SpinAttempts.Create | routes/spin.js:94 | the attempt is stored under its player, who had none |
| InviteCodeModel.WellFormedCodeIsStored | models/InviteCode.js:5-13 | the well-formed codes are exactly the four-character strings the schema's `uppercase` and `trim` leave unchanged |
| InviteCodeModel.UsesOf | routes/spin.js:172 | `uses || 0` |
| InviteCodeModel.MaxUsesOf | routes/spin.js:172 | `maxUses || 1`: a missing or zero limit counts as one use |
| InviteCodeModel.NewInvite | models/InviteCode.js:14-26 | a seeded record is unused, unlocked and unclaimed, with one use allowed and none spent |
| InviteCodeModel.LockedConsumed | routes/pay.js:259-267 | a payment consumes the code only when its player holds the lock on an unused code: then it is used at `now`; otherwise nothing changes; no other code changes; a used code stays as it was |
| InviteCodeModel.InviteCodes.constructor | models/InviteCode.js:4-29 | no code exists yet |
| InviteCodeModel.InviteCodes.Create | routes/spin.js:82-90 | a new well-formed record within its limit is inserted under its code |
| InviteCodeModel.InviteCodes.ConsumeUnused | routes/invites.js:76-81 | succeeds exactly on an existing unused code, which becomes used with the claimant and time; otherwise nothing changes, so a code is consumed at most once |
| InviteCodeModel.InviteCodes.ConsumeLocked | routes/pay.js:260-264 | succeeds exactly when the player holds the lock on an unused code, and the codes become `LockedConsumed` |
| InviteCodeModel.InviteCodes.IncrementUses | routes/spin.js:174-181 | matches exactly an active code with a `uses` counter below its limit; then its counter rises by one and the claimant is recorded when given; otherwise nothing changes |
| InviteCodeModel.InviteCodes.UseOnce | routes/spin.js:174-190 | one use either changes nothing or is exactly one more use within the limit, marking the code used when the limit is reached, and reports the uses left |
| InviteCodeModel.InviteCodes.MarkUsed | routes/spin.js:186-190 | the record is marked used at `now` and nothing else changes |
| SpinRoutes.Pick | routes/spin.js:12 | every picked character is in the alphabet |
| SpinRoutes.AlphabetShape | routes/spin.js:9 | the alphabet has 33 characters, upper-case letters and digits 1..9, without I, O or 0 |
| SpinRoutes.CodeCharShape | routes/spin.js:9 | an alphabet character is its own upper case and not white space |
| SpinRoutes.CodeFrom | routes/spin.js:10-14 | a random code has the requested length and only alphabet characters |
| SpinRoutes.AlphabetCodeWellFormed | routes/spin.js:9-14 | a four-character alphabet code is a well-formed stored code, unchanged by the schema's setters, with no I, O or 0 |
| SpinRoutes.RandomCode | routes/spin.js:10-14 | the loop builds the code `CodeFrom` names from the rolls |
| SpinRoutes.GenerateUniqueCode | routes/spin.js:15-22 | the result is one of the first `tries` random codes, of the requested length and alphabet, used by no record; none only when every try was taken |
| SpinRoutes.NormalizePrize | routes/spin.js:70-77 | 'refund' and 'referrals' are recognised and anything else is no prize; a referral limit is in 1..3, kept when the request's was, else 1; other prizes keep `Number(limit) \|\| 0` |
| SpinRoutes.SpinInvite | routes/spin.js:82-90 | the referral code's record allows `limit` uses, none spent, active and unused |
| SpinRoutes.IssueCode | routes/spin.js:81-91 | a fresh well-formed code is stored as a new multi-use invite with `limit` uses; when no fresh code was found nothing is stored |
| SpinRoutes.StoredCode | routes/spin.js:67 | `inviteCode \|\| null`: a code is reported exactly when one is stored and non-empty, and then it is the stored one |
| SpinRoutes.SpinClaim | routes/spin.js:52-110 | one spin per player: a bad id is refused, a player who already spun gets 409 with the stored result, limit and code (an empty code reported as `null`) and nothing is created; otherwise the normalised prize is recorded, and exactly a referral prize creates one new code allowing `limit` uses |
| SpinRoutes.ReferralLimit | routes/spin.js:124 | the limit is in 1..3 and is the requested count when that is 1, 2 or 3 |
| SpinRoutes.IssueReferrals | routes/spin.js:118-155 | a player whose earlier spin won referrals gets the same code back, any other earlier spin is 409, both changing nothing; a new player gets exactly one new code and a referrals attempt |
| SpinRoutes.SpinStatus | routes/spin.js:27-44 | a bad id is refused; not spun exactly when the player has no attempt; otherwise the stored result and limit, and the stored invite code exactly when it is present and non-empty (`null` otherwise) |
| SpinRoutes.SpinCodeText | routes/spin.js:164 | a string code is trimmed and upper-cased; a falsy code is empty |
| SpinRoutes.SpinCodeTextShape | routes/spin.js:164 | a normalised code text of four characters has the shape of a stored code |
| SpinRoutes.UpperShape | routes/spin.js:164 | upper-casing a four-character text without white space at its ends gives a well-formed code |
| SpinRoutes.MultiClaim | routes/spin.js:162-196 | an empty code is 400, an unknown or deactivated one 404, a spent one 410, and a refusal changes nothing; a claim is exactly one more use within `maxUses`, marking the code used when the limit is reached, and reports the uses left |
| InvitesRoutes.NormalizeText | routes/invites.js:11-13 | a normalised code contains no 'O' and is no longer than the input |
| InvitesRoutes.NormalizeCode | routes/invites.js:11-13 | `String(raw \|\| '')` then the text normalisation; never contains 'O' |
| InvitesRoutes.NormalizedShape | routes/invites.js:11-13 | a normalised code has no white space at its ends, no lower-case letter and no 'O' |
| InvitesRoutes.NormalFormFixed | routes/invites.js:11-13 | a code already in that shape is left unchanged |
| InvitesRoutes.NormalizeTextIdempotent | routes/invites.js:11-13 | normalising twice is normalising once |
| InvitesRoutes.Check | routes/invites.js:23-40 | 400 exactly for a missing or non-string code; 404 exactly when the normalised code has no record; 409 exactly when it is used; ok exactly when it exists unused |
| InvitesRoutes.AsDryRun | routes/invites.js:62-67 | a dry run succeeds exactly when the check would |
| InvitesRoutes.Claim | routes/invites.js:48-105 | a dry run answers as the check and writes nothing; otherwise the code is consumed exactly when it exists unused, recording the claimant when the id names a player, whose `steps.inviteVerified` is then set; 404 and 409 otherwise; every failure writes nothing |
| CommunityRoutes.VerifiedIds | routes/community.js:9 | exactly the players whose phone is verified |
| CommunityRoutes.Count | routes/community.js:7-14 | the verified count never exceeds the number of players |
| CommunityRoutes.CountAfterVerify | routes/community.js:7-14 | verifying one more player's phone raises the count by exactly one; a write that keeps the verification keeps the count |
| CommunityRoutes.CountAfterCreate | routes/community.js:7-14 | creating a player leaves the count unchanged |
| CommunityRoutes.MeOf | routes/community.js:17-27 | a malformed id is refused and an unknown one not found; otherwise the join rank and whether the phone is verified |
| LevelRoutes.CastNumber | models/Level.js:4 | a cell cast to the `Number` path: `null`, `undefined` and the empty string are stored as `null`; an array, an object or a string that `Number` reads as NaN is a cast error; any other value is stored as `Number(v)` |
| LevelRoutes.GridOf | routes/levels.js:7-16 | the stored grid has the request's rows and cells, each cell its cast value |
| LevelRoutes.NumbersStoredAsSent | routes/levels.js:7-16 | a grid of numbers casts and is stored exactly as sent |
| LevelRoutes.IndexOf | routes/levels.js:60-61 | the position of the level with that id, or none when no level has it |
| LevelRoutes.Levels.constructor | models/Level.js:3-8 | no level exists yet |
| LevelRoutes.Levels.Latest | models/Level.js:5 | the newest creation time, none exactly for an empty store |
| LevelRoutes.Levels.Post | routes/levels.js:7-20 | anything but an array of arrays is refused, a cell that does not cast to a number fails the save, both changing nothing; otherwise the level holding the cast grid is appended under a fresh id, created at `now` |
| LevelRoutes.Levels.List | routes/levels.js:23-31 | every level's id and creation time, oldest first |
| LevelRoutes.Levels.First | routes/levels.js:45-54 | 404 exactly without levels; otherwise the maps of all levels, oldest first |
| LevelRoutes.Levels.DeleteAll | routes/levels.js:78-86 | every level is removed |
| LevelRoutes.GetByNumber | routes/levels.js:63-72 | the n-th level in creation order is returned for 1 <= n <= count; n below 1 is refused; a position past the last level is not found |
| LevelRoutes.GetByText | routes/levels.js:63-65 | a non-id parameter is read with `parseInt` and looked up by position |
| LevelRoutes.AtPositionOf | routes/levels.js:64-72 | position lookup: below 1 refused, within the store the level's map, past the end not found |
| LevelRoutes.GetByNonNumber | routes/levels.js:64-65 | text without a digit is never a level number |
| LevelRoutes.GetById | routes/levels.js:59-62 | a level looked up by id gives its map; an id no level has is not found |
| PlayerModel.NewPlayer | models/Player.js:3-100 | a new player has every schema default: empty role, no steps, rank 0, no creator number, no membership, no phone, no challenge, stamped at `now` |
| PlayerModel.PhoneKey | models/Player.js:102-106 | the unique index covers a player exactly when its phone number is present and non-empty |
| PlayerModel.PhoneUniqueUpdate | models/Player.js:102-106 | a write whose number no other player holds keeps phone numbers unique |
| PlayerModel.SamePhoneIsFree | models/Player.js:102-106 | a write that keeps the player's own number never collides |
| PlayerModel.SessionOf | routes/player.js:85 | the session lookup finds the first player with that session, or proves none has it |
| PlayerModel.SessionOfUpdate | routes/player.js:85 | rewriting a player without touching its session changes no session lookup |
| PlayerModel.SessionOfBeyond | routes/player.js:85 | a player stored beyond the lookup's bound is invisible to it |
| PlayerModel.PhoneHolder | routes/pay.js:108 | the phone lookup finds the first player holding that number, or proves none does |
| PlayerModel.PhoneHolderUpdate | routes/pay.js:108 | rewriting a player without touching its number changes no phone lookup |
| PlayerModel.IdsWhere | routes/community.js:9 | exactly the players a `countDocuments` filter counts |
| PlayerModel.Players.constructor | models/Player.js:3-113 | no player exists yet |
| PlayerModel.Players.FindBySession | routes/player.js:85 | a found player has that session; none means no player has it |
| PlayerModel.Players.FindByPhone | routes/pay.js:108 | a found player holds that number; none means no player holds it |
| PlayerModel.Players.Create | routes/otp.js:56 | a player without a phone is stored under a fresh id, stamped by the pre-save hook |
| PlayerModel.Players.Save | models/Player.js:7-111 | `doc.save()` succeeds exactly when the player validates (its role is one the schema lists) and no other player holds the number, then stores the player stamped at `now`; a failed save writes nothing |
| PlayerModel.Players.Update | routes/player.js:170-182 | an update without the pre-save hook succeeds exactly when no other player holds the number; a duplicate writes nothing |
| PlayerModel.Players.UpdateKeepingPhone | routes/payments.js:44-56 | an update that keeps the player's number always succeeds |
| PlayerModel.Players.SaveKeepingPhone | models/Player.js:7-111 | a save that keeps the player's number succeeds exactly when the player validates, stamped at `now`; a failed save writes nothing |
| PlayerModel.Players.Insert | routes/player.js:170-182 | an insert under a fresh id succeeds exactly when no player holds its number, and a duplicate writes nothing |
| PlayerRoutes.ToInt | routes/player.js:17 | `toInt` is never below 1: text without a number gives 1, a number of at least 1 is kept |
| PlayerRoutes.ToIntOfNumber | routes/player.js:17 | on a number, `toInt` is the number when positive and 1 otherwise |
| PlayerRoutes.ToIntOfText | routes/player.js:17 | text without a digit becomes 1 |
| PlayerRoutes.AssignCreatorCode | routes/player.js:23-64 | `/assign-creator-code` has the outcome `AssignSpec` describes for players and counters |
| PlayerRoutes.DrawCode | routes/player.js:49-63 | the draw branch, whose save can fail after the counter moved, has the outcome `AssignDrawn` describes |
| PlayerRoutes.DrawNumber | routes/player.js:49-50 | the 'creatorCode' counter rises by one and the number is its new value when positive, else 1 |
| PlayerRoutes.CodeNumber | routes/player.js:50 | `toInt` of the counter's new value: the value when positive, else 1 |
| PlayerRoutes.CreatorCodeCount | routes/player.js:69-77 | the count is the 'creatorCode' counter's value, 0 before the first draw and never negative |
| PlayerRoutes.AssignRefusals | routes/player.js:26-31 | 400 exactly for a malformed id, 404 exactly for an unknown player, and both change nothing |
| PlayerRoutes.AssignKeepsAssigned | routes/player.js:33-42 | a player with a positive number keeps it and its code; nothing is written and the counter does not move |
| PlayerRoutes.AssignDraws | routes/player.js:49-63 | otherwise the counter moves to its next value, which is the count afterwards; the code is assigned exactly when the player's document validates, with that number and '#' and the number padded to four digits; a failed save answers 500 and writes no player |
| PlayerRoutes.AssignDrawWrites | routes/player.js:51-57 | no player is added or removed and every other player stays as it was; when the save succeeds, the drawn number and code are written with the step flag set and the phone and membership stay as they were |
| PlayerRoutes.AssignIdempotent | routes/player.js:23-64 | asking twice hands out one number: the second call reports it as already assigned and changes nothing; for a player whose save fails, each call spends a counter value and writes no player |
| PlayerRoutes.Session | routes/player.js:82-95 | `/session` has the outcome `SessionSpec` describes |
| PlayerRoutes.SessionFindsOrCreates | routes/player.js:82-95 | 400 exactly without a non-empty string session; otherwise the first player with that session is returned unchanged, or a new player with rank 0 is created |
| PlayerRoutes.SessionIdempotent | routes/player.js:82-95 | starting the same session again returns the same player and changes nothing |
| PlayerRoutes.ByPhone | routes/player.js:97-115 | 400 exactly for a falsy phone; a found player holds the normalised number and its rank and membership are returned; not found means no player holds it |
| PlayerRoutes.RenameKey | routes/player.js:128-130 | a legacy key moves to its target only when it is truthy and the target is not; no other key changes |
| PlayerRoutes.RenameArtistKind | routes/player.js:124-127 | `artistKind` becomes an artist type with that name and an empty description only when no artist type is sent |
| PlayerRoutes.RenamedLocation | routes/player.js:128 | `city` becomes the location only when no truthy location is sent |
| PlayerRoutes.RenamedRoleTexts | routes/player.js:129-130 | `businessKind` and `loverPreference` move to their targets the same way |
| PlayerRoutes.RenamedArtistType | routes/player.js:124-127 | after the renames the artist type is the renamed `artistKind` exactly when no artist type was sent |
| PlayerRoutes.RenamedKeepsOthers | routes/player.js:122-130 | the renames touch no other key |
| PlayerRoutes.TrimmedText | routes/player.js:134-148 | a field is taken, trimmed, exactly when it is a string |
| PlayerRoutes.Flag | routes/player.js:150-163 | a flag is taken exactly when it is a boolean |
| PlayerRoutes.ArtistTypeOf | routes/player.js:137-141 | an artist type is stored exactly when it is a truthy object whose `name \|\| ''` and `description \|\| ''` pass mongoose's `String` cast, and each text is stored as its cast |
| PlayerRoutes.SentPhone | routes/player.js:165-168 | a phone is taken exactly when a non-empty string is sent |
| PlayerRoutes.SentPhoneIsNormalised | routes/player.js:165-168 | the phone taken is exactly `normalizePhone` of the text, and it is taken exactly when that is non-empty |
| PlayerRoutes.Patch | routes/player.js:117-188 | `PATCH /:sessionId` has the outcome `PatchSpec` describes, including the 500 of an artist type that fails its cast |
| PlayerRoutes.CityIsLocationOnlyWithoutOne | routes/player.js:128-142 | a truthy `city` is stored, trimmed, as the location with its step when no location is sent; a sent location wins |
| PlayerRoutes.ArtistKindIsArtistType | routes/player.js:124-141 | an `artistKind` without an artist type is stored as the type's name with an empty description, and the post-level-2 step is set |
| PlayerRoutes.PatchArtistTypeCast | routes/player.js:137-180 | with a session id, the PATCH fails with 500 and writes nothing exactly when the artist type's name or description fails the `String` cast; a saved artist type holds the casts of the texts sent |
| PlayerRoutes.PatchStoresAnyRole | routes/player.js:135-175 | a role sent as a string is stored trimmed, whatever it is, since `findOneAndUpdate` runs no validators; the stored player validates exactly when that role is one the schema lists |
| PlayerRoutes.PatchUpsertSetsRole | routes/player.js:135-175 | a saved upsert carries the role the update sets |
| PlayerRoutes.PatchConsent | routes/player.js:150-155 | consent stores the flag, stamped only when true, always marks the consent step, and marks the waitlist step only when true |
| PlayerRoutes.PatchTouchesOnlySentKeys | routes/player.js:132-168 | a PATCH never touches the session, rank, creator code, membership, invite gate, challenge or creation time; each profile field and the phone stay as they were unless sent |
| PlayerRoutes.PatchPhoneIsNormalised | routes/player.js:165-168 | the update sets a phone exactly when a non-empty string is sent, normalised, with `steps.phone` |
| PlayerRoutes.PatchedKeepsPhoneKey | routes/player.js:170-182 | an update without a phone leaves the unique-index key as it was |
| PlayerRoutes.PatchPhoneExists | routes/player.js:177-181 | 409 PHONE_EXISTS only when the update sets a number another player holds, and then nothing changes |
| PlayerRoutes.PatchSaves | routes/player.js:170-183 | a saved PATCH is stored under the session's player, or a new id when there is none, with the number the update sets; phone numbers stay unique |
| PlayerRoutes.PatchSpec | routes/player.js:117-188 | the reference outcome of the PATCH: every answer but a save (the missing session, a failed cast, a held phone) leaves the players and the next id as they were, and a save writes exactly the player it reports, never for an empty session id |
| JourneyRoutes.Init | routes/journey.js:14-38 | `/init` has the outcome `InitSpec` describes |
| JourneyRoutes.InitAs | routes/journey.js:20-33 | after the session check, `/init` on the trimmed name has the outcome `InitWith` describes |
| JourneyRoutes.InitCreates | routes/journey.js:21-27 | a new session gets a new player with the trimmed name, the name step done exactly when the name is non-empty, no other step, rank 0 |
| JourneyRoutes.InitNameOnlyWhileUnset | routes/journey.js:28-38 | an existing player's name changes only while its name step is undone and the new name is non-empty, and then only when its document validates (otherwise the answer is a 500 and nothing changes); nothing else changes; the answer reports the stored values |
| JourneyRoutes.InitIdempotent | routes/journey.js:14-38 | starting the same journey twice changes nothing the second time and names the same player |
| JourneyRoutes.AcceptedRolesAreSchemaRoles | routes/journey.js:51 | every accepted role is a non-empty value of the schema's enum |
| JourneyRoutes.RoleOf | routes/journey.js:49-54 | a role is taken exactly when, lower-cased and trimmed, it is an accepted one |
| JourneyRoutes.InviteCodeOf | routes/journey.js:107-109 | a stored invite code is at most four characters and has no lower-case letter |
| JourneyRoutes.HelperWorkOf | routes/journey.js:65 | helper work is stored exactly when an array is sent whose elements all pass the `String` cast, element for element as the cast, `null` staying `null` |
| JourneyRoutes.BuildUpdate | routes/journey.js:46-109 | the accumulation of `updates` and `steps` produces the update `UpdateOf` describes |
| JourneyRoutes.Profile | routes/journey.js:49-66 | the role, role-message, artist-type, location and helper keys produce their part of `UpdateOf` |
| JourneyRoutes.LevelTwoAnswers | routes/journey.js:67-71 | each answer after level two is stored trimmed and marks the `postLevel2Q` step |
| JourneyRoutes.Contact | routes/journey.js:92-109 | the phone, name and invite keys produce their part of `UpdateOf` |
| JourneyRoutes.Agreements | routes/journey.js:73-90 | the commitment, subscription and consent keys, in that order, produce their part of `UpdateOf` |
| JourneyRoutes.JourneyPatch | routes/journey.js:41-123 | `PATCH /:id` has the outcome `JourneyPatchSpec` describes, including the 500 of a value that fails its cast |
| JourneyRoutes.SaveUpdate | routes/journey.js:111-118 | the update applied to the loaded player and saved has the outcome `SaveApplied` describes |
| JourneyRoutes.RoleOnlyAccepted | routes/journey.js:49-54 | a role is stored only when accepted, with its step; otherwise role and step stay; the result validates exactly when an accepted role was sent or the player already validated |
| JourneyRoutes.CommitmentAgreed | routes/journey.js:73-79 | `commitmentAgreed` alone sets the commitment step, consent and the consent step to its value, and the waitlist step only when true |
| JourneyRoutes.ConsentAgreedWins | routes/journey.js:73-90 | `consentAgreed` always sets the consent step and its consent wins over a commitment sent with it; the waitlist step is set when either is true |
| JourneyRoutes.InviteCodeStored | routes/journey.js:107-109 | a sent invite code is stored upper-cased and at most four characters long |
| JourneyRoutes.PatchWritesOnlySentKeys | routes/journey.js:46-115 | only sent keys are written: session, rank, creator code, membership, invite gate, challenge, verification and creation time never change, and every unsent field keeps its value |
| JourneyRoutes.NameStep | routes/journey.js:97-100 | a sent name is stored trimmed and the name step records whether it is non-empty |
| JourneyRoutes.JourneyPatchFailures | routes/journey.js:44-121 | 400 exactly for a malformed id, 404 exactly for an unknown player; the save fails always on a value that fails its `String` cast or on a result that does not validate, and otherwise only on a sent phone another player holds; every failure changes nothing |
| JourneyRoutes.JourneyPatchSaves | routes/journey.js:111-118 | a successful save stores the updated player stamped at `now` and answers its steps |
| JourneyRoutes.JourneyHelperWorkCast | routes/journey.js:65-116 | a helper-work element that fails its cast fails the save with nothing written; a saved array holds, element for element, the `String` casts of what was sent, `null` staying `null` |
| JourneyRoutes.Read | routes/journey.js:126-138 | 400 exactly for a malformed id, 404 exactly for an unknown player; otherwise the stored player with its challenge hash removed |
| JourneyRoutes.JourneyPatchSpec | routes/journey.js:41-123 | the reference outcome of the journey PATCH: every answer but a save (including a failed cast) leaves the players as they were, and a save changes only the player named by a valid, existing id |
| JsValues.Get | routes/player.js:138-139 | reading a key of anything but an object, or a missing key, gives `undefined` |
| JsValues.Or | routes/otp.js:118 | `a \|\| b` is truthy exactly when either operand is |
| JsValues.ToStr | routes/otp.js:118 | `String(v)` of a string is the string, and a truthy non-array value prints non-empty |
| JsValues.TextOrEmpty | routes/spin.js:164 | `String(v \|\| '')` is the string itself, and '' for any falsy value |
| JsValues.StringToNumber | routes/spin.js:72 | `Number(s)` of a non-empty run of digits is its decimal value |
| JsValues.ToNumber | routes/spin.js:124 | `Number(v)` of a number is itself, of `null` 0, of `undefined` or an object NaN |
| JsValues.NumberOrZero | routes/spin.js:72 | `Number(v) \|\| 0`: the number, or 0 for NaN |
| JsValues.JsRem | public/js/community.js:21-24 | JavaScript's truncating `%`: the Euclidean remainder for a non-negative left side, its negation otherwise, strictly inside (-b, b) |
| JsValues.Truthy | routes/otp.js:118 | a value is falsy exactly when it is `undefined`, `null`, `false`, `0` or `''` |
| JsValues.CastString | models/Player.js:14-21 | mongoose's cast to a `String` path: `null` and `undefined` stay `null`, arrays and objects without a string `_id` fail, and every other value is stored as `String(v)` (an object as its `_id`) |
| Formats.DigitsOf | routes/pay.js:22 | only digits are kept, and a falsy value gives '' |
| Formats.NormalizePhone | routes/pay.js:23-28 | '' exactly for a falsy value; otherwise '+' followed only by digits |
| Formats.NormalizePhoneDigits | routes/pay.js:23-28 | the digits kept are exactly the digits of `String(s)`, with or without the leading '+' |
| Formats.TrimKeepsDigits | routes/pay.js:25 | trimming keeps every digit |
| Formats.NormalizePhoneIdempotent | routes/pay.js:23-28 | normalising a normalised number changes nothing |
| Formats.NormalizedPlusDigits | routes/pay.js:23-28 | '+' followed by digits is already normalised |
| Formats.Pad4 | routes/payments.js:21 | at least four digits reading back as `n`, and "0000" for a negative `n` |
| Formats.LeadingZeros | routes/payments.js:21 | zeros padded on the left do not change the decimal value |
| Formats.CreatorCode | routes/payments.js:42 | a creator code is '#' followed by `pad4(n)` |
| Text.Digits | routes/pay.js:22 | the digit characters of a string, in order |
| Text.DigitsOfDigits | routes/pay.js:22 | filtering the digits twice is filtering once |
| Text.Trim | routes/otp.js:14 | `trim` leaves no white space at either end and keeps a prefix of the text after its leading white space |
| Text.TrimTrimmed | routes/invites.js:12 | trimming twice is trimming once |
| Text.ToUpper | routes/spin.js:164 | `toUpperCase` upper-cases each ASCII letter in place, keeping every other character and the length |
| Text.NatToString | routes/pay.js:30 | `String(n)` is a non-empty run of digits with no leading zero |
| Text.DecimalRoundTrip | routes/pay.js:30 | printing a number in decimal and reading the digits back gives the number |
| Text.PadStart | routes/pay.js:30 | `padStart` reaches the width with the fill character on the left and keeps the string as its suffix |
| Text.ParseIntOfDigits | routes/levels.js:63 | `parseInt` reads a run of digits as its decimal value |
| Text.ParseIntOfNoDigits | routes/levels.js:64 | text without a digit is NaN to `parseInt` |
| Text.ParseIntOfIntToString | routes/player.js:17 | `parseInt(String(i))` gives `i` back, negative `i` included |
| Text.ReplaceLetterO | routes/invites.js:12 | every 'O' becomes '0' and nothing else changes |
| Text.TakeLast | routes/payments.js:87 | `slice(-k)` is the last `k` characters, or all of a shorter string |
| Text.TakeFirst | routes/payments.js:89 | `slice(0, k)` is the first `k` characters, or all of a shorter string |
| Text.ParseInt | routes/levels.js:65 | `parseInt(s, 10)` of a decimal numeral is its value; the lemmas below state the sign, NaN and round-trip cases |
| QuestionFlow.ToE164 | public/js/QuestionFlow.js:483-489 | null exactly when the dial and national digits together number fewer than 5 or more than 15; otherwise '+' and 5 to 15 digits |
| QuestionFlow.ToE164KeepsDigits | public/js/QuestionFlow.js:483-489 | the assembled number holds every typed digit in order, dial code first |
| QuestionFlow.ServerKeepsE164 | public/js/QuestionFlow.js:483-489 | the server's phone normalisation leaves a number assembled by the page unchanged |
| QuestionFlow.Assign | public/js/QuestionFlow.js:40 | `Object.assign`: the keys of both maps, the source winning on shared keys, every other target key kept |
| QuestionFlow.AssignCovering | public/js/QuestionFlow.js:38-43 | assigning a state that has every key of the saved one gives that state |
| QuestionFlow.FlowStorage.ReadState | public/js/QuestionFlow.js:34-37 | nothing saved reads as the empty object, otherwise the saved object |
| QuestionFlow.FlowStorage.WriteState | public/js/QuestionFlow.js:38-43 | the patch is assigned over the saved state; the result is both stored and returned |
| QuestionFlow.FlowStorage.MergeServerIntoLocal | public/js/QuestionFlow.js:190-208 | a falsy or non-object document changes nothing; otherwise the saved state becomes the merge of the document into it |
| QuestionFlow.FlowStorage.MergeProfileInto | public/js/QuestionFlow.js:195-196 | the name and role copy step computes the profile half of the merge |
| QuestionFlow.FlowStorage.MergeFlagsInto | public/js/QuestionFlow.js:199-205 | the flag steps compute the flag half of the merge |
| QuestionFlow.FlowStorage.MarkEarlySteps | public/js/QuestionFlow.js:200-202 | the name, role and post-level-2 steps raise their local flags |
| QuestionFlow.FlowStorage.MarkLaterSteps | public/js/QuestionFlow.js:203-205 | the location step and either phone flag raise their local flags |
| QuestionFlow.MergeCopiesOnlyMissing | public/js/QuestionFlow.js:195-196 | a local name or role is never replaced; a missing one is taken from a truthy server value |
| QuestionFlow.MergedKeepsKeys | public/js/QuestionFlow.js:190-208 | the merge drops no saved key |
| QuestionFlow.MergedFlagsKeep | public/js/QuestionFlow.js:199-205 | the flag steps touch no key besides the five progress flags |
| QuestionFlow.MergeOnlyRaises | public/js/QuestionFlow.js:199-205 | a truthy progress flag stays truthy, and a flag the merge writes becomes true: progress is never lost |
| QuestionFlow.EarlyFlagsRaise | public/js/QuestionFlow.js:200-202 | each of the first three steps keeps a flag or sets it true |
| QuestionFlow.LaterFlagsRaise | public/js/QuestionFlow.js:203-205 | each of the last three steps keeps a flag or sets it true |
| QuestionFlow.RaiseRaises | public/js/QuestionFlow.js:200 | one conditional flag step keeps a flag or sets it true |
| QuestionFlow.MergeMarksSteps | public/js/QuestionFlow.js:199-203 | a truthy server step `name`, `role`, `postLevel2Q` or `location` leaves the local gate `nameDone`, `roleDone`, `q3Done` or `q4Done` set to true |
| QuestionFlow.StepsOfField | public/js/QuestionFlow.js:199 | `(doc.steps \|\| {})[k]` is `doc.steps[k]` whenever that is truthy |
| QuestionFlow.EarlyFlagsMark | public/js/QuestionFlow.js:200-202 | the first three flag updates set `nameDone`, `roleDone` and `q3Done` from their steps |
| QuestionFlow.LaterFlagsMark | public/js/QuestionFlow.js:203-205 | the last three flag updates keep the first three gates and set `q4Done` from the location step |
| QuestionFlow.MergeMarksVerified | public/js/QuestionFlow.js:204-205 | either server phone flag opens the local phone gate |
| QuestionFlow.MaybeAutoRedirect | public/js/QuestionFlow.js:210-220 | a redirect exactly when the document is truthy and either phone flag is truthy; it always goes to the community page |
| QuestionFlow.RedirectRank | public/js/QuestionFlow.js:214-216 | the redirect carries `?rank=` exactly for a non-zero numeric join rank, and that text reads back as the rank |
| QuestionFlow.RankQueryReadsBack | public/js/QuestionFlow.js:215 | a number written after a query prefix is read back by `parseInt` as itself |
| QuestionFlow.AfterLevelComplete | public/js/QuestionFlow.js:823-832 | the role, role-specific and location questions come after levels 1, 2 and 3 exactly while their step is unfinished |
| QuestionFlow.Position | public/js/QuestionFlow.js:850-875 | each resume point is one of the five steps in order, or past them all |
| QuestionFlow.ResumeIsFirstUnfinished | public/js/QuestionFlow.js:850-875 | the flow resumes at the first unfinished step of name, role, q3, q4, phone: every earlier one is done, that one is not |
| QuestionFlow.ResumeAdvances | public/js/QuestionFlow.js:850-875 | finishing the step asked for moves the flow strictly forward, so it ends within five steps |
| QuestionFlow.ServerSeesSentOtp | public/js/QuestionFlow.js:561-562 | the trimmed code the page sends reaches `/verify` unchanged, and the page accepts it exactly when the server's format check does |
| QuestionFlow.CandidateOfText | routes/otp.js:117-118 | a body with a text `otp` gives the server its trimmed text |
| QuestionFlow.Merged | public/js/QuestionFlow.js:190-208 | the merge drops no saved key; `MergeCopiesOnlyMissing`, `MergeOnlyRaises` and `MergeMarksVerified` state what it copies and raises |
| QuestionFlow.RunOrResume | public/js/QuestionFlow.js:850-885 | the flow asks the name exactly when the name step is not done, and confirms and goes exactly when all five flags are set; `ResumeIsFirstUnfinished` states the order |
| QuestionFlow.OtpInputAccepted | public/js/QuestionFlow.js:561-562 | the OTP box is submitted exactly when its trimmed text is 4 to 8 digits |
| EpkPay.Pad | public/js/epk-pay.js:186 | '#' then at least four digits |
| EpkPay.PadIsCreatorCode | public/js/epk-pay.js:186 | the page's code text is the server's creator code for the same number, and reads back as that number |
| EpkPay.TierShown | public/js/epk-pay.js:187-190 | for a non-negative rank the founding badge shows exactly for ranks 1 to 100 |
| EpkPay.DealPrice | public/js/epk-pay.js:197-205 | the yearly price is one of 49, 99 and 199 |
| EpkPay.DealMatchesServerPrice | public/js/epk-pay.js:197-205 | the price shown is the price the server charges for the same join rank |
| EpkPay.TierIsFoundingDeal | public/js/epk-pay.js:187-205 | for a real rank the badge shows exactly when the 49 deal applies |
| EpkPay.SummaryOf | public/js/epk-pay.js:207-223 | the founding line exactly for ranks 1 to 100, the early line exactly for 101 to 3000 |
| EpkPay.SummaryAgreesWithDeal | public/js/epk-pay.js:207-223 | after a rank is applied the best-value line appears exactly with the founding line, the band's price is in the first line and the total is the deal price |
| EpkPay.FindCountry | public/js/epk-pay.js:292 | a country found has the dial code and is listed; none exactly when no listed country has it |
| EpkPay.ValidIndia | public/js/epk-pay.js:273 | an Indian number is valid exactly with ten digits starting 6 to 9 |
| EpkPay.ValidUnlisted | public/js/epk-pay.js:291-294 | an unlisted dial code accepts exactly six digits or more |
| EpkPay.ValidListedAssembles | public/js/epk-pay.js:287-294 | a number valid for a listed country always assembles into an E.164 number |
| EpkPay.ListedBounds | public/js/epk-pay.js:272-279 | every listed dial code is one to three digits and every listed pattern wants seven to ten digits |
| EpkPay.FormatE164DefaultIndia | public/js/epk-pay.js:513-520 | empty exactly when no digit was typed; otherwise '+' and digits |
| EpkPay.FormatKeepsDigits | public/js/epk-pay.js:513-520 | the typed digits are kept, behind '91' exactly when there were ten |
| EpkPay.ServerKeepsFormatted | public/js/epk-pay.js:513-520 | the server's phone normalisation leaves the formatted number unchanged |
| EpkPay.PayEnabled | public/js/epk-pay.js:461-466 | the pay button is on exactly when the box exists and is checked and a phone is known |
| EpkPay.SessionIdFor | public/js/epk-pay.js:227-237 | the id is never empty, and a session id in the query always wins; `SessionIdIsFirstPresent` states the whole order |
| EpkPay.SessionIdSticks | public/js/epk-pay.js:227-237 | once stored, the same id is chosen on the next load whatever new token would be drawn |
| EpkPay.PayPage.constructor | public/js/epk-pay.js:4-12 | a fresh page has no rank, price 199, no phone, no session id and the button off |
| EpkPay.PayPage.SetDeal | public/js/epk-pay.js:197-205 | the price follows the rank and the summary is redrawn from it; nothing else changes |
| EpkPay.PayPage.ApplyRank | public/js/epk-pay.js:341-349 | the code text, rank, badge, price and summary all follow the one rank; nothing else changes |
| EpkPay.PayPage.SyncPayButtonState | public/js/epk-pay.js:461-466 | the button state becomes the enabling rule on the current phone; nothing else changes |
| EpkPay.PayPage.EnsureSessionId | public/js/epk-pay.js:227-237 | the chosen id is stored under the session key and kept in the page state |
| EpkPay.ValidNational | public/js/epk-pay.js:291-294 | an accepted national number has at least six digits, whatever the dial code |
| EpkPay.FirstPresent | public/js/epk-pay.js:228-232 | the first non-empty id of a list, with every earlier one empty; none exactly when all are empty |
| EpkPay.SessionIdIsFirstPresent | public/js/epk-pay.js:227-237 | the session id is the first non-empty of the query value and the four stored ids, in that order, and a new 'ds_' id exactly when all five are empty |
| CommunityPage.OrdinalSuffix | public/js/community.js:21-24 | the suffix is always one of th, st, nd, rd |
| CommunityPage.TableSuffix | public/js/community.js:23 | the table lookup on the last two digits yields one of the four suffixes |
| CommunityPage.Ordinal | public/js/community.js:21-24 | the number's text followed by a non-empty suffix |
| CommunityPage.LastDigitOfLastTwo | public/js/community.js:22 | the last digit of the last two digits is the last digit |
| CommunityPage.TableSuffixIsEnglish | public/js/community.js:22-23 | on the last two digits the lookup with truncating remainders is the English rule: 11th to 13th, else st, nd, rd by last digit |
| CommunityPage.OrdinalSuffixIsEnglish | public/js/community.js:21-24 | the suffix follows the English rule for every non-negative rank |
| CommunityPage.PositiveOrdinal | public/js/community.js:21-24 | a positive rank reads as its decimal digits and its English suffix |
| CommunityPage.SetRank | public/js/community.js:25-29 | the placeholders exactly for a missing or zero rank; a positive rank shows its English ordinal in both places |
| CommunityPage.OrdinalStart | public/js/community.js:25-29 | an ordinal starts with a digit or '-', so it is never mistaken for a placeholder |
| CommunityPage.ResolveRank | public/js/community.js:31-60 | an all-digit query wins; then a numeric join rank from the session answer; then a numeric member total; otherwise none |
| CommunityPage.SessionAnswer | routes/player.js:82-95 | the session answer is ok exactly when the server started a session |
| CommunityPage.CountAnswer | routes/community.js:7-14 | the count answer is ok and carries the verified count as `total` |
| CommunityPage.RankFromRedirect | public/js/community.js:33-34 | a positive rank from the questionnaire's redirect is read back unchanged; a negative one falls through to the session and count |
| CommunityPage.StoredSessionStarts | routes/player.js:82-95 | the server starts a session for any non-empty stored session id |
| CommunityPage.RankFromSession | public/js/community.js:36-49 | without a usable query, a started session yields its player's join rank |
| CommunityPage.RankFromCount | public/js/community.js:51-57 | without a usable query or session, the rank shown is the verified member count |
| CommunityPage.SubmittedCodeIsServerCode | public/js/community.js:184-186 | the page's normalised code is the one the server, normalising again, looks up |
| CommunityPage.SubmittedCodeIsPresent | public/js/community.js:188-191 | a code of the accepted shape is never called missing by the server |
| CommunityPage.Prefill | public/js/community.js:177 | the pre-filled code is the first four characters of the link's code (all of it when shorter), each upper-cased, so it has no lower-case letter |
| CommunityPage.CheckInviteCode | public/js/community.js:211-231 | ok check means valid; 409 or any status but 404 means invalid; after a 404 or a failed request the dry-run claim decides and needs ok, `ok` and `dryRun` |
| CommunityPage.CheckAnswer | routes/invites.js:23-40 | the check answer is ok exactly for a usable code and is a 404 exactly for an unknown one |
| CommunityPage.ClaimAnswer | routes/invites.js:48-105 | the claim answer is ok exactly for a claim, and carries `ok` and `dryRun` exactly for a dry-run claim |
| CommunityPage.PageCheckAgreesWithServer | public/js/community.js:211-231 | against this server the page calls a code valid exactly when its normalised form exists unused |
| CommunityPage.LegacyServerAgrees | public/js/community.js:222-228 | when the check route is missing the dry-run claim alone gives the same verdict |
| CommunityPage.EpkPayUrl | public/js/community.js:275-276 | the payment page, with `?rank=` and the rank exactly when a rank is known |
| CommunityPage.RouteFor | public/js/community.js:251-264 | only the role artist, in any case, meets the invite gate; a stored well-formed code sends it straight to payment; every other role gets WhatsApp |
| CommunityPage.SubmitSpec | public/js/community.js:188-200 | a badly shaped code is refused; the code is accepted exactly when the server check passes, and then stored as pending with the payment page next; a refused code stores nothing |
| CommunityPage.StorePending | public/js/community.js:273-274 | the code is stored with the claimed flag '0'; every other stored key is kept |
| CommunityPage.AcceptedCodeSkipsNextTime | public/js/community.js:256-264 | after a code is accepted, an artist's next visit goes straight to payment |
| CommunityPage.PageStorage.constructor | public/js/community.js:257 | the page starts from the stored items |
| CommunityPage.PageStorage.Submit | public/js/community.js:270-280 | the outcome and the new stored items are those of the submit specification |
| CommunityPage.CodeShape | public/js/community.js:191 | a code of the accepted shape has four characters and no lower-case letter |
| CompletePage.SegmentsTotal | public/js/complete.js:16-25 | the wheel's weights add up to 100 |
| CompletePage.PrefixStep | public/js/complete.js:76-79 | each segment owns an interval of cumulative weight as long as its weight |
| CompletePage.PrefixMonotone | public/js/complete.js:76-79 | the cumulative weights never decrease and end at the total |
| CompletePage.FallbackIndex | public/js/complete.js:80 | the first segment of positive weight, or the first segment when there is none |
| CompletePage.PickWeighted | public/js/complete.js:74-81 | a draw below the total picks the segment whose cumulative interval contains it; any other draw the fallback |
| CompletePage.PickedHasWeight | public/js/complete.js:74-81 | a segment picked for a draw below the total has positive weight |
| CompletePage.RefundNeverPicked | public/js/complete.js:15-24 | on this wheel the refund is never picked, by a draw or the fallback |
| CompletePage.Referrals | public/js/complete.js:119-122 | three codes for `ref3`, two for `ref2`, one for `ref1`, and none exactly for the refund and no-gift segments |
| CompletePage.ShowResult | public/js/complete.js:117-139 | the refund screen exactly for the refund, no gift exactly for the no-gift segment, otherwise 1 to 3 referrals as won |
| CompletePage.SpinButton.constructor | public/js/complete.js:84 | the button starts unspun with its caption |
| CompletePage.SpinButton.Click | public/js/complete.js:85-89 | the first click marks it spun, shows the spinning caption and picks a non-refund segment by the draw; every later click does nothing |

## Left out

- PayRoutes.MarkPaid: saves the corrected `PaidRecord`, which records the number assigned by `/verify`; routes/pay.js:239-242 saves the order with `reservedCodeNumber` unchanged (`PaidAsWritten`, see Findings).
- PayRoutes.Settle: its `SettleSpec` outcome stores the corrected `PaidRecord` rather than the order as routes/pay.js:239-242 writes it (see Findings).
- PayRoutes.PayVerifyFor: behaves as `PayVerifySpec`, which settles through the corrected `PaidRecord` (see Findings); `PayVerifyReplayAsWritten` states what the code as written answers afterwards.
- PayRoutes.PayVerify: as `PayRoutes.PayVerifyFor`, the stored order is the corrected `PaidRecord` (see Findings).
- PayRoutes.PayVerifySettles: the `SettleSpec` it reaches stores the corrected `PaidRecord` (see Findings).
- PayRoutes.PayVerifyReplay: holds for the corrected record; as written, the replayed code is the reserved number's, which differs after a fallback (`PayVerifyReplayAsWritten`, `ReplayAfterFallbackAsWritten`).
- MongoDB itself: each collection is a class holding a map or a sequence, and each handler runs as one atomic step. Races between concurrent requests are not modelled. These include two orders reserving at once, which the duplicate-key retry in `reserveCreatorNumber` (routes/pay.js:66-70) guards against. Under one-at-a-time execution that retry can never fire, so it is not modelled.
- `PaymentOrder.create` in routes/pay.js:161-169 does not set the schema's required `orderId`. The model keys each order by the gateway order id, which is what the later lookups by `rzp.orderId` rely on. Mongoose's required-field and strict-mode validation is not modelled.
- Crypto, the payment gateway and the SMS provider are parameters. SHA-256 is a function `hash`, the HMAC signature a function `sign`, and Razorpay's order reply and Twilio's send result are given outcomes. Key configuration and the gateway's HTTP payload (`notes`, receipt metadata) are left out.
- Randomness and clocks are parameters. These cover the OTP draw, the spin draws, the session token parts and the `now` of every handler. The wheel's `Math.random() * totalWeight` is a non-negative real `r0`.
- The one-minute `setInterval` that releases expired holds (routes/pay.js:279-281) is not modelled as a timer; like the rest of routes/pay.js it is never started, because nothing requires that file. The release itself is a method, `CreatorNumberModel.CreatorNumbers.ReleaseExpiredHolds`, which can be called at any `now`.
- Numbers in JSON bodies and queries are integers. Fractional numbers, `NaN` arithmetic, `toFixed`, the monthly price and the percentile bar are left out. Level grid cells are integers.
- Object ids are natural numbers, and a malformed id is a separate case. `mongoose.isValidObjectId` and the hexadecimal form of an id are not modelled. Where the id's text is used (the session token in routes/payments.js), the text is its decimal form.
- Case mapping and trimming follow ECMAScript only for ASCII letters and the white-space set. There is no Unicode case folding or normalisation.
- JSON serialisation details are left out, for example `JSON.stringify` dropping `undefined` members.
- The 500 replies of the `catch` blocks are modelled for the failures the model has: a value that fails mongoose's `String` cast in either PATCH (`PlayerRoutes.PatchCastFailed`, `JourneyRoutes.SaveFailed`), the journey save hitting the unique phone index (`JourneyRoutes.SaveFailed`), and a `save()` of a player whose role is outside the schema's list (see below). Database and network failures, and the logging, are left out.
- The claim route's `Player.updateOne` for `steps.inviteVerified` has its errors swallowed in the source. The model applies the update whenever the player exists.
- PlayerModel.PhoneKey, PlayerModel.Players.Save, PlayerModel.Players.Update, PlayerModel.Players.Insert, JourneyRoutes.SaveFailed, PlayerRoutes.PatchPhoneExists, OtpRoutes.SendPhoneExists: assume the partial unique index on `phone.number` (models/Player.js:103-106) is enforced. Its `partialFilterExpression` uses `$ne`, which MongoDB does not accept in a partial filter, so in a real deployment the index is likely never built and a duplicate phone would be saved rather than refused.
- The enum on `role` (models/Player.js:7-11) is the one validator a stored player can fail; the other schema fields are datatypes in the model. The player PATCH (routes/player.js:135, 170-175) writes through `findOneAndUpdate`, which runs no validators, so an unlisted role is stored (`PlayerRoutes.PatchStoresAnyRole`). `doc.save()` validates every path the document was loaded with, so each later save of that player fails and its handler answers 500: `OtpRoutes.SendServerError`, `OtpRoutes.VerifyServerError`, `JourneyRoutes.InitFailed`, `JourneyRoutes.SaveFailed`, `PlayerRoutes.AssignFailed`, `PaymentsRoutes.ActivationFailed` and `PayRoutes.SettleFailed`. The writes a handler made before its save stay: the join rank or creator code drawn, the paid order, the number made final and the invite consumed. Validators of the other schemas are not modelled.
- `ensureCreatorCode` in routes/payments.js:32-33 returns early without a player id. Its one caller, routes/payments.js:226, passes the id of a player it has already found, so that branch is unreachable and not modelled.
- SpinRoutes.SpinInvite, SpinRoutes.IssueCode, SpinRoutes.MultiClaim, InviteCodeModel.UsesOf, InviteCodeModel.MaxUsesOf, InviteCodeModel.InviteCodes.IncrementUses, InviteCodeModel.InviteCodes.UseOnce: store and read `maxUses`, `uses`, `active`, `source` and `createdBy` as the spin handlers write them (routes/spin.js:82-90, 175-182). models/InviteCode.js:4-26 declares none of them, so mongoose's default strict mode drops them on create and on `$inc`; what the database then holds, and which filters still match, depends on the mongoose version's strict-query setting and is not modelled.
- SpinRoutes.MultiClaim: takes the already normalised code text. `SpinRoutes.SpinCodeText` models the route's `trim` and `toUpperCase`.
- EpkPay.TierShown: the contract only speaks of non-negative ranks. For a negative rank the source's `rank && rank<=100` also shows the badge, and the model computes that too.
- LevelRoutes.Levels.Post: requires `now` to be no earlier than the newest level's creation time, so that the store's order is creation order. The source sorts by `createdAt` when it reads (routes/levels.js:25-26) and does not depend on the clock; levels created while the clock goes back are not modelled.
- LevelRoutes.CastNumber: reads strings as integers only. Hexadecimal, fractional, exponent and `Infinity` strings, which `Number` accepts, are cast errors here.
- The browser pages' DOM, `fetch` and timer wiring is left out. Server answers are parameters of the page functions, and the payment page's WhatsApp auto-open timer, the confetti and the wheel's drawing and easing are not modelled. `createReferralCodes` in public/js/complete.js:142-155 is a network call: only the number of codes requested (`CompletePage.Referrals`) is modelled.
- The rest of QuestionFlow.js (the overlay, its questions and the OTP network calls) and the game engine files are not part of this model.

## Findings

| source | as written | input that shows it | evidently intended | confidence | as-written member | corrected member |
|---|---|---|---|---|---|---|
| routes/pay.js:209-243 | (in a router nothing mounts, so latent) a replayed verification of a paid order reports `codeStr(ord.reservedCodeNumber)`, the number reserved when the order was made; when `/verify` had to fall back to a fresh number, that number is never written back to the order | order_A reserves number 1, its hold expires and order_B takes number 1, then order_A's payment is verified and gets number 2; replaying that verification reports "#0001" while the player holds "#0002" | the paid order records the number actually assigned, so a replay reports the player's code | not executed | PayRoutes.ReplayAfterFallbackAsWritten | PayRoutes.ReplayReportsAssignedCode |

=== FILE: community.dfy ===
/**
 * routes/community.js: the count of verified members and a player's own
 * rank and verification. Both only read the player collection.
 */
module CommunityRoutes {
  import opened Wrappers
  import opened JsValues
  import opened PlayerModel

  /** The ids of players whose phone is verified. */
  function VerifiedIds(docs: map<nat, Player>): (r: set<nat>)
    ensures forall id :: id in r <==> id in docs && docs[id].phone.verified
  {
    set id | id in docs && docs[id].phone.verified
  }

  /** `GET /count`: `countDocuments({ 'phone.verified': true })`. */
  function Count(docs: map<nat, Player>): (r: nat)
    ensures r <= |docs|
  {
    var v := VerifiedIds(docs);
    assert v <= docs.Keys;
    SubsetSize(v, docs.Keys);
    |v|
  }

  lemma SubsetSize(a: set<nat>, b: set<nat>)
    requires a <= b
    ensures |a| <= |b|
  {
    assert b == a + (b - a);
  }

  /**
   * Verifying one more player's phone raises the count by exactly one;
   * writing a player whose verification does not change keeps the count.
   */
  lemma CountAfterVerify(docs: map<nat, Player>, id: nat, q: Player)
    requires id in docs
    ensures q.phone.verified && !docs[id].phone.verified ==> Count(docs[id := q]) == Count(docs) + 1
    ensures q.phone.verified == docs[id].phone.verified ==> Count(docs[id := q]) == Count(docs)
  {
    var before := VerifiedIds(docs);
    var after := VerifiedIds(docs[id := q]);
    if q.phone.verified && !docs[id].phone.verified {
      assert after == before + {id};
    }
    if q.phone.verified == docs[id].phone.verified {
      assert after == before;
    }
  }

  /** A new player starts unverified, so creating one leaves the count as it was. */
  lemma CountAfterCreate(docs: map<nat, Player>, id: nat, sid: Option<string>, now: int)
    requires id !in docs
    ensures Count(docs[id := NewPlayer(sid, now)]) == Count(docs)
  {
    assert VerifiedIds(docs[id := NewPlayer(sid, now)]) == VerifiedIds(docs);
  }

  datatype MeReply = InvalidId | NotFound | Me(joinOrder: int, verified: bool)

  /**
   * `GET /me/:id`: a malformed id is refused and an unknown player is not
   * found; otherwise the join rank (0 when unset) and whether the phone is
   * verified.
   */
  function MeOf(docs: map<nat, Player>, arg: IdArg): (r: MeReply)
    ensures r == InvalidId <==> !arg.Valid?
    ensures r == NotFound <==> arg.Valid? && arg.id !in docs
    ensures r.Me? ==> r.joinOrder == docs[arg.id].joinOrder && (r.verified <==> arg.id in VerifiedIds(docs))
  {
    if !arg.Valid? then InvalidId
    else if arg.id !in docs then NotFound
    else
      // `joinOrder || 0` is the stored rank itself: its default is 0 and it is never NaN
      Me(docs[arg.id].joinOrder, docs[arg.id].phone.verified)
  }
}

=== FILE: community_page.dfy ===
/**
 * public/js/community.js: the community page. It resolves the visitor's rank
 * (query, then session, then member count), shows it as an English ordinal,
 * and sends artists through an invite gate that checks a code with the
 * server without consuming it and keeps it in local storage.
 *
 * Network answers are parameters: an `Answer` is either a request that threw
 * or a response with a status and a parsed body.
 */
module CommunityPage {
  import opened Wrappers
  import opened Text
  import opened JsValues
  import opened InviteCodeModel
  import opened InvitesRoutes
  import opened PlayerModel
  import opened PlayerRoutes
  import CommunityRoutes

  /* ---------------- Rank as an ordinal ---------------- */

  const SUFFIXES: seq<string> := ["th", "st", "nd", "rd"]

  /**
   * `s[(v - 20) % 10] || s[v] || s[0]` with `v = n % 100`, both remainders
   * truncating: an index outside the table reads `undefined`, which is falsy.
   */
  function OrdinalSuffix(n: int): (r: string)
    ensures r in SUFFIXES
  {
    TableSuffix(JsRem(n, 100))
  }

  function TableSuffix(v: int): (r: string)
    ensures r in SUFFIXES
  {
    var a := JsRem(v - 20, 10);
    if 0 <= a < 4 then SUFFIXES[a]
    else if 0 <= v < 4 then SUFFIXES[v]
    else SUFFIXES[0]
  }

  /** `ordinal(n)`: the number followed by its suffix. */
  function Ordinal(n: int): (r: string)
    ensures |r| > |IntToString(n)| && r[..|IntToString(n)|] == IntToString(n)
  {
    IntToString(n) + OrdinalSuffix(n)
  }

  /** The English rule: 11th to 13th, otherwise st, nd, rd for a last digit 1, 2, 3. */
  function EnglishSuffix(n: nat): string {
    if 11 <= n % 100 <= 13 then "th"
    else if n % 10 == 1 then "st"
    else if n % 10 == 2 then "nd"
    else if n % 10 == 3 then "rd"
    else "th"
  }

  lemma LastDigitOfLastTwo(n: nat)
    ensures (n % 100) % 10 == n % 10
  {
    assert n == 100 * (n / 100) + n % 100;
    assert n % 100 == 10 * ((n % 100) / 10) + (n % 100) % 10;
    assert n == 10 * (10 * (n / 100) + (n % 100) / 10) + (n % 100) % 10;
  }

  /** On the last two digits `v`, the table lookup is the English rule. */
  lemma TableSuffixIsEnglish(v: nat)
    requires v < 100
    ensures TableSuffix(v) == EnglishSuffix(v)
  {
    if v < 20 {
      if v == 0 || v == 10 {
        assert JsRem(v - 20, 10) == 0;
      } else {
        assert JsRem(v - 20, 10) < 0;
      }
    } else {
      assert JsRem(v - 20, 10) == v % 10;
    }
  }

  /** The table lookup with truncating remainders follows the English rule for every rank. */
  lemma OrdinalSuffixIsEnglish(n: nat)
    ensures OrdinalSuffix(n) == EnglishSuffix(n)
  {
    var v := n % 100;
    LastDigitOfLastTwo(n);
    TableSuffixIsEnglish(v);
    assert EnglishSuffix(v) == EnglishSuffix(n);
  }

  /** A positive rank reads as its decimal digits and its English suffix. */
  lemma PositiveOrdinal(n: int)
    ensures n > 0 ==> Ordinal(n) == NatToString(n) + EnglishSuffix(n)
  {
    if n > 0 {
      OrdinalSuffixIsEnglish(n);
    }
  }

  /** What `setRank(n)` writes to the rank element and to the inline rank. */
  datatype RankTexts = RankTexts(main: string, inline: string)

  const NO_RANK: string := "\U{2014}"
  const INLINE_PLACEHOLDER: string := "[Xth]"

  /** `setRank(n)`: a missing or zero rank shows placeholders, any other its ordinal. */
  function SetRank(n: Option<int>): (r: RankTexts)
    ensures r.main == NO_RANK <==> n.None? || n.value == 0
    ensures r.inline == INLINE_PLACEHOLDER <==> n.None? || n.value == 0
    ensures n.Some? && n.value > 0 ==> r.main == r.inline == NatToString(n.value) + EnglishSuffix(n.value)
  {
    if n.Some? && n.value != 0 then
      var t := Ordinal(n.value);
      OrdinalStart(n.value);
      PositiveOrdinal(n.value);
      RankTexts(t, t)
    else RankTexts(NO_RANK, INLINE_PLACEHOLDER)
  }

  /** An ordinal starts with a digit or a minus sign, so it is neither placeholder. */
  lemma OrdinalStart(n: int)
    ensures var t := Ordinal(n); IsDigit(t[0]) || t[0] == '-'
    ensures Ordinal(n) != NO_RANK && Ordinal(n) != INLINE_PLACEHOLDER
  {
    var s := IntToString(n);
    assert Ordinal(n)[0] == s[0];
    if n < 0 {
      assert s[0] == '-';
    } else {
      assert IsDigit(s[0]);
    }
  }

  /* ---------------- Resolving the rank ---------------- */

  /** An HTTP exchange as the page sees it: the request threw, or a response arrived. */
  datatype Answer = Threw | Responded(status: int, body: JsValue)

  /** `r.ok`: a 2xx status. */
  predicate OkAnswer(a: Answer) {
    a.Responded? && 200 <= a.status <= 299
  }

  /** `fromQuery && /^\d+$/.test(fromQuery)`. */
  predicate RankQueryOk(q: Option<string>) {
    q.Some? && q.value != "" && AllDigits(q.value)
  }

  /** `j && typeof j[key] === 'number'` on the body of an ok answer. */
  predicate NumberField(a: Answer, key: string) {
    OkAnswer(a) && Truthy(a.body) && Get(a.body, key).Num?
  }

  /**
   * `resolveRank()`: the `rank` query when it is all digits; otherwise, with a
   * stored session id, the `joinOrder` the session answer carries; otherwise
   * the `total` of the member count; otherwise null. `sid` is "" when nothing
   * is stored.
   */
  function ResolveRank(query: Option<string>, sid: string, session: Answer, count: Answer): (r: Option<int>)
    ensures RankQueryOk(query) ==> r == Some(DecimalValue(query.value))
    ensures !RankQueryOk(query) && sid != "" && NumberField(session, "joinOrder") ==>
      r == Some(Get(session.body, "joinOrder").n)
    ensures !RankQueryOk(query) && !(sid != "" && NumberField(session, "joinOrder")) ==>
      r == (if NumberField(count, "total") then Some(Get(count.body, "total").n) else None)
    ensures r.None? ==> !RankQueryOk(query) && !NumberField(count, "total")
  {
    if RankQueryOk(query) then Some(DecimalValue(query.value))
    else if sid != "" && NumberField(session, "joinOrder") then Some(Get(session.body, "joinOrder").n)
    else if NumberField(count, "total") then Some(Get(count.body, "total").n)
    else None
  }

  /** `res.json(...)` of a `/api/player/session` reply: 400 without a session id. */
  function SessionAnswer(reply: SessionReply): (a: Answer)
    ensures OkAnswer(a) <==> reply.SessionStarted?
  {
    match reply
    case SessionRequired => Responded(400, Obj(map["error" := Str("sessionId is required")]))
    case SessionStarted(s, id, j) =>
      Responded(200, Obj(map["ok" := Bool(true), "sessionId" := Str(s),
                             "playerId" := Str(NatToString(id)), "joinOrder" := Num(j)]))
  }

  /** `res.json({ total })` of `/api/community/count`. */
  function CountAnswer(docs: map<nat, Player>): (a: Answer)
    ensures OkAnswer(a) && Get(a.body, "total") == Num(CommunityRoutes.Count(docs))
  {
    Responded(200, Obj(map["total" := Num(CommunityRoutes.Count(docs))]))
  }

  /**
   * The rank the questionnaire puts into the redirect, `?rank=<joinOrder>`, is
   * read back unchanged when positive; a negative one is not all digits and
   * the page falls through to the session and the count.
   */
  lemma RankFromRedirect(k: int, sid: string, session: Answer, count: Answer)
    ensures k > 0 ==> ResolveRank(Some(IntToString(k)), sid, session, count) == Some(k)
    ensures k < 0 ==> ResolveRank(Some(IntToString(k)), sid, session, count) == ResolveRank(None, sid, session, count)
  {
    if k >= 0 {
      DecimalRoundTrip(k);
    } else {
      assert IntToString(k)[0] == '-';
    }
  }

  /** The server starts a session for any non-empty stored session id. */
  lemma StoredSessionStarts(docs: map<nat, Player>, nextId: nat, sid: string, now: int)
    requires sid != ""
    ensures SessionSpec(docs, nextId, Str(sid), now).reply.SessionStarted?
  {
  }

  /**
   * Without a usable query, a stored session id the server answers for
   * yields the join order of that session's player.
   */
  lemma RankFromSession(reply: SessionReply, query: Option<string>, sid: string, count: Answer)
    requires !RankQueryOk(query) && sid != "" && reply.SessionStarted?
    ensures ResolveRank(query, sid, SessionAnswer(reply), count) == Some(reply.joinOrder)
  {
  }

  /** Without a usable query or session, the rank shown is the number of verified members. */
  lemma RankFromCount(docs: map<nat, Player>, query: Option<string>, sid: string, session: Answer)
    requires !RankQueryOk(query) && (sid == "" || !OkAnswer(session))
    ensures ResolveRank(query, sid, session, CountAnswer(docs)) == Some(CommunityRoutes.Count(docs))
  {
  }

  /* ---------------- Invite gate ---------------- */

  /** `/^[A-Z0-9]{4}$/`. */
  function CodeShape(s: string): (r: bool)
    ensures r ==> |s| == 4 && NoLower(s)
  {
    |s| == 4 && forall i :: 0 <= i < 4 ==> 'A' <= s[i] <= 'Z' || IsDigit(s[i])
  }

  /**
   * The code the page submits is one the server, normalising it again, looks
   * up unchanged: the page's `normalize` is the server's, and it is idempotent.
   */
  lemma SubmittedCodeIsServerCode(input: string)
    ensures NormalizeCode(Str(NormalizeText(input))) == NormalizeText(input)
  {
    NormalizeTextIdempotent(input);
  }

  /** A submitted code has four characters, so the server never calls it missing. */
  lemma SubmittedCodeIsPresent(input: string)
    requires CodeShape(NormalizeText(input))
    ensures !BadCodeArg(Str(NormalizeText(input)))
  {
  }

  /** The pre-filled input: `(code || '').toUpperCase().slice(0, 4)`, then `.slice(0, 4).toUpperCase()`. */
  function Prefill(linkCode: string): (r: string)
    ensures |r| <= 4 && NoLower(r)
    ensures |r| == if |linkCode| < 4 then |linkCode| else 4
    ensures forall i :: 0 <= i < |r| ==> r[i] == UpperChar(linkCode[i])
  {
    var fromLink := TakeFirst(ToUpper(linkCode), 4);
    UpperHasNoLower(TakeFirst(fromLink, 4));
    var r := ToUpper(TakeFirst(fromLink, 4));
    assert forall i :: 0 <= i < |r| ==> r[i] == UpperChar(fromLink[i]) && fromLink[i] == UpperChar(linkCode[i]);
    r
  }

  /**
   * `checkInviteCode(code)`: an ok check is true; a 409 or any other
   * status but 404 is false; after a 404 or a request that threw, the dry-run
   * claim decides, and must be ok with both `ok` and `dryRun` truthy (an
   * unparsable body reads as `{}`).
   */
  function CheckInviteCode(check: Answer, claim: Answer): (r: bool)
    ensures OkAnswer(check) ==> r
    ensures check.Responded? && !OkAnswer(check) && check.status != 404 ==> !r
    ensures check.Threw? || check.status == 404 ==>
      (r <==> OkAnswer(claim) && Truthy(Get(claim.body, "ok")) && Truthy(Get(claim.body, "dryRun")))
  {
    if OkAnswer(check) then true
    else if check.Responded? && check.status == 409 then false
    else if check.Responded? && check.status != 404 then false
    else OkAnswer(claim) && Truthy(Get(claim.body, "ok")) && Truthy(Get(claim.body, "dryRun"))
  }

  function Failure(status: int, error: string): Answer {
    Responded(status, Obj(map["ok" := Bool(false), "error" := Str(error)]))
  }

  /** The response `POST /api/invites/check` sends for each outcome. */
  function CheckAnswer(c: CheckReply): (a: Answer)
    ensures OkAnswer(a) <==> c == CodeOk
    ensures a.Responded? && (a.status == 404 <==> c.NotFound?)
  {
    match c
    case InvalidCode => Failure(400, "INVALID_CODE")
    case NotFound => Failure(404, "INVITE_NOT_FOUND")
    case AlreadyUsed => Failure(409, "INVITE_USED")
    case CodeOk => Responded(200, Obj(map["ok" := Bool(true)]))
  }

  /** The response `POST /api/invites/claim` sends for each outcome. */
  function ClaimAnswer(c: ClaimReply): (a: Answer)
    ensures a.Responded? && (OkAnswer(a) <==> c.Claimed?)
    ensures Truthy(Get(a.body, "ok")) && Truthy(Get(a.body, "dryRun")) <==> c == Claimed(true)
  {
    match c
    case ClaimInvalid => Failure(400, "INVALID_CODE")
    case ClaimNotFound => Failure(404, "INVITE_NOT_FOUND")
    case ClaimUsed => Failure(409, "INVITE_USED")
    case Claimed(dry) =>
      if dry then Responded(200, Obj(map["ok" := Bool(true), "dryRun" := Bool(true)]))
      else Responded(200, Obj(map["ok" := Bool(true)]))
  }

  /**
   * Against this server the page's verdict is exactly "the normalised code
   * exists and is unused", and nothing is consumed on the way: a 404 from the
   * check falls back to a dry run, which answers the same.
   */
  lemma PageCheckAgreesWithServer(codes: map<string, Invite>, code: string)
    requires code != ""
    ensures var c := Check(codes, Str(code));
      CheckInviteCode(CheckAnswer(c), ClaimAnswer(AsDryRun(c))) <==>
        NormalizeText(code) in codes && !codes[NormalizeText(code)].used
  {
    var c := Check(codes, Str(code));
    assert !BadCodeArg(Str(code));
    if c == CodeOk {
      assert OkAnswer(CheckAnswer(c));
    } else {
      assert !OkAnswer(CheckAnswer(c));
      assert AsDryRun(c) != Claimed(true);
    }
  }

  /**
   * A server without the check route (its request throws or is a 404) is
   * still asked correctly: the dry-run claim alone decides.
   */
  lemma LegacyServerAgrees(codes: map<string, Invite>, code: string, check: Answer)
    requires code != ""
    requires check.Threw? || check.status == 404
    ensures CheckInviteCode(check, ClaimAnswer(AsDryRun(Check(codes, Str(code))))) <==>
      NormalizeText(code) in codes && !codes[NormalizeText(code)].used
  {
  }

  const INVITE_CODE_KEY: string := "INVITE_CODE"
  const INVITE_CLAIMED_KEY: string := "INVITE_CLAIMED"
  const EPK_PAY_PAGE: string := "/epk-pay.html"

  /** `localStorage.getItem(key)`, with "" for a missing key (both are falsy). */
  function Item(items: map<string, string>, key: string): string {
    if key in items then items[key] else ""
  }

  /** `existing && /^[A-Z0-9]{4}$/.test(existing)`: the stored code skips the prompt. */
  predicate SkipsPrompt(items: map<string, string>) {
    var existing := Item(items, INVITE_CODE_KEY);
    existing != "" && CodeShape(existing)
  }

  /** `'/epk-pay.html' + qs`, where `qs` carries a numeric rank. */
  function EpkPayUrl(rank: Option<int>): (r: string)
    ensures rank.None? ==> r == EPK_PAY_PAGE
    ensures rank.Some? ==> r == EPK_PAY_PAGE + "?rank=" + IntToString(rank.value)
  {
    EPK_PAY_PAGE + (if rank.Some? then "?rank=" + IntToString(rank.value) else "")
  }

  /** Where an artist goes: straight to payment, or to the invite prompt with its pre-fill. */
  datatype Route = Redirect(url: string) | AskInvite(prefill: string) | WhatsApp

  /**
   * The routing once the player's journey document is known: only the role
   * 'artist' (any case) meets the invite gate, which a stored well-formed
   * code skips.
   */
  function RouteFor(role: JsValue, items: map<string, string>, rank: Option<int>, linkCode: string): (r: Route)
    ensures r.WhatsApp? <==> !(role.Str? && ToLower(role.s) == "artist")
    ensures r.Redirect? <==> role.Str? && ToLower(role.s) == "artist" && SkipsPrompt(items)
    ensures r.Redirect? ==> r.url == EpkPayUrl(rank)
  {
    if !(role.Str? && ToLower(role.s) == "artist") then WhatsApp
    else if SkipsPrompt(items) then Redirect(EpkPayUrl(rank))
    else AskInvite(Prefill(linkCode))
  }

  /** What a press of Continue leads to. */
  datatype SubmitOutcome = BadShape | NotInvited | Accepted(url: string)

  /**
   * `submitCode` with its `onSubmit`: the normalised input must have the
   * shape; the server check decides; on success the code is stored as
   * pending and the page moves to payment.
   */
  function SubmitSpec(items: map<string, string>, input: string, check: Answer, claim: Answer, rank: Option<int>)
    : (r: (SubmitOutcome, map<string, string>))
    ensures r.0 == BadShape <==> !CodeShape(NormalizeText(input))
    ensures r.0.Accepted? <==> CodeShape(NormalizeText(input)) && CheckInviteCode(check, claim)
    ensures r.0.Accepted? ==>
      && r.0.url == EpkPayUrl(rank)
      && Item(r.1, INVITE_CODE_KEY) == NormalizeText(input) && Item(r.1, INVITE_CLAIMED_KEY) == "0"
      && SkipsPrompt(r.1)
    ensures !r.0.Accepted? ==> r.1 == items
    ensures forall key :: key != INVITE_CODE_KEY && key != INVITE_CLAIMED_KEY ==> Item(r.1, key) == Item(items, key)
  {
    var code := NormalizeText(input);
    if !CodeShape(code) then (BadShape, items)
    else if !CheckInviteCode(check, claim) then (NotInvited, items)
    else (Accepted(EpkPayUrl(rank)), StorePending(items, code))
  }

  /** `localStorage.setItem('INVITE_CODE', code)` then `setItem('INVITE_CLAIMED', '0')`. */
  function StorePending(items: map<string, string>, code: string): (r: map<string, string>)
    ensures Item(r, INVITE_CODE_KEY) == code && Item(r, INVITE_CLAIMED_KEY) == "0"
    ensures forall key :: key != INVITE_CODE_KEY && key != INVITE_CLAIMED_KEY ==> Item(r, key) == Item(items, key)
  {
    items[INVITE_CODE_KEY := code][INVITE_CLAIMED_KEY := "0"]
  }

  /** Once a code is accepted, the next visit to the page goes straight to payment. */
  lemma AcceptedCodeSkipsNextTime(items: map<string, string>, input: string, check: Answer, claim: Answer,
                                  rank: Option<int>, role: string, linkCode: string)
    requires ToLower(role) == "artist"
    ensures var out := SubmitSpec(items, input, check, claim, rank);
      out.0.Accepted? ==> RouteFor(Str(role), out.1, rank, linkCode) == Redirect(out.0.url)
  {
  }

  /** The page's local storage, as far as the invite gate uses it. */
  class PageStorage {
    var items: map<string, string>

    constructor(stored: map<string, string>)
      ensures items == stored
    {
      items := stored;
    }

    /** Pressing Continue with `input` typed, given the server's answers. */
    method Submit(input: string, check: Answer, claim: Answer, rank: Option<int>) returns (outcome: SubmitOutcome)
      modifies this
      ensures (outcome, items) == SubmitSpec(old(items), input, check, claim, rank)
    {
      var code := NormalizeText(input);
      if !CodeShape(code) {
        return BadShape;
      }
      var ok := CheckInviteCode(check, claim);
      if !ok {
        return NotInvited;
      }
      items := StorePending(items, code);
      outcome := Accepted(EpkPayUrl(rank));
    }
  }
}

=== FILE: complete_page.dfy ===
/**
 * public/js/complete.js: the reward wheel shown when the journey is complete.
 * A weighted draw picks one segment, the spin button works once, and the
 * segment decides how many referral codes the player wins.
 *
 * The random number `Math.random() * totalWeight` is a parameter `r0`, a
 * real in `[0, totalWeight)` in practice.
 */
module CompletePage {
  import opened Wrappers
  import opened Text

  datatype SegmentKind = Refund | Ref1 | NoGift | Ref2 | Ref3

  datatype Segment = Segment(caption: string, kind: SegmentKind, weight: nat)

  /** The wheel, in drawing order; the refund is drawn but has weight 0. */
  const SEGMENTS: seq<Segment> := [
    Segment("100% Refund", Refund, 0),
    Segment("1 Referral", Ref1, 10),
    Segment("No Gift", NoGift, 10),
    Segment("2 Referrals", Ref2, 20),
    Segment("3 Referrals", Ref3, 20),
    Segment("2 Referrals", Ref2, 20),
    Segment("3 Referrals", Ref3, 20)
  ]

  /** `segments.reduce((s, x) => s + x.weight, 0)`. */
  function TotalWeight(segs: seq<Segment>): nat {
    if segs == [] then 0 else TotalWeight(segs[..|segs| - 1]) + segs[|segs| - 1].weight
  }

  /** The cumulative weight of the first `i` segments. */
  function Prefix(segs: seq<Segment>, i: nat): nat
    requires i <= |segs|
  {
    TotalWeight(segs[..i])
  }

  /** The wheel's weights add up to 100. */
  lemma SegmentsTotal()
    ensures TotalWeight(SEGMENTS) == 100
  {
    var s := SEGMENTS;
    assert s[..0] == [];
    PrefixStep(s, 0);
    PrefixStep(s, 1);
    PrefixStep(s, 2);
    PrefixStep(s, 3);
    PrefixStep(s, 4);
    PrefixStep(s, 5);
    PrefixStep(s, 6);
    assert s[..7] == s;
  }

  /** Segment `i` owns the interval from `Prefix(i)` to `Prefix(i + 1)`, of length its weight. */
  lemma PrefixStep(segs: seq<Segment>, i: nat)
    requires i < |segs|
    ensures Prefix(segs, i + 1) == Prefix(segs, i) + segs[i].weight
  {
    assert segs[..i + 1][..i] == segs[..i];
  }

  /** The cumulative weights never decrease, and the whole prefix is the total. */
  lemma {:induction false} PrefixMonotone(segs: seq<Segment>, i: nat, j: nat)
    requires i <= j <= |segs|
    ensures Prefix(segs, i) <= Prefix(segs, j)
    ensures Prefix(segs, |segs|) == TotalWeight(segs)
    decreases j - i
  {
    assert segs[..|segs|] == segs;
    if i < j {
      PrefixStep(segs, j - 1);
      PrefixMonotone(segs, i, j - 1);
    }
  }

  /** `segments.find(s => s.weight > 0) || segments[0]`, as an index. */
  function FallbackIndex(segs: seq<Segment>): (i: nat)
    requires |segs| > 0
    ensures i < |segs|
    ensures segs[i].weight > 0 ==> forall j :: 0 <= j < i ==> segs[j].weight == 0
    ensures segs[i].weight == 0 ==> i == 0 && forall j :: 0 <= j < |segs| ==> segs[j].weight == 0
  {
    if segs[0].weight > 0 || |segs| == 1 then 0
    else
      var k := FallbackIndex(segs[1..]);
      if segs[1..][k].weight > 0 then k + 1 else 0
  }

  /**
   * `pickWeighted()`: walk the segments subtracting weights until `r` falls
   * below one. For `r0` below the total, the picked segment is the one whose
   * cumulative interval contains `r0`; otherwise the fallback is returned.
   */
  method PickWeighted(segs: seq<Segment>, r0: real) returns (i: nat)
    requires |segs| > 0 && 0.0 <= r0
    ensures i < |segs|
    ensures r0 < TotalWeight(segs) as real ==>
      Prefix(segs, i) as real <= r0 < Prefix(segs, i + 1) as real
    ensures r0 >= TotalWeight(segs) as real ==> i == FallbackIndex(segs)
  {
    var r := r0;
    var k := 0;
    while k < |segs|
      invariant 0 <= k <= |segs|
      invariant r == r0 - Prefix(segs, k) as real
      invariant Prefix(segs, k) as real <= r0
    {
      PrefixStep(segs, k);
      if r < segs[k].weight as real {
        PrefixMonotone(segs, k + 1, |segs|);
        return k;
      }
      r := r - segs[k].weight as real;
      k := k + 1;
    }
    PrefixMonotone(segs, 0, |segs|);
    i := FallbackIndex(segs);
  }

  /** A segment picked for a draw below the total has positive weight: the refund never wins. */
  lemma PickedHasWeight(segs: seq<Segment>, r0: real, i: nat)
    requires i < |segs|
    requires Prefix(segs, i) as real <= r0 < Prefix(segs, i + 1) as real
    ensures segs[i].weight > 0
  {
    PrefixStep(segs, i);
  }

  /** On this wheel every pick, drawn or fallback, is a segment other than the refund. */
  lemma RefundNeverPicked(r0: real, i: nat)
    requires i < |SEGMENTS|
    requires r0 < 100.0 ==> Prefix(SEGMENTS, i) as real <= r0 < Prefix(SEGMENTS, i + 1) as real
    requires r0 >= 100.0 ==> i == FallbackIndex(SEGMENTS)
    ensures SEGMENTS[i].kind != Refund
  {
    SegmentsTotal();
    if r0 < 100.0 {
      PickedHasWeight(SEGMENTS, r0, i);
    } else {
      assert SEGMENTS[1].weight > 0;
    }
  }

  /** The number of referral codes a segment wins. */
  function Referrals(kind: SegmentKind): (n: nat)
    ensures n <= 3
    ensures n == 0 <==> kind == Refund || kind == NoGift
    ensures kind == Ref3 ==> n == 3
    ensures kind == Ref2 ==> n == 2
    ensures kind == Ref1 ==> n == 1
  {
    match kind
    case Ref3 => 3
    case Ref2 => 2
    case Ref1 => 1
    case _ => 0
  }

  /** What `showResult(seg)` displays. */
  datatype ResultShown = RefundShown | NoGiftShown | ReferralsWon(count: nat, title: string)

  /** `showResult`: the refund first, then no gift for zero referrals, otherwise the won count. */
  function ShowResult(kind: SegmentKind): (r: ResultShown)
    ensures r == RefundShown <==> kind == Refund
    ensures r == NoGiftShown <==> kind == NoGift
    ensures r.ReferralsWon? ==> 1 <= r.count <= 3 && r.count == Referrals(kind)
  {
    var n := Referrals(kind);
    if kind == Refund then RefundShown
    else if n == 0 then NoGiftShown
    else ReferralsWon(n, "You won " + NatToString(n) + " referral" + (if n > 1 then "s" else "") + "!")
  }

  const SPINNING: string := "Spinning\U{2026}"

  /** The spin button with its `spun` flag. */
  class SpinButton {
    var spun: bool
    var caption: string

    constructor(initialCaption: string)
      ensures !spun && caption == initialCaption
    {
      spun := false;
      caption := initialCaption;
    }

    /**
     * A click: the first one sets the flag and draws a segment, every later
     * one does nothing.
     */
    method Click(r0: real) returns (target: Option<nat>)
      requires 0.0 <= r0
      modifies this
      ensures spun
      ensures old(spun) ==> target.None? && caption == old(caption)
      ensures !old(spun) ==>
        && target.Some? && caption == SPINNING && target.value < |SEGMENTS|
        && (r0 < 100.0 ==> Prefix(SEGMENTS, target.value) as real <= r0 < Prefix(SEGMENTS, target.value + 1) as real)
        && SEGMENTS[target.value].kind != Refund
    {
      if spun {
        return None;
      }
      spun := true;
      caption := SPINNING;
      var i := PickWeighted(SEGMENTS, r0);
      SegmentsTotal();
      RefundNeverPicked(r0, i);
      target := Some(i);
    }
  }
}

=== FILE: counter.dfy ===
/**
 * Named sequence counters (models/Counter.js). One record per key; a draw
 * increments the key's `seq` by one, creating the record with `seq = 0` first
 * when the key is new, and returns the incremented value.
 */
module CounterModel {

  /** The stored `seq` of `key`, or the schema default 0 when no record exists yet. */
  function SeqOf(seqs: map<string, int>, key: string): int {
    if key in seqs then seqs[key] else 0
  }

  /** Counters only ever count up from their default of 0. */
  predicate NonNegative(seqs: map<string, int>) {
    forall k :: k in seqs ==> seqs[k] >= 0
  }

  /**
   * The values `n` successive draws on `key` return, starting from `seqs`
   * (each draw is the atomic upsert-and-increment of `nextSequence`).
   */
  function Draws(seqs: map<string, int>, key: string, n: nat): (r: seq<int>)
    ensures |r| == n
    decreases n
  {
    if n == 0 then []
    else [SeqOf(seqs, key) + 1] + Draws(seqs[key := SeqOf(seqs, key) + 1], key, n - 1)
  }

  /** Successive draws on one key return consecutive values, starting just above the stored one. */
  lemma {:induction false} DrawsConsecutive(seqs: map<string, int>, key: string, n: nat)
    ensures forall i :: 0 <= i < n ==> Draws(seqs, key, n)[i] == SeqOf(seqs, key) + 1 + i
    decreases n
  {
    if n > 0 {
      var next := seqs[key := SeqOf(seqs, key) + 1];
      DrawsConsecutive(next, key, n - 1);
      assert SeqOf(next, key) == SeqOf(seqs, key) + 1;
    }
  }

  /** On a key never used before, `n` draws return exactly 1, 2, ..., n. */
  lemma DrawsFromFreshKey(seqs: map<string, int>, key: string, n: nat)
    requires key !in seqs
    ensures forall i :: 0 <= i < n ==> Draws(seqs, key, n)[i] == i + 1
  {
    DrawsConsecutive(seqs, key, n);
  }

  /** No value is returned twice by draws on the same key. */
  lemma DrawsDistinct(seqs: map<string, int>, key: string, n: nat)
    ensures forall i, j :: 0 <= i < j < n ==> Draws(seqs, key, n)[i] < Draws(seqs, key, n)[j]
  {
    DrawsConsecutive(seqs, key, n);
  }

  /** The counter collection: one `seq` per key (the unique index on `key`). */
  class Counters {
    var seqs: map<string, int>

    ghost predicate Valid()
      reads this
    {
      NonNegative(seqs)
    }

    constructor ()
      ensures Valid() && seqs == map[]
    {
      seqs := map[];
    }

    /** The stored value of `key` (0 when the key has no record). */
    function Value(key: string): int
      reads this
    {
      SeqOf(seqs, key)
    }

    /**
     * `Counter.nextSequence(key)`: raises `key`'s seq by exactly one, returns
     * the new value and leaves every other key as it was.
     */
    method NextSequence(key: string) returns (v: int)
      requires Valid()
      modifies this
      ensures Valid()
      ensures v == old(Value(key)) + 1 && v >= 1
      ensures seqs == old(seqs)[key := v]
    {
      v := SeqOf(seqs, key) + 1;
      seqs := seqs[key := v];
    }
  }
}

=== FILE: creator_number.dfy ===
/**
 * The creator-number slot pool (models/CreatorNumber.js and the pool helpers
 * of routes/pay.js). Slots are kept in order of their number `n`; since slots
 * are only ever added with the next number and never deleted, slot `i` holds
 * number `i + 1`.
 */
module CreatorNumberModel {
  import opened Wrappers

  datatype SlotStatus = Free | Reserved | Assigned

  /** One creator number and who holds it; times are milliseconds since the epoch. */
  datatype Slot = Slot(
    n: nat,
    status: SlotStatus,
    reservedBy: Option<nat>,
    orderId: string,
    reservedAt: Option<int>,
    expiresAt: Option<int>,
    assignedTo: Option<nat>,
    assignedAt: Option<int>)

  /** Numbers are exactly 1..|slots|, each used once: unique and without gaps. */
  predicate GapFree(slots: seq<Slot>) {
    forall i :: 0 <= i < |slots| ==> slots[i].n == i + 1
  }

  /** The hold `reserveCreatorNumber` puts on a slot for `orderId`. */
  function Hold(s: Slot, player: nat, orderId: string, now: int, holdMs: int): (r: Slot)
    ensures r.n == s.n && r.status == Reserved && r.reservedBy == Some(player)
    ensures r.orderId == orderId && r.reservedAt == Some(now) && r.expiresAt == Some(now + holdMs)
    ensures r.assignedTo == s.assignedTo && r.assignedAt == s.assignedAt
  {
    s.(status := Reserved, reservedBy := Some(player), orderId := orderId,
       reservedAt := Some(now), expiresAt := Some(now + holdMs))
  }

  /** A new slot created already reserved, with the other fields at their defaults. */
  function NewHeld(n: nat, player: nat, orderId: string, now: int, holdMs: int): (r: Slot)
    ensures r.n == n && r.status == Reserved && r.reservedBy == Some(player) && r.orderId == orderId
    ensures r.expiresAt == Some(now + holdMs) && r.assignedTo == None
  {
    Hold(Slot(n, Free, None, "", None, None, None, None), player, orderId, now, holdMs)
  }

  /** A hold given back: status free and the holder fields back at their defaults. */
  function Released(s: Slot): (r: Slot)
    ensures r.n == s.n && r.status == Free && r.reservedBy == None && r.orderId == ""
    ensures r.reservedAt == None && r.expiresAt == None
    ensures r.assignedTo == s.assignedTo && r.assignedAt == s.assignedAt
  {
    s.(status := Free, reservedBy := None, orderId := "", reservedAt := None, expiresAt := None)
  }

  /** A hold made final for `player`. */
  function Assign(s: Slot, player: nat, now: int): (r: Slot)
    ensures r.n == s.n && r.status == Assigned && r.assignedTo == Some(player) && r.assignedAt == Some(now)
    ensures r.orderId == s.orderId && r.reservedBy == s.reservedBy
  {
    s.(status := Assigned, assignedTo := Some(player), assignedAt := Some(now))
  }

  /**
   * The sweep's filter: reserved, with an expiry strictly before `now`
   * (a missing expiry never matches `$lt`).
   */
  predicate Expired(s: Slot, now: int) {
    s.status == Reserved && s.expiresAt.Some? && s.expiresAt.value < now
  }

  /** The pool after `releaseExpiredHolds` at `now`. */
  function Swept(slots: seq<Slot>, now: int): (r: seq<Slot>)
    ensures |r| == |slots|
    ensures forall i :: 0 <= i < |r| ==> !Expired(r[i], now)
    ensures forall i :: 0 <= i < |r| && Expired(slots[i], now) ==> r[i] == Released(slots[i])
    ensures forall i :: 0 <= i < |r| && !Expired(slots[i], now) ==> r[i] == slots[i]
    ensures GapFree(slots) ==> GapFree(r)
  {
    seq(|slots|, i requires 0 <= i < |slots| =>
      if Expired(slots[i], now) then Released(slots[i]) else slots[i])
  }

  /** Sweeping twice at the same time is sweeping once. */
  lemma SweptIdempotent(slots: seq<Slot>, now: int)
    ensures Swept(Swept(slots, now), now) == Swept(slots, now)
  {
  }

  /** The position of the free slot with the smallest number, if any slot is free. */
  function SmallestFree(slots: seq<Slot>): (r: Option<nat>)
    ensures r.Some? ==> r.value < |slots| && slots[r.value].status == Free
    ensures r.Some? ==> forall j :: 0 <= j < r.value ==> slots[j].status != Free
    ensures r.None? ==> forall j :: 0 <= j < |slots| ==> slots[j].status != Free
  {
    if |slots| == 0 then None
    else
      match SmallestFree(slots[..|slots| - 1])
      case Some(i) => Some(i)
      case None => if slots[|slots| - 1].status == Free then Some(|slots| - 1) else None
  }

  /** `(last?.n || 0)`: the largest number in the pool, or 0 when it is empty. */
  function LastN(slots: seq<Slot>): (r: nat)
    ensures GapFree(slots) ==> r == |slots|
  {
    if |slots| == 0 then 0 else slots[|slots| - 1].n
  }

  /** The number the next reservation takes: the smallest free one, else one past the largest. */
  function NextNumber(slots: seq<Slot>): (r: nat)
    ensures r >= 1 || !GapFree(slots)
  {
    match SmallestFree(slots)
    case Some(i) => slots[i].n
    case None => LastN(slots) + 1
  }

  /**
   * In a gap-free pool, the next number is the least number that is not held:
   * every smaller number is reserved or assigned, and it is free or new.
   */
  lemma NextNumberIsLeastUnheld(slots: seq<Slot>)
    requires GapFree(slots)
    ensures 1 <= NextNumber(slots) <= |slots| + 1
    ensures NextNumber(slots) <= |slots| ==> slots[NextNumber(slots) - 1].status == Free
    ensures forall j :: 0 <= j < NextNumber(slots) - 1 ==> slots[j].status != Free
  {
  }

  /** The position of the first reserved slot held for `orderId`, if any. */
  function FirstHeldFor(slots: seq<Slot>, orderId: string): (r: Option<nat>)
    ensures r.Some? ==> r.value < |slots| && slots[r.value].status == Reserved && slots[r.value].orderId == orderId
    ensures r.Some? ==> forall j :: 0 <= j < r.value ==> !(slots[j].status == Reserved && slots[j].orderId == orderId)
    ensures r.None? ==> forall j :: 0 <= j < |slots| ==> !(slots[j].status == Reserved && slots[j].orderId == orderId)
  {
    if |slots| == 0 then None
    else
      match FirstHeldFor(slots[..|slots| - 1], orderId)
      case Some(i) => Some(i)
      case None =>
        var last := slots[|slots| - 1];
        if last.status == Reserved && last.orderId == orderId then Some(|slots| - 1) else None
  }

  /**
   * The pool after `reserveCreatorNumber(player, orderId, holdMs)` at `now`:
   * the free slot with the smallest number is put on hold, or, when none is
   * free, a new slot numbered one past the largest is created on hold.
   */
  function ReservedPool(slots: seq<Slot>, player: nat, orderId: string, now: int, holdMs: int): (r: seq<Slot>)
  {
    match SmallestFree(slots)
    case Some(i) => slots[i := Hold(slots[i], player, orderId, now, holdMs)]
    case None => slots + [NewHeld(LastN(slots) + 1, player, orderId, now, holdMs)]
  }

  /**
   * A reservation holds exactly the number `NextNumber` names, for `player`
   * and `orderId` until `now + holdMs`; no other slot changes, no number is
   * lost or repeated, and the pool grows only when no slot was free.
   */
  lemma ReserveHoldsNextNumber(slots: seq<Slot>, player: nat, orderId: string, now: int, holdMs: int)
    requires GapFree(slots)
    ensures var r := ReservedPool(slots, player, orderId, now, holdMs);
      var n := NextNumber(slots);
      && GapFree(r) && 1 <= n <= |r|
      && |r| == (if SmallestFree(slots).Some? then |slots| else |slots| + 1)
      && r[n - 1].status == Reserved && r[n - 1].reservedBy == Some(player)
      && r[n - 1].orderId == orderId && r[n - 1].expiresAt == Some(now + holdMs)
      && (forall j :: 0 <= j < |slots| && j != n - 1 ==> r[j] == slots[j])
  {
  }

  /** The pool after the first hold for `orderId` is given back (unchanged when there is none). */
  function ReleasedFor(slots: seq<Slot>, orderId: string): (r: seq<Slot>)
    ensures |r| == |slots| && (GapFree(slots) ==> GapFree(r))
  {
    match FirstHeldFor(slots, orderId)
    case Some(i) => slots[i := Released(slots[i])]
    case None => slots
  }

  /** The pool after the first hold for `from` is moved onto the order id `to`. */
  function RepointedFor(slots: seq<Slot>, from: string, to: string): (r: seq<Slot>)
    ensures |r| == |slots| && (GapFree(slots) ==> GapFree(r))
  {
    match FirstHeldFor(slots, from)
    case Some(i) => slots[i := slots[i].(orderId := to)]
    case None => slots
  }

  /** The pool after the first hold for `orderId` is made final for `player`. */
  function AssignedFor(slots: seq<Slot>, orderId: string, player: nat, now: int): (r: seq<Slot>)
    ensures |r| == |slots| && (GapFree(slots) ==> GapFree(r))
  {
    match FirstHeldFor(slots, orderId)
    case Some(i) => slots[i := Assign(slots[i], player, now)]
    case None => slots
  }

  /**
   * Finalising a hold touches only that slot: it becomes assigned to
   * `player` and keeps its number and order id.
   */
  lemma AssignedForOnlyThatSlot(slots: seq<Slot>, orderId: string, player: nat, now: int)
    requires FirstHeldFor(slots, orderId).Some?
    ensures var i := FirstHeldFor(slots, orderId).value;
      var r := AssignedFor(slots, orderId, player, now);
      && r[i].status == Assigned && r[i].assignedTo == Some(player) && r[i].n == slots[i].n
      && r[i].orderId == orderId
      && (forall j :: 0 <= j < |slots| && j != i ==> r[j] == slots[j])
      && FirstHeldFor(r, orderId) != Some(i)
  {
  }

  /** The pool collection. */
  class CreatorNumbers {
    var slots: seq<Slot>

    ghost predicate Valid()
      reads this
    {
      GapFree(slots)
    }

    constructor ()
      ensures Valid() && slots == []
    {
      slots := [];
    }

    /** `releaseExpiredHolds()`, run by the handlers and by the one-minute timer. */
    method ReleaseExpiredHolds(now: int)
      requires Valid()
      modifies this
      ensures Valid()
      ensures slots == Swept(old(slots), now)
    {
      var i := 0;
      ghost var start := slots;
      while i < |slots|
        invariant 0 <= i <= |slots| == |start|
        invariant forall j :: 0 <= j < i ==> slots[j] == Swept(start, now)[j]
        invariant forall j :: i <= j < |slots| ==> slots[j] == start[j]
      {
        if Expired(slots[i], now) {
          slots := slots[i := Released(slots[i])];
        }
        i := i + 1;
      }
      assert slots == Swept(start, now);
    }

    /**
     * `reserveCreatorNumber(player, orderId, holdMs)` at `now`: scans for the
     * smallest free number, else appends one; returns the number held.
     */
    method Reserve(player: nat, orderId: string, now: int, holdMs: int) returns (n: nat)
      requires Valid()
      modifies this
      ensures Valid()
      ensures n == NextNumber(old(slots))
      ensures slots == ReservedPool(old(slots), player, orderId, now, holdMs)
    {
      var i := 0;
      while i < |slots| && slots[i].status != Free
        invariant 0 <= i <= |slots|
        invariant forall j :: 0 <= j < i ==> slots[j].status != Free
      {
        i := i + 1;
      }
      ReserveHoldsNextNumber(slots, player, orderId, now, holdMs);
      if i < |slots| {
        n := slots[i].n;
        slots := slots[i := Hold(slots[i], player, orderId, now, holdMs)];
      } else {
        n := LastN(slots) + 1;
        slots := slots + [NewHeld(n, player, orderId, now, holdMs)];
      }
    }

    /** `updateOne({ orderId, status: 'reserved' }, ...)` giving the hold back. */
    method ReleaseHoldFor(orderId: string)
      requires Valid()
      modifies this
      ensures Valid()
      ensures slots == ReleasedFor(old(slots), orderId)
    {
      match FirstHeldFor(slots, orderId)
      case Some(i) => slots := slots[i := Released(slots[i])];
      case None =>
    }

    /** `updateOne({ orderId: from, status: 'reserved' }, { $set: { orderId: to } })`. */
    method RepointHold(from: string, to: string)
      requires Valid()
      modifies this
      ensures Valid()
      ensures slots == RepointedFor(old(slots), from, to)
    {
      match FirstHeldFor(slots, from)
      case Some(i) => slots := slots[i := slots[i].(orderId := to)];
      case None =>
    }

    /**
     * The atomic finalisation of the first hold for `orderId`: it becomes
     * assigned to `player`. Returns its number, or `None` when no hold exists.
     */
    method AssignHoldFor(orderId: string, player: nat, now: int) returns (n: Option<nat>)
      requires Valid()
      modifies this
      ensures Valid()
      ensures n.None? <==> FirstHeldFor(old(slots), orderId).None?
      ensures n.Some? ==> n.value == FirstHeldFor(old(slots), orderId).value + 1
      ensures slots == AssignedFor(old(slots), orderId, player, now)
    {
      match FirstHeldFor(slots, orderId)
      case Some(i) =>
        n := Some(slots[i].n);
        slots := slots[i := Assign(slots[i], player, now)];
      case None =>
        n := None;
    }
  }
}

=== FILE: epk_pay.dfy ===
/**
 * public/js/epk-pay.js: the payment page's helpers. The page shows the
 * player's creator code and tier, chooses the yearly deal and plan summary
 * from the join rank, checks a recovery phone number per country, formats
 * an edited phone number, enables the pay button, and settles on a session
 * id kept in local storage.
 */
module EpkPay {
  import opened Wrappers
  import opened Text
  import opened JsValues
  import Formats
  import PaymentsRoutes
  import QuestionFlow

  /** `pad(rank)`: '#' and `max(0, floor(rank))` zero-padded to four digits. */
  function Pad(rank: int): (r: string)
    ensures |r| >= 5 && r[0] == '#' && AllDigits(r[1..])
  {
    "#" + Formats.Pad4(rank)
  }

  /** The page shows the code the server hands out for the same number (`#` and `pad4`). */
  lemma PadIsCreatorCode(rank: int)
    ensures Pad(rank) == Formats.CreatorCode(rank)
    ensures rank >= 0 ==> DecimalValue(Pad(rank)[1..]) == rank
  {
    assert Pad(rank)[1..] == Formats.Pad4(rank);
  }

  /** `setTier(rank)`: the Founding Member badge is shown for a truthy rank up to 100. */
  function TierShown(rank: int): (r: bool)
    ensures rank >= 0 ==> (r <==> 0 < rank <= 100)
  {
    rank != 0 && rank <= 100
  }

  /** `setDeal(rank)`: 49 for ranks 1..100, 99 for 101..3000, otherwise 199 (rank 0 included). */
  function DealPrice(rank: int): (p: int)
    ensures p == 49 || p == 99 || p == 199
  {
    if rank > 0 && rank <= 100 then 49
    else if rank > 100 && rank <= 3000 then 99
    else 199
  }

  /** The yearly price the page shows is the price `/api/payments/order` charges for the same join rank. */
  lemma DealMatchesServerPrice(rank: int)
    ensures DealPrice(rank) == PaymentsRoutes.ComputeRupees(Num(rank))
  {
  }

  /** For a real rank the badge is shown exactly when the 49 deal applies. */
  lemma TierIsFoundingDeal(rank: int)
    requires rank >= 0
    ensures TierShown(rank) <==> DealPrice(rank) == 49
  {
  }

  /** The plan summary's three texts. */
  datatype PlanSummary = PlanSummary(line1: string, line2: string, total: string)

  const BEST_VALUE: string := "Yearly 49/- (Best Value)"
  const FOUNDING_LINE: string := "Creator Code < 100; 75% off"
  const EARLY_LINE: string := "Creator Code ≤ 3000; Early pricing"
  const STANDARD_LINE: string := "Standard yearly price"

  /**
   * `updatePlanSummary()`: the first line and total from the current price
   * (199 when unset), the second line from the join rank's band.
   */
  function SummaryOf(currentPrice: int, joinOrder: int): (r: PlanSummary)
    ensures r.line2 == FOUNDING_LINE <==> 0 < joinOrder <= 100
    ensures r.line2 == EARLY_LINE <==> 100 < joinOrder <= 3000
  {
    var price := if currentPrice != 0 then currentPrice else 199;
    var line1 := if price == 49 then BEST_VALUE else "Yearly " + IntToString(price) + "/-";
    var line2 :=
      if joinOrder > 0 && joinOrder <= 100 then FOUNDING_LINE
      else if joinOrder > 100 && joinOrder <= 3000 then EARLY_LINE
      else STANDARD_LINE;
    PlanSummary(line1, line2, IntToString(price) + "/-")
  }

  /**
   * After `applyRank`, the summary's rank band and its price agree: the
   * best-value line appears exactly with the founding line, and the total
   * is the deal price.
   */
  lemma SummaryAgreesWithDeal(rank: int)
    ensures var r := SummaryOf(DealPrice(rank), rank);
      && (r.line1 == BEST_VALUE <==> r.line2 == FOUNDING_LINE)
      && (r.line2 == EARLY_LINE ==> r.line1 == "Yearly " + IntToString(99) + "/-")
      && (r.line2 == STANDARD_LINE ==> r.line1 == "Yearly " + IntToString(199) + "/-")
      && r.total == IntToString(DealPrice(rank)) + "/-"
  {
    var p := DealPrice(rank);
    if p != 49 {
      var line1 := "Yearly " + IntToString(p) + "/-";
      assert line1[|line1| - 1] == '-';
      assert BEST_VALUE[|BEST_VALUE| - 1] == ')';
    }
  }

  /** The pattern a listed country's national number must match, on its digits. */
  datatype NationalPattern =
    | MobileStart(len: nat)          // `/^[6-9]\d{len-1}$/`
    | DigitCount(lo: nat, hi: nat)   // `/^\d{lo,hi}$/`

  datatype Country = Country(code: string, dial: string, name: string, pattern: NationalPattern)

  /** `COUNTRY_CODES`. */
  const COUNTRY_CODES: seq<Country> := [
    Country("IN", "91", "India (+91)", MobileStart(10)),
    Country("US", "1", "United States (+1)", DigitCount(10, 10)),
    Country("GB", "44", "United Kingdom (+44)", DigitCount(10, 10)),
    Country("AE", "971", "United Arab Emirates (+971)", DigitCount(7, 9)),
    Country("SG", "65", "Singapore (+65)", DigitCount(8, 8)),
    Country("AU", "61", "Australia (+61)", DigitCount(9, 9))
  ]

  /** `pattern.test(d)` for a string of digits. */
  predicate Matches(p: NationalPattern, d: string) {
    match p
    case MobileStart(len) => |d| == len && len > 0 && '6' <= d[0] <= '9'
    case DigitCount(lo, hi) => lo <= |d| <= hi
  }

  /** `cs.find(x => x.dial === dial)`: the first country with that dial code. */
  function FindCountry(cs: seq<Country>, dial: string): (r: Option<Country>)
    ensures r.Some? ==> r.value in cs && r.value.dial == dial
    ensures r.None? <==> forall i :: 0 <= i < |cs| ==> cs[i].dial != dial
  {
    if cs == [] then None
    else if cs[0].dial == dial then Some(cs[0])
    else FindCountry(cs[1..], dial)
  }

  /**
   * `validNational(dial, national)`: the national digits must match the
   * listed country's pattern; for a dial code not listed, six digits or
   * more are enough.
   */
  function ValidNational(dial: string, national: string): (r: bool)
    ensures r ==> |Digits(national)| >= 6
  {
    var d := Digits(national);
    match FindCountry(COUNTRY_CODES, dial)
    case None => |d| >= 6
    case Some(c) => Matches(c.pattern, d)
  }

  /** India: exactly ten digits, the first of them 6 to 9. */
  lemma ValidIndia(national: string)
    ensures var d := Digits(national);
      ValidNational("91", national) <==> |d| == 10 && '6' <= d[0] <= '9'
  {
    assert FindCountry(COUNTRY_CODES, "91") == Some(COUNTRY_CODES[0]);
  }

  /** A dial code not in the list accepts any six digits or more. */
  lemma ValidUnlisted(dial: string, national: string)
    requires forall i :: 0 <= i < |COUNTRY_CODES| ==> COUNTRY_CODES[i].dial != dial
    ensures ValidNational(dial, national) <==> |Digits(national)| >= 6
  {
  }

  /**
   * The recovery form only assembles numbers it has validated: for a listed
   * country a valid national number always gives an E.164 number (`toE164`
   * here is the question flow's).
   */
  lemma ValidListedAssembles(i: nat, national: string)
    requires i < |COUNTRY_CODES| && ValidNational(COUNTRY_CODES[i].dial, national)
    ensures QuestionFlow.ToE164(COUNTRY_CODES[i].dial, national).Some?
  {
    var dial := COUNTRY_CODES[i].dial;
    var c := FindCountry(COUNTRY_CODES, dial).value;
    ListedBounds(c);
    DigitsOfDigits(dial);
  }

  /** Every listed dial code is one to three digits, and every listed pattern wants seven to ten digits. */
  lemma ListedBounds(c: Country)
    requires c in COUNTRY_CODES
    ensures AllDigits(c.dial) && 1 <= |c.dial| <= 3
    ensures forall d :: Matches(c.pattern, d) ==> 7 <= |d| <= 10
  {
    assert c == COUNTRY_CODES[0] || c == COUNTRY_CODES[1] || c == COUNTRY_CODES[2] ||
           c == COUNTRY_CODES[3] || c == COUNTRY_CODES[4] || c == COUNTRY_CODES[5];
  }

  /**
   * `formatE164DefaultIndia(s)`: '' without digits; ten digits get India's
   * '+91'; any other digits are kept behind a '+'.
   */
  function FormatE164DefaultIndia(s: string): (r: string)
    ensures r == "" <==> Digits(s) == ""
    ensures r != "" ==> r[0] == '+' && AllDigits(r[1..])
  {
    var d := Digits(s);
    if d == "" then ""
    else if |d| == 10 then "+91" + d
    else "+" + d
  }

  /** The formatted number holds the typed digits, after '91' when there were exactly ten. */
  lemma FormatKeepsDigits(s: string)
    requires Digits(s) != ""
    ensures var d := Digits(s);
      FormatE164DefaultIndia(s)[1..] == if |d| == 10 then "91" + d else d
  {
  }

  /** The server's `normalizePhone` leaves the formatted number as it is. */
  lemma ServerKeepsFormatted(s: string)
    requires Digits(s) != ""
    ensures Formats.NormalizePhone(Str(FormatE164DefaultIndia(s))) == FormatE164DefaultIndia(s)
  {
    var r := FormatE164DefaultIndia(s);
    assert r == "+" + r[1..];
    Formats.NormalizedPlusDigits(r[1..]);
  }

  /** `syncPayButtonState()`: on only when the confirmation box exists and is checked and a phone is known. */
  function PayEnabled(box: Option<bool>, phone: string): (r: bool)
    ensures r <==> box == Some(true) && phone != ""
  {
    box.Some? && box.value && phone != ""
  }

  const SESSION_KEY: string := "QF_SESSION_ID"

  /** `localStorage.getItem(key)`, with a missing key read as the falsy ''. */
  function Item(storage: map<string, string>, key: string): string {
    if key in storage then storage[key] else ""
  }

  /**
   * `ensureSessionId()`'s choice: the `sessionId` query value, then the
   * stored `sessionId`, `SESSION_ID`, `MM_SESSION_ID` and `QF_SESSION_ID`,
   * the first non-empty one; otherwise a new 'ds_' id (`token` stands for
   * its random and clock parts).
   */
  function SessionIdFor(query: string, storage: map<string, string>, token: string): (r: string)
    ensures r != ""
    ensures query != "" ==> r == query
  {
    if query != "" then query
    else if Item(storage, "sessionId") != "" then Item(storage, "sessionId")
    else if Item(storage, "SESSION_ID") != "" then Item(storage, "SESSION_ID")
    else if Item(storage, "MM_SESSION_ID") != "" then Item(storage, "MM_SESSION_ID")
    else if Item(storage, SESSION_KEY) != "" then Item(storage, SESSION_KEY)
    else "ds_" + token
  }

  /**
   * The first non-empty id of a list, read left to right the way a chain
   * of `||` reads it; `None` when every one is empty.
   */
  function FirstPresent(ids: seq<string>): (r: Option<string>)
    ensures r.None? <==> forall k :: 0 <= k < |ids| ==> ids[k] == ""
    ensures r.Some? ==> exists k :: 0 <= k < |ids| && ids[k] == r.value && r.value != ""
                          && forall j :: 0 <= j < k ==> ids[j] == ""
  {
    if |ids| == 0 then None
    else if ids[0] != "" then Some(ids[0])
    else
      var rest := FirstPresent(ids[1..]);
      if rest.Some? then
        var k :| 0 <= k < |ids[1..]| && ids[1..][k] == rest.value && rest.value != ""
                 && forall j :: 0 <= j < k ==> ids[1..][j] == "";
        assert ids[k + 1] == rest.value;
        rest
      else rest
  }

  /** The ids `ensureSessionId()` looks at, in the order it looks at them. */
  function SessionCandidates(query: string, storage: map<string, string>): seq<string> {
    [query, Item(storage, "sessionId"), Item(storage, "SESSION_ID"),
     Item(storage, "MM_SESSION_ID"), Item(storage, SESSION_KEY)]
  }

  /**
   * The chosen id is the first non-empty candidate, and a fresh 'ds_' id
   * exactly when every candidate is empty.
   */
  lemma SessionIdIsFirstPresent(query: string, storage: map<string, string>, token: string)
    ensures var c := FirstPresent(SessionCandidates(query, storage));
      SessionIdFor(query, storage, token) == if c.Some? then c.value else "ds_" + token
  {
    var ids := SessionCandidates(query, storage);
    assert FirstPresent(ids[4..][1..]) == None;
    assert ids[3..][1..] == ids[4..] && ids[2..][1..] == ids[3..] && ids[1..][1..] == ids[2..];
    assert FirstPresent(ids[3..]) == if ids[3] != "" then Some(ids[3]) else FirstPresent(ids[4..]);
    assert FirstPresent(ids[2..]) == if ids[2] != "" then Some(ids[2]) else FirstPresent(ids[3..]);
    assert FirstPresent(ids[1..]) == if ids[1] != "" then Some(ids[1]) else FirstPresent(ids[2..]);
  }

  /**
   * Once chosen, the id sticks: with the same query, the next page load
   * finds the same id whatever new token it would have drawn.
   */
  lemma SessionIdSticks(query: string, storage: map<string, string>, token: string, token2: string)
    ensures var sid := SessionIdFor(query, storage, token);
      SessionIdFor(query, storage[SESSION_KEY := sid], token2) == sid
  {
    var sid := SessionIdFor(query, storage, token);
    var st := storage[SESSION_KEY := sid];
    assert Item(st, "sessionId") == Item(storage, "sessionId");
    assert Item(st, "SESSION_ID") == Item(storage, "SESSION_ID");
    assert Item(st, "MM_SESSION_ID") == Item(storage, "MM_SESSION_ID");
  }

  /** The page's `STATE` and the local storage it writes. */
  class PayPage {
    var joinOrder: int
    var currentPrice: int
    var phone: string
    var sessionId: string
    var payEnabled: bool
    var storage: map<string, string>

    constructor (storage0: map<string, string>)
      ensures joinOrder == 0 && currentPrice == 199 && phone == "" && sessionId == ""
      ensures !payEnabled && storage == storage0
    {
      joinOrder := 0;
      currentPrice := 199;
      phone := "";
      sessionId := "";
      payEnabled := false;
      storage := storage0;
    }

    /** `setDeal(rank)`: the price is chosen from the rank, then the summary is redrawn. */
    method SetDeal(rank: int) returns (summary: PlanSummary)
      modifies this
      ensures currentPrice == DealPrice(rank) && summary == SummaryOf(currentPrice, joinOrder)
      ensures joinOrder == old(joinOrder) && phone == old(phone) && sessionId == old(sessionId)
      ensures payEnabled == old(payEnabled) && storage == old(storage)
    {
      var price := 199;
      if rank > 0 && rank <= 100 {
        price := 49;
      } else if rank > 100 && rank <= 3000 {
        price := 99;
      }
      currentPrice := price;
      summary := SummaryOf(currentPrice, joinOrder);
    }

    /**
     * `applyRank(rank)`: the code text, the rank, the tier badge and the
     * deal all follow the one rank.
     */
    method ApplyRank(rank: int) returns (code: string, tier: bool, summary: PlanSummary)
      modifies this
      ensures code == Pad(rank) && tier == TierShown(rank)
      ensures joinOrder == rank && currentPrice == DealPrice(rank) && summary == SummaryOf(DealPrice(rank), rank)
      ensures phone == old(phone) && sessionId == old(sessionId) && payEnabled == old(payEnabled) && storage == old(storage)
    {
      code := Pad(rank);
      joinOrder := rank;
      tier := TierShown(joinOrder);
      summary := SetDeal(joinOrder);
    }

    /** `syncPayButtonState()`. */
    method SyncPayButtonState(box: Option<bool>)
      modifies this
      ensures payEnabled == PayEnabled(box, phone)
      ensures joinOrder == old(joinOrder) && currentPrice == old(currentPrice) && phone == old(phone)
      ensures sessionId == old(sessionId) && storage == old(storage)
    {
      payEnabled := box.Some? && box.value && phone != "";
    }

    /** `ensureSessionId()`: the chosen id is stored under `QF_SESSION_ID` and kept in the state. */
    method EnsureSessionId(query: string, token: string) returns (sid: string)
      modifies this
      ensures sid == SessionIdFor(query, old(storage), token)
      ensures storage == old(storage)[SESSION_KEY := sid] && sessionId == sid
      ensures joinOrder == old(joinOrder) && currentPrice == old(currentPrice) && phone == old(phone)
      ensures payEnabled == old(payEnabled)
    {
      sid := query;
      if sid == "" { sid := Item(storage, "sessionId"); }
      if sid == "" { sid := Item(storage, "SESSION_ID"); }
      if sid == "" { sid := Item(storage, "MM_SESSION_ID"); }
      if sid == "" { sid := Item(storage, SESSION_KEY); }
      if sid == "" { sid := "ds_" + token; }
      storage := storage[SESSION_KEY := sid];
      sessionId := sid;
    }
  }
}

=== FILE: formats.dfy ===
/**
 * Helpers the server routes share: phone normalisation (defined identically in
 * routes/pay.js, routes/payments.js, routes/otp.js, routes/player.js and
 * routes/journey.js), digit extraction, zero padding of creator numbers and
 * the creator-code text.
 */
module Formats {
  import opened Text
  import opened JsValues

  /** `String(s || '').replace(/\D+/g, '')`. */
  function DigitsOf(v: JsValue): (r: string)
    ensures AllDigits(r)
    ensures !Truthy(v) ==> r == ""
  {
    Digits(ToStr(Or(v, Str(""))))
  }

  /**
   * `normalizePhone(s)`: '' for a falsy input; otherwise '+' followed by the
   * digits of the trimmed text (a leading '+' is dropped before the digits are
   * taken, which gives the same digits).
   */
  function NormalizePhone(v: JsValue): (r: string)
    ensures r == "" <==> !Truthy(v)
    ensures r != "" ==> r[0] == '+' && AllDigits(r[1..])
  {
    if !Truthy(v) then "" else PlusDigits(ToStr(v))
  }

  /** The non-empty branch of `normalizePhone` on the text `String(s)`. */
  function PlusDigits(s: string): (r: string)
    ensures |r| >= 1 && r[0] == '+' && AllDigits(r[1..])
  {
    var raw := Trim(s);
    if raw != [] && raw[0] == '+' then "+" + Digits(raw[1..]) else "+" + Digits(raw)
  }

  /** The digits kept by `NormalizePhone` are exactly the digits of `String(v)`. */
  lemma NormalizePhoneDigits(v: JsValue)
    requires Truthy(v)
    ensures NormalizePhone(v) == "+" + Digits(ToStr(v))
  {
    PlusDigitsAll(ToStr(v));
  }

  lemma PlusDigitsAll(s: string)
    ensures PlusDigits(s) == "+" + Digits(s)
  {
    TrimKeepsDigits(s);
    var raw := Trim(s);
    if raw != [] && raw[0] == '+' {
      assert raw == [raw[0]] + raw[1..];
      DigitsAppend([raw[0]], raw[1..]);
      assert Digits([raw[0]]) == "" by {
        assert [raw[0]][1..] == [];
      }
    }
  }

  /** `trim` removes only white space, so it keeps every digit. */
  lemma TrimKeepsDigits(s: string)
    ensures Digits(Trim(s)) == Digits(s)
  {
    var t := TrimStart(s);
    SpacePrefixDigits(s, |s| - |t|);
    SpaceSuffixDigits(t, |TrimEnd(t)|);
  }

  lemma SpacePrefixDigits(s: string, a: nat)
    requires a <= |s| && forall i :: 0 <= i < a ==> IsSpace(s[i])
    ensures Digits(s) == Digits(s[a..])
  {
    assert s == s[..a] + s[a..];
    DigitsAppend(s[..a], s[a..]);
    SpacesHaveNoDigits(s[..a]);
  }

  lemma SpaceSuffixDigits(s: string, b: nat)
    requires b <= |s| && forall i :: b <= i < |s| ==> IsSpace(s[i])
    ensures Digits(s) == Digits(s[..b])
  {
    assert s == s[..b] + s[b..];
    DigitsAppend(s[..b], s[b..]);
    SpacesHaveNoDigits(s[b..]);
  }

  lemma {:induction false} SpacesHaveNoDigits(s: string)
    requires forall i :: 0 <= i < |s| ==> IsSpace(s[i])
    ensures Digits(s) == ""
  {
    if s != [] {
      SpacesHaveNoDigits(s[1..]);
    }
  }

  /** Normalising an already normalised number changes nothing. */
  lemma NormalizePhoneIdempotent(v: JsValue)
    requires Truthy(v)
    ensures NormalizePhone(Str(NormalizePhone(v))) == NormalizePhone(v)
  {
    var r := NormalizePhone(v);
    NormalizePhoneDigits(Str(r));
    assert r == [r[0]] + r[1..];
    DigitsAppend([r[0]], r[1..]);
    DigitsOfDigits(r[1..]);
  }

  /** A '+' followed by digits is already normalised. */
  lemma NormalizedPlusDigits(t: string)
    requires AllDigits(t)
    ensures NormalizePhone(Str("+" + t)) == "+" + t
  {
    PlusDigitsAll("+" + t);
    DigitsAppend("+", t);
    assert Digits("+") == "" by {
      assert "+"[1..] == "";
    }
    DigitsOfDigits(t);
  }

  /** `pad4(n)`: `max(0, n)` in decimal, zero-padded on the left to at least four digits. */
  function Pad4(n: int): (r: string)
    ensures |r| >= 4 && AllDigits(r)
    ensures n >= 0 ==> DecimalValue(r) == n
    ensures n < 0 ==> r == "0000"
  {
    var d := NatToString(if n < 0 then 0 else n);
    var k := if |d| < 4 then 4 - |d| else 0;
    assert PadStart(d, 4, '0') == Repeat('0', k) + d;
    DecimalRoundTrip(if n < 0 then 0 else n);
    LeadingZeros(d, k);
    PadStart(d, 4, '0')
  }

  /** Zeros added on the left do not change a decimal value. */
  lemma {:induction false} LeadingZeros(d: string, k: nat)
    requires AllDigits(d)
    ensures AllDigits(Repeat('0', k) + d)
    ensures DecimalValue(Repeat('0', k) + d) == DecimalValue(d)
    decreases |d|
  {
    var s := Repeat('0', k) + d;
    assert AllDigits(s) by {
      forall i | 0 <= i < |s| ensures IsDigit(s[i]) {
        if i >= k { assert s[i] == d[i - k]; }
      }
    }
    if d == [] {
      assert s == Repeat('0', k);
      ZerosValue(k);
    } else {
      var init := d[..|d| - 1];
      LeadingZeros(init, k);
      assert s[..|s| - 1] == Repeat('0', k) + init;
    }
  }

  lemma {:induction false} ZerosValue(k: nat)
    ensures AllDigits(Repeat('0', k)) && DecimalValue(Repeat('0', k)) == 0
  {
    if k > 0 {
      assert Repeat('0', k)[..k - 1] == Repeat('0', k - 1);
      ZerosValue(k - 1);
    }
  }

  /** A creator code: '#' followed by `Pad4(n)`. */
  function CreatorCode(n: int): (r: string)
    ensures |r| >= 5 && r[0] == '#' && r[1..] == Pad4(n)
  {
    "#" + Pad4(n)
  }
}

=== FILE: invite_code.dfy ===
/**
 * Invite codes (models/InviteCode.js) and the atomic conditional updates the
 * routes apply to them. The multi-use counters `uses`, `maxUses` and `active`
 * are what routes/spin.js means to write; the schema does not declare them,
 * so mongoose's strict mode drops them, and the model keeps them as the
 * handlers intend. Records created elsewhere never carry them.
 */
module InviteCodeModel {
  import opened Wrappers
  import opened Text

  /** An invite code record; times are milliseconds since the epoch. */
  datatype Invite = Invite(
    code: string,
    used: bool,
    usedAt: Option<int>,
    locked: bool,
    lockedBy: Option<nat>,
    lockedAt: Option<int>,
    claimedBy: Option<nat>,
    claimedAt: Option<int>,
    createdAt: int,
    uses: Option<int>,
    maxUses: Option<int>,
    active: Option<bool>)

  /** A stored code: four characters, no lower-case letter, no white space at either end. */
  predicate WellFormedCode(code: string) {
    |code| == 4 && !IsSpace(code[0]) && !IsSpace(code[3]) &&
    forall i :: 0 <= i < 4 ==> !('a' <= code[i] <= 'z')
  }

  /**
   * The well-formed codes are exactly the four-character strings the schema's
   * `uppercase` and `trim` setters leave unchanged.
   */
  lemma WellFormedCodeIsStored(code: string)
    ensures WellFormedCode(code) <==> |code| == 4 && ToUpper(code) == code && Trim(code) == code
  {
    if |code| == 4 {
      if WellFormedCode(code) {
        assert TrimStart(code) == code;
        assert TrimEnd(code) == code;
        assert forall i :: 0 <= i < 4 ==> UpperChar(code[i]) == code[i];
      }
      if ToUpper(code) == code && Trim(code) == code {
        assert forall i :: 0 <= i < 4 ==> UpperChar(code[i]) == code[i];
      }
    }
  }

  /** `invite.uses || 0`. */
  function UsesOf(inv: Invite): (r: int)
    ensures inv.uses.None? || inv.uses == Some(0) ==> r == 0
    ensures inv.uses.Some? ==> r == inv.uses.value
  {
    inv.uses.GetOr(0)
  }

  /** `invite.maxUses || 1`: a missing or zero limit counts as one use. */
  function MaxUsesOf(inv: Invite): (r: int)
    ensures inv.maxUses.None? || inv.maxUses == Some(0) ==> r == 1
    ensures inv.maxUses.Some? && inv.maxUses != Some(0) ==> r == inv.maxUses.value
  {
    match inv.maxUses
    case Some(m) => if m != 0 then m else 1
    case None => 1
  }

  /** A record as seeded: unused, unlocked, unclaimed, without multi-use counters. */
  function NewInvite(code: string, now: int): (inv: Invite)
    ensures inv.code == code && !inv.used && !inv.locked && inv.claimedBy == None
    ensures UsesOf(inv) == 0 && MaxUsesOf(inv) == 1
  {
    Invite(code, false, None, false, None, None, None, None, now, None, None, None)
  }

  /** Every record: stored under its code, well formed, and within its use limit. */
  ghost predicate CodesValid(codes: map<string, Invite>) {
    forall k :: k in codes ==> RecordValid(k, codes[k])
  }

  ghost predicate RecordValid(k: string, inv: Invite) {
    inv.code == k && WellFormedCode(k) && UsesOf(inv) <= MaxUsesOf(inv)
  }

  /**
   * `after` is `before` with one more use of `c`: its counter went up by one
   * and stayed within the limit, it is marked used exactly when it was already
   * or the limit is now reached, `remaining` uses are left, and no other
   * record changed.
   */
  ghost predicate OneMoreUse(before: map<string, Invite>, after: map<string, Invite>, c: string, remaining: int) {
    c in before && c in after && after == before[c := after[c]] &&
    after[c].uses == Some(UsesOf(before[c]) + 1) && UsesOf(after[c]) <= MaxUsesOf(after[c]) &&
    (after[c].used <==> before[c].used || UsesOf(after[c]) >= MaxUsesOf(after[c])) &&
    remaining == MaxUsesOf(after[c]) - UsesOf(after[c]) && remaining >= 0
  }

  /** `code` is locked by `player` and not yet used: the filter of the payment's consuming update. */
  predicate LockedBy(codes: map<string, Invite>, code: string, player: nat) {
    code in codes && codes[code].locked && codes[code].lockedBy == Some(player) && !codes[code].used
  }

  /**
   * The codes after a payment consumes `code` for `player`: marked used at
   * `now` when the player holds the lock on an unused code, else unchanged.
   * Either way no other code changes and a used code stays used.
   */
  function LockedConsumed(codes: map<string, Invite>, code: string, player: nat, now: int): (r: map<string, Invite>)
    ensures r.Keys == codes.Keys
    ensures forall k :: k in codes && k != code ==> r[k] == codes[k]
    ensures LockedBy(codes, code, player) ==>
      r[code].used && r[code].usedAt == Some(now) && r[code].lockedBy == Some(player)
    ensures !LockedBy(codes, code, player) ==> r == codes
    ensures code in codes && codes[code].used ==> r[code] == codes[code]
  {
    if LockedBy(codes, code, player) then codes[code := codes[code].(used := true, usedAt := Some(now))]
    else codes
  }

  /** The invite code collection. */
  class InviteCodes {
    var codes: map<string, Invite>

    ghost predicate Valid()
      reads this
    {
      CodesValid(codes)
    }

    constructor ()
      ensures Valid() && codes == map[]
    {
      codes := map[];
    }

    /** Inserts a new record under its code. */
    method Create(inv: Invite)
      requires Valid() && inv.code !in codes
      requires WellFormedCode(inv.code) && UsesOf(inv) <= MaxUsesOf(inv)
      modifies this
      ensures Valid()
      ensures codes == old(codes)[inv.code := inv]
    {
      codes := codes[inv.code := inv];
    }

    /**
     * routes/invites.js: `findOneAndUpdate({ code, used: false }, { used: true,
     * claimedBy, claimedAt })`. Succeeds only on an unused code, so a code is
     * consumed at most once.
     */
    method ConsumeUnused(code: string, claimedBy: Option<nat>, now: int) returns (ok: bool)
      requires Valid()
      modifies this
      ensures Valid()
      ensures ok <==> code in old(codes) && !old(codes)[code].used
      ensures ok ==> codes == old(codes)[code := old(codes)[code].(used := true, claimedBy := claimedBy, claimedAt := Some(now))]
      ensures !ok ==> codes == old(codes)
    {
      ok := code in codes && !codes[code].used;
      if ok {
        codes := codes[code := codes[code].(used := true, claimedBy := claimedBy, claimedAt := Some(now))];
      }
    }

    /**
     * routes/pay.js: `findOneAndUpdate({ code, locked: true, lockedBy: player,
     * used: false }, { used: true, usedAt })`.
     */
    method ConsumeLocked(code: string, player: nat, now: int) returns (ok: bool)
      requires Valid()
      modifies this
      ensures Valid()
      ensures ok <==> LockedBy(old(codes), code, player)
      ensures codes == LockedConsumed(old(codes), code, player, now)
    {
      ok := LockedBy(codes, code, player);
      if ok {
        codes := codes[code := codes[code].(used := true, usedAt := Some(now))];
      }
    }

    /**
     * routes/spin.js: `findOneAndUpdate({ code, uses: { $lt: max }, active: true },
     * { $inc: { uses: 1 }, claimedBy?, claimedAt? })` with `max` the record's
     * `maxUses || 1`. A missing `uses` or `active` never matches the filter.
     */
    method IncrementUses(code: string, claimedBy: Option<nat>, now: int) returns (updated: Option<Invite>)
      requires Valid()
      modifies this
      ensures Valid()
      ensures updated.Some? <==>
        code in old(codes) && old(codes)[code].uses.Some? &&
        old(codes)[code].uses.value < MaxUsesOf(old(codes)[code]) && old(codes)[code].active == Some(true)
      ensures updated.Some? ==>
        var inv := old(codes)[code];
        var claimed := if claimedBy.Some? then inv.(claimedBy := claimedBy, claimedAt := Some(now)) else inv;
        updated.value == claimed.(uses := Some(inv.uses.value + 1)) && codes == old(codes)[code := updated.value]
      ensures updated.None? ==> codes == old(codes)
    {
      if code in codes && codes[code].uses.Some? && codes[code].uses.value < MaxUsesOf(codes[code]) && codes[code].active == Some(true) {
        var inv := codes[code];
        var claimed := if claimedBy.Some? then inv.(claimedBy := claimedBy, claimedAt := Some(now)) else inv;
        var u := claimed.(uses := Some(inv.uses.value + 1));
        codes := codes[code := u];
        updated := Some(u);
      } else {
        updated := None;
      }
    }

    /**
     * One use of a multi-use code: the conditional increment, then, when that
     * use reached the limit, marking the code used. Returns the uses left, or
     * `None` when the increment matched nothing.
     */
    method UseOnce(code: string, claimedBy: Option<nat>, now: int) returns (remaining: Option<int>)
      requires Valid()
      modifies this
      ensures Valid()
      ensures remaining.None? ==> codes == old(codes)
      ensures remaining.Some? ==> OneMoreUse(old(codes), codes, code, remaining.value)
    {
      var updated := IncrementUses(code, claimedBy, now);
      if updated.None? {
        return None;
      }
      var u := updated.value;
      ghost var before := old(codes);
      assert UsesOf(u) == UsesOf(before[code]) + 1 && MaxUsesOf(u) == MaxUsesOf(before[code]);
      var left := MaxUsesOf(u) - UsesOf(u);
      remaining := Some(if left < 0 then 0 else left);
      if UsesOf(u) >= MaxUsesOf(u) {
        MarkUsed(code, now);
        assert codes == before[code := u.(used := true, usedAt := Some(now))];
      } else {
        assert codes == before[code := u];
      }
    }

    /** `updated.used = true; updated.usedAt = now; save()` on an existing record. */
    method MarkUsed(code: string, now: int)
      requires Valid() && code in codes
      modifies this
      ensures Valid()
      ensures codes == old(codes)[code := old(codes)[code].(used := true, usedAt := Some(now))]
    {
      codes := codes[code := codes[code].(used := true, usedAt := Some(now))];
    }
  }
}

=== FILE: invites.dfy ===
/**
 * routes/invites.js: single-use invite codes. A code is checked, optionally
 * claimed as a dry run (a check under another name), or consumed atomically
 * while still unused.
 */
module InvitesRoutes {
  import opened Wrappers
  import opened Text
  import opened JsValues
  import opened InviteCodeModel
  import opened PlayerModel

  /** `normalizeCode` on a string: trim, upper-case, then every 'O' becomes '0'. */
  function NormalizeText(s: string): (r: string)
    ensures 'O' !in r
    ensures |r| <= |s|
  {
    var t := ReplaceLetterO(ToUpper(Trim(s)));
    assert forall i :: 0 <= i < |t| ==> t[i] != 'O';
    t
  }

  /** `normalizeCode(raw)`: `String(raw || '')` then the string normalisation. */
  function NormalizeCode(raw: JsValue): (r: string)
    ensures 'O' !in r
    ensures raw.Str? ==> r == NormalizeText(raw.s)
  {
    NormalizeText(TextOrEmpty(raw))
  }

  /** Upper-casing and the O-to-zero swap turn no character into white space. */
  lemma NormalizeCharNotSpace(c: char)
    requires !IsSpace(c)
    ensures !IsSpace(UpperChar(c))
    ensures var u := UpperChar(c); !IsSpace(if u == 'O' then '0' else u)
  {
  }

  /** A normalised code has no white space at either end, no lower-case letter and no 'O'. */
  lemma NormalizedShape(s: string)
    ensures var t := NormalizeText(s);
      && (t == [] || (!IsSpace(t[0]) && !IsSpace(t[|t| - 1])))
      && forall i :: 0 <= i < |t| ==> UpperChar(t[i]) == t[i] && t[i] != 'O'
  {
    NormalizedEnds(s);
    NormalizedChars(s);
  }

  lemma NormalizedEnds(s: string)
    ensures var t := NormalizeText(s); t == [] || (!IsSpace(t[0]) && !IsSpace(t[|t| - 1]))
  {
    var r := Trim(s);
    var t := ReplaceLetterO(ToUpper(r));
    assert t == NormalizeText(s);
    if t != [] {
      NormalizeCharNotSpace(r[0]);
      NormalizeCharNotSpace(r[|r| - 1]);
    }
  }

  lemma NormalizedChars(s: string)
    ensures var t := NormalizeText(s); forall i :: 0 <= i < |t| ==> UpperChar(t[i]) == t[i] && t[i] != 'O'
  {
    var r := Trim(s);
    var u := ToUpper(r);
    var t := ReplaceLetterO(u);
    assert t == NormalizeText(s);
    forall i | 0 <= i < |t| ensures UpperChar(t[i]) == t[i] && t[i] != 'O' {
      assert u[i] == UpperChar(r[i]);
    }
  }

  /** A code already in normal form is left unchanged by normalising. */
  lemma NormalFormFixed(t: string)
    requires t == [] || (!IsSpace(t[0]) && !IsSpace(t[|t| - 1]))
    requires forall i :: 0 <= i < |t| ==> UpperChar(t[i]) == t[i] && t[i] != 'O'
    ensures NormalizeText(t) == t
  {
    TrimFixed(t);
    UpperFixed(t);
    ReplaceLetterOFixed(t);
  }

  /** Normalising is idempotent: a normalised code is left as it is. */
  lemma NormalizeTextIdempotent(s: string)
    ensures NormalizeText(NormalizeText(s)) == NormalizeText(s)
  {
    NormalizedShape(s);
    NormalFormFixed(NormalizeText(s));
  }

  /** The outcome of a check: 400, 404, 409 or ok. */
  datatype CheckReply = InvalidCode | NotFound | AlreadyUsed | CodeOk

  /** `!code || typeof code !== 'string'`. */
  predicate BadCodeArg(code: JsValue) {
    !Truthy(code) || !code.Str?
  }

  /**
   * `POST /check`: 400 for a missing or non-string code, 404 for a code no
   * record has, 409 for a used one, ok otherwise. It only reads.
   */
  function Check(codes: map<string, Invite>, code: JsValue): (r: CheckReply)
    ensures r == InvalidCode <==> BadCodeArg(code)
    ensures !BadCodeArg(code) ==>
      var norm := NormalizeText(code.s);
      && (r == NotFound <==> norm !in codes)
      && (r == AlreadyUsed <==> norm in codes && codes[norm].used)
      && (r == CodeOk <==> norm in codes && !codes[norm].used)
  {
    if BadCodeArg(code) then InvalidCode
    else
      var norm := NormalizeText(code.s);
      if norm !in codes then NotFound
      else if codes[norm].used then AlreadyUsed
      else CodeOk
  }

  /** `dryRun` is on for the query values '1' and 'true', or a body `dryRun: true`. */
  predicate DryRun(query: JsValue, bodyFlag: JsValue) {
    query == Str("1") || query == Str("true") || bodyFlag == Bool(true)
  }

  datatype ClaimReply = ClaimInvalid | ClaimNotFound | ClaimUsed | Claimed(dryRun: bool)

  /** How a dry run reports each check outcome. */
  function AsDryRun(c: CheckReply): (r: ClaimReply)
    ensures c == CodeOk <==> r == Claimed(true)
  {
    match c
    case InvalidCode => ClaimInvalid
    case NotFound => ClaimNotFound
    case AlreadyUsed => ClaimUsed
    case CodeOk => Claimed(true)
  }

  /**
   * `POST /claim`. A dry run answers exactly what the check answers and
   * writes nothing. Otherwise the code is consumed only if it exists and is
   * unused, recording the claiming player when `playerId` names one; that
   * player's `steps.inviteVerified` is then set. A failed claim is 404 for an
   * unknown code and 409 for a used one.
   */
  method Claim(invites: InviteCodes, players: Players, code: JsValue, playerId: IdArg,
               dryRun: bool, now: int) returns (reply: ClaimReply)
    requires invites.Valid() && players.Valid()
    modifies invites, players
    ensures invites.Valid() && players.Valid()
    ensures dryRun ==> reply == AsDryRun(Check(old(invites.codes), code))
    ensures BadCodeArg(code) ==> reply == ClaimInvalid
    ensures dryRun || BadCodeArg(code) || !reply.Claimed? ==>
      invites.codes == old(invites.codes) && players.docs == old(players.docs)
    ensures !dryRun && !BadCodeArg(code) ==>
      var norm := NormalizeText(code.s);
      var claimedBy := if playerId.Valid? && playerId.id in old(players.docs) then Some(playerId.id) else None;
      && (reply == ClaimNotFound <==> norm !in old(invites.codes))
      && (reply == ClaimUsed <==> norm in old(invites.codes) && old(invites.codes)[norm].used)
      && (reply == Claimed(false) <==> norm in old(invites.codes) && !old(invites.codes)[norm].used)
      && (reply.Claimed? ==>
            invites.codes == old(invites.codes)[norm := old(invites.codes)[norm].(used := true, claimedBy := claimedBy, claimedAt := Some(now))])
      && (reply.Claimed? && claimedBy.Some? ==>
            var p := old(players.docs)[claimedBy.value];
            players.docs == old(players.docs)[claimedBy.value := p.(steps := p.steps.(inviteVerified := true))])
      && (reply.Claimed? && claimedBy.None? ==> players.docs == old(players.docs))
  {
    if BadCodeArg(code) {
      return ClaimInvalid;
    }
    if dryRun {
      return AsDryRun(Check(invites.codes, code));
    }
    var norm := NormalizeText(code.s);
    var claimedBy := if playerId.Valid? && playerId.id in players.docs then Some(playerId.id) else None;
    var ok := invites.ConsumeUnused(norm, claimedBy, now);
    if !ok {
      return if norm !in invites.codes then ClaimNotFound else ClaimUsed;
    }
    if claimedBy.Some? {
      var p := players.docs[claimedBy.value];
      players.UpdateKeepingPhone(claimedBy.value, p.(steps := p.steps.(inviteVerified := true)));
    }
    reply := Claimed(false);
  }
}

=== FILE: journey.dfy ===
/**
 * routes/journey.js: starting a journey for a session, the PATCH that
 * collects an `updates` and a `steps` dictionary from the request body and
 * sets them on the player, and the read that hides the OTP hash.
 */
module JourneyRoutes {
  import opened Wrappers
  import opened Text
  import opened JsValues
  import opened PlayerModel
  import opened PlayerRoutes

  // ---------------------------------------------------------------- /init

  datatype InitReply =
    | SessionIdRequired
    | Initialised(playerId: nat, steps: Steps, name: string, joinOrder: int)
    /** The save of the name failed validation: the handler answers 500. */
    | InitFailed

  /** What `/init` answers, and the players and next id afterwards. */
  datatype InitOutcome = InitOutcome(reply: InitReply, docs: map<nat, Player>, nextId: nat)

  /** `typeof name === 'string' ? name.trim() : ''`. */
  function SafeName(name: JsValue): string {
    if name.Str? then Trim(name.s) else ""
  }

  /**
   * `POST /init`: the session id must be a non-empty string; the rest is
   * `InitWith` on the trimmed name.
   */
  function InitSpec(docs: map<nat, Player>, nextId: nat, name: JsValue, sid: JsValue, now: int): (r: InitOutcome)
  {
    if !(sid.Str? && sid.s != "") then InitOutcome(SessionIdRequired, docs, nextId)
    else InitWith(docs, nextId, SafeName(name), sid.s, now)
  }

  /** The player `Player.create({ sessionId, name, steps: { name: !!name } })` stores. */
  function Started(sid: string, name: string, now: int): Player {
    NewPlayer(Some(sid), now).(name := name, steps := NoSteps.(name := name != ""))
  }

  /**
   * The player with that session, or a new one holding the name; an
   * existing player takes the name only when it is non-empty and the name
   * step is not done yet, and is then saved, which fails, writing nothing,
   * when the stored document does not validate.
   */
  function InitWith(docs: map<nat, Player>, nextId: nat, safe: string, sid: string, now: int): (r: InitOutcome)
  {
    match SessionOf(docs, nextId, sid)
    case None =>
      var p := Started(sid, safe, now);
      InitOutcome(Initialised(nextId, p.steps, p.name, p.joinOrder), docs[nextId := p], nextId + 1)
    case Some(id) =>
      var d := docs[id];
      if safe != "" && !d.steps.name then
        var q := d.(name := safe, steps := d.steps.(name := true), updatedAt := now);
        if !Validates(d) then InitOutcome(InitFailed, docs, nextId)
        else InitOutcome(Initialised(id, q.steps, q.name, q.joinOrder), docs[id := q], nextId)
      else InitOutcome(Initialised(id, d.steps, d.name, d.joinOrder), docs, nextId)
  }

  method Init(players: Players, name: JsValue, sid: JsValue, now: int) returns (reply: InitReply)
    requires players.Valid()
    modifies players
    ensures players.Valid()
    ensures InitOutcome(reply, players.docs, players.nextId) == InitSpec(old(players.docs), old(players.nextId), name, sid, now)
  {
    if !(sid.Str? && sid.s != "") {
      return SessionIdRequired;
    }
    reply := InitAs(players, SafeName(name), sid.s, now);
  }

  /** The handler after its session check, on the trimmed name. */
  method InitAs(players: Players, safe: string, sid: string, now: int) returns (reply: InitReply)
    requires players.Valid()
    modifies players
    ensures players.Valid()
    ensures InitOutcome(reply, players.docs, players.nextId) == InitWith(old(players.docs), old(players.nextId), safe, sid, now)
  {
    var found := players.FindBySession(sid);
    if found.None? {
      var p := Started(sid, safe, now);
      var id := players.Create(p, now);
      assert players.docs[id] == p;
      return Initialised(id, p.steps, p.name, p.joinOrder);
    }
    var id := found.value;
    var d := players.docs[id];
    if safe != "" && !d.steps.name {
      var ok := players.SaveKeepingPhone(id, d.(name := safe, steps := d.steps.(name := true)), now);
      if !ok {
        return InitFailed;
      }
      var q := players.docs[id];
      reply := Initialised(id, q.steps, q.name, q.joinOrder);
    } else {
      reply := Initialised(id, d.steps, d.name, d.joinOrder);
    }
  }

  /**
   * A session seen for the first time gets a new player with the trimmed
   * name, the name step done exactly when that name is non-empty, every
   * other step undone and join rank 0.
   */
  lemma InitCreates(docs: map<nat, Player>, nextId: nat, safe: string, sid: string, now: int)
    requires SessionOf(docs, nextId, sid).None?
    ensures var r := InitWith(docs, nextId, safe, sid, now);
      && r.reply.Initialised? && r.reply.playerId == nextId && r.nextId == nextId + 1
      && r.docs == docs[nextId := r.docs[nextId]]
      && r.docs[nextId].sessionId == Some(sid) && r.docs[nextId].name == safe
      && r.docs[nextId].steps == NoSteps.(name := safe != "")
      && r.reply.name == safe && r.reply.joinOrder == 0
  {
  }

  /**
   * An existing player's name changes only while its name step is not done
   * and the new name is non-empty; nothing else about it or any other
   * player changes, and the answer reports the stored values. The save of
   * the name fails, with a 500 and nothing written, exactly when the stored
   * document does not validate.
   */
  lemma InitNameOnlyWhileUnset(docs: map<nat, Player>, nextId: nat, safe: string, sid: string, now: int)
    requires SessionOf(docs, nextId, sid).Some?
    ensures var id := SessionOf(docs, nextId, sid).value;
      var r := InitWith(docs, nextId, safe, sid, now);
      && r.nextId == nextId
      && r.docs.Keys == docs.Keys && (forall j :: j in docs && j != id ==> r.docs[j] == docs[j])
      && (docs[id].steps.name || safe == "" ==> r.docs == docs)
      && (r.reply == InitFailed <==> !docs[id].steps.name && safe != "" && !Validates(docs[id]))
      && (r.reply == InitFailed ==> r.docs == docs)
      && (!docs[id].steps.name && safe != "" && Validates(docs[id]) ==>
            r.docs[id] == docs[id].(name := safe, steps := docs[id].steps.(name := true), updatedAt := now))
      && (r.reply != InitFailed ==>
            && r.reply.Initialised? && r.reply.playerId == id
            && r.reply.name == r.docs[id].name && r.reply.steps == r.docs[id].steps
            && r.reply.joinOrder == docs[id].joinOrder)
  {
  }

  /** Starting the same journey twice changes nothing the second time and names the same player. */
  lemma InitIdempotent(docs: map<nat, Player>, nextId: nat, safe: string, sid: string, now: int, later: int)
    requires forall j :: j in docs ==> j < nextId
    ensures var r := InitWith(docs, nextId, safe, sid, now);
      var again := InitWith(r.docs, r.nextId, safe, sid, later);
      && again.reply == r.reply && again.docs == r.docs && again.nextId == r.nextId
  {
    var r := InitWith(docs, nextId, safe, sid, now);
    match SessionOf(docs, nextId, sid)
    case None =>
      SessionOfBeyond(docs, nextId, sid, nextId, r.docs[nextId]);
    case Some(id) =>
      SessionOfUpdate(docs, nextId, sid, id, r.docs[id]);
  }

  // ------------------------------------------------------------ PATCH /:id

  /** The roles the journey accepts; the empty role of the schema is not among them. */
  const ACCEPTED_ROLES: set<string> := {"artist", "helper", "manager", "business", "appreciator", "lover"}

  /** The `steps` dictionary: `Some(b)` for each flag the body sets to `b`. */
  datatype StepUpdate = StepUpdate(
    role: Option<bool>, roleMessage: Option<bool>, postLevel2Q: Option<bool>, location: Option<bool>,
    commitmentAgreed: Option<bool>, subscriptionConfirmed: Option<bool>, consent: Option<bool>,
    waitlist: Option<bool>, phone: Option<bool>, name: Option<bool>, inviteVerified: Option<bool>)

  const NoStepUpdate := StepUpdate(None, None, None, None, None, None, None, None, None, None, None)

  /** The `updates` dictionary, with the `steps` dictionary beside it. */
  datatype JourneyUpdate = JourneyUpdate(
    role: Option<string>, artistType: Option<ArtistType>, location: Option<string>,
    helperWork: Option<seq<Option<string>>>, helperCapacity: Option<string>, helperStage: Option<string>,
    managerRoleText: Option<string>, appreciatorEngagement: Option<string>, eventFrequency: Option<string>,
    attendance: Option<string>, consent: Option<Consent>, phone: Option<string>, name: Option<string>,
    inviteVerified: Option<bool>, inviteCode: Option<string>, steps: StepUpdate)

  const NoUpdate := JourneyUpdate(None, None, None, None, None, None, None, None, None, None, None, None, None,
                                  None, None, NoStepUpdate)

  /** Every accepted role satisfies the schema's enum. */
  lemma AcceptedRolesAreSchemaRoles(r: string)
    requires r in ACCEPTED_ROLES
    ensures IsSchemaRole(r) && r != ""
  {
  }

  /** `role.toLowerCase().trim()` when it is one of the accepted roles. */
  function RoleOf(b: map<string, JsValue>): (r: Option<string>)
    ensures r.Some? ==> r.value in ACCEPTED_ROLES
    ensures r.Some? <==> Field(b, "role").Str? && Trim(ToLower(Field(b, "role").s)) in ACCEPTED_ROLES
  {
    var v := Field(b, "role");
    if v.Str? && Trim(ToLower(v.s)) in ACCEPTED_ROLES then Some(Trim(ToLower(v.s))) else None
  }

  /** `inviteCode.toUpperCase().trim().slice(0, 4)`. */
  function InviteCodeOf(s: string): (r: string)
    ensures |r| <= 4 && |r| <= |s|
    ensures NoLower(r)
  {
    var u := ToUpper(s);
    var t := Trim(u);
    UpperHasNoLower(s);
    NoLowerTrim(u);
    var r := TakeFirst(t, 4);
    assert NoLower(r) by {
      forall i | 0 <= i < |r| ensures !('a' <= r[i] <= 'z') {
        assert r[i] == t[i];
      }
    }
    r
  }

  /** `Array.isArray(helperWork)` with an element that fails the `String` cast. */
  predicate HelperWorkUncastable(b: map<string, JsValue>) {
    var v := Field(b, "helperWork");
    v.Arr? && exists i :: 0 <= i < |v.elems| && CastString(v.elems[i]).NotCastable?
  }

  /**
   * `Array.isArray(helperWork)`: the elements as the schema's `[String]`
   * stores them, each its `String` cast (`null` staying `null`); absent when
   * no array is sent or an element fails the cast.
   */
  function HelperWorkOf(b: map<string, JsValue>): (r: Option<seq<Option<string>>>)
    ensures r.Some? <==> Field(b, "helperWork").Arr? && !HelperWorkUncastable(b)
    ensures r.Some? ==> |r.value| == |Field(b, "helperWork").elems|
    ensures r.Some? ==> forall i :: 0 <= i < |r.value| ==>
      CastString(Field(b, "helperWork").elems[i]) == (if r.value[i].Some? then CastText(r.value[i].value) else CastNull)
  {
    var v := Field(b, "helperWork");
    if v.Arr? && !HelperWorkUncastable(b) then
      Some(seq(|v.elems|, i requires 0 <= i < |v.elems| =>
        var c := CastString(v.elems[i]);
        if c.CastText? then Some(c.text) else None))
    else None
  }

  /** The body fails a `String` cast when the document is set: the artist type's texts or a helper-work element. */
  predicate UpdateUncastable(b: map<string, JsValue>) {
    ArtistTypeUncastable(b) || HelperWorkUncastable(b)
  }

  /** Consent as the handler stores it: agreed `b`, stamped with `now` only when `b`. */
  function ConsentAt(b: bool, now: int): Consent {
    Consent(b, if b then Some(now) else None)
  }

  /**
   * The dictionaries the body produces, field by field. `consentAgreed` is
   * handled after `commitmentAgreed` and overwrites what it shares with it.
   */
  function UpdateOf(b: map<string, JsValue>, now: int): (u: JourneyUpdate)
  {
    var role := RoleOf(b);
    var helperWork := HelperWorkOf(b);
    var commitment := Flag(b, "commitmentAgreed");
    var agreed := Flag(b, "consentAgreed");
    var phone := SentPhone(b, "phoneNumber");
    var name := TrimmedText(b, "name");
    var invite := Field(b, "inviteCode");
    JourneyUpdate(
      role, ArtistTypeOf(b), TrimmedText(b, "location"), helperWork,
      TrimmedText(b, "helperCapacity"), TrimmedText(b, "helperStage"), TrimmedText(b, "managerRoleText"),
      TrimmedText(b, "appreciatorEngagement"), TrimmedText(b, "eventFrequency"), TrimmedText(b, "attendance"),
      if agreed.Some? then Some(ConsentAt(agreed.value, now))
      else if commitment.Some? then Some(ConsentAt(commitment.value, now)) else None,
      phone, name, Flag(b, "inviteVerified"),
      if invite.Str? then Some(InviteCodeOf(invite.s)) else None,
      StepUpdate(
        if role.Some? then Some(true) else None,
        if Field(b, "roleMessageDone") == Bool(true) then Some(true) else None,
        if ArtistTypeSent(b) || Field(b, "helperWork").Arr? || Field(b, "helperStage").Str? ||
           Field(b, "managerRoleText").Str? || Field(b, "appreciatorEngagement").Str? ||
           Field(b, "eventFrequency").Str? || Field(b, "attendance").Str? then Some(true) else None,
        if Field(b, "location").Str? then Some(true) else None,
        commitment,
        Flag(b, "subscriptionConfirmed"),
        if agreed.Some? then Some(true) else commitment,
        if agreed == Some(true) || commitment == Some(true) then Some(true) else None,
        if phone.Some? then Some(true) else None,
        if name.Some? then Some(name.value != "") else None,
        Flag(b, "inviteVerified")))
  }

  /**
   * The handler's accumulation of `updates` and `steps`, one body key after
   * the other in the order of the source.
   */
  method BuildUpdate(b: map<string, JsValue>, now: int) returns (u: JourneyUpdate)
    ensures u == UpdateOf(b, now)
  {
    var steps;
    u, steps := Profile(b, now);
    u, steps := LevelTwoAnswers(b, now, u, steps);
    u, steps := Agreements(b, now, u, steps);
    u, steps := Contact(b, now, u, steps);
    u := u.(steps := steps);
  }

  /** The `role`, `roleMessageDone`, `artistType`, `location`, `helperWork` and `helperCapacity` keys. */
  method Profile(b: map<string, JsValue>, now: int) returns (u: JourneyUpdate, steps: StepUpdate)
    ensures var w := UpdateOf(b, now);
      u == NoUpdate.(role := w.role, artistType := w.artistType, location := w.location,
                     helperWork := w.helperWork, helperCapacity := w.helperCapacity)
    ensures var w := UpdateOf(b, now);
      steps == NoStepUpdate.(role := w.steps.role, roleMessage := w.steps.roleMessage, location := w.steps.location,
                             postLevel2Q := if ArtistTypeSent(b) || Field(b, "helperWork").Arr? then Some(true) else None)
  {
    u := NoUpdate;
    steps := NoStepUpdate;
    var role := RoleOf(b);
    if role.Some? {
      u := u.(role := role);
      steps := steps.(role := Some(true));
    }
    if Field(b, "roleMessageDone") == Bool(true) {
      steps := steps.(roleMessage := Some(true));
    }
    if ArtistTypeSent(b) {
      u := u.(artistType := ArtistTypeOf(b));
      steps := steps.(postLevel2Q := Some(true));
    }
    if Field(b, "location").Str? {
      u := u.(location := TrimmedText(b, "location"));
      steps := steps.(location := Some(true));
    }
    if Field(b, "helperWork").Arr? {
      u := u.(helperWork := HelperWorkOf(b));
      steps := steps.(postLevel2Q := Some(true));
    }
    u := u.(helperCapacity := TrimmedText(b, "helperCapacity"));
  }

  /** The answers after level two, each of which also marks the `postLevel2Q` step. */
  method LevelTwoAnswers(b: map<string, JsValue>, now: int, u0: JourneyUpdate, steps0: StepUpdate)
    returns (u: JourneyUpdate, steps: StepUpdate)
    requires u0.helperStage.None? && u0.managerRoleText.None? && u0.appreciatorEngagement.None?
    requires u0.eventFrequency.None? && u0.attendance.None?
    requires steps0.postLevel2Q.None? || steps0.postLevel2Q == Some(true)
    ensures var w := UpdateOf(b, now);
      u == u0.(helperStage := w.helperStage, managerRoleText := w.managerRoleText,
               appreciatorEngagement := w.appreciatorEngagement, eventFrequency := w.eventFrequency,
               attendance := w.attendance)
    ensures steps == steps0.(postLevel2Q :=
      if steps0.postLevel2Q.Some? || Field(b, "helperStage").Str? || Field(b, "managerRoleText").Str? ||
         Field(b, "appreciatorEngagement").Str? || Field(b, "eventFrequency").Str? || Field(b, "attendance").Str?
      then Some(true) else None)
  {
    u, steps := u0, steps0;
    if Field(b, "helperStage").Str? {
      u := u.(helperStage := TrimmedText(b, "helperStage"));
      steps := steps.(postLevel2Q := Some(true));
    }
    if Field(b, "managerRoleText").Str? {
      u := u.(managerRoleText := TrimmedText(b, "managerRoleText"));
      steps := steps.(postLevel2Q := Some(true));
    }
    if Field(b, "appreciatorEngagement").Str? {
      u := u.(appreciatorEngagement := TrimmedText(b, "appreciatorEngagement"));
      steps := steps.(postLevel2Q := Some(true));
    }
    if Field(b, "eventFrequency").Str? {
      u := u.(eventFrequency := TrimmedText(b, "eventFrequency"));
      steps := steps.(postLevel2Q := Some(true));
    }
    if Field(b, "attendance").Str? {
      u := u.(attendance := TrimmedText(b, "attendance"));
      steps := steps.(postLevel2Q := Some(true));
    }
  }

  /** The `phoneNumber`, `name`, `inviteVerified` and `inviteCode` keys. */
  method Contact(b: map<string, JsValue>, now: int, u0: JourneyUpdate, steps0: StepUpdate)
    returns (u: JourneyUpdate, steps: StepUpdate)
    requires u0.phone.None? && u0.name.None? && u0.inviteVerified.None? && u0.inviteCode.None?
    requires steps0.phone.None? && steps0.name.None? && steps0.inviteVerified.None?
    ensures var w := UpdateOf(b, now);
      u == u0.(phone := w.phone, name := w.name, inviteVerified := w.inviteVerified, inviteCode := w.inviteCode)
    ensures var w := UpdateOf(b, now);
      steps == steps0.(phone := w.steps.phone, name := w.steps.name, inviteVerified := w.steps.inviteVerified)
  {
    u, steps := u0, steps0;
    var phone := SentPhone(b, "phoneNumber");
    if phone.Some? {
      u := u.(phone := phone);
      steps := steps.(phone := Some(true));
    }
    var name := TrimmedText(b, "name");
    if name.Some? {
      u := u.(name := name);
      steps := steps.(name := Some(name.value != ""));
    }
    if Field(b, "inviteVerified").Bool? {
      u := u.(inviteVerified := Some(Field(b, "inviteVerified").b));
      steps := steps.(inviteVerified := Some(Field(b, "inviteVerified").b));
    }
    if Field(b, "inviteCode").Str? {
      u := u.(inviteCode := Some(InviteCodeOf(Field(b, "inviteCode").s)));
    }
  }

  /** The `commitmentAgreed`, `subscriptionConfirmed` and `consentAgreed` keys, in that order. */
  method Agreements(b: map<string, JsValue>, now: int, u0: JourneyUpdate, steps0: StepUpdate)
    returns (u: JourneyUpdate, steps: StepUpdate)
    requires u0.consent.None? && steps0.commitmentAgreed.None? && steps0.subscriptionConfirmed.None?
    requires steps0.consent.None? && steps0.waitlist.None?
    ensures u == u0.(consent := UpdateOf(b, now).consent)
    ensures steps == steps0.(commitmentAgreed := Flag(b, "commitmentAgreed"),
                             subscriptionConfirmed := Flag(b, "subscriptionConfirmed"),
                             consent := UpdateOf(b, now).steps.consent, waitlist := UpdateOf(b, now).steps.waitlist)
  {
    u, steps := u0, steps0;
    var commitment := Field(b, "commitmentAgreed");
    if commitment.Bool? {
      steps := steps.(commitmentAgreed := Some(commitment.b));
      u := u.(consent := Some(ConsentAt(commitment.b, now)));
      steps := steps.(consent := Some(commitment.b));
      if commitment.b {
        steps := steps.(waitlist := Some(true));
      }
    }
    if Field(b, "subscriptionConfirmed").Bool? {
      steps := steps.(subscriptionConfirmed := Some(Field(b, "subscriptionConfirmed").b));
    }
    var agreed := Field(b, "consentAgreed");
    if agreed.Bool? {
      u := u.(consent := Some(ConsentAt(agreed.b, now)));
      steps := steps.(consent := Some(true));
      if agreed.b {
        steps := steps.(waitlist := Some(true));
      }
    }
  }

  /** The step flags after `doc.steps[k] = steps[k]` for every key of the dictionary. */
  function AppliedSteps(s: Steps, t: StepUpdate): Steps {
    s.(role := t.role.GetOr(s.role), roleMessage := t.roleMessage.GetOr(s.roleMessage),
       postLevel2Q := t.postLevel2Q.GetOr(s.postLevel2Q), location := t.location.GetOr(s.location),
       commitmentAgreed := t.commitmentAgreed.GetOr(s.commitmentAgreed),
       subscriptionConfirmed := t.subscriptionConfirmed.GetOr(s.subscriptionConfirmed),
       consent := t.consent.GetOr(s.consent), waitlist := t.waitlist.GetOr(s.waitlist),
       phone := t.phone.GetOr(s.phone), name := t.name.GetOr(s.name),
       inviteVerified := t.inviteVerified.GetOr(s.inviteVerified))
  }

  /**
   * The player after `doc.set(k, updates[k])` for every key and the steps
   * applied; the keys are distinct, so their order does not matter.
   */
  function Applied(p: Player, u: JourneyUpdate): Player {
    p.(role := u.role.GetOr(p.role), artistType := u.artistType.GetOr(p.artistType),
       location := u.location.GetOr(p.location), helperWork := u.helperWork.GetOr(p.helperWork),
       helperCapacity := u.helperCapacity.GetOr(p.helperCapacity), helperStage := u.helperStage.GetOr(p.helperStage),
       managerRoleText := u.managerRoleText.GetOr(p.managerRoleText),
       appreciatorEngagement := u.appreciatorEngagement.GetOr(p.appreciatorEngagement),
       eventFrequency := u.eventFrequency.GetOr(p.eventFrequency), attendance := u.attendance.GetOr(p.attendance),
       consent := u.consent.GetOr(p.consent),
       phone := if u.phone.Some? then p.phone.(number := u.phone) else p.phone,
       name := u.name.GetOr(p.name), inviteVerified := u.inviteVerified.GetOr(p.inviteVerified),
       inviteCode := u.inviteCode.GetOr(p.inviteCode), steps := AppliedSteps(p.steps, u.steps))
  }

  datatype JourneyReply =
    | InvalidId
    | PlayerMissing
    /**
     * The save failed, on a value that does not pass its cast, on a
     * document that does not validate or on the unique phone index: the
     * handler answers 500.
     */
    | SaveFailed
    | Saved(steps: Steps)

  /** What the PATCH answers, and the players afterwards. */
  datatype JourneyOutcome = JourneyOutcome(reply: JourneyReply, docs: map<nat, Player>)

  /**
   * `PATCH /:id`: a malformed id is refused and an unknown player is not
   * found; otherwise the update is applied and the document saved, which
   * refreshes `updatedAt` and fails, writing nothing, on a value that does
   * not pass its cast, on an updated document that does not validate (a
   * role off the schema's enum that no accepted role replaces) or on a
   * phone number another player holds.
   */
  function JourneyPatchSpec(docs: map<nat, Player>, arg: IdArg, b: map<string, JsValue>, now: int): (r: JourneyOutcome)
    ensures !r.reply.Saved? ==> r.docs == docs
    ensures r.reply.Saved? ==> arg.Valid? && arg.id in docs && r.docs.Keys == docs.Keys
    ensures r.reply.Saved? ==> forall j :: j in docs && j != arg.id ==> r.docs[j] == docs[j]
  {
    if !arg.Valid? then JourneyOutcome(InvalidId, docs)
    else if arg.id !in docs then JourneyOutcome(PlayerMissing, docs)
    else if UpdateUncastable(b) then JourneyOutcome(SaveFailed, docs)
    else SaveApplied(docs, arg.id, UpdateOf(b, now), now)
  }

  /** `doc.save()` of the updated player. */
  function SaveApplied(docs: map<nat, Player>, id: nat, u: JourneyUpdate, now: int): (r: JourneyOutcome)
    requires id in docs
  {
    var q := Applied(docs[id], u);
    if Validates(q) && PhoneFreeFor(docs, id, q) then JourneyOutcome(Saved(q.steps), docs[id := q.(updatedAt := now)])
    else JourneyOutcome(SaveFailed, docs)
  }

  method JourneyPatch(players: Players, arg: IdArg, b: map<string, JsValue>, now: int) returns (reply: JourneyReply)
    requires players.Valid()
    modifies players
    ensures players.Valid() && players.nextId == old(players.nextId)
    ensures JourneyOutcome(reply, players.docs) == JourneyPatchSpec(old(players.docs), arg, b, now)
  {
    if !arg.Valid? {
      return InvalidId;
    }
    var u := BuildUpdate(b, now);
    if arg.id !in players.docs {
      return PlayerMissing;
    }
    if UpdateUncastable(b) {
      return SaveFailed;
    }
    reply := SaveUpdate(players, arg.id, u, now);
  }

  /** Applies the dictionaries to the loaded document and saves it. */
  method SaveUpdate(players: Players, id: nat, u: JourneyUpdate, now: int) returns (reply: JourneyReply)
    requires players.Valid() && id in players.docs
    modifies players
    ensures players.Valid() && players.nextId == old(players.nextId)
    ensures JourneyOutcome(reply, players.docs) == SaveApplied(old(players.docs), id, u, now)
  {
    var q := Applied(players.docs[id], u);
    var ok := players.Save(id, q, now);
    reply := if ok then Saved(q.steps) else SaveFailed;
  }

  /**
   * A role is kept only when, lowercased and trimmed, it is an accepted
   * one (so the schema enum holds); otherwise role and role step stay. The
   * updated document validates exactly when an accepted role is sent or
   * the stored role already validated.
   */
  lemma RoleOnlyAccepted(p: Player, b: map<string, JsValue>, now: int)
    ensures var q := Applied(p, UpdateOf(b, now));
      && (RoleOf(b).Some? ==> q.role == RoleOf(b).value && q.role in ACCEPTED_ROLES && q.steps.role)
      && (RoleOf(b).None? ==> q.role == p.role && q.steps.role == p.steps.role)
      && (Validates(q) <==> RoleOf(b).Some? || Validates(p))
  {
    if RoleOf(b).Some? {
      AcceptedRolesAreSchemaRoles(RoleOf(b).value);
    }
  }

  /**
   * `commitmentAgreed: c` without `consentAgreed` sets the commitment step,
   * consent and the consent step to `c`, and the waitlist step only when
   * `c` is true.
   */
  lemma CommitmentAgreed(p: Player, b: map<string, JsValue>, now: int, c: bool)
    requires Field(b, "commitmentAgreed") == Bool(c) && !Field(b, "consentAgreed").Bool?
    ensures var q := Applied(p, UpdateOf(b, now));
      && q.steps.commitmentAgreed == c && q.consent == ConsentAt(c, now) && q.steps.consent == c
      && q.steps.waitlist == (p.steps.waitlist || c)
  {
  }

  /**
   * `consentAgreed: a` always sets the consent step, and its consent wins
   * over a `commitmentAgreed` sent with it; the waitlist step is set when
   * either of them is true.
   */
  lemma ConsentAgreedWins(p: Player, b: map<string, JsValue>, now: int, a: bool)
    requires Field(b, "consentAgreed") == Bool(a)
    ensures var q := Applied(p, UpdateOf(b, now));
      && q.consent == ConsentAt(a, now) && q.steps.consent
      && q.steps.waitlist == (p.steps.waitlist || a || Field(b, "commitmentAgreed") == Bool(true))
      && q.steps.commitmentAgreed == (if Field(b, "commitmentAgreed").Bool? then Field(b, "commitmentAgreed").b
                                      else p.steps.commitmentAgreed)
  {
  }

  /** A sent invite code is stored upper-cased and at most four characters long. */
  lemma InviteCodeStored(p: Player, b: map<string, JsValue>, now: int)
    requires Field(b, "inviteCode").Str?
    ensures var q := Applied(p, UpdateOf(b, now));
      && q.inviteCode == InviteCodeOf(Field(b, "inviteCode").s) && |q.inviteCode| <= 4
      && NoLower(q.inviteCode)
  {
  }

  /**
   * Only keys the body sends are written: session, join rank, creator
   * code, membership, invite gate, OTP state, verification and creation
   * time never change, and each field whose key is not sent keeps its value.
   */
  lemma PatchWritesOnlySentKeys(p: Player, b: map<string, JsValue>, now: int)
    ensures var q := Applied(p, UpdateOf(b, now));
      && q.sessionId == p.sessionId && q.joinOrder == p.joinOrder && q.creator == p.creator
      && q.membership == p.membership && q.invite == p.invite && q.otp == p.otp && q.createdAt == p.createdAt
      && q.phone.verified == p.phone.verified && q.phone.verifiedAt == p.phone.verifiedAt
      && q.steps.phoneVerified == p.steps.phoneVerified && q.steps.inviteLocked == p.steps.inviteLocked
      && q.steps.creatorCodeAssigned == p.steps.creatorCodeAssigned
      && (!Field(b, "name").Str? ==> q.name == p.name && q.steps.name == p.steps.name)
      && (!Field(b, "location").Str? ==> q.location == p.location && q.steps.location == p.steps.location)
      && (!Field(b, "phoneNumber").Str? ==> q.phone == p.phone && q.steps.phone == p.steps.phone)
      && (!Field(b, "inviteCode").Str? ==> q.inviteCode == p.inviteCode)
      && (!Field(b, "inviteVerified").Bool? ==> q.inviteVerified == p.inviteVerified && q.steps.inviteVerified == p.steps.inviteVerified)
      && (!Field(b, "commitmentAgreed").Bool? && !Field(b, "consentAgreed").Bool? ==>
            q.consent == p.consent && q.steps.consent == p.steps.consent && q.steps.waitlist == p.steps.waitlist)
  {
  }

  /** A sent name is stored trimmed, and the name step records whether it is non-empty. */
  lemma NameStep(p: Player, b: map<string, JsValue>, now: int)
    requires Field(b, "name").Str?
    ensures var q := Applied(p, UpdateOf(b, now));
      q.name == Trim(Field(b, "name").s) && q.steps.name == (q.name != "")
  {
  }

  /**
   * The save fails only on a value that does not pass its cast, on an
   * updated document that does not validate (and always on either) or on a
   * phone number the body sends that another player holds, and then nothing
   * changes; a refused id or an unknown player changes nothing either.
   */
  lemma JourneyPatchFailures(docs: map<nat, Player>, arg: IdArg, b: map<string, JsValue>, now: int)
    requires PhoneUnique(docs)
    ensures var r := JourneyPatchSpec(docs, arg, b, now);
      && (r.reply in {InvalidId, PlayerMissing, SaveFailed} ==> r.docs == docs)
      && (r.reply == InvalidId <==> !arg.Valid?)
      && (r.reply == PlayerMissing <==> arg.Valid? && arg.id !in docs)
      && (r.reply == SaveFailed ==>
            && arg.Valid? && arg.id in docs
            && (UpdateUncastable(b) || !Validates(Applied(docs[arg.id], UpdateOf(b, now))) || UpdateOf(b, now).phone.Some?))
      && (arg.Valid? && arg.id in docs && UpdateUncastable(b) ==> r.reply == SaveFailed)
      && (arg.Valid? && arg.id in docs && !Validates(Applied(docs[arg.id], UpdateOf(b, now))) ==> r.reply == SaveFailed)
  {
    if arg.Valid? && arg.id in docs {
      var u := UpdateOf(b, now);
      if u.phone.None? {
        assert PhoneKey(Applied(docs[arg.id], u)) == PhoneKey(docs[arg.id]);
        SamePhoneIsFree(docs, arg.id, Applied(docs[arg.id], u));
      }
    }
  }

  /**
   * A helper-work array that is saved is stored element for element as the
   * `String` casts of what was sent, `null` staying `null`; one element that
   * fails its cast fails the whole save.
   */
  lemma JourneyHelperWorkCast(docs: map<nat, Player>, id: nat, b: map<string, JsValue>, now: int)
    requires id in docs && Field(b, "helperWork").Arr?
    ensures var r := JourneyPatchSpec(docs, Valid(id), b, now);
      var sent := Field(b, "helperWork").elems;
      && (HelperWorkUncastable(b) ==> r.reply == SaveFailed && r.docs == docs)
      && (r.reply.Saved? ==>
            && |r.docs[id].helperWork| == |sent|
            && forall i :: 0 <= i < |sent| ==>
                 CastString(sent[i]) == (if r.docs[id].helperWork[i].Some? then CastText(r.docs[id].helperWork[i].value) else CastNull))
  {
    if !UpdateUncastable(b) {
      var u := UpdateOf(b, now);
      assert u.helperWork == HelperWorkOf(b);
      assert Applied(docs[id], u).helperWork == HelperWorkOf(b).value;
    }
  }

  /** A successful save stores the updated player, stamped with `now`, and answers its steps. */
  lemma JourneyPatchSaves(docs: map<nat, Player>, id: nat, b: map<string, JsValue>, now: int)
    requires id in docs
    ensures var r := JourneyPatchSpec(docs, Valid(id), b, now);
      r.reply.Saved? ==>
        && r.docs == docs[id := Applied(docs[id], UpdateOf(b, now)).(updatedAt := now)]
        && r.reply.steps == r.docs[id].steps
  {
  }

  // -------------------------------------------------------------- GET /:id

  datatype ReadReply = ReadInvalidId | ReadNotFound | Document(player: Player)

  /**
   * `GET /:id`: the stored player with its OTP hash removed (an absent hash
   * reads as the schema default '').
   */
  function Read(docs: map<nat, Player>, arg: IdArg): (r: ReadReply)
    ensures r == ReadInvalidId <==> !arg.Valid?
    ensures r == ReadNotFound <==> arg.Valid? && arg.id !in docs
    ensures r.Document? ==> r.player.otp.codeHash == ""
    ensures r.Document? ==>
      r.player.(otp := docs[arg.id].otp) == docs[arg.id] && r.player.otp.expiresAt == docs[arg.id].otp.expiresAt
  {
    if !arg.Valid? then ReadInvalidId
    else if arg.id !in docs then ReadNotFound
    else
      var d := docs[arg.id];
      Document(d.(otp := d.otp.(codeHash := "")))
  }
}

=== FILE: js_value.dfy ===
/**
 * JSON request values and the JavaScript coercions the handlers apply to them:
 * truthiness, `typeof`, property access, `String(v)` and `Number(v)`.
 */
module JsValues {
  import opened Wrappers
  import opened Text

  /** A value parsed from a JSON body or query (numbers restricted to integers). */
  datatype JsValue =
    | Undefined
    | Null
    | Bool(b: bool)
    | Num(n: int)
    | Str(s: string)
    | Arr(elems: seq<JsValue>)
    | Obj(fields: map<string, JsValue>)

  /** JavaScript truthiness: `undefined`, `null`, `false`, `0` and `''` are falsy. */
  function Truthy(v: JsValue): (r: bool)
    ensures !r <==> v == Undefined || v == Null || v == Bool(false) || v == Num(0) || v == Str("")
  {
    match v
    case Undefined => false
    case Null => false
    case Bool(b) => b
    case Num(n) => n != 0
    case Str(s) => s != ""
    case Arr(_) => true
    case Obj(_) => true
  }

  /** `typeof v === 'object'` (which includes `null` and arrays). */
  predicate IsObjectType(v: JsValue) {
    v.Null? || v.Arr? || v.Obj?
  }

  /** `v[key]` for a plain key: the field of an object, otherwise `undefined`. */
  function Get(v: JsValue, key: string): (r: JsValue)
    ensures !v.Obj? ==> r == Undefined
    ensures v.Obj? && key !in v.fields ==> r == Undefined
  {
    if v.Obj? && key in v.fields then v.fields[key] else Undefined
  }

  /** `a || b` on values. */
  function Or(a: JsValue, b: JsValue): (r: JsValue)
    ensures Truthy(r) <==> Truthy(a) || Truthy(b)
  {
    if Truthy(a) then a else b
  }

  /** `String(v)`. */
  function ToStr(v: JsValue): (r: string)
    ensures v.Str? ==> r == v.s
    ensures Truthy(v) && !v.Arr? ==> r != ""
    decreases v, 1
  {
    match v
    case Undefined => "undefined"
    case Null => "null"
    case Bool(b) => if b then "true" else "false"
    case Num(n) => IntToString(n)
    case Str(s) => s
    case Arr(es) => Join(es)
    case Obj(_) => "[object Object]"
  }

  /** `String(v || '')`: the string itself, and '' for any falsy value. */
  function TextOrEmpty(v: JsValue): (r: string)
    ensures v.Str? ==> r == v.s
    ensures !Truthy(v) ==> r == ""
  {
    ToStr(Or(v, Str("")))
  }

  /** What a value cast to a `String` schema path is stored as, or that the cast fails. */
  datatype StringCast = CastText(text: string) | CastNull | NotCastable

  /**
   * Mongoose's cast to a `String` path: `null` and `undefined` stay `null`,
   * a string is kept, a number or a boolean becomes `String(v)`, an object
   * with a non-empty string `_id` becomes that id, and any other object or
   * an array fails with a cast error.
   */
  function CastString(v: JsValue): (r: StringCast)
    ensures r.CastNull? <==> v.Null? || v.Undefined?
    ensures r.NotCastable? <==> v.Arr? || (v.Obj? && !Truthy(Get(v, "_id"))) || (v.Obj? && !Get(v, "_id").Str?)
    ensures r.CastText? && !v.Obj? ==> r.text == ToStr(v)
    ensures r.CastText? && v.Obj? ==> r.text == Get(v, "_id").s
  {
    match v
    case Undefined => CastNull
    case Null => CastNull
    case Bool(b) => CastText(if b then "true" else "false")
    case Num(n) => CastText(IntToString(n))
    case Str(s) => CastText(s)
    case Arr(_) => NotCastable
    case Obj(f) => if "_id" in f && f["_id"].Str? && f["_id"].s != "" then CastText(f["_id"].s) else NotCastable
  }

  /** `Array.prototype.join(',')`: `null` and `undefined` elements print as empty. */
  function Join(es: seq<JsValue>): string
    decreases es, 0
  {
    if es == [] then ""
    else
      var head := if es[0].Undefined? || es[0].Null? then "" else ToStr(es[0]);
      if |es| == 1 then head else head + "," + Join(es[1..])
  }

  /**
   * `Number(s)` for a string: surrounding white space is ignored, the empty
   * string is 0, an optionally signed run of decimal digits is its value, and
   * anything else is NaN (`None`).
   */
  function StringToNumber(s: string): (r: Option<int>)
    ensures AllDigits(s) && s != [] ==> r == Some(DecimalValue(s))
  {
    var t := Trim(s);
    assert AllDigits(s) && s != [] ==> t == s by {
      if AllDigits(s) && s != [] { DigitsAreNotSpace(s); }
    }
    if t == [] then Some(0)
    else if t[0] == '-' && |t| > 1 && AllDigits(t[1..]) then Some(-(DecimalValue(t[1..]) as int))
    else if t[0] == '+' && |t| > 1 && AllDigits(t[1..]) then Some(DecimalValue(t[1..]))
    else if AllDigits(t) then Some(DecimalValue(t))
    else None
  }

  lemma DigitsAreNotSpace(s: string)
    requires AllDigits(s) && s != []
    ensures Trim(s) == s
  {
    assert !IsSpace(s[0]) && !IsSpace(s[|s| - 1]);
    assert TrimStart(s) == s;
  }

  /** `Number(v)`; `None` is NaN. */
  function ToNumber(v: JsValue): (r: Option<int>)
    ensures v.Num? ==> r == Some(v.n)
    ensures v.Undefined? || v.Obj? ==> r == None
    ensures v.Null? ==> r == Some(0)
  {
    match v
    case Undefined => None
    case Null => Some(0)
    case Bool(b) => Some(if b then 1 else 0)
    case Num(n) => Some(n)
    case Str(s) => StringToNumber(s)
    case Arr(_) => StringToNumber(ToStr(v))
    case Obj(_) => None
  }

  /** `Number(v) || 0`: NaN and 0 both give 0. */
  function NumberOrZero(v: JsValue): (r: int)
    ensures ToNumber(v).Some? ==> r == ToNumber(v).value
    ensures ToNumber(v).None? ==> r == 0
  {
    ToNumber(v).GetOr(0)
  }

  /**
   * An identifier argument as mongoose reads it: a falsy value, a truthy
   * value `ObjectId.isValid` rejects, or a valid id naming document `id`.
   */
  datatype IdArg = Falsy | Malformed | Valid(id: nat)

  /** Truncating remainder (JavaScript's `%`), for a positive divisor. */
  function JsRem(a: int, b: int): (r: int)
    requires b > 0
    ensures a >= 0 ==> r == a % b
    ensures a < 0 ==> r == -((-a) % b)
    ensures -b < r < b
  {
    if a >= 0 then a % b else -((-a) % b)
  }
}

=== FILE: levels.dfy ===
/**
 * routes/levels.js over models/Level.js: the level store. Levels are kept
 * in creation order; a level's map is a grid of numbers, each cell cast the
 * way mongoose casts a `Number` path (a missing or empty cell is `null`).
 */
module LevelRoutes {
  import opened Wrappers
  import opened Text
  import opened JsValues

  /** A stored level; `createdAt` is milliseconds since the epoch. */
  datatype Level = Level(id: nat, grid: seq<seq<Option<int>>>, createdAt: int)

  /** What `/list` reports of a level: its id and creation time, not its map. */
  datatype Summary = Summary(id: nat, createdAt: int)

  /** The `/:id` parameter: a valid ObjectId naming level `id`, or any other text. */
  datatype LevelParam = LevelId(id: nat) | Text(s: string)

  datatype PostReply = NotAGrid | CastFailed | Created(id: nat)

  datatype GetReply = InvalidNumber | LevelNotFound | Grid(grid: seq<seq<Option<int>>>)

  /** `Array.isArray(map) && map.every(row => Array.isArray(row))`. */
  predicate IsGrid(v: JsValue) {
    v.Arr? && forall i :: 0 <= i < |v.elems| ==> v.elems[i].Arr?
  }

  /** What the cast of one cell gives: a value to store (`None` is `null`) or a cast error. */
  datatype CastCell = Stored(value: Option<int>) | Uncastable

  /**
   * Mongoose's cast of a value to a `Number` path: `null` and `undefined`
   * stay `null`, so does the empty string; other strings and booleans go
   * through `Number(v)`, and NaN is a cast error; a number is kept; an
   * array or an object is a cast error.
   */
  function CastNumber(v: JsValue): (r: CastCell)
    ensures r == Stored(None) <==> v.Null? || v.Undefined? || v == Str("")
    ensures r.Uncastable? <==> v.Arr? || v.Obj? || (v.Str? && v.s != "" && ToNumber(v).None?)
    ensures r.Stored? && r.value.Some? ==> r.value == ToNumber(v)
  {
    match v
    case Undefined => Stored(None)
    case Null => Stored(None)
    case Bool(b) => Stored(Some(if b then 1 else 0))
    case Num(n) => Stored(Some(n))
    case Str(s) =>
      if s == "" then Stored(None)
      else if StringToNumber(s).None? then Uncastable
      else Stored(StringToNumber(s))
    case Arr(_) => Uncastable
    case Obj(_) => Uncastable
  }

  /** Every cell of a grid casts to a `Number`. */
  predicate CastableGrid(v: JsValue)
    requires IsGrid(v)
  {
    forall i, j :: 0 <= i < |v.elems| && 0 <= j < |v.elems[i].elems| ==> CastNumber(v.elems[i].elems[j]).Stored?
  }

  /** The `[[Number]]` value the schema stores for a grid whose cells all cast. */
  function GridOf(v: JsValue): (g: seq<seq<Option<int>>>)
    requires IsGrid(v) && CastableGrid(v)
    ensures |g| == |v.elems|
    ensures forall i :: 0 <= i < |g| ==> |g[i]| == |v.elems[i].elems|
    ensures forall i, j :: 0 <= i < |g| && 0 <= j < |g[i]| ==>
      Stored(g[i][j]) == CastNumber(v.elems[i].elems[j])
  {
    seq(|v.elems|, i requires 0 <= i < |v.elems| =>
      seq(|v.elems[i].elems|, j requires 0 <= j < |v.elems[i].elems| => CastNumber(v.elems[i].elems[j]).value))
  }

  /** A grid of numbers is stored exactly as sent. */
  lemma NumbersStoredAsSent(v: JsValue)
    requires IsGrid(v)
    requires forall i, j :: 0 <= i < |v.elems| && 0 <= j < |v.elems[i].elems| ==> v.elems[i].elems[j].Num?
    ensures CastableGrid(v)
    ensures forall i, j :: 0 <= i < |v.elems| && 0 <= j < |v.elems[i].elems| ==>
      GridOf(v)[i][j] == Some(v.elems[i].elems[j].n)
  {
  }

  /** Creation times never decrease along the store. */
  ghost predicate InCreationOrder(levels: seq<Level>) {
    forall i, j :: 0 <= i < j < |levels| ==> levels[i].createdAt <= levels[j].createdAt
  }

  /** Each id names at most one level, and every id is below `bound`. */
  ghost predicate IdsBelow(levels: seq<Level>, bound: nat) {
    (forall i :: 0 <= i < |levels| ==> levels[i].id < bound) &&
    (forall i, j :: 0 <= i < j < |levels| ==> levels[i].id != levels[j].id)
  }

  /** The position of level `id` in the store, when it is there. */
  function IndexOf(levels: seq<Level>, id: nat): (r: Option<nat>)
    ensures r.Some? ==> r.value < |levels| && levels[r.value].id == id
    ensures r.None? ==> forall i :: 0 <= i < |levels| ==> levels[i].id != id
  {
    if levels == [] then None
    else if levels[|levels| - 1].id == id then Some(|levels| - 1)
    else IndexOf(levels[..|levels| - 1], id)
  }

  /** The level collection, oldest first. */
  class Levels {
    var levels: seq<Level>
    var nextId: nat

    ghost predicate Valid()
      reads this
    {
      InCreationOrder(levels) && IdsBelow(levels, nextId)
    }

    constructor ()
      ensures Valid() && levels == []
    {
      levels := [];
      nextId := 0;
    }

    /** The newest creation time, or `None` for an empty store. */
    function Latest(): (r: Option<int>)
      reads this
      ensures r.None? <==> levels == []
      ensures r.Some? ==> r.value == levels[|levels| - 1].createdAt
    {
      if levels == [] then None else Some(levels[|levels| - 1].createdAt)
    }

    /**
     * `POST /`: anything but an array of arrays is refused; a cell the
     * `[[Number]]` schema cannot cast fails the save; otherwise the level
     * is appended with a fresh id, created at `now`, holding the cast grid.
     */
    method Post(v: JsValue, now: int) returns (reply: PostReply)
      requires Valid()
      requires Latest().Some? ==> Latest().value <= now
      modifies this
      ensures Valid()
      ensures !IsGrid(v) ==> reply == NotAGrid && levels == old(levels) && nextId == old(nextId)
      ensures IsGrid(v) && !CastableGrid(v) ==> reply == CastFailed && levels == old(levels) && nextId == old(nextId)
      ensures IsGrid(v) && CastableGrid(v) ==>
        reply == Created(old(nextId)) && levels == old(levels) + [Level(old(nextId), GridOf(v), now)] &&
        nextId == old(nextId) + 1
    {
      if !IsGrid(v) {
        return NotAGrid;
      }
      if !CastableGrid(v) {
        return CastFailed;
      }
      var id := nextId;
      levels := levels + [Level(id, GridOf(v), now)];
      nextId := nextId + 1;
      reply := Created(id);
    }

    /** `GET /list`: every level's id and creation time, oldest first. */
    function List(): (r: seq<Summary>)
      reads this
      ensures |r| == |levels|
      ensures forall i :: 0 <= i < |r| ==> r[i] == Summary(levels[i].id, levels[i].createdAt)
    {
      seq(|levels|, i reads this requires 0 <= i < |levels| => Summary(levels[i].id, levels[i].createdAt))
    }

    /**
     * `GET /first`: 404 without levels; otherwise, despite its name, the
     * maps of all levels, oldest first.
     */
    function First(): (r: Option<seq<seq<seq<Option<int>>>>>)
      reads this
      ensures r.None? <==> levels == []
      ensures r.Some? ==> |r.value| == |levels| && forall i :: 0 <= i < |levels| ==> r.value[i] == levels[i].grid
    {
      if levels == [] then None
      else Some(seq(|levels|, i reads this requires 0 <= i < |levels| => levels[i].grid))
    }

    /**
     * `GET /:id`: a valid id gives that level's map (404 when there is no
     * such level); other text is read with `parseInt` as a 1-based position
     * in creation order (400 when it is not a number or below 1, 404 when
     * fewer levels exist).
     */
    function Get(param: LevelParam): (r: GetReply)
      reads this
    {
      match param
      case LevelId(id) =>
        var k := IndexOf(levels, id);
        if k.None? then LevelNotFound else Grid(levels[k.value].grid)
      case Text(s) => AtPosition(ParseInt(s))
    }

    /** The level at 1-based position `n` in creation order; `None` is NaN. */
    function AtPosition(n: Option<int>): (r: GetReply)
      reads this
    {
      if n.None? || n.value < 1 then InvalidNumber
      else if n.value > |levels| then LevelNotFound
      else Grid(levels[n.value - 1].grid)
    }

    /** `DELETE /`: every level is removed. */
    method DeleteAll()
      requires Valid()
      modifies this
      ensures Valid() && levels == [] && nextId == old(nextId)
    {
      levels := [];
    }
  }

  /**
   * The `n`-th level in creation order: `n` below 1 or not a number is
   * refused, and a position past the last level is not found.
   */
  lemma GetByNumber(store: Levels, n: nat)
    ensures var r := store.Get(Text(NatToString(n)));
      && (n < 1 ==> r == InvalidNumber)
      && (1 <= n <= |store.levels| ==> r == Grid(store.levels[n - 1].grid))
      && (n > |store.levels| >= 0 && n >= 1 ==> r == LevelNotFound)
  {
    ParseIntOfNatToString(n);
    GetByText(store, NatToString(n));
    AtPositionOf(store, n);
  }

  lemma GetByText(store: Levels, s: string)
    ensures store.Get(Text(s)) == store.AtPosition(ParseInt(s))
  {
  }

  lemma AtPositionOf(store: Levels, n: nat)
    ensures var r := store.AtPosition(Some(n));
      && (n < 1 ==> r == InvalidNumber)
      && (1 <= n <= |store.levels| ==> r == Grid(store.levels[n - 1].grid))
      && (n > |store.levels| >= 0 && n >= 1 ==> r == LevelNotFound)
  {
  }

  /** Text without a digit is never a level number. */
  lemma GetByNonNumber(store: Levels, s: string)
    requires forall i :: 0 <= i < |s| ==> !IsDigit(s[i])
    ensures store.Get(Text(s)) == InvalidNumber
  {
    ParseIntOfNoDigits(s);
  }

  /** A level looked up by its id gives its map; an id no level has is not found. */
  lemma GetById(store: Levels, i: nat)
    requires store.Valid() && i < |store.levels|
    ensures store.Get(LevelId(store.levels[i].id)) == Grid(store.levels[i].grid)
    ensures forall id :: id >= store.nextId ==> store.Get(LevelId(id)) == LevelNotFound
  {
    var k := IndexOf(store.levels, store.levels[i].id);
    assert k.Some?;
    assert k.value == i;
  }
}

=== FILE: otp.dfy ===
/**
 * routes/otp.js: the phone challenge. `/send` stores the hash of a six-digit
 * code with a five-minute expiry on the player and texts the code; `/verify`
 * checks format, presence, expiry and then the hash, and is one-shot.
 * SHA-256 is the parameter `hash`; `Math.random()` is the parameter `roll`;
 * the SMS provider's outcome is the parameter `sms`.
 */
module OtpRoutes {
  import opened Wrappers
  import opened Text
  import opened JsValues
  import opened Formats
  import opened PlayerModel
  import opened CounterModel

  /** Five minutes, in milliseconds. */
  const OTP_TTL_MS: int := 5 * 60 * 1000

  /** `generateOTP()`: `Math.floor(100000 + roll * 900000)`, always six digits. */
  function GenerateOtp(roll: real): (code: nat)
    requires 0.0 <= roll < 1.0
    ensures 100000 <= code <= 999999
  {
    (100000.0 + roll * 900000.0).Floor
  }

  /** SHA-256 in hex: every digest is 64 characters long, so never empty. */
  ghost predicate HexDigest(hash: string -> string) {
    forall s :: |hash(s)| == 64
  }

  /** Who a request names: a player id, a session id, or a refusal. */
  datatype Identity = ByPlayer(id: nat) | BySession(sid: string) | BadPlayerId | BadSessionId | NoIdentity

  /**
   * A truthy `playerId` wins and must be a valid id; otherwise a truthy
   * `sessionId` must be a string with something besides white space.
   */
  function IdentityOf(playerId: IdArg, sessionId: JsValue): (r: Identity)
    ensures playerId.Valid? <==> r.ByPlayer?
    ensures r.BySession? ==> playerId.Falsy? && sessionId == Str(r.sid) && Trim(r.sid) != ""
    ensures r == NoIdentity <==> playerId.Falsy? && !Truthy(sessionId)
  {
    match playerId
    case Valid(id) => ByPlayer(id)
    case Malformed => BadPlayerId
    case Falsy =>
      if !Truthy(sessionId) then NoIdentity
      else if !sessionId.Str? || Trim(sessionId.s) == "" then BadSessionId
      else BySession(sessionId.s)
  }

  /** The player after `/send` stored a challenge for `phone`: nothing else changes. */
  function Issued(p: Player, phone: string, codeHash: string, now: int): (q: Player)
    ensures q.phone == PhoneInfo(Some(phone), false, None)
    ensures q.steps == p.steps.(phone := true)
    ensures q.otp == OtpState(codeHash, Some(now + OTP_TTL_MS))
  {
    p.(phone := PhoneInfo(Some(phone), false, None),
       steps := p.steps.(phone := true),
       otp := OtpState(codeHash, Some(now + OTP_TTL_MS)))
  }

  /** The decision of `/verify` on a stored challenge. */
  datatype OtpCheck = NoOtp | OtpExpired | IncorrectOtp | OtpMatches

  /**
   * Presence first (an empty hash or a missing expiry), then expiry
   * (`now > expiresAt`), then the hash of the candidate.
   */
  function CheckOtp(otp: OtpState, cand: string, now: int, hash: string -> string): (r: OtpCheck)
    ensures r == NoOtp <==> otp.codeHash == "" || otp.expiresAt.None?
    ensures r == OtpExpired <==> otp.codeHash != "" && otp.expiresAt.Some? && now > otp.expiresAt.value
    ensures r == OtpMatches <==>
      otp.codeHash != "" && otp.expiresAt.Some? && now <= otp.expiresAt.value && hash(cand) == otp.codeHash
  {
    if otp.codeHash == "" || otp.expiresAt.None? then NoOtp
    else if now > otp.expiresAt.value then OtpExpired
    else if hash(cand) != otp.codeHash then IncorrectOtp
    else OtpMatches
  }

  /** The player after a successful verification (before any join rank is drawn). */
  function Confirmed(p: Player, now: int): (q: Player)
    ensures q.phone == p.phone.(verified := true, verifiedAt := Some(now))
    ensures q.steps == p.steps.(phoneVerified := true)
    ensures q.otp == OtpState("", None)
  {
    p.(phone := p.phone.(verified := true, verifiedAt := Some(now)),
       steps := p.steps.(phoneVerified := true),
       otp := OtpState("", None))
  }

  /** `/^\d{4,8}$/`: four to eight digits and nothing else. */
  predicate IsCandidate(cand: string) {
    4 <= |cand| <= 8 && AllDigits(cand)
  }

  /** `String(code || otp || '').trim()`. */
  function CandidateOf(code: JsValue, otp: JsValue): string {
    Trim(ToStr(Or(Or(code, otp), Str(""))))
  }

  /**
   * The challenge round trip: the code `/send` texts, typed back before its
   * expiry, is a well-formed candidate and matches the stored hash.
   */
  lemma SendThenVerify(p: Player, phone: string, code: nat, hash: string -> string, now: int, later: int)
    requires HexDigest(hash)
    requires 100000 <= code <= 999999 && now <= later <= now + OTP_TTL_MS
    ensures IsCandidate(NatToString(code))
    ensures CheckOtp(Issued(p, phone, hash(NatToString(code)), now).otp, NatToString(code), later, hash) == OtpMatches
  {
    assert Pow10(5) == 100000 && Pow10(6) == 1000000;
    NatToStringLength(code, 5);
  }

  /** One-shot: once verified, every further attempt finds no challenge. */
  lemma VerifyIsOneShot(p: Player, now: int, cand: string, later: int, hash: string -> string)
    ensures CheckOtp(Confirmed(p, now).otp, cand, later, hash) == NoOtp
  {
  }

  /** A challenge can no longer be met once its expiry has passed, whatever code is typed. */
  lemma ExpiredChallengeFails(p: Player, phone: string, codeHash: string, now: int, later: int, cand: string, hash: string -> string)
    requires codeHash != "" && later > now + OTP_TTL_MS
    ensures CheckOtp(Issued(p, phone, codeHash, now).otp, cand, later, hash) == OtpExpired
  {
  }

  datatype SmsOutcome = SmsDelivered | SmsConfigMissing | SmsError

  datatype SendReply =
    | InvalidPhone
    | InvalidPlayerId
    | InvalidSessionId
    | IdentityRequired
    | PhoneExists
    | SendServerError
    | SmsNotConfigured
    | SmsFailed
    | OtpSent(expiresAt: int)

  /** The reply once the challenge is stored, by what the SMS provider did. */
  function SmsReply(sms: SmsOutcome, expiresAt: int): SendReply {
    match sms
    case SmsDelivered => OtpSent(expiresAt)
    case SmsConfigMissing => SmsNotConfigured
    case SmsError => SmsFailed
  }

  /**
   * The player `/send` works on and the collection after finding it: the
   * player with the given id, or the session's player, created (under the
   * next id) when the session is new. `None` for an unknown player id.
   */
  function SendTarget(docs: map<nat, Player>, nextId: nat, who: Identity, now: int): (r: Option<(nat, map<nat, Player>, nat)>)
    requires who.ByPlayer? || who.BySession?
    ensures r.Some? ==> r.value.0 in r.value.1
  {
    if who.ByPlayer? then
      if who.id in docs then Some((who.id, docs, nextId)) else None
    else
      match SessionOf(docs, nextId, who.sid)
      case Some(i) => Some((i, docs, nextId))
      case None => Some((nextId, docs[nextId := NewPlayer(Some(who.sid), now)], nextId + 1))
  }

  /**
   * What `/send` answers, the code it drew and stored the hash of (kept even
   * when the SMS then fails), and the collection afterwards.
   */
  datatype SendOutcome = SendOutcome(reply: SendReply, drawn: Option<nat>, docs: map<nat, Player>, nextId: nat)

  /**
   * `/send` once its player `id` is known: a phone another player holds is
   * 409; a player whose stored document does not validate fails its save,
   * which the handler rethrows as a 500; otherwise the hash of the
   * generated code and its expiry are stored (overwriting any earlier
   * challenge), the phone is set unverified and `steps.phone` is set. The
   * stored state stays even when the SMS then fails.
   */
  function SendIssue(docs: map<nat, Player>, nextId: nat, id: nat, ph: string,
                     roll: real, hash: string -> string, sms: SmsOutcome, now: int): (r: SendOutcome)
    requires 0.0 <= roll < 1.0 && id in docs
  {
    var holder := PhoneHolder(docs, nextId, ph);
    if holder.Some? && holder.value != id then SendOutcome(PhoneExists, None, docs, nextId)
    else if !Validates(docs[id]) then SendOutcome(SendServerError, None, docs, nextId)
    else
      var c := GenerateOtp(roll);
      var q := Issued(docs[id], ph, hash(NatToString(c)), now);
      SendOutcome(SmsReply(sms, now + OTP_TTL_MS), Some(c), docs[id := q.(updatedAt := now)], nextId)
  }

  /**
   * `POST /send` on the collection `docs`. The phone is checked before
   * anything else, then the identity; an unknown player id is a server
   * error; an unknown session gets a new player before the phone guard runs.
   */
  function SendSpec(docs: map<nat, Player>, nextId: nat, who: Identity, ph: string,
                    roll: real, hash: string -> string, sms: SmsOutcome, now: int): (r: SendOutcome)
    requires 0.0 <= roll < 1.0
    ensures r.drawn.Some? ==> |ph| >= 8 && (who.ByPlayer? || who.BySession?)
    ensures who.ByPlayer? ==> r.docs.Keys == docs.Keys && r.nextId == nextId
  {
    if |ph| < 8 then SendOutcome(InvalidPhone, None, docs, nextId)
    else if who == BadPlayerId then SendOutcome(InvalidPlayerId, None, docs, nextId)
    else if who == BadSessionId then SendOutcome(InvalidSessionId, None, docs, nextId)
    else if who == NoIdentity then SendOutcome(IdentityRequired, None, docs, nextId)
    else
      match SendTarget(docs, nextId, who, now)
      case None => SendOutcome(SendServerError, None, docs, nextId)
      case Some((id, docs1, next1)) => SendIssue(docs1, next1, id, ph, roll, hash, sms, now)
  }

  /** Every player other than `id` has some other phone number than `phone`. */
  lemma GuardPassedIsFree(docs: map<nat, Player>, id: nat, q: Player, phone: string)
    requires PhoneUnique(docs) && phone != "" && q.phone.number == Some(phone)
    requires forall j :: j in docs && j != id ==> docs[j].phone.number != Some(phone)
    ensures PhoneFreeFor(docs, id, q)
  {
  }

  /** The lookup (or creation) of the player `/send` works on. */
  method FindSendTarget(players: Players, who: Identity, now: int) returns (found: Option<nat>)
    requires players.Valid() && (who.ByPlayer? || who.BySession?)
    modifies players
    ensures players.Valid()
    ensures found.None? ==> SendTarget(old(players.docs), old(players.nextId), who, now).None? &&
                            players.docs == old(players.docs) && players.nextId == old(players.nextId)
    ensures found.Some? ==> SendTarget(old(players.docs), old(players.nextId), who, now) ==
                            Some((found.value, players.docs, players.nextId))
  {
    if who.ByPlayer? {
      found := if who.id in players.docs then Some(who.id) else None;
    } else {
      found := players.FindBySession(who.sid);
      if found.None? {
        var p := NewPlayer(Some(who.sid), now);
        assert p.(updatedAt := now) == p;
        var id := players.Create(p, now);
        found := Some(id);
      }
    }
  }

  /** The phone guard, then storing the challenge on player `id`. */
  method IssueChallenge(players: Players, id: nat, ph: string,
                        roll: real, hash: string -> string, sms: SmsOutcome, now: int)
    returns (reply: SendReply, drawn: Option<nat>)
    requires players.Valid() && id in players.docs && ph != "" && 0.0 <= roll < 1.0
    modifies players
    ensures players.Valid()
    ensures SendOutcome(reply, drawn, players.docs, players.nextId) ==
            SendIssue(old(players.docs), old(players.nextId), id, ph, roll, hash, sms, now)
  {
    var holder := players.FindByPhone(ph);
    if holder.Some? && holder.value != id {
      return PhoneExists, None;
    }
    var c := GenerateOtp(roll);
    var q := Issued(players.docs[id], ph, hash(NatToString(c)), now);
    GuardPassedIsFree(players.docs, id, q, ph);
    var ok := players.Save(id, q, now);
    if !ok {
      return SendServerError, None;
    }
    drawn := Some(c);
    reply := SmsReply(sms, now + OTP_TTL_MS);
  }

  /** `POST /send` for a normalised phone `ph` and the identity `who` the request names. */
  method SendAs(players: Players, who: Identity, ph: string,
                roll: real, hash: string -> string, sms: SmsOutcome, now: int)
    returns (reply: SendReply, drawn: Option<nat>)
    requires players.Valid() && 0.0 <= roll < 1.0
    modifies players
    ensures players.Valid()
    ensures SendOutcome(reply, drawn, players.docs, players.nextId) ==
            SendSpec(old(players.docs), old(players.nextId), who, ph, roll, hash, sms, now)
  {
    if |ph| < 8 {
      return InvalidPhone, None;
    } else if who == BadPlayerId {
      return InvalidPlayerId, None;
    } else if who == BadSessionId {
      return InvalidSessionId, None;
    } else if who == NoIdentity {
      return IdentityRequired, None;
    }
    var found := FindSendTarget(players, who, now);
    if found.None? {
      return SendServerError, None;
    }
    reply, drawn := IssueChallenge(players, found.value, ph, roll, hash, sms, now);
  }

  /** `POST /send`: the phone normalised, the identity read, then `SendSpec`'s outcome. */
  method Send(players: Players, playerId: IdArg, sessionId: JsValue, phone: JsValue,
              roll: real, hash: string -> string, sms: SmsOutcome, now: int)
    returns (reply: SendReply, drawn: Option<nat>)
    requires players.Valid() && 0.0 <= roll < 1.0
    modifies players
    ensures players.Valid()
    ensures SendOutcome(reply, drawn, players.docs, players.nextId) ==
            SendSpec(old(players.docs), old(players.nextId), IdentityOf(playerId, sessionId), NormalizePhone(phone),
                     roll, hash, sms, now)
  {
    reply, drawn := SendAs(players, IdentityOf(playerId, sessionId), NormalizePhone(phone), roll, hash, sms, now);
  }

  /**
   * The refusals of `/send`: a short phone is refused whatever else is sent,
   * the identity errors follow, and none of them writes anything.
   */
  lemma SendRefusals(docs: map<nat, Player>, nextId: nat, who: Identity, ph: string,
                     roll: real, hash: string -> string, sms: SmsOutcome, now: int)
    requires 0.0 <= roll < 1.0
    ensures var r := SendSpec(docs, nextId, who, ph, roll, hash, sms, now);
      && (|ph| < 8 ==> r.reply == InvalidPhone)
      && (r.reply in {InvalidPhone, InvalidPlayerId, InvalidSessionId, IdentityRequired, SendServerError} ==>
            r.docs == docs && r.nextId == nextId && r.drawn == None)
      && (r.drawn.Some? <==> r.reply.OtpSent? || r.reply.SmsNotConfigured? || r.reply.SmsFailed?)
  {
    if |ph| >= 8 && who != BadPlayerId && who != BadSessionId && who != NoIdentity {
      var t := SendTarget(docs, nextId, who, now);
      if t.Some? {
        var (id, docs1, next1) := t.value;
        SendIssueOutcome(docs1, next1, id, ph, roll, hash, sms, now);
        if docs1 != docs {
          assert docs1[id] == NewPlayer(Some(who.sid), now);
        }
      }
    }
  }

  /**
   * Once its player is known, `/send` answers 500 only for a document that
   * does not validate, and then writes nothing; a code is drawn exactly
   * when the challenge was stored.
   */
  lemma SendIssueOutcome(docs: map<nat, Player>, nextId: nat, id: nat, ph: string,
                         roll: real, hash: string -> string, sms: SmsOutcome, now: int)
    requires 0.0 <= roll < 1.0 && id in docs
    ensures var r := SendIssue(docs, nextId, id, ph, roll, hash, sms, now);
      && r.reply !in {InvalidPhone, InvalidPlayerId, InvalidSessionId, IdentityRequired}
      && (r.reply == SendServerError ==> !Validates(docs[id]) && r.docs == docs && r.nextId == nextId && r.drawn == None)
      && (r.drawn.Some? <==> r.reply.OtpSent? || r.reply.SmsNotConfigured? || r.reply.SmsFailed?)
  {
  }

  /**
   * `/send` for a known player whose stored document does not validate (a
   * role outside the schema's list) fails its save once the phone guard
   * passes: the answer is a 500, no code is drawn and nothing is written.
   */
  lemma SendFailsOnInvalidDocument(docs: map<nat, Player>, nextId: nat, id: nat, ph: string,
                                   roll: real, hash: string -> string, sms: SmsOutcome, now: int)
    requires 0.0 <= roll < 1.0 && |ph| >= 8 && id in docs && !Validates(docs[id])
    requires PhoneHolder(docs, nextId, ph).None? || PhoneHolder(docs, nextId, ph) == Some(id)
    ensures SendSpec(docs, nextId, ByPlayer(id), ph, roll, hash, sms, now) == SendOutcome(SendServerError, None, docs, nextId)
  {
  }

  /**
   * Once the phone guard passes, the challenge is stored on player `id` and
   * nowhere else: the number is set unverified, the hash of the six-digit
   * code drawn and its expiry are stored, `steps.phone` is set, and the
   * number stays unique.
   */
  lemma IssueStoresChallenge(docs: map<nat, Player>, nextId: nat, id: nat, ph: string,
                             roll: real, hash: string -> string, sms: SmsOutcome, now: int)
    requires 0.0 <= roll < 1.0 && id in docs && PhoneUnique(docs) && ph != ""
    requires forall j :: j in docs ==> j < nextId
    requires SendIssue(docs, nextId, id, ph, roll, hash, sms, now).drawn.Some?
    ensures var r := SendIssue(docs, nextId, id, ph, roll, hash, sms, now);
      && id in r.docs && r.docs == docs[id := r.docs[id]] && r.nextId == nextId
      && r.docs[id].phone == PhoneInfo(Some(ph), false, None)
      && r.docs[id].otp == OtpState(hash(NatToString(r.drawn.value)), Some(now + OTP_TTL_MS))
      && r.docs[id].steps == docs[id].steps.(phone := true)
      && r.docs[id].sessionId == docs[id].sessionId
      && r.docs[id].role == docs[id].role && Validates(docs[id])
      && 100000 <= r.drawn.value <= 999999 && PhoneUnique(r.docs)
  {
    var r := SendIssue(docs, nextId, id, ph, roll, hash, sms, now);
    var c := GenerateOtp(roll);
    var q := Issued(docs[id], ph, hash(NatToString(c)), now).(updatedAt := now);
    assert r.docs == docs[id := q];
    GuardPassedIsFree(docs, id, q, ph);
    PhoneUniqueUpdate(docs, id, q);
  }

  /** The player `/send` finds or creates keeps the collection's invariants; a new one has no phone. */
  lemma SendTargetValid(docs: map<nat, Player>, nextId: nat, who: Identity, now: int)
    requires PhoneUnique(docs) && (forall j :: j in docs ==> j < nextId) && (who.ByPlayer? || who.BySession?)
    requires SendTarget(docs, nextId, who, now).Some?
    ensures var t := SendTarget(docs, nextId, who, now).value;
      && PhoneUnique(t.1) && (forall j :: j in t.1 ==> j < t.2)
      && (forall j :: j in docs ==> j in t.1 && t.1[j] == docs[j])
      && t.1[t.0].steps == (if t.0 in docs then docs[t.0].steps else NoSteps)
      && (t.1 == docs || (who.BySession? && t.0 == nextId && nextId !in docs && t.2 == nextId + 1 &&
                          t.1 == docs[nextId := NewPlayer(Some(who.sid), now)]))
  {
    var t := SendTarget(docs, nextId, who, now).value;
    if t.1 != docs {
      PhoneUniqueUpdate(docs, nextId, NewPlayer(Some(who.sid), now));
    }
  }

  /** A `/send` that drew and stored a code passed the gates and found its player; the rest is `SendIssue`. */
  lemma SendSucceeded(docs: map<nat, Player>, nextId: nat, who: Identity, ph: string,
                      roll: real, hash: string -> string, sms: SmsOutcome, now: int)
    requires 0.0 <= roll < 1.0
    requires SendSpec(docs, nextId, who, ph, roll, hash, sms, now).drawn.Some?
    ensures |ph| >= 8 && (who.ByPlayer? || who.BySession?) && SendTarget(docs, nextId, who, now).Some?
    ensures var t := SendTarget(docs, nextId, who, now).value;
      SendSpec(docs, nextId, who, ph, roll, hash, sms, now) == SendIssue(t.1, t.2, t.0, ph, roll, hash, sms, now)
  {
  }

  /**
   * A `/send` that stored a challenge did so on the player it found or
   * created and changed no other player; the code drawn has six digits;
   * the number stays unique. (The SMS may still fail afterwards.)
   */
  lemma SendStoresChallenge(docs: map<nat, Player>, nextId: nat, who: Identity, ph: string,
                            roll: real, hash: string -> string, sms: SmsOutcome, now: int)
    requires 0.0 <= roll < 1.0 && PhoneUnique(docs) && forall j :: j in docs ==> j < nextId
    requires SendSpec(docs, nextId, who, ph, roll, hash, sms, now).drawn.Some?
    ensures (who.ByPlayer? || who.BySession?) && SendTarget(docs, nextId, who, now).Some?
    ensures var r := SendSpec(docs, nextId, who, ph, roll, hash, sms, now);
      var id := SendTarget(docs, nextId, who, now).value.0;
      && id in r.docs && r.docs[id].phone == PhoneInfo(Some(ph), false, None)
      && r.docs[id].otp == OtpState(hash(NatToString(r.drawn.value)), Some(now + OTP_TTL_MS))
      && r.docs[id].steps == (if id in docs then docs[id].steps else NoSteps).(phone := true)
      && (forall j :: j in docs && j != id ==> j in r.docs && r.docs[j] == docs[j])
      && 100000 <= r.drawn.value <= 999999 && PhoneUnique(r.docs)
  {
    SendSucceeded(docs, nextId, who, ph, roll, hash, sms, now);
    var t := SendTarget(docs, nextId, who, now).value;
    SendTargetValid(docs, nextId, who, now);
    IssueStoresChallenge(t.1, t.2, t.0, ph, roll, hash, sms, now);
  }

  /**
   * `POST /send` refuses with 409 only when some other player already holds
   * the number; at most the session's new player has been written.
   */
  lemma SendPhoneExists(docs: map<nat, Player>, nextId: nat, who: Identity, ph: string,
                        roll: real, hash: string -> string, sms: SmsOutcome, now: int)
    requires 0.0 <= roll < 1.0 && PhoneUnique(docs) && forall j :: j in docs ==> j < nextId
    requires SendSpec(docs, nextId, who, ph, roll, hash, sms, now).reply == PhoneExists
    ensures var r := SendSpec(docs, nextId, who, ph, roll, hash, sms, now);
      && (exists j :: j in docs && docs[j].phone.number == Some(ph))
      && (r.docs == docs || (who.BySession? && nextId !in docs && r.docs == docs[nextId := NewPlayer(Some(who.sid), now)]))
  {
    assert who.ByPlayer? || who.BySession?;
    assert SendTarget(docs, nextId, who, now).Some?;
    var t := SendTarget(docs, nextId, who, now).value;
    SendTargetValid(docs, nextId, who, now);
    var r := SendSpec(docs, nextId, who, ph, roll, hash, sms, now);
    assert r == SendIssue(t.1, t.2, t.0, ph, roll, hash, sms, now);
    assert r.docs == t.1;
    var j := PhoneHolder(t.1, t.2, ph).value;
    assert j in t.1 && t.1[j].phone.number == Some(ph);
    if t.1 != docs {
      assert t.1[nextId].phone.number == None;
    }
    assert j in docs && docs[j].phone.number == Some(ph);
  }

  datatype VerifyReply =
    | InvalidOtp
    | VerifyInvalidPlayerId
    | VerifyInvalidSessionId
    | VerifyIdentityRequired
    | PlayerNotFound
    | Rejected(why: OtpCheck)
    /** The save of a matched player failed validation: the handler answers 500. */
    | VerifyServerError
    | PhoneConfirmed(playerId: nat, joinOrder: int)

  /** The counter key join ranks are drawn from. */
  const JOIN_ORDER: string := "joinOrder"

  /** What `/verify` answers, and the players and counters afterwards. */
  datatype VerifyOutcome = VerifyOutcome(reply: VerifyReply, docs: map<nat, Player>, seqs: map<string, int>)

  /** The player `/verify` works on: the one with the given id, or the session's player. */
  function VerifyTarget(docs: map<nat, Player>, nextId: nat, who: Identity): (r: Option<nat>)
    requires who.ByPlayer? || who.BySession?
    ensures r.Some? ==> r.value in docs
  {
    if who.ByPlayer? then (if who.id in docs then Some(who.id) else None)
    else SessionOf(docs, nextId, who.sid)
  }

  /**
   * A match on player `id`: the phone is marked verified, the challenge is
   * cleared, and a join rank is drawn from the 'joinOrder' counter only when
   * the player has none (zero or less). The save then fails, writing no
   * player, when the stored document does not validate; a rank drawn
   * before it stays drawn.
   */
  function ConfirmSpec(docs: map<nat, Player>, seqs: map<string, int>, id: nat, now: int): (r: VerifyOutcome)
    requires id in docs
  {
    var q := Confirmed(docs[id], now);
    var j := if q.joinOrder <= 0 then SeqOf(seqs, JOIN_ORDER) + 1 else q.joinOrder;
    var seqs1 := if q.joinOrder <= 0 then seqs[JOIN_ORDER := j] else seqs;
    if !Validates(docs[id]) then VerifyOutcome(VerifyServerError, docs, seqs1)
    else VerifyOutcome(PhoneConfirmed(id, j), docs[id := q.(joinOrder := j).(updatedAt := now)], seqs1)
  }

  /**
   * `POST /verify`. A candidate that is not 4–8 digits is refused first; then
   * the identity; then the player must exist (none is created); then the
   * stored challenge decides.
   */
  function VerifySpec(docs: map<nat, Player>, nextId: nat, seqs: map<string, int>, who: Identity,
                      cand: string, hash: string -> string, now: int): (r: VerifyOutcome)
    ensures r.reply.PhoneConfirmed? ==> IsCandidate(cand) && (who.ByPlayer? || who.BySession?) && r.reply.playerId in docs
    ensures r.docs.Keys == docs.Keys
  {
    if !IsCandidate(cand) then VerifyOutcome(InvalidOtp, docs, seqs)
    else if who == BadPlayerId then VerifyOutcome(VerifyInvalidPlayerId, docs, seqs)
    else if who == BadSessionId then VerifyOutcome(VerifyInvalidSessionId, docs, seqs)
    else if who == NoIdentity then VerifyOutcome(VerifyIdentityRequired, docs, seqs)
    else
      match VerifyTarget(docs, nextId, who)
      case None => VerifyOutcome(PlayerNotFound, docs, seqs)
      case Some(id) =>
        var check := CheckOtp(docs[id].otp, cand, now, hash);
        if check != OtpMatches then VerifyOutcome(Rejected(check), docs, seqs)
        else ConfirmSpec(docs, seqs, id, now)
  }

  /** The writes of a successful verification. */
  method Confirm(players: Players, counters: Counters, id: nat, now: int) returns (reply: VerifyReply)
    requires players.Valid() && counters.Valid() && id in players.docs
    modifies players, counters
    ensures players.Valid() && counters.Valid() && players.nextId == old(players.nextId)
    ensures VerifyOutcome(reply, players.docs, counters.seqs) == ConfirmSpec(old(players.docs), old(counters.seqs), id, now)
  {
    var q := Confirmed(players.docs[id], now);
    if q.joinOrder <= 0 {
      var j := counters.NextSequence(JOIN_ORDER);
      q := q.(joinOrder := j);
    }
    var ok := players.SaveKeepingPhone(id, q, now);
    reply := if ok then PhoneConfirmed(id, q.joinOrder) else VerifyServerError;
  }

  /** `POST /verify`: carried out step by step, with the outcome `VerifySpec` describes. */
  method Verify(players: Players, counters: Counters, playerId: IdArg, sessionId: JsValue,
                code: JsValue, otp: JsValue, hash: string -> string, now: int)
    returns (reply: VerifyReply)
    requires players.Valid() && counters.Valid()
    modifies players, counters
    ensures players.Valid() && counters.Valid() && players.nextId == old(players.nextId)
    ensures VerifyOutcome(reply, players.docs, counters.seqs) ==
            VerifySpec(old(players.docs), old(players.nextId), old(counters.seqs), IdentityOf(playerId, sessionId),
                       CandidateOf(code, otp), hash, now)
  {
    var cand := CandidateOf(code, otp);
    var who := IdentityOf(playerId, sessionId);
    if !IsCandidate(cand) {
      return InvalidOtp;
    } else if who == BadPlayerId {
      return VerifyInvalidPlayerId;
    } else if who == BadSessionId {
      return VerifyInvalidSessionId;
    } else if who == NoIdentity {
      return VerifyIdentityRequired;
    }
    var found: Option<nat>;
    if who.ByPlayer? {
      found := if who.id in players.docs then Some(who.id) else None;
    } else {
      found := players.FindBySession(who.sid);
    }
    if found.None? {
      return PlayerNotFound;
    }
    var check := CheckOtp(players.docs[found.value].otp, cand, now, hash);
    if check != OtpMatches {
      return Rejected(check);
    }
    reply := Confirm(players, counters, found.value, now);
  }

  /**
   * Every refusal of `/verify` leaves players and counters as they were; a
   * wrong code in particular changes nothing. A failed save writes no
   * player either, but a join rank drawn before it stays drawn.
   */
  lemma VerifyRefusalsChangeNothing(docs: map<nat, Player>, nextId: nat, seqs: map<string, int>, who: Identity,
                        cand: string, hash: string -> string, now: int)
    ensures var r := VerifySpec(docs, nextId, seqs, who, cand, hash, now);
      && (!IsCandidate(cand) ==> r.reply == InvalidOtp)
      && (!r.reply.PhoneConfirmed? && !r.reply.VerifyServerError? ==> r.docs == docs && r.seqs == seqs)
      && (r.reply.VerifyServerError? ==>
            r.docs == docs && (r.seqs == seqs || r.seqs == seqs[JOIN_ORDER := SeqOf(seqs, JOIN_ORDER) + 1]))
  {
  }

  /**
   * A confirmation draws a join rank only for a player without one: a
   * positive rank is kept and the counter is not advanced; otherwise the
   * rank is the counter's next value.
   */
  lemma VerifyJoinOrder(docs: map<nat, Player>, nextId: nat, seqs: map<string, int>, who: Identity,
                        cand: string, hash: string -> string, now: int)
    requires VerifySpec(docs, nextId, seqs, who, cand, hash, now).reply.PhoneConfirmed?
    ensures var r := VerifySpec(docs, nextId, seqs, who, cand, hash, now);
      var id := r.reply.playerId;
      && id in docs && id in r.docs
      && CheckOtp(docs[id].otp, cand, now, hash) == OtpMatches
      && r.docs[id].phone.verified && r.docs[id].steps.phoneVerified && r.docs[id].otp == OtpState("", None)
      && (docs[id].joinOrder > 0 ==> r.reply.joinOrder == docs[id].joinOrder && r.seqs == seqs)
      && (docs[id].joinOrder <= 0 ==> r.reply.joinOrder == SeqOf(seqs, JOIN_ORDER) + 1 &&
                                      r.seqs == seqs[JOIN_ORDER := r.reply.joinOrder])
      && r.docs[id].joinOrder == r.reply.joinOrder
      && (forall j :: j in docs && j != id ==> j in r.docs && r.docs[j] == docs[j])
  {
    var r := VerifySpec(docs, nextId, seqs, who, cand, hash, now);
    assert VerifyTarget(docs, nextId, who).Some?;
    var id := VerifyTarget(docs, nextId, who).value;
    assert CheckOtp(docs[id].otp, cand, now, hash) == OtpMatches;
    assert r == ConfirmSpec(docs, seqs, id, now);
  }

  /**
   * One-shot: repeating a successful verification with the same request is
   * refused with 'No OTP issued', and changes nothing.
   */
  lemma VerifyReplayFails(docs: map<nat, Player>, nextId: nat, seqs: map<string, int>, who: Identity,
                        cand: string, hash: string -> string, now: int, later: int)
    requires VerifySpec(docs, nextId, seqs, who, cand, hash, now).reply.PhoneConfirmed?
    ensures var r := VerifySpec(docs, nextId, seqs, who, cand, hash, now);
      var again := VerifySpec(r.docs, nextId, r.seqs, who, cand, hash, later);
      again == VerifyOutcome(Rejected(NoOtp), r.docs, r.seqs)
  {
    var r := VerifySpec(docs, nextId, seqs, who, cand, hash, now);
    var id := r.reply.playerId;
    if who.BySession? {
      SessionOfUpdate(docs, nextId, who.sid, id, r.docs[id]);
    }
  }

  /** The drawn code, sent back as the request's `code`, is read as exactly that text. */
  lemma TextedCodeIsCandidate(c: nat)
    ensures CandidateOf(Str(NatToString(c)), Undefined) == NatToString(c)
  {
    var text := NatToString(c);
    assert Truthy(Str(text));
    assert Or(Or(Str(text), Undefined), Str("")) == Str(text);
    assert ToStr(Str(text)) == text;
    assert IsDigit(text[0]) && IsDigit(text[|text| - 1]);
    TrimFixed(text);
  }

  /** A session lookup still finds the player `/send` created or found for that session. */
  lemma SendTargetFound(docs: map<nat, Player>, nextId: nat, who: Identity, now: int, q: Player)
    requires (forall j :: j in docs ==> j < nextId) && (who.ByPlayer? || who.BySession?)
    requires SendTarget(docs, nextId, who, now).Some?
    requires q.sessionId == SendTarget(docs, nextId, who, now).value.1[SendTarget(docs, nextId, who, now).value.0].sessionId
    ensures var t := SendTarget(docs, nextId, who, now).value;
      VerifyTarget(t.1[t.0 := q], t.2, who) == Some(t.0)
  {
    var t := SendTarget(docs, nextId, who, now).value;
    if who.BySession? {
      SessionOfUpdate(t.1, t.2, who.sid, t.0, q);
      if SessionOf(docs, nextId, who.sid).None? {
        SessionOfBeyond(docs, nextId, who.sid, nextId, t.1[nextId]);
        assert SessionOf(t.1, t.2, who.sid) == Some(nextId);
      }
    }
  }

  /**
   * The challenge round trip: after a `/send` that stored a challenge, typing
   * the code drawn into `/verify` for the same player before it expires confirms the
   * phone.
   */
  lemma SendThenVerifyConfirms(docs: map<nat, Player>, nextId: nat, seqs: map<string, int>, who: Identity, ph: string,
                               roll: real, hash: string -> string, sms: SmsOutcome, now: int, later: int)
    requires 0.0 <= roll < 1.0 && HexDigest(hash) && now <= later <= now + OTP_TTL_MS
    requires PhoneUnique(docs) && forall j :: j in docs ==> j < nextId
    requires SendSpec(docs, nextId, who, ph, roll, hash, sms, now).drawn.Some?
    ensures var s := SendSpec(docs, nextId, who, ph, roll, hash, sms, now);
      VerifySpec(s.docs, s.nextId, seqs, who, NatToString(s.drawn.value), hash, later).reply.PhoneConfirmed?
  {
    SendSucceeded(docs, nextId, who, ph, roll, hash, sms, now);
    var s := SendSpec(docs, nextId, who, ph, roll, hash, sms, now);
    var t := SendTarget(docs, nextId, who, now).value;
    var id := t.0;
    SendTargetValid(docs, nextId, who, now);
    IssueStoresChallenge(t.1, t.2, id, ph, roll, hash, sms, now);
    var c := s.drawn.value;
    SendThenVerify(t.1[id], ph, c, hash, now, later);
    SendTargetFound(docs, nextId, who, now, s.docs[id]);
    assert VerifyTarget(s.docs, s.nextId, who) == Some(id);
    assert who != BadPlayerId && who != BadSessionId && who != NoIdentity;
    MatchingCandidateConfirms(s.docs, s.nextId, seqs, who, NatToString(c), hash, later, id);
  }

  /**
   * A well-formed candidate that matches the target's stored challenge
   * confirms it exactly when the target's document validates; otherwise
   * the save fails and no player changes.
   */
  lemma MatchingCandidateConfirms(docs: map<nat, Player>, nextId: nat, seqs: map<string, int>, who: Identity,
                                  cand: string, hash: string -> string, now: int, id: nat)
    requires IsCandidate(cand) && who != BadPlayerId && who != BadSessionId && who != NoIdentity
    requires VerifyTarget(docs, nextId, who) == Some(id) && id in docs
    requires CheckOtp(docs[id].otp, cand, now, hash) == OtpMatches
    ensures VerifySpec(docs, nextId, seqs, who, cand, hash, now).reply == ConfirmSpec(docs, seqs, id, now).reply
    ensures VerifySpec(docs, nextId, seqs, who, cand, hash, now).reply.PhoneConfirmed? <==> Validates(docs[id])
    ensures !Validates(docs[id]) ==>
      VerifySpec(docs, nextId, seqs, who, cand, hash, now).reply == VerifyServerError &&
      VerifySpec(docs, nextId, seqs, who, cand, hash, now).docs == docs
  {
  }
}

=== FILE: pay.dfy ===
/**
 * routes/pay.js: membership payments priced by a reserved creator number.
 * `/preview` names the number the next order would take, `/order` reserves it
 * against a payment gateway order, and `/verify` makes it final for the
 * player, marks the order paid and activates the membership. The gateway's
 * replies are parameters; HMAC-SHA256 keyed with the server secret is the
 * parameter `sign`.
 */
module PayRoutes {
  import opened Wrappers
  import opened Text
  import opened Formats
  import opened PlayerModel
  import opened CreatorNumberModel
  import opened PaymentOrderModel
  import opened InviteCodeModel

  /** A reservation is held for one hour. */
  const HOLD_MS: int := 60 * 60 * 1000

  /** A membership runs for 365 days. */
  const YEAR_MS: int := 365 * 24 * 60 * 60 * 1000

  /** `priceFor(n)`, in rupees: three tiers by creator number. */
  function PriceFor(n: int): (r: int)
    ensures r == 49 || r == 99 || r == 199
    ensures r == 49 <==> n <= 100
    ensures r == 199 <==> n > 3000
  {
    if n <= 100 then 49 else if n <= 3000 then 99 else 199
  }

  /** A later number never pays less. */
  lemma PriceForMonotone(n: int, m: int)
    requires n <= m
    ensures PriceFor(n) <= PriceFor(m)
  {
  }

  /** `codeStr(n)`: '#' and the number zero-padded to four digits. */
  function CodeStr(n: nat): string {
    "#" + PadStart(NatToString(n), 4, '0')
  }

  /**
   * `codeStr` is the creator code of routes/payments.js and routes/player.js:
   * '#' followed by four or more digits that read back as `n`.
   */
  lemma CodeStrIsCreatorCode(n: nat)
    ensures CodeStr(n) == CreatorCode(n)
    ensures |CodeStr(n)| >= 5 && CodeStr(n)[0] == '#' && DecimalValue(CodeStr(n)[1..]) == n
  {
    assert CodeStr(n)[1..] == Pad4(n);
  }

  /** `codeStr` of a stored number that may be missing: `String(undefined)` is "undefined". */
  function CodeStrOf(n: Option<nat>): (r: string)
    ensures n.Some? ==> r == CodeStr(n.value)
    ensures n.None? ==> r == "#undefined"
  {
    match n
    case Some(v) => CodeStr(v)
    case None => "#" + PadStart("undefined", 4, '0')
  }

  /** `GET /preview`: sweeps expired holds, then names the next number and its price. */
  method Preview(pool: CreatorNumbers, now: int) returns (price: int, nextNumber: nat)
    requires pool.Valid()
    modifies pool
    ensures pool.Valid() && pool.slots == Swept(old(pool.slots), now)
    ensures nextNumber == NextNumber(pool.slots) && price == PriceFor(nextNumber)
  {
    pool.ReleaseExpiredHolds(now);
    nextNumber := NextNumber(pool.slots);
    price := PriceFor(nextNumber);
  }

  /**
   * The number `/preview` names is the number an order placed at the same
   * moment reserves: the order sweeps again, which changes nothing more.
   */
  lemma PreviewIsNextReservation(slots: seq<Slot>, now: int)
    requires GapFree(slots)
    ensures NextNumber(Swept(Swept(slots, now), now)) == NextNumber(Swept(slots, now))
    ensures 1 <= NextNumber(Swept(slots, now)) <= |slots| + 1
  {
    SweptIdempotent(slots, now);
    NextNumberIsLeastUnheld(Swept(slots, now));
  }

  datatype OrderReply =
    | RzpNotConfigured
    | OrderInvalidPhone
    | AccountNotFound
    | InviteRequired
    | GatewayFailed
    | OrderServerError
    | OrderCreated(orderId: string, amount: Option<int>, currency: string, reservedNumber: nat)

  /** What `/order` answers, and the pool and orders afterwards (players are only read). */
  datatype OrderOutcome = OrderOutcome(reply: OrderReply, slots: seq<Slot>, orders: map<string, PaymentOrder>)

  /** The order record `/order` writes, keyed by the gateway's order id. */
  function CreatedOrder(id: string, player: nat, phone: string, amount: int, currency: string, n: nat, now: int): (o: PaymentOrder)
    ensures o.orderId == id && o.status == Created && o.amount == Some(amount)
    ensures o.playerId == Some(player) && o.reservedCodeNumber == Some(n)
  {
    PaymentOrder(id, None, None, Created, Some(amount), if currency == "" then "INR" else currency,
                 Some(phone), Some(player), None, None, Some(n), now, now)
  }

  /**
   * `/order` once a pre-order `preId` exists for player `pid`: expired holds
   * are swept and the next number is held for `preId`. If the real order
   * fails the hold is given back (a reply that is not JSON leaves it held);
   * otherwise the order is recorded at `PriceFor(n) × 100` paise and the hold
   * is moved onto the real order id.
   */
  function OrderWithHold(slots: seq<Slot>, orders: map<string, PaymentOrder>, pid: nat, ph: string,
                         preId: string, fin: GatewayReply, now: int): (r: OrderOutcome)
  {
    var swept := Swept(slots, now);
    var n := NextNumber(swept);
    var held := ReservedPool(swept, pid, preId, now, HOLD_MS);
    match fin
    case GatewayRejected => OrderOutcome(GatewayFailed, ReleasedFor(held, preId), orders)
    case GatewayUnreadable => OrderOutcome(OrderServerError, held, orders)
    case GatewayOrder(id, amount, currency) =>
      if id in orders then OrderOutcome(OrderServerError, held, orders)
      else
        OrderOutcome(OrderCreated(id, amount, currency, n), RepointedFor(held, preId, id),
                     orders[id := CreatedOrder(id, pid, ph, PriceFor(n) * 100, currency, n, now)])
  }

  /**
   * `POST /order` for the normalised phone `ph`. The gateway keys are checked
   * first, then the phone; the player must exist and hold an invite lock.
   */
  function OrderSpec(docs: map<nat, Player>, nextId: nat, slots: seq<Slot>, orders: map<string, PaymentOrder>,
                     keys: bool, ph: string, pre: GatewayReply, fin: GatewayReply, now: int): (r: OrderOutcome)
    ensures orders.Keys <= r.orders.Keys && forall k :: k in orders ==> r.orders[k] == orders[k]
    ensures r.reply.OrderCreated? ==> keys && ph != "" && r.orders.Keys == orders.Keys + {r.reply.orderId}
  {
    if !keys then OrderOutcome(RzpNotConfigured, slots, orders)
    else if ph == "" then OrderOutcome(OrderInvalidPhone, slots, orders)
    else
      match PhoneHolder(docs, nextId, ph)
      case None => OrderOutcome(AccountNotFound, slots, orders)
      case Some(pid) =>
        if !docs[pid].steps.inviteLocked then OrderOutcome(InviteRequired, slots, orders)
        else
          match pre
          case GatewayRejected => OrderOutcome(GatewayFailed, slots, orders)
          case GatewayUnreadable => OrderOutcome(OrderServerError, slots, orders)
          case GatewayOrder(preId, _, _) => OrderWithHold(slots, orders, pid, ph, preId, fin, now)
  }

  /** The steps of `/order` after the pre-order: sweep, reserve, final order, record. */
  method PlaceOrder(pool: CreatorNumbers, orders: PaymentOrders, pid: nat, ph: string,
                    preId: string, fin: GatewayReply, now: int) returns (reply: OrderReply)
    requires pool.Valid() && orders.Valid()
    modifies pool, orders
    ensures pool.Valid() && orders.Valid()
    ensures OrderOutcome(reply, pool.slots, orders.orders) == OrderWithHold(old(pool.slots), old(orders.orders), pid, ph, preId, fin, now)
  {
    pool.ReleaseExpiredHolds(now);
    var n := pool.Reserve(pid, preId, now, HOLD_MS);
    match fin
    case GatewayRejected =>
      pool.ReleaseHoldFor(preId);
      reply := GatewayFailed;
    case GatewayUnreadable =>
      reply := OrderServerError;
    case GatewayOrder(id, amount, currency) =>
      if id in orders.orders {
        reply := OrderServerError;
      } else {
        orders.Put(CreatedOrder(id, pid, ph, PriceFor(n) * 100, currency, n, now));
        pool.RepointHold(preId, id);
        reply := OrderCreated(id, amount, currency, n);
      }
  }

  /** `POST /order` with the phone already normalised. */
  method OrderFor(players: Players, pool: CreatorNumbers, orders: PaymentOrders, keys: bool, ph: string,
                  pre: GatewayReply, fin: GatewayReply, now: int) returns (reply: OrderReply)
    requires players.Valid() && pool.Valid() && orders.Valid()
    modifies pool, orders
    ensures pool.Valid() && orders.Valid()
    ensures OrderOutcome(reply, pool.slots, orders.orders) ==
            OrderSpec(players.docs, players.nextId, old(pool.slots), old(orders.orders), keys, ph, pre, fin, now)
  {
    if !keys {
      return RzpNotConfigured;
    }
    if ph == "" {
      return OrderInvalidPhone;
    }
    var holder := players.FindByPhone(ph);
    if holder.None? {
      return AccountNotFound;
    }
    var pid := holder.value;
    if !players.docs[pid].steps.inviteLocked {
      return InviteRequired;
    }
    match pre
    case GatewayRejected =>
      reply := GatewayFailed;
    case GatewayUnreadable =>
      reply := OrderServerError;
    case GatewayOrder(preId, _, _) =>
      reply := PlaceOrder(pool, orders, pid, ph, preId, fin, now);
  }

  /** `POST /order`: the phone normalised, then `OrderSpec`'s outcome. */
  method Order(players: Players, pool: CreatorNumbers, orders: PaymentOrders, keys: bool, phone: JsValues.JsValue,
               pre: GatewayReply, fin: GatewayReply, now: int) returns (reply: OrderReply)
    requires players.Valid() && pool.Valid() && orders.Valid()
    modifies pool, orders
    ensures pool.Valid() && orders.Valid()
    ensures OrderOutcome(reply, pool.slots, orders.orders) ==
            OrderSpec(players.docs, players.nextId, old(pool.slots), old(orders.orders), keys, NormalizePhone(phone), pre, fin, now)
  {
    reply := OrderFor(players, pool, orders, keys, NormalizePhone(phone), pre, fin, now);
  }

  /**
   * Nothing is reserved or recorded unless the pre-order succeeded for a
   * player holding an invite lock; a player without one is refused with
   * INVITE_REQUIRED.
   */
  lemma OrderRefusals(docs: map<nat, Player>, nextId: nat, slots: seq<Slot>, orders: map<string, PaymentOrder>,
                      keys: bool, ph: string, pre: GatewayReply, fin: GatewayReply, now: int)
    ensures var r := OrderSpec(docs, nextId, slots, orders, keys, ph, pre, fin, now);
      && ((keys && ph != "" && PhoneHolder(docs, nextId, ph).Some? &&
           !docs[PhoneHolder(docs, nextId, ph).value].steps.inviteLocked) ==> r.reply == InviteRequired)
      && (r.reply in {RzpNotConfigured, OrderInvalidPhone, AccountNotFound, InviteRequired} ==>
            r.slots == slots && r.orders == orders)
      && (r.reply.OrderCreated? ==> keys && pre.GatewayOrder? && fin.GatewayOrder? && PhoneHolder(docs, nextId, ph).Some?)
  {
  }

  /** A created order passed every check of `/order`; the rest is `OrderWithHold`. */
  lemma OrderSucceeded(docs: map<nat, Player>, nextId: nat, slots: seq<Slot>, orders: map<string, PaymentOrder>,
                       keys: bool, ph: string, pre: GatewayReply, fin: GatewayReply, now: int)
    requires OrderSpec(docs, nextId, slots, orders, keys, ph, pre, fin, now).reply.OrderCreated?
    ensures keys && ph != "" && pre.GatewayOrder? && PhoneHolder(docs, nextId, ph).Some?
    ensures OrderSpec(docs, nextId, slots, orders, keys, ph, pre, fin, now) ==
            OrderWithHold(slots, orders, PhoneHolder(docs, nextId, ph).value, ph, pre.id, fin, now)
  {
  }

  /**
   * A created order is charged the tier of the number it reserved, in paise,
   * and that number is held for the order's own id by its player; every
   * other slot is as the sweep left it.
   */
  lemma OrderChargesReservedTier(slots: seq<Slot>, orders: map<string, PaymentOrder>, pid: nat, ph: string,
                                 preId: string, fin: GatewayReply, now: int)
    requires GapFree(slots) && FirstHeldFor(Swept(slots, now), preId).None?
    requires OrderWithHold(slots, orders, pid, ph, preId, fin, now).reply.OrderCreated?
    ensures var r := OrderWithHold(slots, orders, pid, ph, preId, fin, now);
      var n := r.reply.reservedNumber;
      && n == NextNumber(Swept(slots, now)) && fin.GatewayOrder? && r.reply.orderId == fin.id && fin.id !in orders
      && r.orders == orders[fin.id := r.orders[fin.id]]
      && r.orders[fin.id].amount == Some(PriceFor(n) * 100) && r.orders[fin.id].reservedCodeNumber == Some(n)
      && r.orders[fin.id].playerId == Some(pid)
      && GapFree(r.slots) && 1 <= n <= |r.slots|
      && r.slots[n - 1].status == Reserved && r.slots[n - 1].orderId == fin.id && r.slots[n - 1].reservedBy == Some(pid)
      && (forall j :: 0 <= j < |slots| && j != n - 1 ==> r.slots[j] == Swept(slots, now)[j])
  {
    var swept := Swept(slots, now);
    ReserveHoldsNextNumber(swept, pid, preId, now, HOLD_MS);
    HeldForNewReservation(swept, pid, preId, now, HOLD_MS);
  }

  /**
   * When the sweep left no hold for `orderId`, the first hold for it after a
   * reservation is the reserved number's slot.
   */
  lemma HeldForNewReservation(slots: seq<Slot>, player: nat, orderId: string, now: int, holdMs: int)
    requires GapFree(slots) && FirstHeldFor(slots, orderId).None?
    ensures FirstHeldFor(ReservedPool(slots, player, orderId, now, holdMs), orderId) == Some(NextNumber(slots) - 1)
  {
    ReserveHoldsNextNumber(slots, player, orderId, now, holdMs);
    var r := ReservedPool(slots, player, orderId, now, holdMs);
    var k := NextNumber(slots) - 1;
    assert r[k].status == Reserved && r[k].orderId == orderId;
    forall j | 0 <= j < k
      ensures !(r[j].status == Reserved && r[j].orderId == orderId)
    {
      assert r[j] == slots[j];
    }
  }

  /** A sweep only releases holds, so it never creates a hold for an order. */
  lemma SweptHoldsNothingNew(slots: seq<Slot>, orderId: string, now: int)
    requires FirstHeldFor(slots, orderId).None?
    ensures FirstHeldFor(Swept(slots, now), orderId).None?
  {
    var s := Swept(slots, now);
    forall j | 0 <= j < |s|
      ensures !(s[j].status == Reserved && s[j].orderId == orderId)
    {
      assert Expired(slots[j], now) ==> s[j].status == Free;
    }
  }

  /**
   * When the final gateway order fails, the reserved number goes back to
   * free and every other slot is as the sweep left it.
   */
  lemma OrderFailureFreesHold(slots: seq<Slot>, orders: map<string, PaymentOrder>, pid: nat, ph: string,
                              preId: string, now: int)
    requires GapFree(slots) && FirstHeldFor(Swept(slots, now), preId).None?
    ensures var r := OrderWithHold(slots, orders, pid, ph, preId, GatewayRejected, now);
      var n := NextNumber(Swept(slots, now));
      && r.reply == GatewayFailed && r.orders == orders && GapFree(r.slots) && 1 <= n <= |r.slots|
      && r.slots[n - 1].status == Free && r.slots[n - 1].reservedBy == None && r.slots[n - 1].orderId == ""
      && (forall j :: 0 <= j < |slots| && j != n - 1 ==> r.slots[j] == Swept(slots, now)[j])
  {
    var swept := Swept(slots, now);
    ReserveHoldsNextNumber(swept, pid, preId, now, HOLD_MS);
    HeldForNewReservation(swept, pid, preId, now, HOLD_MS);
  }

  datatype PayVerifyReply =
    | VerifyNotConfigured
    | VerifyInvalidPhone
    | MissingFields
    | VerifyAccountNotFound
    | OrderNotFound
    | AlreadyPaid(amount: Option<int>, code: string)
    | BadSignature
    | PaymentVerified(validTill: int, amount: Option<int>, code: string)
    /** The final `p.save()` failed validation; the earlier writes stay and the answer is a 500. */
    | SettleFailed

  /** What `/verify` answers, and the players, pool, orders and invite codes afterwards. */
  datatype PayVerifyOutcome = PayVerifyOutcome(
    reply: PayVerifyReply, docs: map<nat, Player>, slots: seq<Slot>,
    orders: map<string, PaymentOrder>, codes: map<string, Invite>)

  /**
   * The creator number a verified payment gets: its own order's hold when
   * there is one, else (after a sweep) the number a fresh reservation takes.
   */
  function FinalNumber(slots: seq<Slot>, orderId: string, now: int): nat {
    match FirstHeldFor(slots, orderId)
    case Some(i) => i + 1
    case None => NextNumber(Swept(slots, now))
  }

  /** The pool after a verified payment made its number final for `player`. */
  function FinalPool(slots: seq<Slot>, orderId: string, player: nat, now: int): seq<Slot> {
    match FirstHeldFor(slots, orderId)
    case Some(_) => AssignedFor(slots, orderId, player, now)
    case None => AssignedFor(ReservedPool(Swept(slots, now), player, orderId, now, HOLD_MS), orderId, player, now)
  }

  /**
   * The order as routes/pay.js saves it after a good signature: paid, with
   * the payment id and signature, and `reservedCodeNumber` left as it was.
   */
  function PaidAsWritten(o: PaymentOrder, paymentId: string, signature: string, now: int): (r: PaymentOrder)
    ensures r.status == Paid && r.reservedCodeNumber == o.reservedCodeNumber && r.orderId == o.orderId
  {
    o.(status := Paid, paymentId := Some(paymentId), signature := Some(signature), updatedAt := now)
  }

  /** The order as saved after a good signature, recording the number actually assigned. */
  function PaidRecord(o: PaymentOrder, paymentId: string, signature: string, n: nat, now: int): (r: PaymentOrder)
    ensures r.status == Paid && r.reservedCodeNumber == Some(n) && r.orderId == o.orderId && r.amount == o.amount
    ensures r.paymentId == Some(paymentId) && r.signature == Some(signature)
  {
    PaidAsWritten(o, paymentId, signature, now).(reservedCodeNumber := Some(n))
  }

  /**
   * The player after a verified payment: membership active for a year from
   * `now`, the creator number and code set, and, when the player has an
   * invite code, the invite marked verified. The phone, session, join
   * rank and role are untouched.
   */
  function Activated(p: Player, orderId: string, paymentId: string, amount: int, n: nat, now: int): (q: Player)
    ensures q.membership == Membership(MemberActive, Some(now + YEAR_MS), Some(now), orderId, paymentId, amount)
    ensures q.creator == CreatorInfo(n, CodeStr(n))
    ensures q.phone == p.phone && q.sessionId == p.sessionId && q.joinOrder == p.joinOrder && q.role == p.role
    ensures p.invite.code != "" ==> q.invite == p.invite.(verified := true) && q.steps == p.steps.(inviteVerified := true)
    ensures p.invite.code == "" ==> q.invite == p.invite && q.steps == p.steps
  {
    var q := p.(membership := Membership(MemberActive, Some(now + YEAR_MS), Some(now), orderId, paymentId, amount),
                creator := CreatorInfo(n, CodeStr(n)));
    if p.invite.code != "" then q.(invite := q.invite.(verified := true), steps := q.steps.(inviteVerified := true))
    else q
  }

  /**
   * `/verify` once the player `pid` and its unpaid order `orderId` are known
   * and the signature is good: the number is made final, the order is paid,
   * the invite code the player locked is consumed, and the player is
   * activated and saved. When the player's document does not validate that
   * last save fails: the number, the order and the invite stay written, the
   * player does not change, and the answer is a 500.
   */
  function SettleSpec(docs: map<nat, Player>, slots: seq<Slot>, orders: map<string, PaymentOrder>, codes: map<string, Invite>,
                      pid: nat, orderId: string, paymentId: string, signature: string, now: int): (r: PayVerifyOutcome)
    requires pid in docs && orderId in orders
    ensures r.reply.PaymentVerified? <==> Validates(docs[pid])
    ensures r.reply.PaymentVerified? ==> r.reply.amount == orders[orderId].amount
    ensures !r.reply.PaymentVerified? ==> r.reply == SettleFailed && r.docs == docs
    ensures r.docs.Keys == docs.Keys && r.orders.Keys == orders.Keys && r.orders[orderId].status == Paid
  {
    var ord := orders[orderId];
    var n := FinalNumber(slots, orderId, now);
    var p := docs[pid];
    var codes1 := if p.invite.code != "" then LockedConsumed(codes, p.invite.code, pid, now) else codes;
    var q := Activated(p, orderId, paymentId, ord.amount.GetOr(0), n, now);
    var pool1 := FinalPool(slots, orderId, pid, now);
    var orders1 := orders[orderId := PaidRecord(ord, paymentId, signature, n, now)];
    if !Validates(p) then PayVerifyOutcome(SettleFailed, docs, pool1, orders1, codes1)
    else PayVerifyOutcome(PaymentVerified(now + YEAR_MS, ord.amount, CodeStr(n)), docs[pid := q.(updatedAt := now)],
                          pool1, orders1, codes1)
  }

  /**
   * `POST /verify` for the normalised phone `ph`. The keys, the phone and the
   * three gateway fields are checked first; the order must belong to the
   * player; a paid order is answered again without changes; a bad signature
   * is refused without changes.
   */
  function PayVerifySpec(docs: map<nat, Player>, nextId: nat, slots: seq<Slot>, orders: map<string, PaymentOrder>,
                         codes: map<string, Invite>, keys: bool, ph: string, paymentId: string, orderId: string,
                         signature: string, sign: string -> string, now: int): (r: PayVerifyOutcome)
    ensures r.docs.Keys == docs.Keys && r.orders.Keys == orders.Keys
  {
    var same := PayVerifyOutcome(VerifyNotConfigured, docs, slots, orders, codes);
    if !keys then same
    else if ph == "" then same.(reply := VerifyInvalidPhone)
    else if paymentId == "" || orderId == "" || signature == "" then same.(reply := MissingFields)
    else
      match PhoneHolder(docs, nextId, ph)
      case None => same.(reply := VerifyAccountNotFound)
      case Some(pid) =>
        if orderId !in orders || orders[orderId].playerId != Some(pid) then same.(reply := OrderNotFound)
        else if orders[orderId].status == Paid then
          same.(reply := AlreadyPaid(orders[orderId].amount, CodeStrOf(orders[orderId].reservedCodeNumber)))
        else if sign(orderId + "|" + paymentId) != signature then same.(reply := BadSignature)
        else SettleSpec(docs, slots, orders, codes, pid, orderId, paymentId, signature, now)
  }

  /** The atomic finalisation of the order's hold, with the fallback reservation when it is gone. */
  method FinalizeNumber(pool: CreatorNumbers, orderId: string, pid: nat, now: int) returns (n: nat)
    requires pool.Valid()
    modifies pool
    ensures pool.Valid()
    ensures n == FinalNumber(old(pool.slots), orderId, now)
    ensures pool.slots == FinalPool(old(pool.slots), orderId, pid, now)
  {
    var cn := pool.AssignHoldFor(orderId, pid, now);
    if cn.Some? {
      n := cn.value;
    } else {
      pool.ReleaseExpiredHolds(now);
      n := pool.Reserve(pid, orderId, now, HOLD_MS);
      var _ := pool.AssignHoldFor(orderId, pid, now);
    }
  }

  /** `ord.status = 'paid'` with the payment id and signature, then `ord.save()`. */
  method MarkPaid(orders: PaymentOrders, orderId: string, paymentId: string, signature: string, n: nat, now: int)
    returns (amount: Option<int>)
    requires orders.Valid() && orderId in orders.orders
    modifies orders
    ensures orders.Valid() && amount == old(orders.orders[orderId].amount)
    ensures orders.orders == old(orders.orders)[orderId := PaidRecord(old(orders.orders[orderId]), paymentId, signature, n, now)]
  {
    var ord := orders.orders[orderId];
    orders.Put(PaidRecord(ord, paymentId, signature, n, now));
    amount := ord.amount;
  }

  /**
   * The player's membership and creator code, the invite it locked
   * consumed, then `p.save()`, which fails when the player's document does
   * not validate.
   */
  method ActivatePlayer(players: Players, invites: InviteCodes, pid: nat, orderId: string, paymentId: string,
                        amount: int, n: nat, now: int)
    returns (ok: bool)
    requires players.Valid() && invites.Valid() && pid in players.docs
    modifies players, invites
    ensures players.Valid() && invites.Valid() && players.nextId == old(players.nextId)
    ensures ok <==> Validates(old(players.docs[pid]))
    ensures var p := old(players.docs[pid]);
      && (ok ==> players.docs == old(players.docs)[pid := Activated(p, orderId, paymentId, amount, n, now).(updatedAt := now)])
      && (!ok ==> players.docs == old(players.docs))
      && invites.codes == if p.invite.code != "" then LockedConsumed(old(invites.codes), p.invite.code, pid, now)
                          else old(invites.codes)
  {
    var p := players.docs[pid];
    if p.invite.code != "" {
      var _ := invites.ConsumeLocked(p.invite.code, pid, now);
    }
    ok := players.SaveKeepingPhone(pid, Activated(p, orderId, paymentId, amount, n, now), now);
  }

  /** The writes of `/verify` after a good signature. */
  method Settle(players: Players, pool: CreatorNumbers, orders: PaymentOrders, invites: InviteCodes,
                pid: nat, orderId: string, paymentId: string, signature: string, now: int)
    returns (reply: PayVerifyReply)
    requires players.Valid() && pool.Valid() && orders.Valid() && invites.Valid()
    requires pid in players.docs && orderId in orders.orders
    modifies players, pool, orders, invites
    ensures players.Valid() && pool.Valid() && orders.Valid() && invites.Valid()
    ensures players.nextId == old(players.nextId)
    ensures PayVerifyOutcome(reply, players.docs, pool.slots, orders.orders, invites.codes) ==
            SettleSpec(old(players.docs), old(pool.slots), old(orders.orders), old(invites.codes),
                       pid, orderId, paymentId, signature, now)
  {
    ghost var docs0, slots0, orders0, codes0 := players.docs, pool.slots, orders.orders, invites.codes;
    var n := FinalizeNumber(pool, orderId, pid, now);
    assert orders.orders == orders0 && players.docs == docs0 && invites.codes == codes0;
    var amount := MarkPaid(orders, orderId, paymentId, signature, n, now);
    assert amount == orders0[orderId].amount;
    ghost var slots1, orders1 := pool.slots, orders.orders;
    var ok := ActivatePlayer(players, invites, pid, orderId, paymentId, amount.GetOr(0), n, now);
    assert pool.slots == slots1 && orders.orders == orders1;
    reply := if ok then PaymentVerified(now + YEAR_MS, amount, CodeStr(n)) else SettleFailed;
    SettleSpecParts(docs0, slots0, orders0, codes0, pid, orderId, paymentId, signature, now);
  }

  /** `SettleSpec` component by component. */
  lemma SettleSpecParts(docs: map<nat, Player>, slots: seq<Slot>, orders: map<string, PaymentOrder>, codes: map<string, Invite>,
                        pid: nat, orderId: string, paymentId: string, signature: string, now: int)
    requires pid in docs && orderId in orders
    ensures var r := SettleSpec(docs, slots, orders, codes, pid, orderId, paymentId, signature, now);
      var n := FinalNumber(slots, orderId, now);
      var p := docs[pid];
      && r.reply == (if Validates(p) then PaymentVerified(now + YEAR_MS, orders[orderId].amount, CodeStr(n)) else SettleFailed)
      && r.docs == (if Validates(p) then docs[pid := Activated(p, orderId, paymentId, orders[orderId].amount.GetOr(0), n, now).(updatedAt := now)]
                    else docs)
      && r.slots == FinalPool(slots, orderId, pid, now)
      && r.orders == orders[orderId := PaidRecord(orders[orderId], paymentId, signature, n, now)]
      && r.codes == if p.invite.code != "" then LockedConsumed(codes, p.invite.code, pid, now) else codes
  {
  }

  /** `POST /verify` with the phone already normalised. */
  method PayVerifyFor(players: Players, pool: CreatorNumbers, orders: PaymentOrders, invites: InviteCodes,
                      keys: bool, ph: string, paymentId: string, orderId: string, signature: string,
                      sign: string -> string, now: int)
    returns (reply: PayVerifyReply)
    requires players.Valid() && pool.Valid() && orders.Valid() && invites.Valid()
    modifies players, pool, orders, invites
    ensures players.Valid() && pool.Valid() && orders.Valid() && invites.Valid()
    ensures players.nextId == old(players.nextId)
    ensures PayVerifyOutcome(reply, players.docs, pool.slots, orders.orders, invites.codes) ==
            PayVerifySpec(old(players.docs), old(players.nextId), old(pool.slots), old(orders.orders), old(invites.codes),
                          keys, ph, paymentId, orderId, signature, sign, now)
  {
    if !keys {
      return VerifyNotConfigured;
    }
    if ph == "" {
      return VerifyInvalidPhone;
    }
    if paymentId == "" || orderId == "" || signature == "" {
      return MissingFields;
    }
    var holder := players.FindByPhone(ph);
    if holder.None? {
      return VerifyAccountNotFound;
    }
    var pid := holder.value;
    if orderId !in orders.orders || orders.orders[orderId].playerId != Some(pid) {
      return OrderNotFound;
    }
    var ord := orders.orders[orderId];
    if ord.status == Paid {
      return AlreadyPaid(ord.amount, CodeStrOf(ord.reservedCodeNumber));
    }
    if sign(orderId + "|" + paymentId) != signature {
      return BadSignature;
    }
    reply := Settle(players, pool, orders, invites, pid, orderId, paymentId, signature, now);
  }

  /** `POST /verify`: the phone normalised, then `PayVerifySpec`'s outcome. */
  method PayVerify(players: Players, pool: CreatorNumbers, orders: PaymentOrders, invites: InviteCodes,
                   keys: bool, phone: JsValues.JsValue, paymentId: string, orderId: string, signature: string,
                   sign: string -> string, now: int)
    returns (reply: PayVerifyReply)
    requires players.Valid() && pool.Valid() && orders.Valid() && invites.Valid()
    modifies players, pool, orders, invites
    ensures players.Valid() && pool.Valid() && orders.Valid() && invites.Valid()
    ensures PayVerifyOutcome(reply, players.docs, pool.slots, orders.orders, invites.codes) ==
            PayVerifySpec(old(players.docs), old(players.nextId), old(pool.slots), old(orders.orders), old(invites.codes),
                          keys, NormalizePhone(phone), paymentId, orderId, signature, sign, now)
  {
    reply := PayVerifyFor(players, pool, orders, invites, keys, NormalizePhone(phone), paymentId, orderId, signature, sign, now);
  }

  /**
   * Making the number final touches one slot: the order's own hold when it
   * still exists, otherwise a fresh reservation for the order. That slot is
   * assigned to the player and no other slot changes (beyond the sweep of
   * expired holds when a fresh reservation is needed); the pool grows only
   * when that reservation finds no free slot, and stays gap-free.
   */
  lemma FinalPoolOnlyThatSlot(slots: seq<Slot>, orderId: string, pid: nat, now: int)
    requires GapFree(slots)
    ensures var r := FinalPool(slots, orderId, pid, now);
      var n := FinalNumber(slots, orderId, now);
      && GapFree(r) && 1 <= n <= |r|
      && r[n - 1].status == Assigned && r[n - 1].assignedTo == Some(pid)
    ensures var r := FinalPool(slots, orderId, pid, now);
      var n := FinalNumber(slots, orderId, now);
      var held := FirstHeldFor(slots, orderId).Some?;
      && |r| == (if held || SmallestFree(Swept(slots, now)).Some? then |slots| else |slots| + 1)
      && forall j :: 0 <= j < |slots| && j != n - 1 ==> r[j] == (if held then slots[j] else Swept(slots, now)[j])
  {
    match FirstHeldFor(slots, orderId)
    case Some(i) =>
      AssignedForOnlyThatSlot(slots, orderId, pid, now);
    case None =>
      var swept := Swept(slots, now);
      SweptHoldsNothingNew(slots, orderId, now);
      ReserveHoldsNextNumber(swept, pid, orderId, now, HOLD_MS);
      HeldForNewReservation(swept, pid, orderId, now, HOLD_MS);
      AssignedForOnlyThatSlot(ReservedPool(swept, pid, orderId, now, HOLD_MS), orderId, pid, now);
  }

  /**
   * A verified payment makes exactly one number final, as
   * `FinalPoolOnlyThatSlot` describes, with the order's own hold when it
   * still exists, and the order is paid. When the player's document
   * validates, its creator number and code are that number and the
   * membership is active for a year; when it does not, the player is left
   * as it was and the answer is a 500.
   */
  lemma PayVerifyAssignsNumber(docs: map<nat, Player>, slots: seq<Slot>, orders: map<string, PaymentOrder>,
                               codes: map<string, Invite>, pid: nat, orderId: string, paymentId: string,
                               signature: string, now: int)
    requires GapFree(slots) && pid in docs && orderId in orders
    ensures var r := SettleSpec(docs, slots, orders, codes, pid, orderId, paymentId, signature, now);
      var n := FinalNumber(slots, orderId, now);
      && GapFree(r.slots) && 1 <= n <= |r.slots|
      && r.slots[n - 1].status == Assigned && r.slots[n - 1].assignedTo == Some(pid)
      && (FirstHeldFor(slots, orderId).Some? ==> n == FirstHeldFor(slots, orderId).value + 1)
      && r.orders[orderId].status == Paid
      && (Validates(docs[pid]) ==>
            && r.docs[pid].creator == CreatorInfo(n, CodeStr(n))
            && r.docs[pid].membership.status == MemberActive && r.docs[pid].membership.validTill == Some(now + YEAR_MS)
            && r.reply == PaymentVerified(now + YEAR_MS, orders[orderId].amount, CodeStr(n)))
      && (!Validates(docs[pid]) ==> r.reply == SettleFailed && r.docs == docs)
    ensures var r := SettleSpec(docs, slots, orders, codes, pid, orderId, paymentId, signature, now);
      var n := FinalNumber(slots, orderId, now);
      var held := FirstHeldFor(slots, orderId).Some?;
      && |r.slots| == (if held || SmallestFree(Swept(slots, now)).Some? then |slots| else |slots| + 1)
      && forall j :: 0 <= j < |slots| && j != n - 1 ==> r.slots[j] == (if held then slots[j] else Swept(slots, now)[j])
  {
    FinalPoolOnlyThatSlot(slots, orderId, pid, now);
  }

  /** Every check `/verify` makes before settling: keys, phone, fields, owner, not yet paid, signature. */
  predicate PayVerifyPasses(docs: map<nat, Player>, nextId: nat, orders: map<string, PaymentOrder>, keys: bool,
                            ph: string, paymentId: string, orderId: string, signature: string, sign: string -> string)
  {
    && keys && ph != "" && paymentId != "" && orderId != "" && signature != ""
    && PhoneHolder(docs, nextId, ph).Some? && orderId in orders
    && orders[orderId].playerId == Some(PhoneHolder(docs, nextId, ph).value)
    && orders[orderId].status != Paid && sign(orderId + "|" + paymentId) == signature
  }

  /** A request failing any check is neither verified nor settled. */
  lemma PayVerifyOnlyWhenPasses(docs: map<nat, Player>, nextId: nat, slots: seq<Slot>, orders: map<string, PaymentOrder>,
                                codes: map<string, Invite>, keys: bool, ph: string, paymentId: string, orderId: string,
                                signature: string, sign: string -> string, now: int)
    ensures var r := PayVerifySpec(docs, nextId, slots, orders, codes, keys, ph, paymentId, orderId, signature, sign, now);
      !PayVerifyPasses(docs, nextId, orders, keys, ph, paymentId, orderId, signature, sign) ==>
      !r.reply.PaymentVerified? && !r.reply.SettleFailed?
  {
  }

  /** `/verify` on a player `pid` and order that pass its checks reaches `SettleSpec`. */
  lemma PayVerifySettles(docs: map<nat, Player>, nextId: nat, slots: seq<Slot>, orders: map<string, PaymentOrder>,
                         codes: map<string, Invite>, keys: bool, ph: string, paymentId: string, orderId: string,
                         signature: string, sign: string -> string, now: int)
    requires var r := PayVerifySpec(docs, nextId, slots, orders, codes, keys, ph, paymentId, orderId, signature, sign, now);
      r.reply.PaymentVerified? || r.reply.SettleFailed?
    ensures PhoneHolder(docs, nextId, ph).Some? && orderId in orders
    ensures var pid := PhoneHolder(docs, nextId, ph).value;
      PayVerifySpec(docs, nextId, slots, orders, codes, keys, ph, paymentId, orderId, signature, sign, now) ==
      SettleSpec(docs, slots, orders, codes, pid, orderId, paymentId, signature, now)
  {
    PayVerifyOnlyWhenPasses(docs, nextId, slots, orders, codes, keys, ph, paymentId, orderId, signature, sign, now);
  }

  /** A request failing a check leaves all four collections as they were. */
  lemma PayVerifyRefusalKeeps(docs: map<nat, Player>, nextId: nat, slots: seq<Slot>, orders: map<string, PaymentOrder>,
                              codes: map<string, Invite>, keys: bool, ph: string, paymentId: string, orderId: string,
                              signature: string, sign: string -> string, now: int)
    requires !PayVerifyPasses(docs, nextId, orders, keys, ph, paymentId, orderId, signature, sign)
    ensures var r := PayVerifySpec(docs, nextId, slots, orders, codes, keys, ph, paymentId, orderId, signature, sign, now);
      r.docs == docs && r.slots == slots && r.orders == orders && r.codes == codes
  {
  }

  /**
   * Every answer of `/verify` other than a verified payment or a failed
   * final save leaves all four collections as they were; both of those come
   * after every check passed, and a failed save leaves the players as they
   * were.
   */
  lemma PayVerifyRefusalsChangeNothing(docs: map<nat, Player>, nextId: nat, slots: seq<Slot>, orders: map<string, PaymentOrder>,
                                       codes: map<string, Invite>, keys: bool, ph: string, paymentId: string, orderId: string,
                                       signature: string, sign: string -> string, now: int)
    ensures var r := PayVerifySpec(docs, nextId, slots, orders, codes, keys, ph, paymentId, orderId, signature, sign, now);
      && (!r.reply.PaymentVerified? && !r.reply.SettleFailed? ==>
            r.docs == docs && r.slots == slots && r.orders == orders && r.codes == codes)
      && (r.reply.PaymentVerified? || r.reply.SettleFailed? ==>
            orderId in orders && orders[orderId].status != Paid && sign(orderId + "|" + paymentId) == signature)
      && (r.reply.SettleFailed? ==> r.docs == docs)
  {
    PayVerifyOnlyWhenPasses(docs, nextId, slots, orders, codes, keys, ph, paymentId, orderId, signature, sign, now);
    if PayVerifyPasses(docs, nextId, orders, keys, ph, paymentId, orderId, signature, sign) {
      PayVerifySettles(docs, nextId, slots, orders, codes, keys, ph, paymentId, orderId, signature, sign, now);
    } else {
      PayVerifyRefusalKeeps(docs, nextId, slots, orders, codes, keys, ph, paymentId, orderId, signature, sign, now);
    }
  }

  /**
   * Replaying a verified payment is idempotent: the same request answers
   * with the amount and the creator code the first answer gave, and changes
   * nothing.
   */
  lemma PayVerifyReplay(docs: map<nat, Player>, nextId: nat, slots: seq<Slot>, orders: map<string, PaymentOrder>,
                        codes: map<string, Invite>, keys: bool, ph: string, paymentId: string, orderId: string,
                        signature: string, sign: string -> string, now: int, later: int)
    requires PayVerifySpec(docs, nextId, slots, orders, codes, keys, ph, paymentId, orderId, signature, sign, now).reply.PaymentVerified?
    ensures var r := PayVerifySpec(docs, nextId, slots, orders, codes, keys, ph, paymentId, orderId, signature, sign, now);
      var again := PayVerifySpec(r.docs, nextId, r.slots, r.orders, r.codes, keys, ph, paymentId, orderId, signature, sign, later);
      && again.reply == AlreadyPaid(r.reply.amount, r.reply.code)
      && again.docs == r.docs && again.slots == r.slots && again.orders == r.orders && again.codes == r.codes
  {
    PayVerifyOnlyWhenPasses(docs, nextId, slots, orders, codes, keys, ph, paymentId, orderId, signature, sign, now);
    PayVerifySettles(docs, nextId, slots, orders, codes, keys, ph, paymentId, orderId, signature, sign, now);
    var pid := PhoneHolder(docs, nextId, ph).value;
    var r := SettleSpec(docs, slots, orders, codes, pid, orderId, paymentId, signature, now);
    PhoneHolderUpdate(docs, nextId, ph, pid, r.docs[pid]);
    assert r.docs == docs[pid := r.docs[pid]];
    PayVerifyOfPaid(r.docs, nextId, r.slots, r.orders, r.codes, keys, ph, paymentId, orderId, signature, sign, later, pid);
  }

  /**
   * After a failed final save the order is paid but the player is not: the
   * same request is answered as already paid, and the player's membership
   * stays as it was before the payment.
   */
  lemma PayVerifyAfterFailedSettle(docs: map<nat, Player>, nextId: nat, slots: seq<Slot>, orders: map<string, PaymentOrder>,
                                   codes: map<string, Invite>, keys: bool, ph: string, paymentId: string, orderId: string,
                                   signature: string, sign: string -> string, now: int, later: int)
    requires PayVerifySpec(docs, nextId, slots, orders, codes, keys, ph, paymentId, orderId, signature, sign, now).reply.SettleFailed?
    ensures var r := PayVerifySpec(docs, nextId, slots, orders, codes, keys, ph, paymentId, orderId, signature, sign, now);
      var again := PayVerifySpec(r.docs, nextId, r.slots, r.orders, r.codes, keys, ph, paymentId, orderId, signature, sign, later);
      && orderId in r.orders && r.orders[orderId].status == Paid
      && again.reply.AlreadyPaid? && r.docs == docs
      && again.docs == docs && again.slots == r.slots && again.orders == r.orders && again.codes == r.codes
  {
    PayVerifyOnlyWhenPasses(docs, nextId, slots, orders, codes, keys, ph, paymentId, orderId, signature, sign, now);
    PayVerifySettles(docs, nextId, slots, orders, codes, keys, ph, paymentId, orderId, signature, sign, now);
    var pid := PhoneHolder(docs, nextId, ph).value;
    var r := SettleSpec(docs, slots, orders, codes, pid, orderId, paymentId, signature, now);
    SettleSpecParts(docs, slots, orders, codes, pid, orderId, paymentId, signature, now);
    PayVerifyOfPaid(r.docs, nextId, r.slots, r.orders, r.codes, keys, ph, paymentId, orderId, signature, sign, later, pid);
  }

  /** A request for an order its player has already paid is answered from the order, changing nothing. */
  lemma PayVerifyOfPaid(docs: map<nat, Player>, nextId: nat, slots: seq<Slot>, orders: map<string, PaymentOrder>,
                        codes: map<string, Invite>, keys: bool, ph: string, paymentId: string, orderId: string,
                        signature: string, sign: string -> string, now: int, pid: nat)
    requires keys && ph != "" && paymentId != "" && orderId != "" && signature != ""
    requires PhoneHolder(docs, nextId, ph) == Some(pid) && orderId in orders
    requires orders[orderId].playerId == Some(pid) && orders[orderId].status == Paid
    ensures PayVerifySpec(docs, nextId, slots, orders, codes, keys, ph, paymentId, orderId, signature, sign, now) ==
      PayVerifyOutcome(AlreadyPaid(orders[orderId].amount, CodeStrOf(orders[orderId].reservedCodeNumber)), docs, slots, orders, codes)
  {
  }

  /** The creator codes of the first two numbers. */
  lemma FirstCodes()
    ensures CodeStr(1) == "#0001" && CodeStr(2) == "#0002"
  {
    assert NatToString(1) == "1" && NatToString(2) == "2";
    assert PadStart("1", 4, '0') == "0001";
    assert PadStart("2", 4, '0') == "0002";
  }

  /** A verification whose hold was swept and re-reserved by another order falls back to the next number. */
  lemma FallbackTakesNextNumber()
    ensures FinalNumber([NewHeld(1, 7, "order_B", 0, HOLD_MS)], "order_A", HOLD_MS) == 2
  {
    var other := NewHeld(1, 7, "order_B", 0, HOLD_MS);
    assert !Expired(other, HOLD_MS);
    assert Swept([other], HOLD_MS) == [other];
  }

  /**
   * As written, the order keeps the `reservedCodeNumber` `/order` stored even
   * when `/verify` had to fall back to a fresh number: here the order's hold
   * on number 1 has expired and been taken by another order, the payment
   * gets number 2, and a replay of the verification reports "#0001" while the
   * player's code is "#0002".
   */
  lemma ReplayAfterFallbackAsWritten()
    ensures var ord := CreatedOrder("order_A", 3, "+919800000000", 4900, "INR", 1, 0);
      var n := FinalNumber([NewHeld(1, 7, "order_B", 0, HOLD_MS)], "order_A", HOLD_MS);
      && CodeStrOf(PaidAsWritten(ord, "pay_1", "sig", HOLD_MS).reservedCodeNumber) == "#0001"
      && CodeStr(n) == "#0002"
  {
    FirstCodes();
    FallbackTakesNextNumber();
  }

  /**
   * A replay against the order as routes/pay.js saves it (`PaidAsWritten`):
   * answered from the order with the first amount and the code of the
   * number `/order` reserved, changing nothing; that code is the one the
   * first answer gave exactly when no fallback number was needed.
   */
  lemma PayVerifyReplayAsWritten(docs: map<nat, Player>, nextId: nat, slots: seq<Slot>, orders: map<string, PaymentOrder>,
                                 codes: map<string, Invite>, keys: bool, ph: string, paymentId: string, orderId: string,
                                 signature: string, sign: string -> string, now: int, later: int)
    requires PayVerifySpec(docs, nextId, slots, orders, codes, keys, ph, paymentId, orderId, signature, sign, now).reply.PaymentVerified?
    ensures orderId in orders
    ensures var r := PayVerifySpec(docs, nextId, slots, orders, codes, keys, ph, paymentId, orderId, signature, sign, now);
      var written := r.orders[orderId := PaidAsWritten(orders[orderId], paymentId, signature, now)];
      var again := PayVerifySpec(r.docs, nextId, r.slots, written, r.codes, keys, ph, paymentId, orderId, signature, sign, later);
      && again.reply == AlreadyPaid(r.reply.amount, CodeStrOf(orders[orderId].reservedCodeNumber))
      && again.docs == r.docs && again.slots == r.slots && again.orders == written && again.codes == r.codes
      && (orders[orderId].reservedCodeNumber == Some(FinalNumber(slots, orderId, now)) ==> again.reply.code == r.reply.code)
  {
    PayVerifyOnlyWhenPasses(docs, nextId, slots, orders, codes, keys, ph, paymentId, orderId, signature, sign, now);
    PayVerifySettles(docs, nextId, slots, orders, codes, keys, ph, paymentId, orderId, signature, sign, now);
    var pid := PhoneHolder(docs, nextId, ph).value;
    SettleSpecParts(docs, slots, orders, codes, pid, orderId, paymentId, signature, now);
    var r := SettleSpec(docs, slots, orders, codes, pid, orderId, paymentId, signature, now);
    var written := r.orders[orderId := PaidAsWritten(orders[orderId], paymentId, signature, now)];
    PhoneHolderUpdate(docs, nextId, ph, pid, r.docs[pid]);
    assert r.docs == docs[pid := r.docs[pid]];
    PayVerifyOfPaid(r.docs, nextId, r.slots, written, r.codes, keys, ph, paymentId, orderId, signature, sign, later, pid);
  }

  /** With the number recorded on the order, the replayed code is always the assigned one. */
  lemma ReplayReportsAssignedCode(ord: PaymentOrder, paymentId: string, signature: string, n: nat, now: int)
    ensures CodeStrOf(PaidRecord(ord, paymentId, signature, n, now).reservedCodeNumber) == CodeStr(n)
  {
  }
}

=== FILE: payment_order.dfy ===
/**
 * Payment orders (models/PaymentOrder.js), the payment gateway's reply to an
 * order request, and the order statistics of routes/payments.js.
 */
module PaymentOrderModel {
  import opened Wrappers

  datatype OrderStatus = Created | Paid | Failed | Refunded

  /**
   * A payment order, keyed by the gateway's order id. `amount` is in paise and
   * may be missing on a record first written by a failed verification.
   * `reservedCodeNumber` is the creator number routes/pay.js attaches to its orders.
   */
  datatype PaymentOrder = PaymentOrder(
    orderId: string,
    paymentId: Option<string>,
    signature: Option<string>,
    status: OrderStatus,
    amount: Option<int>,
    currency: string,
    phone: Option<string>,
    playerId: Option<nat>,
    verifiedAt: Option<int>,
    failureReason: Option<string>,
    reservedCodeNumber: Option<nat>,
    createdAt: int,
    updatedAt: int)

  /** An order record with the schema defaults (status created, currency INR). */
  function NewOrder(orderId: string, now: int): (o: PaymentOrder)
    ensures o.orderId == orderId && o.status == Created && o.currency == "INR"
    ensures o.amount == None && o.playerId == None && o.reservedCodeNumber == None
    ensures o.createdAt == now && o.updatedAt == now
  {
    PaymentOrder(orderId, None, None, Created, None, "INR", None, None, None, None, None, now, now)
  }

  /**
   * The gateway's answer to an order request: a non-2xx reply, a body that is
   * not JSON, or an order with its id, optional amount and currency.
   */
  datatype GatewayReply =
    | GatewayRejected
    | GatewayUnreadable
    | GatewayOrder(id: string, amount: Option<int>, currency: string)

  /** The sum of `w` over the orders whose keys are in `ks`. */
  ghost function SumOver(m: map<string, PaymentOrder>, ks: set<string>, w: PaymentOrder -> int): int
    requires ks <= m.Keys
    decreases |ks|
  {
    if ks == {} then 0
    else
      var k :| k in ks;
      w(m[k]) + SumOver(m, ks - {k}, w)
  }

  /** A sum over a set does not depend on the order its keys are taken in. */
  lemma {:induction false} SumOverRemove(m: map<string, PaymentOrder>, ks: set<string>, w: PaymentOrder -> int, k: string)
    requires ks <= m.Keys && k in ks
    ensures SumOver(m, ks, w) == w(m[k]) + SumOver(m, ks - {k}, w)
    decreases |ks|
  {
    var j :| j in ks && SumOver(m, ks, w) == w(m[j]) + SumOver(m, ks - {j}, w);
    if j != k {
      SumOverRemove(m, ks - {j}, w, k);
      SumOverRemove(m, ks - {k}, w, j);
      assert ks - {j} - {k} == ks - {k} - {j};
    }
  }

  /** The ids of the orders with status `s`. */
  function WithStatus(m: map<string, PaymentOrder>, s: OrderStatus): (r: set<string>)
    ensures forall k :: k in r <==> k in m && m[k].status == s
  {
    set k | k in m && m[k].status == s
  }

  function IsStatus(s: OrderStatus): PaymentOrder -> int {
    (o: PaymentOrder) => if o.status == s then 1 else 0
  }

  /** The keys in `ks` whose order has status `s`. */
  function KeysWith(m: map<string, PaymentOrder>, ks: set<string>, s: OrderStatus): (r: set<string>)
    requires ks <= m.Keys
    ensures r <= ks
  {
    set k | k in ks && m[k].status == s
  }

  /** Summing a 0/1 indicator over `ks` counts the keys whose order has that status. */
  lemma {:induction false} CountByStatus(m: map<string, PaymentOrder>, ks: set<string>, s: OrderStatus)
    requires ks <= m.Keys
    ensures SumOver(m, ks, IsStatus(s)) == |KeysWith(m, ks, s)|
    decreases |ks|
  {
    if ks != {} {
      var k :| k in ks;
      SumOverRemove(m, ks, IsStatus(s), k);
      CountByStatus(m, ks - {k}, s);
      KeysWithRemove(m, ks, s, k);
    }
  }

  /** Taking one key out of `ks` takes it out of the matching keys, and only it. */
  lemma KeysWithRemove(m: map<string, PaymentOrder>, ks: set<string>, s: OrderStatus, k: string)
    requires ks <= m.Keys && k in ks
    ensures |KeysWith(m, ks, s)| == IsStatus(s)(m[k]) + |KeysWith(m, ks - {k}, s)|
  {
    var rest := KeysWith(m, ks - {k}, s);
    assert k !in rest;
    if m[k].status == s {
      assert KeysWith(m, ks, s) == rest + {k};
    } else {
      assert KeysWith(m, ks, s) == rest;
    }
  }

  /** What a paid order contributes to `$sum: '$amount'` (a missing amount adds nothing). */
  function PaidAmount(o: PaymentOrder): int {
    if o.status == Paid then o.amount.GetOr(0) else 0
  }

  /** The total amount over all paid orders. */
  ghost function TotalPaid(m: map<string, PaymentOrder>): int {
    SumOver(m, m.Keys, PaidAmount)
  }

  /** The order collection; each record is stored under its own order id. */
  class PaymentOrders {
    var orders: map<string, PaymentOrder>

    ghost predicate Valid()
      reads this
    {
      forall k :: k in orders ==> orders[k].orderId == k
    }

    constructor ()
      ensures Valid() && orders == map[]
    {
      orders := map[];
    }

    /** Writes `o` under its id (an insert, or an update of the record with that id). */
    method Put(o: PaymentOrder)
      requires Valid()
      modifies this
      ensures Valid()
      ensures orders == old(orders)[o.orderId := o]
    {
      orders := orders[o.orderId := o];
    }

    /**
     * `GET /stats`: the number of created orders, the number of paid orders,
     * and the sum of the amounts of the paid orders.
     */
    method Stats() returns (created: nat, paid: nat, totalPaid: int)
      ensures created == |WithStatus(orders, Created)|
      ensures paid == |WithStatus(orders, Paid)|
      ensures totalPaid == TotalPaid(orders)
    {
      created, paid, totalPaid := 0, 0, 0;
      var ks := orders.Keys;
      while ks != {}
        invariant ks <= orders.Keys
        invariant created + SumOver(orders, ks, IsStatus(Created)) == SumOver(orders, orders.Keys, IsStatus(Created))
        invariant paid + SumOver(orders, ks, IsStatus(Paid)) == SumOver(orders, orders.Keys, IsStatus(Paid))
        invariant totalPaid + SumOver(orders, ks, PaidAmount) == TotalPaid(orders)
        decreases |ks|
      {
        var k :| k in ks;
        SumOverRemove(orders, ks, IsStatus(Created), k);
        SumOverRemove(orders, ks, IsStatus(Paid), k);
        SumOverRemove(orders, ks, PaidAmount, k);
        var o := orders[k];
        if o.status == Created {
          created := created + 1;
        }
        if o.status == Paid {
          paid := paid + 1;
          totalPaid := totalPaid + o.amount.GetOr(0);
        }
        ks := ks - {k};
      }
      CountByStatus(orders, orders.Keys, Created);
      CountByStatus(orders, orders.Keys, Paid);
      assert KeysWith(orders, orders.Keys, Created) == WithStatus(orders, Created);
      assert KeysWith(orders, orders.Keys, Paid) == WithStatus(orders, Paid);
    }

    /** `GET /total`: despite its field name, the number of paid orders. */
    method Total() returns (totalPaid: nat)
      ensures totalPaid == |WithStatus(orders, Paid)|
    {
      totalPaid := |WithStatus(orders, Paid)|;
    }
  }
}

=== FILE: payments.dfy ===
/**
 * routes/payments.js, the payment router the server mounts: a yearly
 * membership priced by the player's join rank, recorded as payment orders
 * keyed by the gateway's order id, and a creator code drawn from the
 * 'creator' counter once a payment is verified. The gateway's replies are
 * parameters; HMAC-SHA256 keyed with the server secret is the parameter
 * `sign`.
 */
module PaymentsRoutes {
  import opened Wrappers
  import opened Text
  import opened JsValues
  import opened Formats
  import opened PlayerModel
  import opened CounterModel
  import opened PaymentOrderModel
  import PayRoutes

  /** The counter key the creator numbers of this router are drawn from. */
  const CREATOR_KEY: string := "creator"

  /**
   * `computeRupees(joinOrder)`: 49 for a numeric rank in 1..100, 99 for one in
   * 101..3000, and 199 for anything else (a later rank, 0, a negative rank or
   * a value that is not a number).
   */
  function ComputeRupees(joinOrder: JsValue): (r: int)
    ensures r == 49 || r == 99 || r == 199
    ensures r == 49 <==> joinOrder.Num? && 0 < joinOrder.n <= 100
    ensures r == 99 <==> joinOrder.Num? && 100 < joinOrder.n <= 3000
  {
    match joinOrder
    case Num(n) => if n > 0 && n <= 100 then 49 else if n > 0 && n <= 3000 then 99 else 199
    case _ => 199
  }

  /**
   * For a real rank this router charges the tier routes/pay.js charges for
   * the same creator number; a rank of 0 (none yet) pays the top tier here
   * and the bottom one there.
   */
  lemma ComputeRupeesAgreesWithPriceFor(n: int)
    ensures n >= 1 ==> ComputeRupees(Num(n)) == PayRoutes.PriceFor(n)
    ensures n <= 0 ==> ComputeRupees(Num(n)) == 199 && PayRoutes.PriceFor(n) == 49
  {
  }

  /** A higher rank never pays less. */
  lemma ComputeRupeesMonotone(n: int, m: int)
    requires 1 <= n <= m
    ensures ComputeRupees(Num(n)) <= ComputeRupees(Num(m))
  {
  }

  /**
   * The receipt sent with a gateway order: "ds_", the last six characters of
   * the player id, "_", the time in base 36, cut to forty characters.
   */
  function Receipt(idText: string, now: nat): (r: string)
    ensures |r| <= 40
    ensures |r| >= 3 && r[..3] == "ds_"
    ensures |idText| <= 6 && |NatToBase(now, 36)| <= 30 ==> r == "ds_" + idText + "_" + NatToBase(now, 36)
  {
    TakeFirst("ds_" + TakeLast(idText, 6) + "_" + NatToBase(now, 36), 40)
  }

  /** What the server asks the gateway for: the tier in paise, INR, and the receipt. */
  datatype GatewayRequest = GatewayRequest(amount: int, currency: string, receipt: string)

  function OrderRequest(p: Player, pid: nat, now: nat): (g: GatewayRequest)
    ensures g.amount == ComputeRupees(Num(p.joinOrder)) * 100 && g.currency == "INR"
    ensures |g.receipt| <= 40
  {
    GatewayRequest(ComputeRupees(Num(p.joinOrder)) * 100, "INR", Receipt(NatToString(pid), now))
  }

  datatype OrderReply =
    | NotConfigured
    | InvalidPhone
    | AccountNotFound
    | GatewayFailed
    | GatewayInvalid
    | OrderCreated(orderId: string, amount: int, currency: string, name: string, contact: string,
                   joinOrder: int, priceRupees: int)

  /** What `/order` answers, and the orders afterwards (players are only read). */
  datatype OrderOutcome = OrderOutcome(reply: OrderReply, orders: map<string, PaymentOrder>)

  /**
   * The upsert of `/order` on gateway order `id`: an existing record gets the
   * amount and currency and goes back to created; a new one also records
   * the player and the phone.
   */
  function CreatedUpsert(orders: map<string, PaymentOrder>, id: string, pid: nat, ph: string,
                         amount: int, currency: string, now: int): (o: PaymentOrder)
    ensures o.orderId == id && o.status == Created && o.amount == Some(amount) && o.currency == currency
    ensures o.updatedAt == now
    ensures id !in orders ==> o.playerId == Some(pid) && o.phone == Some(ph) && o.paymentId == None && o.createdAt == now
    ensures id in orders ==>
      o.playerId == orders[id].playerId && o.phone == orders[id].phone && o.paymentId == orders[id].paymentId
  {
    if id in orders then orders[id].(orderId := id, amount := Some(amount), currency := currency, status := Created, updatedAt := now)
    else NewOrder(id, now).(amount := Some(amount), currency := currency, phone := Some(ph), playerId := Some(pid))
  }

  /** The final steps of `/order` for player `pid` once the gateway answered. */
  function OrderReplyFor(orders: map<string, PaymentOrder>, p: Player, pid: nat, ph: string,
                         g: GatewayReply, now: int): (r: OrderOutcome)
  {
    var rupees := ComputeRupees(Num(p.joinOrder));
    match g
    case GatewayRejected => OrderOutcome(GatewayFailed, orders)
    case GatewayUnreadable => OrderOutcome(GatewayInvalid, orders)
    case GatewayOrder(id, amt, cur) =>
      if id == "" then OrderOutcome(GatewayInvalid, orders)
      else
        var amount := amt.GetOr(rupees * 100);
        var currency := if cur == "" then "INR" else cur;
        OrderOutcome(OrderCreated(id, amount, currency, if p.name == "" then "Dream Stage Member" else p.name,
                                  Digits(p.phone.number.GetOr("")), p.joinOrder, rupees),
                     orders[id := CreatedUpsert(orders, id, pid, ph, amount, currency, now)])
  }

  /** `POST /order` for the normalised phone `ph`, the gateway answering `g`. */
  function OrderSpec(docs: map<nat, Player>, nextId: nat, orders: map<string, PaymentOrder>,
                     keys: bool, ph: string, g: GatewayReply, now: int): (r: OrderOutcome)
  {
    if !keys then OrderOutcome(NotConfigured, orders)
    else if ph == "" then OrderOutcome(InvalidPhone, orders)
    else
      match PhoneHolder(docs, nextId, ph)
      case None => OrderOutcome(AccountNotFound, orders)
      case Some(pid) => OrderReplyFor(orders, docs[pid], pid, ph, g, now)
  }

  /** `POST /order` with the phone already normalised. */
  method OrderFor(players: Players, orders: PaymentOrders, keys: bool, ph: string, g: GatewayReply, now: int)
    returns (reply: OrderReply)
    requires players.Valid() && orders.Valid()
    modifies orders
    ensures orders.Valid()
    ensures OrderOutcome(reply, orders.orders) == OrderSpec(players.docs, players.nextId, old(orders.orders), keys, ph, g, now)
  {
    if !keys {
      return NotConfigured;
    }
    if ph == "" {
      return InvalidPhone;
    }
    var holder := players.FindByPhone(ph);
    if holder.None? {
      return AccountNotFound;
    }
    var pid := holder.value;
    var p := players.docs[pid];
    var rupees := ComputeRupees(Num(p.joinOrder));
    match g
    case GatewayRejected =>
      reply := GatewayFailed;
    case GatewayUnreadable =>
      reply := GatewayInvalid;
    case GatewayOrder(id, amt, cur) =>
      if id == "" {
        return GatewayInvalid;
      }
      var amount := amt.GetOr(rupees * 100);
      var currency := if cur == "" then "INR" else cur;
      orders.Put(CreatedUpsert(orders.orders, id, pid, ph, amount, currency, now));
      reply := OrderCreated(id, amount, currency, if p.name == "" then "Dream Stage Member" else p.name,
                            Digits(p.phone.number.GetOr("")), p.joinOrder, rupees);
  }

  /** `POST /order`: the phone normalised, then `OrderSpec`'s outcome. */
  method Order(players: Players, orders: PaymentOrders, keys: bool, phone: JsValue, g: GatewayReply, now: int)
    returns (reply: OrderReply)
    requires players.Valid() && orders.Valid()
    modifies orders
    ensures orders.Valid()
    ensures OrderOutcome(reply, orders.orders) ==
            OrderSpec(players.docs, players.nextId, old(orders.orders), keys, NormalizePhone(phone), g, now)
  {
    reply := OrderFor(players, orders, keys, NormalizePhone(phone), g, now);
  }

  /**
   * Nothing is written to the orders unless the gateway returned an order
   * id; then exactly that order is written, as created, at the gateway's
   * amount or else the player's tier in paise.
   */
  lemma OrderWritesOnlyWithId(docs: map<nat, Player>, nextId: nat, orders: map<string, PaymentOrder>,
                              keys: bool, ph: string, g: GatewayReply, now: int)
    ensures var r := OrderSpec(docs, nextId, orders, keys, ph, g, now);
      && (!r.reply.OrderCreated? ==> r.orders == orders)
      && (r.reply.OrderCreated? ==>
            && keys && ph != "" && PhoneHolder(docs, nextId, ph).Some?
            && g.GatewayOrder? && g.id != "" && r.reply.orderId == g.id
            && r.orders == orders[g.id := r.orders[g.id]]
            && r.orders[g.id].status == Created && r.orders[g.id].amount == Some(r.reply.amount)
            && r.reply.amount == g.amount.GetOr(ComputeRupees(Num(docs[PhoneHolder(docs, nextId, ph).value].joinOrder)) * 100))
  {
  }

  /** The creator number and code `ensureCreatorCode` returns, and the players and counters afterwards. */
  datatype EnsureOutcome = EnsureOutcome(number: int, code: string, docs: map<nat, Player>, seqs: map<string, int>)

  /**
   * `ensureCreatorCode(pid)`: a player with a positive creator number keeps
   * it (and its code, or '#' with the padded number when the code is empty)
   * and no counter moves. Otherwise the 'creator' counter is drawn and the
   * drawn number written, guarded so that only a number still 0 is replaced.
   */
  function EnsureSpec(docs: map<nat, Player>, seqs: map<string, int>, pid: nat): (r: EnsureOutcome)
  {
    if pid in docs && docs[pid].creator.number > 0 then
      var c := docs[pid].creator;
      EnsureOutcome(c.number, if c.code != "" then c.code else CreatorCode(c.number), docs, seqs)
    else EnsureDrawn(docs, seqs, pid)
  }

  /** The draw: the next 'creator' value, written only over a number still 0. */
  function EnsureDrawn(docs: map<nat, Player>, seqs: map<string, int>, pid: nat): (r: EnsureOutcome)
  {
    var next := SeqOf(seqs, CREATOR_KEY) + 1;
    EnsureOutcome(next, CreatorCode(next), GuardedWrite(docs, pid, next), seqs[CREATOR_KEY := next])
  }

  /** `updateOne({ _id, 'creator.number': 0 }, ...)`: the write lands only on a player whose number is still 0. */
  function GuardedWrite(docs: map<nat, Player>, pid: nat, n: int): map<nat, Player>
  {
    if pid in docs && docs[pid].creator.number == 0 then docs[pid := WithCreator(docs[pid], CreatorInfo(n, CreatorCode(n)))]
    else docs
  }

  method EnsureCreatorCode(players: Players, counters: Counters, pid: nat) returns (number: int, code: string)
    requires players.Valid() && counters.Valid()
    modifies players, counters
    ensures players.Valid() && counters.Valid() && players.nextId == old(players.nextId)
    ensures EnsureOutcome(number, code, players.docs, counters.seqs) == EnsureSpec(old(players.docs), old(counters.seqs), pid)
  {
    if pid in players.docs && players.docs[pid].creator.number > 0 {
      var c := players.docs[pid].creator;
      return c.number, if c.code != "" then c.code else CreatorCode(c.number);
    }
    number, code := DrawCreatorNumber(players, counters, pid);
  }

  /** The branch of `ensureCreatorCode` that draws from the counter and writes under the guard. */
  method DrawCreatorNumber(players: Players, counters: Counters, pid: nat) returns (number: int, code: string)
    requires players.Valid() && counters.Valid()
    modifies players, counters
    ensures players.Valid() && counters.Valid() && players.nextId == old(players.nextId)
    ensures number == SeqOf(old(counters.seqs), CREATOR_KEY) + 1 && code == CreatorCode(number)
    ensures players.docs == GuardedWrite(old(players.docs), pid, number) && counters.seqs == old(counters.seqs)[CREATOR_KEY := number]
  {
    number := counters.NextSequence(CREATOR_KEY);
    code := CreatorCode(number);
    WriteGuarded(players, pid, number);
  }

  method WriteGuarded(players: Players, pid: nat, n: int)
    requires players.Valid()
    modifies players
    ensures players.Valid() && players.nextId == old(players.nextId)
    ensures players.docs == GuardedWrite(old(players.docs), pid, n)
  {
    if pid in players.docs && players.docs[pid].creator.number == 0 {
      players.UpdateKeepingPhone(pid, WithCreator(players.docs[pid], CreatorInfo(n, CreatorCode(n))));
    }
  }

  /** A player whose creator number is positive is left untouched and no number is drawn. */
  lemma EnsureKeepsAssigned(docs: map<nat, Player>, seqs: map<string, int>, pid: nat)
    requires pid in docs && docs[pid].creator.number > 0
    ensures var r := EnsureSpec(docs, seqs, pid);
      r.docs == docs && r.seqs == seqs && r.number == docs[pid].creator.number
      && (docs[pid].creator.code != "" ==> r.code == docs[pid].creator.code)
  {
  }

  /**
   * Otherwise exactly one 'creator' value is drawn, the next one; it is
   * written only on a player whose number is still 0, and no other player
   * and no other counter changes.
   */
  lemma EnsureDrawsOnce(docs: map<nat, Player>, seqs: map<string, int>, pid: nat)
    requires NonNegative(seqs)
    requires !(pid in docs && docs[pid].creator.number > 0)
    ensures var r := EnsureSpec(docs, seqs, pid);
      && r.number == SeqOf(seqs, CREATOR_KEY) + 1 && r.number >= 1 && r.code == CreatorCode(r.number)
      && r.seqs == seqs[CREATOR_KEY := r.number]
      && r.docs.Keys == docs.Keys
      && (forall j :: j in docs && j != pid ==> r.docs[j] == docs[j])
      && (pid in docs && docs[pid].creator.number == 0 ==> r.docs[pid].creator == CreatorInfo(r.number, r.code))
      && (pid in docs && docs[pid].creator.number != 0 ==> r.docs == docs)
  {
    var r := EnsureSpec(docs, seqs, pid);
    assert r == EnsureDrawn(docs, seqs, pid);
    GuardedWriteTouchesOne(docs, pid, r.number);
  }

  /** The guarded write changes at most the one player, and only when its number is 0. */
  lemma GuardedWriteTouchesOne(docs: map<nat, Player>, pid: nat, n: int)
    ensures var w := GuardedWrite(docs, pid, n);
      && w.Keys == docs.Keys
      && (forall j :: j in docs && j != pid ==> w[j] == docs[j])
      && (pid in docs && docs[pid].creator.number == 0 ==> w[pid].creator == CreatorInfo(n, CreatorCode(n)))
      && (pid in docs ==> w[pid].membership == docs[pid].membership)
      && (!(pid in docs && docs[pid].creator.number == 0) ==> w == docs)
  {
  }

  /** A creator number once set to a non-zero value is never overwritten. */
  lemma EnsureNeverOverwrites(docs: map<nat, Player>, seqs: map<string, int>, pid: nat)
    ensures var r := EnsureSpec(docs, seqs, pid);
      forall j :: j in docs && docs[j].creator.number != 0 ==> j in r.docs && r.docs[j] == docs[j]
  {
    if !(pid in docs && docs[pid].creator.number > 0) {
      var next := SeqOf(seqs, CREATOR_KEY) + 1;
      assert EnsureSpec(docs, seqs, pid).docs == GuardedWrite(docs, pid, next);
      GuardedWriteTouchesOne(docs, pid, next);
    }
  }

  /**
   * Ensuring twice hands out one number: the second call returns the number
   * and code of the first and draws nothing.
   */
  lemma EnsureIdempotent(docs: map<nat, Player>, seqs: map<string, int>, pid: nat)
    requires NonNegative(seqs) && pid in docs && docs[pid].creator.number >= 0
    ensures var r := EnsureSpec(docs, seqs, pid);
      var again := EnsureSpec(r.docs, r.seqs, pid);
      again.number == r.number && again.code == r.code && again.docs == r.docs && again.seqs == r.seqs
  {
    var r := EnsureSpec(docs, seqs, pid);
    if docs[pid].creator.number == 0 {
      EnsureDrawsOnce(docs, seqs, pid);
      assert r.docs[pid].creator.number > 0;
      assert r.docs[pid].creator.code != "";
    }
  }

  datatype VerifyReply =
    | VerifyNotConfigured
    | VerifyInvalidPhone
    | MissingFields
    | VerifyAccountNotFound
    | BadSignature
    /** `player.save()` failed validation after the order was marked paid: the handler answers 500. */
    | ActivationFailed
    | Verified(orderId: string, paymentId: string, amount: int, creatorCodeNumber: int, creatorCode: string, validTill: int)

  /** What `/verify` answers, and the players, counters and orders afterwards. */
  datatype VerifyOutcome = VerifyOutcome(reply: VerifyReply, docs: map<nat, Player>, seqs: map<string, int>,
                                         orders: map<string, PaymentOrder>)

  /** The record an upsert on `orderId` starts from: the stored one, or a new one with the schema defaults. */
  function UpsertBase(orders: map<string, PaymentOrder>, orderId: string, now: int): (o: PaymentOrder)
    ensures o.orderId == orderId
    ensures orderId in orders ==> o == orders[orderId].(orderId := orderId)
    ensures orderId !in orders ==> o == NewOrder(orderId, now)
  {
    if orderId in orders then orders[orderId].(orderId := orderId) else NewOrder(orderId, now)
  }

  /**
   * The record after a bad signature: failed, with the payment id, the
   * signature, the reason "Invalid signature", the phone and the player.
   */
  function FailedRecord(orders: map<string, PaymentOrder>, orderId: string, paymentId: string, signature: string,
                        ph: string, pid: nat, now: int): (o: PaymentOrder)
    ensures o.orderId == orderId && o.status == Failed && o.failureReason == Some("Invalid signature")
    ensures o.paymentId == Some(paymentId) && o.signature == Some(signature) && o.verifiedAt == Some(now)
    ensures o.playerId == Some(pid) && o.phone == Some(ph)
    ensures o.amount == if orderId in orders then orders[orderId].amount else None
  {
    UpsertBase(orders, orderId, now).(paymentId := Some(paymentId), signature := Some(signature), status := Failed,
                                      verifiedAt := Some(now), failureReason := Some("Invalid signature"),
                                      phone := Some(ph), playerId := Some(pid), updatedAt := now)
  }

  /** The amount a verified payment is booked at: the stored amount, else the player's tier in paise. */
  function AmountPaise(orders: map<string, PaymentOrder>, orderId: string, p: Player): (r: int)
    ensures orderId in orders && orders[orderId].amount.Some? ==> r == orders[orderId].amount.value
    ensures !(orderId in orders && orders[orderId].amount.Some?) ==> r == ComputeRupees(Num(p.joinOrder)) * 100
  {
    if orderId in orders && orders[orderId].amount.Some? then orders[orderId].amount.value
    else ComputeRupees(Num(p.joinOrder)) * 100
  }

  /** The record after a good signature: paid at `amount` in INR, with the payment id, signature, phone and player. */
  function PaidUpsert(orders: map<string, PaymentOrder>, orderId: string, paymentId: string, signature: string,
                      amount: int, ph: string, pid: nat, now: int): (o: PaymentOrder)
    ensures o.orderId == orderId && o.status == Paid && o.amount == Some(amount) && o.currency == "INR"
    ensures o.paymentId == Some(paymentId) && o.signature == Some(signature) && o.verifiedAt == Some(now)
    ensures o.playerId == Some(pid) && o.phone == Some(ph)
  {
    UpsertBase(orders, orderId, now).(paymentId := Some(paymentId), signature := Some(signature), status := Paid,
                                      verifiedAt := Some(now), amount := Some(amount), currency := "INR",
                                      phone := Some(ph), playerId := Some(pid), updatedAt := now)
  }

  /** The player with its membership active for a year from `now`, saved at `now`. */
  function MemberFor(p: Player, orderId: string, paymentId: string, amount: int, now: int): (q: Player)
    ensures q.membership == Membership(MemberActive, Some(now + PayRoutes.YEAR_MS), Some(now), orderId, paymentId, amount)
    ensures q.phone == p.phone && q.creator == p.creator && q.joinOrder == p.joinOrder && q.steps == p.steps
    ensures q.updatedAt == now
  {
    p.(membership := Membership(MemberActive, Some(now + PayRoutes.YEAR_MS), Some(now), orderId, paymentId, amount),
       updatedAt := now)
  }

  /**
   * `/verify` for player `pid` once the signature is good: the order is
   * paid, the membership activated and saved, and the creator code ensured.
   * When the player's document does not validate, the save fails after the
   * order was paid: that write stays, and no player or counter changes.
   */
  function ActivationSpec(docs: map<nat, Player>, seqs: map<string, int>, orders: map<string, PaymentOrder>,
                          pid: nat, ph: string, paymentId: string, orderId: string, signature: string, now: int): (r: VerifyOutcome)
    requires pid in docs
  {
    var amount := AmountPaise(orders, orderId, docs[pid]);
    var orders1 := orders[orderId := PaidUpsert(orders, orderId, paymentId, signature, amount, ph, pid, now)];
    if !Validates(docs[pid]) then VerifyOutcome(ActivationFailed, docs, seqs, orders1)
    else
      var docs1 := docs[pid := MemberFor(docs[pid], orderId, paymentId, amount, now)];
      var e := EnsureSpec(docs1, seqs, pid);
      VerifyOutcome(Verified(orderId, paymentId, amount, e.number, e.code, now + PayRoutes.YEAR_MS), e.docs, e.seqs, orders1)
  }

  /**
   * `POST /verify` for the normalised phone `ph`: the keys, the phone, the
   * three gateway fields and the player are checked in that order; a bad
   * signature marks the order failed; a good one activates.
   */
  function VerifySpec(docs: map<nat, Player>, nextId: nat, seqs: map<string, int>, orders: map<string, PaymentOrder>,
                      keys: bool, ph: string, paymentId: string, orderId: string, signature: string,
                      sign: string -> string, now: int): (r: VerifyOutcome)
  {
    var same := VerifyOutcome(VerifyNotConfigured, docs, seqs, orders);
    if !keys then same
    else if ph == "" then same.(reply := VerifyInvalidPhone)
    else if paymentId == "" || orderId == "" || signature == "" then same.(reply := MissingFields)
    else
      match PhoneHolder(docs, nextId, ph)
      case None => same.(reply := VerifyAccountNotFound)
      case Some(pid) =>
        if sign(orderId + "|" + paymentId) != signature then
          same.(reply := BadSignature,
                orders := orders[orderId := FailedRecord(orders, orderId, paymentId, signature, ph, pid, now)])
        else ActivationSpec(docs, seqs, orders, pid, ph, paymentId, orderId, signature, now)
  }

  /** The upsert of a bad signature. */
  method MarkFailed(orders: PaymentOrders, orderId: string, paymentId: string, signature: string, ph: string, pid: nat, now: int)
    requires orders.Valid()
    modifies orders
    ensures orders.Valid()
    ensures orders.orders == old(orders.orders)[orderId := FailedRecord(old(orders.orders), orderId, paymentId, signature, ph, pid, now)]
  {
    orders.Put(FailedRecord(orders.orders, orderId, paymentId, signature, ph, pid, now));
  }

  /** The amount lookup and the upsert of a good signature; returns the amount booked. */
  method MarkPaid(orders: PaymentOrders, p: Player, orderId: string, paymentId: string, signature: string,
                  ph: string, pid: nat, now: int) returns (amount: int)
    requires orders.Valid()
    modifies orders
    ensures orders.Valid() && amount == AmountPaise(old(orders.orders), orderId, p)
    ensures orders.orders == old(orders.orders)[orderId := PaidUpsert(old(orders.orders), orderId, paymentId, signature, amount, ph, pid, now)]
  {
    amount := AmountPaise(orders.orders, orderId, p);
    orders.Put(PaidUpsert(orders.orders, orderId, paymentId, signature, amount, ph, pid, now));
  }

  /** The writes of `/verify` after a good signature. */
  method Activate(players: Players, counters: Counters, orders: PaymentOrders, pid: nat, ph: string,
                  paymentId: string, orderId: string, signature: string, now: int) returns (reply: VerifyReply)
    requires players.Valid() && counters.Valid() && orders.Valid() && pid in players.docs
    modifies players, counters, orders
    ensures players.Valid() && counters.Valid() && orders.Valid() && players.nextId == old(players.nextId)
    ensures VerifyOutcome(reply, players.docs, counters.seqs, orders.orders) ==
            ActivationSpec(old(players.docs), old(counters.seqs), old(orders.orders), pid, ph, paymentId, orderId, signature, now)
  {
    var p := players.docs[pid];
    var amount := MarkPaid(orders, p, orderId, paymentId, signature, ph, pid, now);
    var q := MemberFor(p, orderId, paymentId, amount, now);
    assert q.(updatedAt := now) == q;
    var ok := players.SaveKeepingPhone(pid, q, now);
    if !ok {
      return ActivationFailed;
    }
    var number, code := EnsureCreatorCode(players, counters, pid);
    reply := Verified(orderId, paymentId, amount, number, code, now + PayRoutes.YEAR_MS);
  }

  /** `POST /verify` with the phone already normalised. */
  method VerifyFor(players: Players, counters: Counters, orders: PaymentOrders, keys: bool, ph: string,
                   paymentId: string, orderId: string, signature: string, sign: string -> string, now: int)
    returns (reply: VerifyReply)
    requires players.Valid() && counters.Valid() && orders.Valid()
    modifies players, counters, orders
    ensures players.Valid() && counters.Valid() && orders.Valid() && players.nextId == old(players.nextId)
    ensures VerifyOutcome(reply, players.docs, counters.seqs, orders.orders) ==
            VerifySpec(old(players.docs), old(players.nextId), old(counters.seqs), old(orders.orders),
                       keys, ph, paymentId, orderId, signature, sign, now)
  {
    if !keys {
      return VerifyNotConfigured;
    }
    if ph == "" {
      return VerifyInvalidPhone;
    }
    if paymentId == "" || orderId == "" || signature == "" {
      return MissingFields;
    }
    var holder := players.FindByPhone(ph);
    if holder.None? {
      return VerifyAccountNotFound;
    }
    var pid := holder.value;
    if sign(orderId + "|" + paymentId) != signature {
      MarkFailed(orders, orderId, paymentId, signature, ph, pid, now);
      return BadSignature;
    }
    reply := Activate(players, counters, orders, pid, ph, paymentId, orderId, signature, now);
  }

  /** `POST /verify`: the phone normalised, then `VerifySpec`'s outcome. */
  method Verify(players: Players, counters: Counters, orders: PaymentOrders, keys: bool, phone: JsValue,
                paymentId: string, orderId: string, signature: string, sign: string -> string, now: int)
    returns (reply: VerifyReply)
    requires players.Valid() && counters.Valid() && orders.Valid()
    modifies players, counters, orders
    ensures players.Valid() && counters.Valid() && orders.Valid()
    ensures VerifyOutcome(reply, players.docs, counters.seqs, orders.orders) ==
            VerifySpec(old(players.docs), old(players.nextId), old(counters.seqs), old(orders.orders),
                       keys, NormalizePhone(phone), paymentId, orderId, signature, sign, now)
  {
    reply := VerifyFor(players, counters, orders, keys, NormalizePhone(phone), paymentId, orderId, signature, sign, now);
  }

  /**
   * A bad signature writes one order record, failed, and leaves the players
   * (and so every membership) and the counters alone; the refusals before
   * it write nothing at all. A record already paid is marked failed too.
   */
  lemma VerifyBadSignature(docs: map<nat, Player>, nextId: nat, seqs: map<string, int>, orders: map<string, PaymentOrder>,
                           keys: bool, ph: string, paymentId: string, orderId: string, signature: string,
                           sign: string -> string, now: int)
    ensures var r := VerifySpec(docs, nextId, seqs, orders, keys, ph, paymentId, orderId, signature, sign, now);
      && (!r.reply.Verified? ==> r.docs == docs && r.seqs == seqs)
      && (r.reply in {VerifyNotConfigured, VerifyInvalidPhone, MissingFields, VerifyAccountNotFound} ==> r.orders == orders)
      && (r.reply == BadSignature ==>
            && sign(orderId + "|" + paymentId) != signature
            && r.orders == orders[orderId := r.orders[orderId]]
            && r.orders[orderId].status == Failed && r.orders[orderId].failureReason == Some("Invalid signature"))
      && (r.reply.Verified? ==> sign(orderId + "|" + paymentId) == signature)
  {
    var r := VerifySpec(docs, nextId, seqs, orders, keys, ph, paymentId, orderId, signature, sign, now);
    if keys && ph != "" && paymentId != "" && orderId != "" && signature != "" && PhoneHolder(docs, nextId, ph).Some? {
      var pid := PhoneHolder(docs, nextId, ph).value;
      if sign(orderId + "|" + paymentId) != signature {
        var o := FailedRecord(orders, orderId, paymentId, signature, ph, pid, now);
        assert r == VerifyOutcome(BadSignature, docs, seqs, orders[orderId := o]);
      } else {
        assert r == ActivationSpec(docs, seqs, orders, pid, ph, paymentId, orderId, signature, now);
      }
    } else {
      assert r.docs == docs && r.seqs == seqs && r.orders == orders;
      assert !r.reply.Verified? && r.reply != BadSignature;
    }
  }

  /**
   * A payment that verifies passed every check, on a player whose document
   * validates; the rest is `ActivationSpec`.
   */
  lemma VerifySucceeded(docs: map<nat, Player>, nextId: nat, seqs: map<string, int>, orders: map<string, PaymentOrder>,
                        keys: bool, ph: string, paymentId: string, orderId: string, signature: string,
                        sign: string -> string, now: int)
    requires VerifySpec(docs, nextId, seqs, orders, keys, ph, paymentId, orderId, signature, sign, now).reply.Verified?
    ensures keys && ph != "" && PhoneHolder(docs, nextId, ph).Some? && sign(orderId + "|" + paymentId) == signature
    ensures Validates(docs[PhoneHolder(docs, nextId, ph).value])
    ensures VerifySpec(docs, nextId, seqs, orders, keys, ph, paymentId, orderId, signature, sign, now) ==
            ActivationSpec(docs, seqs, orders, PhoneHolder(docs, nextId, ph).value, ph, paymentId, orderId, signature, now)
  {
  }

  /**
   * `ensureCreatorCode` touches only the creator number, its code and the
   * step flag of one player: no player is added or removed, the others are
   * as they were, and the membership is kept. A player whose number is not
   * negative ends with the positive number returned.
   */
  lemma EnsureFrame(docs: map<nat, Player>, seqs: map<string, int>, pid: nat)
    requires NonNegative(seqs)
    ensures var r := EnsureSpec(docs, seqs, pid);
      && r.docs.Keys == docs.Keys
      && (forall j :: j in docs && j != pid ==> r.docs[j] == docs[j])
      && (pid in docs ==> r.docs[pid].membership == docs[pid].membership && r.docs[pid].role == docs[pid].role)
      && (pid in docs && docs[pid].creator.number >= 0 ==> r.docs[pid].creator.number == r.number && r.number > 0)
  {
    var r := EnsureSpec(docs, seqs, pid);
    if pid in docs && docs[pid].creator.number > 0 {
      assert r.docs == docs && r.number == docs[pid].creator.number;
    } else {
      var next := SeqOf(seqs, CREATOR_KEY) + 1;
      assert next > 0;
      assert r == EnsureDrawn(docs, seqs, pid);
      assert r.number == next && r.docs == GuardedWrite(docs, pid, next);
      GuardedWriteTouchesOne(docs, pid, next);
    }
  }

  /**
   * A good signature pays the order, at the stored amount or else the tier
   * in paise, and changes no other order. A player whose document validates
   * is answered with that amount and a membership valid for 365 days; for
   * one that does not, the save fails with a 500 after the order was paid,
   * and no player or counter changes.
   */
  lemma ActivationPays(docs: map<nat, Player>, seqs: map<string, int>, orders: map<string, PaymentOrder>,
                       pid: nat, ph: string, paymentId: string, orderId: string, signature: string, now: int)
    requires pid in docs
    ensures var r := ActivationSpec(docs, seqs, orders, pid, ph, paymentId, orderId, signature, now);
      var amount := AmountPaise(orders, orderId, docs[pid]);
      && r.orders == orders[orderId := r.orders[orderId]]
      && r.orders[orderId].status == Paid && r.orders[orderId].amount == Some(amount)
      && (r.reply.Verified? <==> Validates(docs[pid]))
      && (r.reply.Verified? ==> r.reply.amount == amount && r.reply.validTill == now + PayRoutes.YEAR_MS)
      && (!r.reply.Verified? ==> r.reply == ActivationFailed && r.docs == docs && r.seqs == seqs)
  {
  }

  /**
   * A good signature, for a player whose document validates, activates its
   * membership for 365 days at the booked amount and leaves it with a
   * positive creator number, the one the reply names; no other player
   * changes.
   */
  lemma ActivationActivates(docs: map<nat, Player>, seqs: map<string, int>, orders: map<string, PaymentOrder>,
                            pid: nat, ph: string, paymentId: string, orderId: string, signature: string, now: int)
    requires NonNegative(seqs) && pid in docs && docs[pid].creator.number >= 0
    ensures var r := ActivationSpec(docs, seqs, orders, pid, ph, paymentId, orderId, signature, now);
      var amount := AmountPaise(orders, orderId, docs[pid]);
      && r.docs.Keys == docs.Keys && (forall j :: j in docs && j != pid ==> r.docs[j] == docs[j])
      && (Validates(docs[pid]) ==>
            && r.docs[pid].membership == Membership(MemberActive, Some(now + PayRoutes.YEAR_MS), Some(now), orderId, paymentId, amount)
            && r.reply.Verified? && r.docs[pid].creator.number == r.reply.creatorCodeNumber && r.reply.creatorCodeNumber > 0)
  {
    if Validates(docs[pid]) {
      var amount := AmountPaise(orders, orderId, docs[pid]);
      var docs1 := docs[pid := MemberFor(docs[pid], orderId, paymentId, amount, now)];
      EnsureFrame(docs1, seqs, pid);
    }
  }

  /**
   * The creator number of a verified payment: the player's own when it was
   * positive, with no counter drawn; otherwise the next 'creator' value.
   */
  lemma ActivationDraws(docs: map<nat, Player>, seqs: map<string, int>, orders: map<string, PaymentOrder>,
                        pid: nat, ph: string, paymentId: string, orderId: string, signature: string, now: int)
    requires NonNegative(seqs) && pid in docs
    ensures var r := ActivationSpec(docs, seqs, orders, pid, ph, paymentId, orderId, signature, now);
      && (r.reply.Verified? <==> Validates(docs[pid]))
      && (!r.reply.Verified? ==> r.seqs == seqs)
      && (r.reply.Verified? && docs[pid].creator.number > 0 ==> r.reply.creatorCodeNumber == docs[pid].creator.number && r.seqs == seqs)
      && (r.reply.Verified? && docs[pid].creator.number <= 0 ==>
            r.reply.creatorCodeNumber == SeqOf(seqs, CREATOR_KEY) + 1 && r.seqs == seqs[CREATOR_KEY := r.reply.creatorCodeNumber])
  {
  }

  /**
   * Verifying the same payment again books it at the amount of the first
   * verification; after a failed save the order stays paid and the player
   * keeps failing the same way.
   */
  lemma ActivationReplayKeepsAmount(docs: map<nat, Player>, seqs: map<string, int>, orders: map<string, PaymentOrder>,
                                    pid: nat, ph: string, paymentId: string, orderId: string, signature: string,
                                    now: int, later: int)
    requires pid in docs
    ensures var r := ActivationSpec(docs, seqs, orders, pid, ph, paymentId, orderId, signature, now);
      var again := ActivationSpec(r.docs, r.seqs, r.orders, pid, ph, paymentId, orderId, signature, later);
      && pid in r.docs
      && (r.reply.Verified? ==> again.reply.Verified? && again.reply.amount == r.reply.amount)
      && (!r.reply.Verified? ==> again.reply == ActivationFailed && again.docs == docs && again.seqs == seqs)
  {
    var r := ActivationSpec(docs, seqs, orders, pid, ph, paymentId, orderId, signature, now);
    ActivationPays(docs, seqs, orders, pid, ph, paymentId, orderId, signature, now);
    if Validates(docs[pid]) {
      var docs1 := docs[pid := MemberFor(docs[pid], orderId, paymentId, r.reply.amount, now)];
      assert r.docs == EnsureSpec(docs1, seqs, pid).docs;
      assert pid in r.docs && r.docs[pid].role == docs[pid].role;
    }
    ActivationPays(r.docs, r.seqs, r.orders, pid, ph, paymentId, orderId, signature, later);
  }

  /** Verifying the same payment again hands out no second creator number and draws nothing. */
  lemma ActivationReplayKeepsNumber(docs: map<nat, Player>, seqs: map<string, int>, orders: map<string, PaymentOrder>,
                                    pid: nat, ph: string, paymentId: string, orderId: string, signature: string,
                                    now: int, later: int)
    requires NonNegative(seqs) && pid in docs && docs[pid].creator.number >= 0
    ensures var r := ActivationSpec(docs, seqs, orders, pid, ph, paymentId, orderId, signature, now);
      var again := ActivationSpec(r.docs, r.seqs, r.orders, pid, ph, paymentId, orderId, signature, later);
      && again.seqs == r.seqs
      && (r.reply.Verified? ==> again.reply.Verified? && again.reply.creatorCodeNumber == r.reply.creatorCodeNumber)
  {
    if !Validates(docs[pid]) {
      ActivationReplayKeepsAmount(docs, seqs, orders, pid, ph, paymentId, orderId, signature, now, later);
      return;
    }
    var amount := AmountPaise(orders, orderId, docs[pid]);
    var e := EnsureSpec(docs[pid := MemberFor(docs[pid], orderId, paymentId, amount, now)], seqs, pid);
    assert pid in e.docs && e.docs[pid].creator.number == e.number > 0 && NonNegative(e.seqs) by {
      EnsureFrame(docs[pid := MemberFor(docs[pid], orderId, paymentId, amount, now)], seqs, pid);
    }
    ActivationDraws(e.docs, e.seqs, orders[orderId := PaidUpsert(orders, orderId, paymentId, signature, amount, ph, pid, now)],
                    pid, ph, paymentId, orderId, signature, later);
  }
}

=== FILE: player_model.dfy ===
/**
 * The player record (models/Player.js): its nested sub-documents, enums and
 * defaults, the partial unique index on `phone.number`, the pre-save hook that
 * refreshes `updatedAt`, and the player collection.
 */
module PlayerModel {
  import opened Wrappers

  /** The values the schema's `role` enum accepts. */
  predicate IsSchemaRole(r: string) {
    r in {"artist", "helper", "manager", "business", "appreciator", "lover", ""}
  }

  datatype ArtistType = ArtistType(name: string, description: string)
  datatype Consent = Consent(agreed: bool, timestamp: Option<int>)
  datatype PhoneInfo = PhoneInfo(number: Option<string>, verified: bool, verifiedAt: Option<int>)
  datatype OtpState = OtpState(codeHash: string, expiresAt: Option<int>)
  datatype CreatorInfo = CreatorInfo(number: int, code: string)
  datatype InviteGate = InviteGate(code: string, locked: bool, lockedAt: Option<int>, verified: bool)

  /**
   * The journey step flags. `creatorCodeAssigned` is the flag routes/payments.js
   * and routes/player.js write; the schema itself lists the other thirteen.
   */
  datatype Steps = Steps(
    name: bool, role: bool, roleMessage: bool, postLevel2Q: bool, location: bool,
    consent: bool, waitlist: bool, phone: bool, phoneVerified: bool,
    commitmentAgreed: bool, subscriptionConfirmed: bool,
    inviteVerified: bool, inviteLocked: bool, creatorCodeAssigned: bool)

  datatype MembershipStatus = MemberNone | MemberActive | MemberExpired

  datatype Membership = Membership(
    status: MembershipStatus, validTill: Option<int>, startedAt: Option<int>,
    lastOrderId: string, lastPaymentId: string, amount: int)

  /** A player document; times are milliseconds since the epoch. */
  datatype Player = Player(
    sessionId: Option<string>,
    name: string,
    role: string,
    artistType: ArtistType,
    location: string,
    /** `[String]`: an element sent as `null` is stored as `null`. */
    helperWork: seq<Option<string>>,
    helperCapacity: string,
    helperStage: string,
    managerRoleText: string,
    eventFrequency: string,
    appreciatorEngagement: string,
    attendance: string,
    consent: Consent,
    phone: PhoneInfo,
    otp: OtpState,
    creator: CreatorInfo,
    invite: InviteGate,
    steps: Steps,
    inviteVerified: bool,
    inviteCode: string,
    joinOrder: int,
    membership: Membership,
    createdAt: int,
    updatedAt: int)

  const NoSteps := Steps(false, false, false, false, false, false, false,
                         false, false, false, false, false, false, false)

  const NoMembership := Membership(MemberNone, None, None, "", "", 0)

  /** A new document with every schema default, created at `now`. */
  function NewPlayer(sessionId: Option<string>, now: int): (p: Player)
    ensures p.sessionId == sessionId && p.role == "" && IsSchemaRole(p.role)
    ensures p.steps == NoSteps && p.joinOrder == 0
    ensures p.creator == CreatorInfo(0, "") && p.membership == NoMembership
    ensures p.phone.number == None && !p.phone.verified
    ensures p.otp == OtpState("", None)
    ensures p.createdAt == now && p.updatedAt == now
  {
    Player(sessionId, "", "", ArtistType("", ""), "", [], "", "", "", "", "", "",
           Consent(false, None), PhoneInfo(None, false, None), OtpState("", None),
           CreatorInfo(0, ""), InviteGate("", false, None, false), NoSteps,
           false, "", 0, NoMembership, now, now)
  }

  /** `p` with creator number and code `c` and the step flag `creatorCodeAssigned` set. */
  function WithCreator(p: Player, c: CreatorInfo): Player {
    p.(creator := c, steps := p.steps.(creatorCodeAssigned := true))
  }

  /** The key of the partial unique index: a present, non-empty `phone.number`. */
  function PhoneKey(p: Player): (k: Option<string>)
    ensures k.Some? <==> p.phone.number.Some? && p.phone.number.value != ""
    ensures k.Some? ==> k.value == p.phone.number.value
  {
    match p.phone.number
    case Some(n) => if n != "" then Some(n) else None
    case None => None
  }

  /** No two players share an indexed phone number. */
  ghost predicate PhoneUnique(docs: map<nat, Player>) {
    forall i, j :: i in docs && j in docs && i != j && PhoneKey(docs[i]).Some? ==>
      PhoneKey(docs[i]) != PhoneKey(docs[j])
  }

  /**
   * `doc.save()` runs the schema's validators on every path the document
   * was loaded with, not only on the paths it changed. Of those validators
   * only the `role` enum can fail on a stored player: `membership.status`
   * is only ever written with one of its values, whereas the player PATCH
   * stores a `role` through `findOneAndUpdate` without running validators.
   */
  predicate Validates(p: Player) {
    IsSchemaRole(p.role)
  }

  /** Writing `p` at `id` would not violate the unique phone index. */
  predicate PhoneFreeFor(docs: map<nat, Player>, id: nat, p: Player) {
    PhoneKey(p).None? || forall j :: j in docs && j != id ==> PhoneKey(docs[j]) != PhoneKey(p)
  }

  lemma PhoneUniqueUpdate(docs: map<nat, Player>, id: nat, p: Player)
    requires PhoneUnique(docs) && PhoneFreeFor(docs, id, p)
    ensures PhoneUnique(docs[id := p])
  {
  }

  /** A document that keeps its own indexed phone number never collides with another. */
  lemma SamePhoneIsFree(docs: map<nat, Player>, id: nat, p: Player)
    requires PhoneUnique(docs) && id in docs && PhoneKey(p) == PhoneKey(docs[id])
    ensures PhoneFreeFor(docs, id, p)
  {
  }

  /** `findOne({ sessionId: sid })`: the lowest id below `bound` whose document has that session. */
  function SessionOf(docs: map<nat, Player>, bound: nat, sid: string): (r: Option<nat>)
    ensures r.Some? ==> r.value < bound && r.value in docs && docs[r.value].sessionId == Some(sid)
    ensures r.Some? ==> forall j :: j < r.value && j in docs ==> docs[j].sessionId != Some(sid)
    ensures r.None? ==> forall j :: j < bound && j in docs ==> docs[j].sessionId != Some(sid)
    decreases bound
  {
    if bound == 0 then None
    else
      match SessionOf(docs, bound - 1, sid)
      case Some(i) => Some(i)
      case None =>
        if bound - 1 in docs && docs[bound - 1].sessionId == Some(sid) then Some(bound - 1) else None
  }

  /** Rewriting a document without touching its session does not change any session lookup. */
  lemma {:induction false} SessionOfUpdate(docs: map<nat, Player>, bound: nat, sid: string, id: nat, q: Player)
    requires id in docs && q.sessionId == docs[id].sessionId
    ensures SessionOf(docs[id := q], bound, sid) == SessionOf(docs, bound, sid)
    decreases bound
  {
    if bound > 0 {
      SessionOfUpdate(docs, bound - 1, sid, id, q);
    }
  }

  /** A document stored at `bound` or above is invisible to a lookup below `bound`. */
  lemma {:induction false} SessionOfBeyond(docs: map<nat, Player>, bound: nat, sid: string, k: nat, q: Player)
    requires k >= bound
    ensures SessionOf(docs[k := q], bound, sid) == SessionOf(docs, bound, sid)
    decreases bound
  {
    if bound > 0 {
      SessionOfBeyond(docs, bound - 1, sid, k, q);
    }
  }

  /** `findOne({ 'phone.number': phone })`: the lowest id below `bound` holding that number. */
  function PhoneHolder(docs: map<nat, Player>, bound: nat, phone: string): (r: Option<nat>)
    ensures r.Some? ==> r.value < bound && r.value in docs && docs[r.value].phone.number == Some(phone)
    ensures r.None? ==> forall j :: j < bound && j in docs ==> docs[j].phone.number != Some(phone)
    decreases bound
  {
    if bound == 0 then None
    else
      match PhoneHolder(docs, bound - 1, phone)
      case Some(i) => Some(i)
      case None =>
        if bound - 1 in docs && docs[bound - 1].phone.number == Some(phone) then Some(bound - 1) else None
  }

  /** Rewriting a document without touching its number does not change any phone lookup. */
  lemma {:induction false} PhoneHolderUpdate(docs: map<nat, Player>, bound: nat, phone: string, id: nat, q: Player)
    requires id in docs && q.phone.number == docs[id].phone.number
    ensures PhoneHolder(docs[id := q], bound, phone) == PhoneHolder(docs, bound, phone)
    decreases bound
  {
    if bound > 0 {
      PhoneHolderUpdate(docs, bound - 1, phone, id, q);
    }
  }

  /** The ids of the documents satisfying `f` (what `countDocuments` counts). */
  function IdsWhere(docs: map<nat, Player>, f: Player -> bool): (r: set<nat>)
    ensures forall id :: id in r <==> id in docs && f(docs[id])
  {
    set id | id in docs && f(docs[id])
  }

  /** The player collection. `nextId` is the id the next insert receives. */
  class Players {
    var docs: map<nat, Player>
    var nextId: nat

    ghost predicate Valid()
      reads this
    {
      (forall id :: id in docs ==> id < nextId) && PhoneUnique(docs)
    }

    constructor ()
      ensures Valid() && docs == map[]
    {
      docs := map[];
      nextId := 0;
    }

    /** `findOne({ sessionId })`. */
    function FindBySession(sid: string): (r: Option<nat>)
      reads this
      ensures r.Some? ==> r.value in docs && docs[r.value].sessionId == Some(sid)
      ensures r.None? ==> forall j :: j < nextId && j in docs ==> docs[j].sessionId != Some(sid)
    {
      SessionOf(docs, nextId, sid)
    }

    /** `findOne({ 'phone.number': phone })`. */
    function FindByPhone(phone: string): (r: Option<nat>)
      reads this
      ensures r.Some? ==> r.value in docs && docs[r.value].phone.number == Some(phone)
      ensures r.None? ==> forall j :: j < nextId && j in docs ==> docs[j].phone.number != Some(phone)
    {
      PhoneHolder(docs, nextId, phone)
    }

    /** `Player.create(doc)` for a document without a phone: a fresh id, stamped by the pre-save hook. */
    method Create(p: Player, now: int) returns (id: nat)
      requires Valid() && p.phone.number.None?
      modifies this
      ensures Valid()
      ensures id == old(nextId) && id !in old(docs) && nextId == old(nextId) + 1
      ensures docs == old(docs)[id := p.(updatedAt := now)]
    {
      id := nextId;
      docs := docs[id := p.(updatedAt := now)];
      nextId := nextId + 1;
    }

    /**
     * `doc.save()` on an existing player: the pre-save hook refreshes
     * `updatedAt`; a document that fails validation, or a phone number held
     * by another player (a duplicate-key error), fails and writes nothing.
     */
    method Save(id: nat, p: Player, now: int) returns (ok: bool)
      requires Valid() && id in docs
      modifies this
      ensures Valid() && nextId == old(nextId)
      ensures ok <==> Validates(p) && PhoneFreeFor(old(docs), id, p)
      ensures ok ==> docs == old(docs)[id := p.(updatedAt := now)]
      ensures !ok ==> docs == old(docs)
    {
      ok := Validates(p) && PhoneFreeFor(docs, id, p);
      if ok {
        PhoneUniqueUpdate(docs, id, p.(updatedAt := now));
        docs := docs[id := p.(updatedAt := now)];
      }
    }

    /**
     * `updateOne` / `findOneAndUpdate` on an existing player: no pre-save hook
     * runs; the unique phone index is still enforced.
     */
    method Update(id: nat, p: Player) returns (ok: bool)
      requires Valid() && id in docs
      modifies this
      ensures Valid() && nextId == old(nextId)
      ensures ok <==> PhoneFreeFor(old(docs), id, p)
      ensures ok ==> docs == old(docs)[id := p]
      ensures !ok ==> docs == old(docs)
    {
      ok := PhoneFreeFor(docs, id, p);
      if ok {
        PhoneUniqueUpdate(docs, id, p);
        docs := docs[id := p];
      }
    }

    /** `updateOne` on an existing player that leaves its phone number alone: always succeeds. */
    method UpdateKeepingPhone(id: nat, p: Player)
      requires Valid() && id in docs && PhoneKey(p) == PhoneKey(docs[id])
      modifies this
      ensures Valid() && nextId == old(nextId)
      ensures docs == old(docs)[id := p]
    {
      SamePhoneIsFree(docs, id, p);
      PhoneUniqueUpdate(docs, id, p);
      docs := docs[id := p];
    }

    /**
     * `doc.save()` on an existing player that leaves its phone number alone:
     * it fails, writing nothing, exactly when the document does not validate.
     */
    method SaveKeepingPhone(id: nat, p: Player, now: int) returns (ok: bool)
      requires Valid() && id in docs && PhoneKey(p) == PhoneKey(docs[id])
      modifies this
      ensures Valid() && nextId == old(nextId)
      ensures ok <==> Validates(p)
      ensures ok ==> docs == old(docs)[id := p.(updatedAt := now)]
      ensures !ok ==> docs == old(docs)
    {
      ok := Validates(p);
      if ok {
        UpdateKeepingPhone(id, p.(updatedAt := now));
      }
    }

    /** An upsert that inserts `p` under a fresh id (the unique phone index applies). */
    method Insert(p: Player) returns (id: nat, ok: bool)
      requires Valid()
      modifies this
      ensures Valid()
      ensures ok <==> PhoneFreeFor(old(docs), old(nextId), p)
      ensures ok ==> id == old(nextId) && docs == old(docs)[id := p] && nextId == old(nextId) + 1
      ensures !ok ==> docs == old(docs) && nextId == old(nextId)
    {
      id := nextId;
      ok := PhoneFreeFor(docs, id, p);
      if ok {
        PhoneUniqueUpdate(docs, id, p);
        docs := docs[id := p];
        nextId := nextId + 1;
      }
    }
  }
}

=== FILE: player_routes.dfy ===
/**
 * routes/player.js: the manual creator-code assignment drawn from the
 * 'creatorCode' counter, the count of codes handed out, session start,
 * lookup by phone, and the profile PATCH that maps a request body onto a
 * field update of the player with a given session.
 */
module PlayerRoutes {
  import opened Wrappers
  import opened Text
  import opened JsValues
  import opened Formats
  import opened PlayerModel
  import opened CounterModel

  /** The counter key of this router's creator numbers. */
  const CODE_KEY: string := "creatorCode"

  /** `toInt(n)`: `max(1, parseInt(n, 10) || 1)`, so never below 1. */
  function ToInt(v: JsValue): (r: int)
    ensures r >= 1
    ensures ParseInt(ToStr(v)).None? ==> r == 1
    ensures ParseInt(ToStr(v)).Some? && ParseInt(ToStr(v)).value >= 1 ==> r == ParseInt(ToStr(v)).value
  {
    var p := ParseInt(ToStr(v));
    var k := if p.Some? && p.value != 0 then p.value else 1;
    if k < 1 then 1 else k
  }

  /** On a number `toInt` is the number itself when positive and 1 otherwise. */
  lemma ToIntOfNumber(n: int)
    ensures ToInt(Num(n)) == if n >= 1 then n else 1
  {
    ParseIntOfIntToString(n);
  }

  /** Text without a digit is not a number, so it becomes 1. */
  lemma ToIntOfText(s: string)
    requires forall i :: 0 <= i < |s| ==> !IsDigit(s[i])
    ensures ToInt(Str(s)) == 1
  {
    ParseIntOfNoDigits(s);
  }

  datatype AssignReply =
    | InvalidPlayerId
    | PlayerNotFound
    | AlreadyAssigned(code: string, number: int)
    | Assigned(code: string, number: int)
    /** `player.save()` failed validation: the handler answers 500 SERVER_ERROR. */
    | AssignFailed

  /** What `/:playerId/assign-creator-code` answers, and the players and counters afterwards. */
  datatype AssignOutcome = AssignOutcome(reply: AssignReply, docs: map<nat, Player>, seqs: map<string, int>)

  /**
   * `POST /:playerId/assign-creator-code`: a malformed id is refused and an
   * unknown player is not found; a player with a positive number gets its
   * code back (or '#' and the padded number when the code is empty);
   * otherwise the next 'creatorCode' value becomes its number and code and
   * the player is saved.
   */
  function AssignSpec(docs: map<nat, Player>, seqs: map<string, int>, arg: IdArg, now: int): (r: AssignOutcome)
  {
    match arg
    case Falsy => AssignOutcome(InvalidPlayerId, docs, seqs)
    case Malformed => AssignOutcome(InvalidPlayerId, docs, seqs)
    case Valid(id) =>
      if id !in docs then AssignOutcome(PlayerNotFound, docs, seqs)
      else
        var c := docs[id].creator;
        if c.number > 0 then
          AssignOutcome(AlreadyAssigned(if c.code != "" then c.code else CreatorCode(c.number), c.number), docs, seqs)
        else AssignDrawn(docs, seqs, id, now)
  }

  /**
   * The draw: the next 'creatorCode' value, through `toInt` (which keeps a
   * positive number, `ToIntOfNumber`), becomes the player's number and code.
   * The counter has moved before the save, which fails, writing no player,
   * when the stored document does not validate.
   */
  function AssignDrawn(docs: map<nat, Player>, seqs: map<string, int>, id: nat, now: int): (r: AssignOutcome)
    requires id in docs
  {
    var next := SeqOf(seqs, CODE_KEY) + 1;
    var n := if next >= 1 then next else 1;
    if !Validates(docs[id]) then AssignOutcome(AssignFailed, docs, seqs[CODE_KEY := next])
    else
      AssignOutcome(Assigned(CreatorCode(n), n),
                    docs[id := WithCreator(docs[id], CreatorInfo(n, CreatorCode(n))).(updatedAt := now)],
                    seqs[CODE_KEY := next])
  }

  method AssignCreatorCode(players: Players, counters: Counters, arg: IdArg, now: int) returns (reply: AssignReply)
    requires players.Valid() && counters.Valid()
    modifies players, counters
    ensures players.Valid() && counters.Valid() && players.nextId == old(players.nextId)
    ensures AssignOutcome(reply, players.docs, counters.seqs) == AssignSpec(old(players.docs), old(counters.seqs), arg, now)
  {
    if !arg.Valid? {
      return InvalidPlayerId;
    }
    var id := arg.id;
    if id !in players.docs {
      return PlayerNotFound;
    }
    var c := players.docs[id].creator;
    if c.number > 0 {
      return AlreadyAssigned(if c.code != "" then c.code else CreatorCode(c.number), c.number);
    }
    reply := DrawCode(players, counters, id, now);
  }

  /** The draw branch of the handler, on a player without a positive number. */
  method DrawCode(players: Players, counters: Counters, id: nat, now: int) returns (reply: AssignReply)
    requires players.Valid() && counters.Valid() && id in players.docs
    modifies players, counters
    ensures players.Valid() && counters.Valid() && players.nextId == old(players.nextId)
    ensures AssignOutcome(reply, players.docs, counters.seqs) == AssignDrawn(old(players.docs), old(counters.seqs), id, now)
  {
    var p := players.docs[id];
    var next, n := DrawNumber(counters);
    var code := CreatorCode(n);
    var ok := players.SaveKeepingPhone(id, WithCreator(p, CreatorInfo(n, code)), now);
    reply := if ok then Assigned(code, n) else AssignFailed;
  }

  /** `getNextSequence('creatorCode')` and `toInt` of the value it returns. */
  method DrawNumber(counters: Counters) returns (next: int, n: int)
    requires counters.Valid()
    modifies counters
    ensures counters.Valid()
    ensures next == SeqOf(old(counters.seqs), CODE_KEY) + 1 && counters.seqs == old(counters.seqs)[CODE_KEY := next]
    ensures n == if next >= 1 then next else 1
  {
    next := counters.NextSequence(CODE_KEY);
    n := CodeNumber(next);
  }

  /** `toInt(seq)` on the counter's new value: the value itself when positive, else 1. */
  function CodeNumber(next: int): (n: int)
    ensures n == if next >= 1 then next else 1
  {
    ToIntOfNumber(next);
    ToInt(Num(next))
  }

  /** `GET /creator-codes/count`: the 'creatorCode' counter's value, 0 before the first draw. */
  function CreatorCodeCount(seqs: map<string, int>): (r: int)
    ensures CODE_KEY !in seqs ==> r == 0
    ensures NonNegative(seqs) ==> r >= 0
  {
    SeqOf(seqs, CODE_KEY)
  }

  /** Only a well-formed id of an existing player gets past the first two checks, and those change nothing. */
  lemma AssignRefusals(docs: map<nat, Player>, seqs: map<string, int>, arg: IdArg, now: int)
    ensures var r := AssignSpec(docs, seqs, arg, now);
      && (r.reply == InvalidPlayerId <==> !arg.Valid?)
      && (r.reply == PlayerNotFound <==> arg.Valid? && arg.id !in docs)
      && (r.reply in {InvalidPlayerId, PlayerNotFound} ==> r.docs == docs && r.seqs == seqs)
  {
  }

  /** A player with a positive number keeps it, nothing is written and the counter does not move. */
  lemma AssignKeepsAssigned(docs: map<nat, Player>, seqs: map<string, int>, id: nat, now: int)
    requires id in docs && docs[id].creator.number > 0
    ensures var r := AssignSpec(docs, seqs, Valid(id), now);
      && r.reply.AlreadyAssigned? && r.reply.number == docs[id].creator.number
      && (docs[id].creator.code != "" ==> r.reply.code == docs[id].creator.code)
      && r.docs == docs && r.seqs == seqs
  {
  }

  /**
   * Otherwise the counter moves to its next 'creatorCode' value, which is
   * the count of codes afterwards, and no other counter changes. A player
   * that validates gets that value as its number and '#' and the number
   * padded to four digits as its code; one that does not gets a 500, with
   * no player written and the value spent.
   */
  lemma AssignDraws(docs: map<nat, Player>, seqs: map<string, int>, id: nat, now: int)
    requires NonNegative(seqs) && id in docs && docs[id].creator.number <= 0
    ensures var r := AssignSpec(docs, seqs, Valid(id), now);
      var n := SeqOf(seqs, CODE_KEY) + 1;
      && r.seqs == seqs[CODE_KEY := n] && n == CreatorCodeCount(r.seqs)
      && (r.reply.Assigned? <==> Validates(docs[id]))
      && (r.reply.Assigned? ==> r.reply.number == n && r.reply.code == CreatorCode(n) && DecimalValue(r.reply.code[1..]) == n)
      && (!r.reply.Assigned? ==> r.reply == AssignFailed && r.docs == docs)
  {
    AssignDrawnOutcome(docs, seqs, id, now);
  }

  /**
   * No player is added or removed and every other player stays as it was;
   * a player that validates has the drawn number and code written with the
   * step flag set, its phone and membership kept.
   */
  lemma AssignDrawWrites(docs: map<nat, Player>, seqs: map<string, int>, id: nat, now: int)
    requires NonNegative(seqs) && id in docs && docs[id].creator.number <= 0
    ensures var r := AssignSpec(docs, seqs, Valid(id), now);
      && r.docs.Keys == docs.Keys && (forall j :: j in docs && j != id ==> r.docs[j] == docs[j])
      && (Validates(docs[id]) ==>
            && r.reply.Assigned?
            && r.docs[id].creator == CreatorInfo(r.reply.number, r.reply.code) && r.docs[id].steps.creatorCodeAssigned
            && r.docs[id].phone == docs[id].phone && r.docs[id].membership == docs[id].membership)
  {
    var n := SeqOf(seqs, CODE_KEY) + 1;
    AssignDrawnOutcome(docs, seqs, id, now);
    WithCreatorKeeps(docs[id], CreatorInfo(n, CreatorCode(n)));
  }

  /** The outcome of a draw for a player without a number, spelled out. */
  lemma AssignDrawnOutcome(docs: map<nat, Player>, seqs: map<string, int>, id: nat, now: int)
    requires NonNegative(seqs) && id in docs && docs[id].creator.number <= 0
    ensures var n := SeqOf(seqs, CODE_KEY) + 1;
      AssignSpec(docs, seqs, Valid(id), now) ==
        if Validates(docs[id]) then
          AssignOutcome(Assigned(CreatorCode(n), n),
                        docs[id := WithCreator(docs[id], CreatorInfo(n, CreatorCode(n))).(updatedAt := now)],
                        seqs[CODE_KEY := n])
        else AssignOutcome(AssignFailed, docs, seqs[CODE_KEY := n])
  {
    if CODE_KEY in seqs {
      assert seqs[CODE_KEY] >= 0;
    }
  }

  /** Setting the creator keeps the phone and the membership. */
  lemma WithCreatorKeeps(p: Player, c: CreatorInfo)
    ensures var q := WithCreator(p, c);
      q.creator == c && q.steps.creatorCodeAssigned && q.phone == p.phone && q.membership == p.membership
  {
  }

  /**
   * Asking twice hands out one number: the second call reports it as
   * already assigned and changes nothing. A player that fails validation
   * fails again, writing nothing, and each attempt spends a counter value.
   */
  lemma AssignIdempotent(docs: map<nat, Player>, seqs: map<string, int>, id: nat, now: int, later: int)
    requires NonNegative(seqs) && id in docs
    ensures var r := AssignSpec(docs, seqs, Valid(id), now);
      var again := AssignSpec(r.docs, r.seqs, Valid(id), later);
      && (r.reply != AssignFailed ==>
            again.reply == AlreadyAssigned(r.reply.code, r.reply.number) && again.docs == r.docs && again.seqs == r.seqs)
      && (r.reply == AssignFailed ==>
            again.reply == AssignFailed && again.docs == docs && SeqOf(again.seqs, CODE_KEY) == SeqOf(seqs, CODE_KEY) + 2)
  {
    if docs[id].creator.number <= 0 {
      AssignDraws(docs, seqs, id, now);
      if Validates(docs[id]) {
        AssignDrawWrites(docs, seqs, id, now);
      } else {
        var r := AssignSpec(docs, seqs, Valid(id), now);
        AssignDraws(r.docs, r.seqs, id, later);
      }
    }
  }

  datatype SessionReply =
    | SessionRequired
    | SessionStarted(sessionId: string, playerId: nat, joinOrder: int)

  /** What `/session` answers, and the players and next id afterwards. */
  datatype SessionOutcome = SessionOutcome(reply: SessionReply, docs: map<nat, Player>, nextId: nat)

  /**
   * `POST /session`: the session id must be a non-empty string; the player
   * with that session is returned, or a new one with schema defaults is
   * created for it.
   */
  function SessionSpec(docs: map<nat, Player>, nextId: nat, sid: JsValue, now: int): (r: SessionOutcome)
  {
    if !(sid.Str? && sid.s != "") then SessionOutcome(SessionRequired, docs, nextId)
    else
      match SessionOf(docs, nextId, sid.s)
      case Some(id) => SessionOutcome(SessionStarted(sid.s, id, docs[id].joinOrder), docs, nextId)
      case None =>
        SessionOutcome(SessionStarted(sid.s, nextId, 0), docs[nextId := NewPlayer(Some(sid.s), now)], nextId + 1)
  }

  method Session(players: Players, sid: JsValue, now: int) returns (reply: SessionReply)
    requires players.Valid()
    modifies players
    ensures players.Valid()
    ensures SessionOutcome(reply, players.docs, players.nextId) == SessionSpec(old(players.docs), old(players.nextId), sid, now)
  {
    if !(sid.Str? && sid.s != "") {
      return SessionRequired;
    }
    var found := players.FindBySession(sid.s);
    if found.Some? {
      return SessionStarted(sid.s, found.value, players.docs[found.value].joinOrder);
    }
    var p := NewPlayer(Some(sid.s), now);
    assert p.(updatedAt := now) == p;
    var id := players.Create(p, now);
    reply := SessionStarted(sid.s, id, 0);
  }

  /**
   * A started session names a player holding that session: the first one
   * when there is one (nothing changes), else a new player with join rank 0.
   */
  lemma SessionFindsOrCreates(docs: map<nat, Player>, nextId: nat, sid: JsValue, now: int)
    requires forall j :: j in docs ==> j < nextId
    ensures var r := SessionSpec(docs, nextId, sid, now);
      && (r.reply == SessionRequired <==> !(sid.Str? && sid.s != ""))
      && (r.reply.SessionStarted? ==>
            r.reply.playerId in r.docs && r.docs[r.reply.playerId].sessionId == Some(sid.s) &&
            r.reply.joinOrder == r.docs[r.reply.playerId].joinOrder)
      && (r.reply.SessionStarted? && SessionOf(docs, nextId, sid.s).Some? ==>
            r.reply.playerId == SessionOf(docs, nextId, sid.s).value && r.docs == docs)
      && (r.reply.SessionStarted? && SessionOf(docs, nextId, sid.s).None? ==>
            r.reply.playerId == nextId && nextId !in docs && r.reply.joinOrder == 0 &&
            r.docs == docs[nextId := NewPlayer(Some(sid.s), now)])
  {
  }

  /** Starting the same session again returns the same player and changes nothing. */
  lemma SessionIdempotent(docs: map<nat, Player>, nextId: nat, sid: JsValue, now: int, later: int)
    requires SessionSpec(docs, nextId, sid, now).reply.SessionStarted?
    ensures var r := SessionSpec(docs, nextId, sid, now);
      var again := SessionSpec(r.docs, r.nextId, sid, later);
      && again.reply == r.reply && again.docs == r.docs && again.nextId == r.nextId
  {
    if SessionOf(docs, nextId, sid.s).None? {
      SessionOfBeyond(docs, nextId, sid.s, nextId, NewPlayer(Some(sid.s), now));
    }
  }

  datatype ByPhoneReply =
    | PhoneRequired
    | NotFound
    | Found(id: nat, name: string, joinOrder: int, phone: string, membership: Membership)

  /** `GET /by-phone?phone=`: the player holding the normalised number, read only. */
  function ByPhone(docs: map<nat, Player>, nextId: nat, raw: JsValue): (r: ByPhoneReply)
    ensures r == PhoneRequired <==> !Truthy(raw)
    ensures r.Found? ==> r.id in docs && docs[r.id].phone.number == Some(NormalizePhone(raw)) && r.phone == NormalizePhone(raw)
    ensures r.Found? ==> r.joinOrder == docs[r.id].joinOrder && r.membership == docs[r.id].membership
    ensures r == NotFound ==> forall j :: j < nextId && j in docs ==> docs[j].phone.number != Some(NormalizePhone(raw))
  {
    if !Truthy(raw) then PhoneRequired
    else
      var ph := NormalizePhone(raw);
      match PhoneHolder(docs, nextId, ph)
      case None => NotFound
      case Some(id) => Found(id, docs[id].name, docs[id].joinOrder, docs[id].phone.number.GetOr(""), docs[id].membership)
  }

  /** A value of the request body: `body[k]`, `undefined` when absent. */
  function Field(body: map<string, JsValue>, k: string): JsValue {
    if k in body then body[k] else Undefined
  }

  /**
   * A legacy key renamed: when `from` is truthy and `to` is not, `to` takes
   * `from`'s value and `from` is deleted; otherwise nothing changes. Keys
   * other than the two are never touched.
   */
  function RenameKey(body: map<string, JsValue>, from: string, to: string): (r: map<string, JsValue>)
    requires from != to
    ensures Truthy(Field(body, from)) && !Truthy(Field(body, to)) ==>
      Field(r, to) == Field(body, from) && from !in r
    ensures !(Truthy(Field(body, from)) && !Truthy(Field(body, to))) ==> r == body
    ensures forall k :: k != from && k != to ==> Field(r, k) == Field(body, k)
  {
    if Truthy(Field(body, from)) && !Truthy(Field(body, to)) then (body - {from})[to := body[from]] else body
  }

  /** `artistKind` becomes `artistType: { name: artistKind, description: '' }` when no artist type was sent. */
  function RenameArtistKind(body: map<string, JsValue>): (r: map<string, JsValue>)
    ensures Truthy(Field(body, "artistKind")) && !Truthy(Field(body, "artistType")) ==>
      Field(r, "artistType") == Obj(map["name" := body["artistKind"], "description" := Str("")]) && "artistKind" !in r
    ensures !(Truthy(Field(body, "artistKind")) && !Truthy(Field(body, "artistType"))) ==> r == body
    ensures forall k :: k != "artistKind" && k != "artistType" ==> Field(r, k) == Field(body, k)
  {
    if Truthy(Field(body, "artistKind")) && !Truthy(Field(body, "artistType")) then
      (body - {"artistKind"})["artistType" := Obj(map["name" := body["artistKind"], "description" := Str("")])]
    else body
  }

  /** The legacy keys and the keys they are renamed to. */
  const LegacyKeys: set<string> := {"artistKind", "artistType", "city", "location", "businessKind",
                                     "managerRoleText", "loverPreference", "appreciatorEngagement"}

  /**
   * The four legacy renames, in the order the handler applies them. Each
   * target takes its legacy key's value only when the legacy key is truthy
   * and the target is not; no other key changes.
   */
  function Renamed(body: map<string, JsValue>): map<string, JsValue>
  {
    RenameKey(RenameKey(RenameKey(RenameArtistKind(body), "city", "location"),
                        "businessKind", "managerRoleText"),
              "loverPreference", "appreciatorEngagement")
  }

  /** `city` moves to `location` only when `location` is not truthy. */
  lemma RenamedLocation(body: map<string, JsValue>)
    ensures Field(Renamed(body), "location") ==
      if Truthy(Field(body, "city")) && !Truthy(Field(body, "location")) then Field(body, "city") else Field(body, "location")
  {
  }

  /** `businessKind` moves to `managerRoleText`, and `loverPreference` to `appreciatorEngagement`, the same way. */
  lemma RenamedRoleTexts(body: map<string, JsValue>)
    ensures Field(Renamed(body), "managerRoleText") ==
      if Truthy(Field(body, "businessKind")) && !Truthy(Field(body, "managerRoleText")) then Field(body, "businessKind")
      else Field(body, "managerRoleText")
    ensures Field(Renamed(body), "appreciatorEngagement") ==
      if Truthy(Field(body, "loverPreference")) && !Truthy(Field(body, "appreciatorEngagement")) then Field(body, "loverPreference")
      else Field(body, "appreciatorEngagement")
  {
  }

  /** `artistKind` becomes the artist type's name when no artist type is sent. */
  lemma RenamedArtistType(body: map<string, JsValue>)
    ensures Field(Renamed(body), "artistType") ==
      if Truthy(Field(body, "artistKind")) && !Truthy(Field(body, "artistType")) then
        Obj(map["name" := Field(body, "artistKind"), "description" := Str("")])
      else Field(body, "artistType")
  {
  }

  /** No key outside the legacy keys and their targets changes. */
  lemma RenamedKeepsOthers(body: map<string, JsValue>, k: string)
    requires k !in LegacyKeys
    ensures Field(Renamed(body), k) == Field(body, k)
  {
  }

  /**
   * The `$set` a PATCH body produces: each field present as the right type,
   * and the step flags it raises. `None` and `false` leave the stored value
   * as it is.
   */
  datatype PlayerPatch = PlayerPatch(
    name: Option<string>, role: Option<string>, artistType: Option<ArtistType>, location: Option<string>,
    helperCapacity: Option<string>, helperStage: Option<string>, managerRoleText: Option<string>,
    eventFrequency: Option<string>, appreciatorEngagement: Option<string>, attendance: Option<string>,
    consent: Option<Consent>, commitmentAgreed: Option<bool>, subscriptionConfirmed: Option<bool>,
    phone: Option<string>,
    postLevel2Q: bool, stepLocation: bool, stepConsent: bool, waitlist: bool, stepPhone: bool)

  /** A string field of the body, trimmed; absent unless it is a string. */
  function TrimmedText(body: map<string, JsValue>, k: string): (r: Option<string>)
    ensures r.Some? <==> Field(body, k).Str?
    ensures r.Some? ==> r.value == Trim(Field(body, k).s)
  {
    if Field(body, k).Str? then Some(Trim(Field(body, k).s)) else None
  }

  /** A boolean field of the body; absent unless it is a boolean. */
  function Flag(body: map<string, JsValue>, k: string): (r: Option<bool>)
    ensures r.Some? <==> Field(body, k).Bool?
    ensures r.Some? ==> r.value == Field(body, k).b
  {
    if Field(body, k).Bool? then Some(Field(body, k).b) else None
  }

  /** `body.artistType && typeof body.artistType === 'object'`: the handler takes the artist type. */
  predicate ArtistTypeSent(body: map<string, JsValue>) {
    Truthy(Field(body, "artistType")) && IsObjectType(Field(body, "artistType"))
  }

  /** `body.artistType[k] || ''`, the value the handler stores as the name or the description. */
  function ArtistTypeText(body: map<string, JsValue>, k: string): JsValue {
    Or(Get(Field(body, "artistType"), k), Str(""))
  }

  /** The artist type is taken, but its name or its description fails the `String` cast. */
  predicate ArtistTypeUncastable(body: map<string, JsValue>) {
    ArtistTypeSent(body) &&
    (CastString(ArtistTypeText(body, "name")).NotCastable? || CastString(ArtistTypeText(body, "description")).NotCastable?)
  }

  /**
   * The artist type stored from the body: present when it is taken and both
   * texts pass the `String` cast, each stored as its cast. (`name || ''` is
   * never `null`, so a cast that passes keeps a text.)
   */
  function ArtistTypeOf(body: map<string, JsValue>): (r: Option<ArtistType>)
    ensures r.Some? <==> ArtistTypeSent(body) && !ArtistTypeUncastable(body)
    ensures r.Some? ==> CastString(ArtistTypeText(body, "name")) == CastText(r.value.name)
    ensures r.Some? ==> CastString(ArtistTypeText(body, "description")) == CastText(r.value.description)
  {
    var name := CastString(ArtistTypeText(body, "name"));
    var description := CastString(ArtistTypeText(body, "description"));
    if ArtistTypeSent(body) && name.CastText? && description.CastText? then
      Some(ArtistType(name.text, description.text))
    else None
  }

  /**
   * `normalizePhone(body[k])` when `body[k]` is a string, kept only when
   * non-empty. On text `normalizePhone` is `PlusDigits` of the text unless
   * the text is empty (`SentPhoneIsNormalised`).
   */
  function SentPhone(b: map<string, JsValue>, k: string): (r: Option<string>)
    ensures r.Some? <==> Field(b, k).Str? && Field(b, k).s != ""
  {
    var v := Field(b, k);
    if v.Str? && v.s != "" then Some(PlusDigits(v.s)) else None
  }

  /** The phone kept is exactly `normalizePhone` of the sent text, and that is never empty. */
  lemma SentPhoneIsNormalised(b: map<string, JsValue>, k: string)
    ensures Field(b, k).Str? ==> (SentPhone(b, k).Some? <==> NormalizePhone(Field(b, k)) != "")
    ensures SentPhone(b, k).Some? ==> SentPhone(b, k).value == NormalizePhone(Field(b, k))
  {
  }

  /** The update a PATCH body (already renamed) asks for. */
  function PatchOf(b: map<string, JsValue>, now: int): (u: PlayerPatch)
  {
    var consent := Flag(b, "consent");
    var phone := SentPhone(b, "phone");
    PlayerPatch(
      TrimmedText(b, "name"), TrimmedText(b, "role"), ArtistTypeOf(b), TrimmedText(b, "location"),
      TrimmedText(b, "helperCapacity"), TrimmedText(b, "helperStage"), TrimmedText(b, "managerRoleText"),
      TrimmedText(b, "eventFrequency"), TrimmedText(b, "appreciatorEngagement"), TrimmedText(b, "attendance"),
      if consent.Some? then Some(Consent(consent.value, if consent.value then Some(now) else None)) else None,
      Flag(b, "commitmentAgreed"), Flag(b, "subscriptionConfirmed"), phone,
      ArtistTypeSent(b) || Field(b, "helperStage").Str? || Field(b, "managerRoleText").Str? ||
        Field(b, "eventFrequency").Str? || Field(b, "appreciatorEngagement").Str? || Field(b, "attendance").Str?,
      Field(b, "location").Str?, consent.Some?, consent == Some(true), phone.Some?)
  }

  /** The artist type a patch stores, and the step it raises. */
  lemma PatchOfArtistType(b: map<string, JsValue>, now: int)
    ensures PatchOf(b, now).artistType == ArtistTypeOf(b)
    ensures ArtistTypeSent(b) ==> PatchOf(b, now).postLevel2Q
  {
  }

  /** The step flags after a patch: raised flags set, the two boolean flags overwritten when sent. */
  function PatchedSteps(s: Steps, u: PlayerPatch): Steps {
    s.(postLevel2Q := s.postLevel2Q || u.postLevel2Q, location := s.location || u.stepLocation,
       consent := s.consent || u.stepConsent, waitlist := s.waitlist || u.waitlist, phone := s.phone || u.stepPhone,
       commitmentAgreed := u.commitmentAgreed.GetOr(s.commitmentAgreed),
       subscriptionConfirmed := u.subscriptionConfirmed.GetOr(s.subscriptionConfirmed))
  }

  /** A player with the patch `$set` on it at `now`. */
  function Patched(p: Player, u: PlayerPatch, now: int): Player {
    p.(name := u.name.GetOr(p.name), role := u.role.GetOr(p.role), artistType := u.artistType.GetOr(p.artistType),
       location := u.location.GetOr(p.location), helperCapacity := u.helperCapacity.GetOr(p.helperCapacity),
       helperStage := u.helperStage.GetOr(p.helperStage), managerRoleText := u.managerRoleText.GetOr(p.managerRoleText),
       eventFrequency := u.eventFrequency.GetOr(p.eventFrequency),
       appreciatorEngagement := u.appreciatorEngagement.GetOr(p.appreciatorEngagement),
       attendance := u.attendance.GetOr(p.attendance), consent := u.consent.GetOr(p.consent),
       phone := if u.phone.Some? then p.phone.(number := u.phone) else p.phone,
       steps := PatchedSteps(p.steps, u), updatedAt := now)
  }

  datatype PatchReply =
    | PatchSessionRequired
    | PhoneExists
    /** The update failed its cast before anything was written: the handler answers 500. */
    | PatchCastFailed
    | PatchSaved(id: nat, player: Player)

  /** What the PATCH answers, and the players and next id afterwards. */
  datatype PatchOutcome = PatchOutcome(reply: PatchReply, docs: map<nat, Player>, nextId: nat)

  /**
   * `PATCH /:sessionId`: the update is upserted on the player with that
   * session; an empty session id is refused first, and an artist type whose
   * texts fail the `String` cast fails the update before it is written.
   */
  function PatchSpec(docs: map<nat, Player>, nextId: nat, sid: string, body: map<string, JsValue>, now: int): (r: PatchOutcome)
    ensures !r.reply.PatchSaved? ==> r.docs == docs && r.nextId == nextId
    ensures r.reply.PatchSaved? ==> sid != "" && r.docs == docs[r.reply.id := r.reply.player]
  {
    if sid == "" then PatchOutcome(PatchSessionRequired, docs, nextId)
    else if ArtistTypeUncastable(Renamed(body)) then PatchOutcome(PatchCastFailed, docs, nextId)
    else PatchUpsert(docs, nextId, sid, PatchOf(Renamed(body), now), now)
  }

  /**
   * `findOneAndUpdate({ sessionId }, { $set: update }, { upsert: true })`:
   * the update lands on the player with that session, or on a new player
   * with schema defaults when there is none; a phone number held by another
   * player fails the write with PHONE_EXISTS.
   */
  function PatchUpsert(docs: map<nat, Player>, nextId: nat, sid: string, u: PlayerPatch, now: int): (r: PatchOutcome)
    ensures r.reply.PatchSaved? || r.reply == PhoneExists
    ensures r.reply == PhoneExists ==> r.docs == docs && r.nextId == nextId
    ensures r.reply.PatchSaved? ==> r.docs == docs[r.reply.id := r.reply.player]
    ensures r.reply.PatchSaved? && u.artistType.Some? ==> r.reply.player.artistType == u.artistType.value
  {
    match SessionOf(docs, nextId, sid)
    case Some(id) =>
      var q := Patched(docs[id], u, now);
      if PhoneFreeFor(docs, id, q) then PatchOutcome(PatchSaved(id, q), docs[id := q], nextId)
      else PatchOutcome(PhoneExists, docs, nextId)
    case None =>
      var q := Patched(NewPlayer(Some(sid), now), u, now);
      if PhoneFreeFor(docs, nextId, q) then PatchOutcome(PatchSaved(nextId, q), docs[nextId := q], nextId + 1)
      else PatchOutcome(PhoneExists, docs, nextId)
  }

  method Patch(players: Players, sid: string, body: map<string, JsValue>, now: int) returns (reply: PatchReply)
    requires players.Valid()
    modifies players
    ensures players.Valid()
    ensures PatchOutcome(reply, players.docs, players.nextId) == PatchSpec(old(players.docs), old(players.nextId), sid, body, now)
  {
    if sid == "" {
      return PatchSessionRequired;
    }
    var b := Renamed(body);
    if ArtistTypeUncastable(b) {
      return PatchCastFailed;
    }
    var u := PatchOf(b, now);
    var found := players.FindBySession(sid);
    if found.Some? {
      var id := found.value;
      var q := Patched(players.docs[id], u, now);
      var ok := players.Update(id, q);
      reply := if ok then PatchSaved(id, q) else PhoneExists;
    } else {
      var q := Patched(NewPlayer(Some(sid), now), u, now);
      var id, ok := players.Insert(q);
      reply := if ok then PatchSaved(id, q) else PhoneExists;
    }
  }

  /**
   * Each legacy key is renamed only when its target is not already sent:
   * a truthy `city` without a truthy `location` is stored as the location,
   * and a truthy `location` wins over `city`.
   */
  lemma CityIsLocationOnlyWithoutOne(body: map<string, JsValue>, now: int)
    requires Field(body, "city").Str? && Field(body, "city").s != ""
    ensures var u := PatchOf(Renamed(body), now);
      && (!Truthy(Field(body, "location")) ==> u.location == Some(Trim(Field(body, "city").s)) && u.stepLocation)
      && (Field(body, "location").Str? && Field(body, "location").s != "" ==>
            u.location == Some(Trim(Field(body, "location").s)))
  {
    RenamedLocation(body);
    var b := Renamed(body);
    var u := PatchOf(b, now);
    assert u.location == TrimmedText(b, "location") && u.stepLocation == Field(b, "location").Str?;
  }

  /** An `artistKind` without an artist type is stored as the artist type's name with an empty description. */
  lemma ArtistKindIsArtistType(body: map<string, JsValue>, now: int)
    requires Field(body, "artistKind").Str? && Field(body, "artistKind").s != "" && !Truthy(Field(body, "artistType"))
    ensures var u := PatchOf(Renamed(body), now);
      u.artistType == Some(ArtistType(Field(body, "artistKind").s, "")) && u.postLevel2Q
  {
    RenamedArtistType(body);
    var b := Renamed(body);
    ArtistTypeOfPair(b, Field(body, "artistKind"));
    PatchOfArtistType(b, now);
  }

  /** An artist type sent as a name and an empty description is stored as exactly that. */
  lemma ArtistTypeOfPair(b: map<string, JsValue>, kind: JsValue)
    requires kind.Str? && kind.s != ""
    requires Field(b, "artistType") == Obj(map["name" := kind, "description" := Str("")])
    ensures ArtistTypeSent(b) && ArtistTypeOf(b) == Some(ArtistType(kind.s, ""))
  {
    assert ArtistTypeText(b, "name") == kind;
    assert ArtistTypeText(b, "description") == Str("");
  }

  /**
   * An artist type the handler takes is stored as the `String` casts of its
   * name and description; when either cast fails, so does the PATCH, and
   * nothing is written.
   */
  lemma PatchArtistTypeCast(docs: map<nat, Player>, nextId: nat, sid: string, body: map<string, JsValue>, now: int)
    requires sid != ""
    ensures var b := Renamed(body);
      var r := PatchSpec(docs, nextId, sid, body, now);
      && (r.reply == PatchCastFailed <==> ArtistTypeUncastable(b))
      && (r.reply == PatchCastFailed ==> r.docs == docs && r.nextId == nextId)
      && (r.reply.PatchSaved? && ArtistTypeSent(b) ==>
            && CastString(ArtistTypeText(b, "name")) == CastText(r.reply.player.artistType.name)
            && CastString(ArtistTypeText(b, "description")) == CastText(r.reply.player.artistType.description))
  {
    PatchOfArtistType(Renamed(body), now);
  }

  /**
   * `consent: b` stores `b` as agreed, stamped with `now` only when true,
   * always marks the consent step, and marks the waitlist step only when
   * `b` is true (an earlier waitlist step is kept).
   */
  lemma PatchConsent(p: Player, body: map<string, JsValue>, now: int, b: bool)
    requires Field(body, "consent") == Bool(b)
    ensures var q := Patched(p, PatchOf(Renamed(body), now), now);
      && q.consent == Consent(b, if b then Some(now) else None)
      && q.steps.consent && q.steps.waitlist == (p.steps.waitlist || b)
  {
    RenamedKeepsOthers(body, "consent");
  }

  /**
   * A PATCH writes only the keys the body sends: the session, join rank,
   * creator code, membership, invite gate, OTP state and creation time are
   * never touched; each profile field, and the phone, stays as it was when
   * its key is not sent as a string.
   */
  lemma PatchTouchesOnlySentKeys(p: Player, body: map<string, JsValue>, now: int)
    ensures var b := Renamed(body);
      var q := Patched(p, PatchOf(b, now), now);
      && q.sessionId == p.sessionId && q.joinOrder == p.joinOrder && q.creator == p.creator
      && q.membership == p.membership && q.invite == p.invite && q.otp == p.otp && q.createdAt == p.createdAt
      && q.inviteVerified == p.inviteVerified && q.inviteCode == p.inviteCode
      && q.phone.verified == p.phone.verified && q.phone.verifiedAt == p.phone.verifiedAt
      && q.steps.phoneVerified == p.steps.phoneVerified && q.steps.inviteLocked == p.steps.inviteLocked
      && q.steps.creatorCodeAssigned == p.steps.creatorCodeAssigned && q.steps.name == p.steps.name
      && (!Field(b, "name").Str? ==> q.name == p.name)
      && (!Field(b, "role").Str? ==> q.role == p.role)
      && (!Field(b, "location").Str? ==> q.location == p.location && q.steps.location == p.steps.location)
      && (!Field(b, "phone").Str? ==> q.phone == p.phone && q.steps.phone == p.steps.phone)
      && (!Field(b, "consent").Bool? ==> q.consent == p.consent && q.steps.consent == p.steps.consent)
  {
  }

  /**
   * The PATCH writes through `findOneAndUpdate`, which runs no validators:
   * a role sent as a string is stored trimmed whatever it is, and the
   * stored document validates only when that role is one the schema lists,
   * so a role outside the list makes every later `save()` of the player
   * fail.
   */
  lemma PatchStoresAnyRole(docs: map<nat, Player>, nextId: nat, sid: string, body: map<string, JsValue>, now: int)
    requires Field(body, "role").Str?
    ensures var r := PatchSpec(docs, nextId, sid, body, now);
      var role := Trim(Field(body, "role").s);
      && (sid != "" && !ArtistTypeUncastable(Renamed(body)) ==> r.reply.PatchSaved? || r.reply == PhoneExists)
      && (r.reply.PatchSaved? ==> r.reply.player.role == role && (Validates(r.reply.player) <==> IsSchemaRole(role)))
  {
    RenamedKeepsOthers(body, "role");
    var b := Renamed(body);
    if sid != "" && !ArtistTypeUncastable(b) {
      var u := PatchOf(b, now);
      assert u.role == Some(Trim(Field(body, "role").s));
      PatchUpsertSetsRole(docs, nextId, sid, u, now);
    }
  }

  /** A saved upsert carries the role the update sets. */
  lemma PatchUpsertSetsRole(docs: map<nat, Player>, nextId: nat, sid: string, u: PlayerPatch, now: int)
    requires u.role.Some?
    ensures var r := PatchUpsert(docs, nextId, sid, u, now);
      r.reply.PatchSaved? ==> r.reply.player.role == u.role.value
  {
  }

  /** The phone a PATCH body sets: a non-empty string, normalised. */
  lemma PatchPhoneIsNormalised(body: map<string, JsValue>, now: int)
    ensures var b := Renamed(body);
      var u := PatchOf(b, now);
      && (u.phone.Some? <==> Field(body, "phone").Str? && Field(body, "phone").s != "")
      && (u.phone.Some? ==> u.phone == SentPhone(body, "phone") && u.stepPhone)
  {
    RenamedKeepsOthers(body, "phone");
  }

  /** A patch without a phone leaves the unique phone index key as it was. */
  lemma PatchedKeepsPhoneKey(p: Player, u: PlayerPatch, now: int)
    requires u.phone.None?
    ensures PhoneKey(Patched(p, u, now)) == PhoneKey(p)
  {
  }

  /**
   * The write fails with PHONE_EXISTS only when the update sets a phone
   * number (another player holds it), and then nothing changes.
   */
  lemma PatchPhoneExists(docs: map<nat, Player>, nextId: nat, sid: string, u: PlayerPatch, now: int)
    requires PhoneUnique(docs)
    ensures var r := PatchUpsert(docs, nextId, sid, u, now);
      r.reply == PhoneExists ==> u.phone.Some? && r.docs == docs && r.nextId == nextId
  {
    if u.phone.None? {
      var found := SessionOf(docs, nextId, sid);
      if found.Some? {
        PatchedKeepsPhoneKey(docs[found.value], u, now);
        SamePhoneIsFree(docs, found.value, Patched(docs[found.value], u, now));
      } else {
        PatchedKeepsPhoneKey(NewPlayer(Some(sid), now), u, now);
      }
    }
  }

  /**
   * A saved PATCH stores the patched player under the session's player, or
   * under a new id when the session had none, with the phone number the
   * update sets; the unique phone index still holds.
   */
  lemma PatchSaves(docs: map<nat, Player>, nextId: nat, sid: string, u: PlayerPatch, now: int)
    requires PhoneUnique(docs)
    ensures var r := PatchUpsert(docs, nextId, sid, u, now);
      && (r.reply.PatchSaved? ==>
            r.reply.id in r.docs && r.docs[r.reply.id] == r.reply.player && r.reply.player.sessionId == Some(sid)
            && (u.phone.Some? ==> r.reply.player.phone.number == u.phone)
            && (u.stepPhone ==> r.reply.player.steps.phone)
            && PhoneUnique(r.docs))
      && (r.reply.PatchSaved? && SessionOf(docs, nextId, sid).Some? ==> r.reply.id == SessionOf(docs, nextId, sid).value)
      && (r.reply.PatchSaved? && SessionOf(docs, nextId, sid).None? ==> r.reply.id == nextId && r.nextId == nextId + 1)
  {
    var r := PatchUpsert(docs, nextId, sid, u, now);
    if r.reply.PatchSaved? {
      PhoneUniqueUpdate(docs, r.reply.id, r.reply.player);
    }
  }
}

=== FILE: question_flow.dfy ===
/**
 * public/js/QuestionFlow.js: the onboarding flow's client helpers. Phone
 * digits are assembled into an E.164 number; the flow's UI state is kept in
 * local storage (`QF_STATE`) and merged with the server's player document;
 * a verified player is redirected to the community page; and the flow
 * resumes at the first unfinished question.
 */
module QuestionFlow {
  import opened Wrappers
  import opened Text
  import opened JsValues
  import Formats
  import OtpRoutes

  /**
   * `toE164(dial, national)`: the digits of the dial code and of the
   * national number, joined; `None` (null) when there are fewer than 5 or
   * more than 15 of them, otherwise '+' and the digits.
   * (`normalizeDigits` is `Text.Digits`.)
   */
  function ToE164(dial: string, national: string): (r: Option<string>)
    ensures r.None? <==> |Digits(dial)| + |Digits(national)| < 5 || |Digits(dial)| + |Digits(national)| > 15
    ensures r.Some? ==> 6 <= |r.value| <= 16 && r.value[0] == '+' && AllDigits(r.value[1..])
  {
    var total := Digits(dial) + Digits(national);
    if |total| < 5 || |total| > 15 then None else Some("+" + total)
  }

  /** Every digit typed is kept, in order, dial code first. */
  lemma ToE164KeepsDigits(dial: string, national: string)
    requires ToE164(dial, national).Some?
    ensures Digits(ToE164(dial, national).value) == Digits(dial) + Digits(national)
  {
    var total := Digits(dial) + Digits(national);
    DigitsAppend("+", total);
    assert Digits("+") == "" by {
      assert "+"[1..] == "";
    }
    DigitsOfDigits(total);
  }

  /** The server's `normalizePhone` leaves an E.164 number built here as it is. */
  lemma ServerKeepsE164(dial: string, national: string)
    requires ToE164(dial, national).Some?
    ensures Formats.NormalizePhone(Str(ToE164(dial, national).value)) == ToE164(dial, national).value
  {
    Formats.NormalizedPlusDigits(Digits(dial) + Digits(national));
  }

  /** `Object.assign(target, source)`: the source's keys overwrite, every other key stays. */
  function Assign(target: map<string, JsValue>, source: map<string, JsValue>): (r: map<string, JsValue>)
    ensures r.Keys == target.Keys + source.Keys
    ensures forall k :: k in source ==> r[k] == source[k]
    ensures forall k :: k in target && k !in source ==> r[k] == target[k]
  {
    target + source
  }

  /** Assigning a state that already has every key of the target gives that state. */
  lemma AssignCovering(target: map<string, JsValue>, source: map<string, JsValue>)
    requires target.Keys <= source.Keys
    ensures Assign(target, source) == source
  {
  }

  /** The flow state is written back only ever with `true` for these flags. */
  const FLAGS: seq<string> := ["nameDone", "roleDone", "q3Done", "q4Done", "phoneVerified"]

  /** `if (cond) s[key] = true`. */
  function Raise(s: map<string, JsValue>, cond: bool, key: string): (r: map<string, JsValue>)
  {
    if cond then s[key := Bool(true)] else s
  }

  /** `if (doc[key] && !s[key]) s[key] = doc[key]`. */
  function CopyIfMissing(s: map<string, JsValue>, doc: JsValue, key: string): (r: map<string, JsValue>)
  {
    if Truthy(Get(doc, key)) && !Truthy(Get(Obj(s), key)) then s[key := Get(doc, key)] else s
  }

  /** `doc.steps || {}`. */
  function StepsOf(doc: JsValue): JsValue {
    Or(Get(doc, "steps"), Obj(map[]))
  }

  /** The profile half of `mergeServerIntoLocal`: name and role copied only when missing locally. */
  function MergedProfile(s: map<string, JsValue>, doc: JsValue): map<string, JsValue> {
    CopyIfMissing(CopyIfMissing(s, doc, "name"), doc, "role")
  }

  /** The flag half: each server step marks its local gate done; `phone.verified` also marks the phone. */
  function MergedFlags(s: map<string, JsValue>, doc: JsValue): map<string, JsValue> {
    LaterFlags(EarlyFlags(s, doc), doc)
  }

  function EarlyFlags(s: map<string, JsValue>, doc: JsValue): map<string, JsValue> {
    var steps := StepsOf(doc);
    var s1 := Raise(s, Truthy(Get(steps, "name")), "nameDone");
    var s2 := Raise(s1, Truthy(Get(steps, "role")), "roleDone");
    Raise(s2, Truthy(Get(steps, "postLevel2Q")), "q3Done")
  }

  function LaterFlags(s: map<string, JsValue>, doc: JsValue): map<string, JsValue> {
    var steps := StepsOf(doc);
    var s4 := Raise(s, Truthy(Get(steps, "location")), "q4Done");
    var s5 := Raise(s4, Truthy(Get(steps, "phoneVerified")), "phoneVerified");
    Raise(s5, Truthy(Get(doc, "phone")) && Truthy(Get(Get(doc, "phone"), "verified")), "phoneVerified")
  }

  /** `mergeServerIntoLocal(doc)` on the saved state `s`. */
  function Merged(s: map<string, JsValue>, doc: JsValue): (r: map<string, JsValue>)
    ensures s.Keys <= r.Keys
  {
    MergedFlags(MergedProfile(s, doc), doc)
  }

  /**
   * The local storage entry `QF_STATE`: `None` when it is missing or does
   * not parse, which `readState` reads as `{}`.
   */
  class FlowStorage {
    var saved: Option<map<string, JsValue>>

    constructor ()
      ensures saved == None
    {
      saved := None;
    }

    /** `readState()`. */
    function ReadState(): (s: map<string, JsValue>)
      reads this
      ensures saved.None? ==> s == map[]
      ensures saved.Some? ==> s == saved.value
    {
      if saved.Some? then saved.value else map[]
    }

    /** `writeState(patch)`: the patch assigned over the saved state, which is stored and returned. */
    method WriteState(patch: map<string, JsValue>) returns (s: map<string, JsValue>)
      modifies this
      ensures s == Assign(old(ReadState()), patch)
      ensures saved == Some(s)
    {
      s := ReadState();
      s := Assign(s, patch);
      saved := Some(s);
    }

    /**
     * `mergeServerIntoLocal(doc)`: nothing happens unless `doc` is a truthy
     * object; otherwise the saved state becomes the merge.
     */
    method MergeServerIntoLocal(doc: JsValue)
      modifies this
      ensures !(Truthy(doc) && IsObjectType(doc)) ==> saved == old(saved)
      ensures Truthy(doc) && IsObjectType(doc) ==> saved == Some(Merged(old(ReadState()), doc))
    {
      if !Truthy(doc) || !IsObjectType(doc) {
        return;
      }
      var s := ReadState();
      s := MergeProfileInto(s, doc);
      s := MergeFlagsInto(s, doc);
      MergedKeepsKeys(ReadState(), doc);
      AssignCovering(ReadState(), s);
      var _ := WriteState(s);
    }

    method MergeProfileInto(s0: map<string, JsValue>, doc: JsValue) returns (s: map<string, JsValue>)
      ensures s == MergedProfile(s0, doc)
    {
      s := s0;
      if Truthy(Get(doc, "name")) && !Truthy(Get(Obj(s), "name")) {
        s := s["name" := Get(doc, "name")];
      }
      if Truthy(Get(doc, "role")) && !Truthy(Get(Obj(s), "role")) {
        s := s["role" := Get(doc, "role")];
      }
    }

    method MergeFlagsInto(s0: map<string, JsValue>, doc: JsValue) returns (s: map<string, JsValue>)
      ensures s == MergedFlags(s0, doc)
    {
      s := MarkEarlySteps(s0, doc);
      s := MarkLaterSteps(s, doc);
    }

    method MarkEarlySteps(s0: map<string, JsValue>, doc: JsValue) returns (s: map<string, JsValue>)
      ensures s == EarlyFlags(s0, doc)
    {
      s := s0;
      var steps := StepsOf(doc);
      if Truthy(Get(steps, "name")) {
        s := s["nameDone" := Bool(true)];
      }
      if Truthy(Get(steps, "role")) {
        s := s["roleDone" := Bool(true)];
      }
      if Truthy(Get(steps, "postLevel2Q")) {
        s := s["q3Done" := Bool(true)];
      }
    }

    method MarkLaterSteps(s0: map<string, JsValue>, doc: JsValue) returns (s: map<string, JsValue>)
      ensures s == LaterFlags(s0, doc)
    {
      s := s0;
      var steps := StepsOf(doc);
      if Truthy(Get(steps, "location")) {
        s := s["q4Done" := Bool(true)];
      }
      if Truthy(Get(steps, "phoneVerified")) {
        s := s["phoneVerified" := Bool(true)];
      }
      if Truthy(Get(doc, "phone")) && Truthy(Get(Get(doc, "phone"), "verified")) {
        s := s["phoneVerified" := Bool(true)];
      }
    }
  }

  /**
   * The name (and likewise the role) is copied from the server only when
   * the local one is missing or empty; a local name is never replaced.
   */
  lemma MergeCopiesOnlyMissing(s: map<string, JsValue>, doc: JsValue)
    ensures var r := Merged(s, doc);
      && (Truthy(Get(Obj(s), "name")) ==> Get(Obj(r), "name") == Get(Obj(s), "name"))
      && (!Truthy(Get(Obj(s), "name")) && Truthy(Get(doc, "name")) ==> Get(Obj(r), "name") == Get(doc, "name"))
      && (!Truthy(Get(doc, "name")) ==> Get(Obj(r), "name") == Get(Obj(s), "name"))
      && (Truthy(Get(Obj(s), "role")) ==> Get(Obj(r), "role") == Get(Obj(s), "role"))
      && (!Truthy(Get(Obj(s), "role")) && Truthy(Get(doc, "role")) ==> Get(Obj(r), "role") == Get(doc, "role"))
  {
    var p := MergedProfile(s, doc);
    assert Get(Obj(p), "name") == (if Truthy(Get(doc, "name")) && !Truthy(Get(Obj(s), "name")) then Get(doc, "name") else Get(Obj(s), "name"));
    MergedFlagsKeep(p, doc, "name");
    MergedFlagsKeep(p, doc, "role");
  }

  /** The merge drops no saved key. */
  lemma MergedKeepsKeys(s: map<string, JsValue>, doc: JsValue)
    ensures s.Keys <= Merged(s, doc).Keys
  {
  }

  /** The flag half of the merge changes no key other than the five flags. */
  lemma MergedFlagsKeep(s: map<string, JsValue>, doc: JsValue, k: string)
    requires k !in FLAGS
    ensures Get(Obj(MergedFlags(s, doc)), k) == Get(Obj(s), k)
  {
  }

  /**
   * The merge only ever sets a progress flag to true: a flag that was
   * truthy stays truthy, and a flag the merge writes is written as true.
   */
  lemma MergeOnlyRaises(s: map<string, JsValue>, doc: JsValue, k: string)
    requires k in FLAGS
    ensures var r := Merged(s, doc);
      && (Truthy(Get(Obj(s), k)) ==> Truthy(Get(Obj(r), k)))
      && (Get(Obj(r), k) == Get(Obj(s), k) || Get(Obj(r), k) == Bool(true))
  {
    var p := MergedProfile(s, doc);
    assert Get(Obj(p), k) == Get(Obj(s), k);
    EarlyFlagsRaise(p, doc, k);
    LaterFlagsRaise(EarlyFlags(p, doc), doc, k);
  }

  /** The first three flag updates keep the flag `k` or set it to true. */
  lemma EarlyFlagsRaise(s: map<string, JsValue>, doc: JsValue, k: string)
    ensures var r := EarlyFlags(s, doc);
      Get(Obj(r), k) == Get(Obj(s), k) || Get(Obj(r), k) == Bool(true)
  {
    var steps := StepsOf(doc);
    var s1 := Raise(s, Truthy(Get(steps, "name")), "nameDone");
    var s2 := Raise(s1, Truthy(Get(steps, "role")), "roleDone");
    RaiseRaises(s, Truthy(Get(steps, "name")), "nameDone", k);
    RaiseRaises(s1, Truthy(Get(steps, "role")), "roleDone", k);
    RaiseRaises(s2, Truthy(Get(steps, "postLevel2Q")), "q3Done", k);
  }

  /** The last three flag updates keep the flag `k` or set it to true. */
  lemma LaterFlagsRaise(s: map<string, JsValue>, doc: JsValue, k: string)
    ensures var r := LaterFlags(s, doc);
      Get(Obj(r), k) == Get(Obj(s), k) || Get(Obj(r), k) == Bool(true)
  {
    var steps := StepsOf(doc);
    var s4 := Raise(s, Truthy(Get(steps, "location")), "q4Done");
    var s5 := Raise(s4, Truthy(Get(steps, "phoneVerified")), "phoneVerified");
    RaiseRaises(s, Truthy(Get(steps, "location")), "q4Done", k);
    RaiseRaises(s4, Truthy(Get(steps, "phoneVerified")), "phoneVerified", k);
    RaiseRaises(s5, Truthy(Get(doc, "phone")) && Truthy(Get(Get(doc, "phone"), "verified")), "phoneVerified", k);
  }

  /** One `Raise` keeps the flag `k` or sets it to true. */
  lemma RaiseRaises(s: map<string, JsValue>, cond: bool, key: string, k: string)
    ensures var r := Raise(s, cond, key);
      Get(Obj(r), k) == Get(Obj(s), k) || Get(Obj(r), k) == Bool(true)
  {
  }

  /**
   * Each server step opens its local gate: a truthy `steps.name`,
   * `steps.role`, `steps.postLevel2Q` or `steps.location` leaves
   * `nameDone`, `roleDone`, `q3Done` or `q4Done` set to true.
   */
  lemma MergeMarksSteps(s: map<string, JsValue>, doc: JsValue)
    ensures var r := Merged(s, doc);
      && (Truthy(Get(Get(doc, "steps"), "name")) ==> Get(Obj(r), "nameDone") == Bool(true))
      && (Truthy(Get(Get(doc, "steps"), "role")) ==> Get(Obj(r), "roleDone") == Bool(true))
      && (Truthy(Get(Get(doc, "steps"), "postLevel2Q")) ==> Get(Obj(r), "q3Done") == Bool(true))
      && (Truthy(Get(Get(doc, "steps"), "location")) ==> Get(Obj(r), "q4Done") == Bool(true))
  {
    var p := MergedProfile(s, doc);
    StepsOfField(doc, "name");
    StepsOfField(doc, "role");
    StepsOfField(doc, "postLevel2Q");
    StepsOfField(doc, "location");
    EarlyFlagsMark(p, doc);
    LaterFlagsMark(EarlyFlags(p, doc), doc);
  }

  /** `(doc.steps || {})[k]` is `doc.steps[k]` whenever that is truthy. */
  lemma StepsOfField(doc: JsValue, k: string)
    ensures Truthy(Get(Get(doc, "steps"), k)) ==> Get(StepsOf(doc), k) == Get(Get(doc, "steps"), k)
  {
    if Truthy(Get(Get(doc, "steps"), k)) {
      assert Get(doc, "steps").Obj?;
    }
  }

  /** The first three raises set their flags from the server steps. */
  lemma EarlyFlagsMark(s: map<string, JsValue>, doc: JsValue)
    ensures var r := EarlyFlags(s, doc);
      && (Truthy(Get(StepsOf(doc), "name")) ==> Get(Obj(r), "nameDone") == Bool(true))
      && (Truthy(Get(StepsOf(doc), "role")) ==> Get(Obj(r), "roleDone") == Bool(true))
      && (Truthy(Get(StepsOf(doc), "postLevel2Q")) ==> Get(Obj(r), "q3Done") == Bool(true))
  {
    var steps := StepsOf(doc);
    var s1 := Raise(s, Truthy(Get(steps, "name")), "nameDone");
    var s2 := Raise(s1, Truthy(Get(steps, "role")), "roleDone");
    RaiseKeepsOthers(s1, Truthy(Get(steps, "role")), "roleDone", "nameDone");
    RaiseKeepsOthers(s2, Truthy(Get(steps, "postLevel2Q")), "q3Done", "nameDone");
    RaiseKeepsOthers(s2, Truthy(Get(steps, "postLevel2Q")), "q3Done", "roleDone");
  }

  /** The last three raises keep the first three flags and set `q4Done` from the server's location step. */
  lemma LaterFlagsMark(s: map<string, JsValue>, doc: JsValue)
    ensures var r := LaterFlags(s, doc);
      && Get(Obj(r), "nameDone") == Get(Obj(s), "nameDone")
      && Get(Obj(r), "roleDone") == Get(Obj(s), "roleDone")
      && Get(Obj(r), "q3Done") == Get(Obj(s), "q3Done")
      && (Truthy(Get(StepsOf(doc), "location")) ==> Get(Obj(r), "q4Done") == Bool(true))
  {
  }

  /** A `Raise` of `key` leaves every other key as it was. */
  lemma RaiseKeepsOthers(s: map<string, JsValue>, cond: bool, key: string, k: string)
    requires k != key
    ensures Get(Obj(Raise(s, cond, key)), k) == Get(Obj(s), k)
  {
  }

  /** The local phone gate is opened by either server flag. */
  lemma MergeMarksVerified(s: map<string, JsValue>, doc: JsValue)
    requires Truthy(Get(Get(doc, "phone"), "verified")) || Truthy(Get(StepsOf(doc), "phoneVerified"))
    ensures Get(Obj(Merged(s, doc)), "phoneVerified") == Bool(true)
  {
  }

  /**
   * `maybeAutoRedirect(doc)`: a player whose `phone.verified` or
   * `steps.phoneVerified` is truthy is sent to the community page, with
   * `?rank=` and the join rank only when that is a non-zero number; `None`
   * when there is no redirect.
   */
  function MaybeAutoRedirect(doc: JsValue): (r: Option<string>)
    ensures r.Some? <==> Truthy(doc) && (Truthy(Get(Get(doc, "phone"), "verified")) || Truthy(Get(Get(doc, "steps"), "phoneVerified")))
    ensures r.Some? ==> |r.value| >= |COMMUNITY_PAGE| && r.value[..|COMMUNITY_PAGE|] == COMMUNITY_PAGE
  {
    if !Truthy(doc) then None
    else
      var verified := (Truthy(Get(doc, "phone")) && Truthy(Get(Get(doc, "phone"), "verified")))
        || (Truthy(Get(doc, "steps")) && Truthy(Get(Get(doc, "steps"), "phoneVerified")));
      if !verified then None
      else Some(COMMUNITY_PAGE + RankQuery(Get(doc, "joinOrder")))
  }

  const COMMUNITY_PAGE: string := "/community.html"

  /** `rank ? '?rank=' + encodeURIComponent(rank) : ''` for a `typeof 'number'` rank. */
  function RankQuery(joinOrder: JsValue): string {
    if joinOrder.Num? && joinOrder.n != 0 then "?rank=" + IntToString(joinOrder.n) else ""
  }

  /**
   * The redirect carries a rank exactly when the join rank is a non-zero
   * number, and the rank text reads back as that number.
   */
  lemma RedirectRank(doc: JsValue)
    requires MaybeAutoRedirect(doc).Some?
    ensures var url := MaybeAutoRedirect(doc).value;
      var j := Get(doc, "joinOrder");
      && (url == COMMUNITY_PAGE <==> !(j.Num? && j.n != 0))
      && (j.Num? && j.n != 0 ==> url == COMMUNITY_PAGE + "?rank=" + IntToString(j.n)
                                 && ParseInt(url[|COMMUNITY_PAGE + "?rank="|..]) == Some(j.n))
  {
    var j := Get(doc, "joinOrder");
    var url := MaybeAutoRedirect(doc).value;
    assert url == COMMUNITY_PAGE + RankQuery(j);
    if j.Num? && j.n != 0 {
      var q := "?rank=" + IntToString(j.n);
      assert RankQuery(j) == q && |q| > 0;
      assert url == (COMMUNITY_PAGE + "?rank=") + IntToString(j.n);
      assert |url| > |COMMUNITY_PAGE|;
      RankQueryReadsBack(COMMUNITY_PAGE + "?rank=", j.n);
    } else {
      assert RankQuery(j) == "";
    }
  }

  /** The number after a query prefix reads back as itself. */
  lemma RankQueryReadsBack(prefix: string, n: int)
    ensures ParseInt((prefix + IntToString(n))[|prefix|..]) == Some(n)
  {
    assert (prefix + IntToString(n))[|prefix|..] == IntToString(n);
    ParseIntOfIntToString(n);
  }

  /** The saved flag `key` read as `!!st[key]`. */
  predicate Done(st: map<string, JsValue>, key: string) {
    Truthy(Get(Obj(st), key))
  }

  datatype LevelStep = RoleQuestion | RoleSpecificQuestion | LocationQuestion | CloseOverlay

  /**
   * `afterLevelComplete(level)`: level 1 asks the role, level 2 the
   * role-specific question and level 3 the location question, each only
   * while its step is not done; anything else closes the overlay.
   */
  function AfterLevelComplete(st: map<string, JsValue>, level: int): (r: LevelStep)
    ensures r == RoleQuestion <==> level == 1 && !Done(st, "roleDone")
    ensures r == RoleSpecificQuestion <==> level == 2 && !Done(st, "q3Done")
    ensures r == LocationQuestion <==> level == 3 && !Done(st, "q4Done")
  {
    if level == 1 && !Done(st, "roleDone") then RoleQuestion
    else if level == 2 && !Done(st, "q3Done") then RoleSpecificQuestion
    else if level == 3 && !Done(st, "q4Done") then LocationQuestion
    else CloseOverlay
  }

  datatype Resume = AskName | AskRole | AskQ3 | AskQ4 | ConsentAndOtp | ConfirmAndGo

  /** `runOrResume()`: the next step from the saved flags. */
  function RunOrResume(st: map<string, JsValue>): (r: Resume)
    ensures r == AskName <==> !Done(st, "nameDone")
    ensures r == ConfirmAndGo <==>
      Done(st, "nameDone") && Done(st, "roleDone") && Done(st, "q3Done") && Done(st, "q4Done") && Done(st, "phoneVerified")
  {
    if !Done(st, "nameDone") then AskName
    else if !Done(st, "roleDone") then AskRole
    else if !Done(st, "q3Done") then AskQ3
    else if !Done(st, "q4Done") then AskQ4
    else if !Done(st, "phoneVerified") then ConsentAndOtp
    else ConfirmAndGo
  }

  /** The place of a step in the flow's order; the flag it waits for is `FLAGS[Position(r)]`. */
  function Position(r: Resume): (i: nat)
    ensures i <= |FLAGS|
  {
    match r
    case AskName => 0
    case AskRole => 1
    case AskQ3 => 2
    case AskQ4 => 3
    case ConsentAndOtp => 4
    case ConfirmAndGo => 5
  }

  /**
   * The flow resumes at the first unfinished step in the order name, role,
   * q3, q4, phone: every earlier flag is set and the step's own is not; it
   * confirms only when all five are set.
   */
  lemma ResumeIsFirstUnfinished(st: map<string, JsValue>)
    ensures var i := Position(RunOrResume(st));
      && (forall j :: 0 <= j < i ==> Done(st, FLAGS[j]))
      && (i < |FLAGS| ==> !Done(st, FLAGS[i]))
  {
    var i := Position(RunOrResume(st));
    forall j | 0 <= j < i
      ensures Done(st, FLAGS[j])
    {
      assert j == 0 || j == 1 || j == 2 || j == 3 || j == 4;
    }
  }

  /**
   * Finishing the step asked for (each question saves its flag as true)
   * moves the flow strictly forward, so it ends after at most five steps.
   */
  lemma ResumeAdvances(st: map<string, JsValue>)
    requires Position(RunOrResume(st)) < |FLAGS|
    ensures var i := Position(RunOrResume(st));
      Position(RunOrResume(st[FLAGS[i] := Bool(true)])) > i
  {
    var i := Position(RunOrResume(st));
    var st' := st[FLAGS[i] := Bool(true)];
    ResumeIsFirstUnfinished(st);
    forall j | 0 <= j <= i
      ensures Done(st', FLAGS[j])
    {
      if j < i {
        assert FLAGS[j] != FLAGS[i];
        assert Get(Obj(st'), FLAGS[j]) == Get(Obj(st), FLAGS[j]);
      }
    }
    ResumeIsFirstUnfinished(st');
  }

  /** The OTP box is submitted only when its trimmed text is 4 to 8 digits. */
  function OtpInputAccepted(raw: string): (r: bool)
    ensures r <==> 4 <= |Trim(raw)| <= 8 && forall i :: 0 <= i < |Trim(raw)| ==> IsDigit(Trim(raw)[i])
  {
    OtpRoutes.IsCandidate(Trim(raw))
  }

  /**
   * The code the page sends (`{ otp: c }` with `c` trimmed) reaches the
   * server's `/verify` as the same text, so the server's format check agrees
   * with the page's.
   */
  lemma ServerSeesSentOtp(raw: string)
    ensures OtpRoutes.CandidateOf(Undefined, Str(Trim(raw))) == Trim(raw)
    ensures OtpInputAccepted(raw) <==> OtpRoutes.IsCandidate(OtpRoutes.CandidateOf(Undefined, Str(Trim(raw))))
  {
    CandidateOfText(Trim(raw));
    TrimTrimmed(raw);
  }

  /** A body `{ otp: t }` gives the server the candidate `t.trim()`. */
  lemma CandidateOfText(t: string)
    ensures OtpRoutes.CandidateOf(Undefined, Str(t)) == Trim(t)
  {
    if t == "" {
      assert Or(Or(Undefined, Str(t)), Str("")) == Str("");
    } else {
      assert Or(Or(Undefined, Str(t)), Str("")) == Str(t);
    }
  }
}

=== FILE: spin.dfy ===
/**
 * routes/spin.js: the once-per-player prize wheel and its multi-use referral
 * codes. `Math.random()` is replaced by rolls in [0, 1) passed in by the caller.
 */
module SpinRoutes {
  import opened Wrappers
  import opened Text
  import opened JsValues
  import opened InviteCodeModel
  import opened SpinAttemptModel

  /** The code alphabet: upper-case letters and digits without I, O and 0. */
  const ALPHABET: string := "ABCDEFGHJKLMNPQRSTUVWXYZ123456789"

  /** A random draw in [0, 1), standing for one `Math.random()`. */
  predicate IsRoll(r: real) { 0.0 <= r < 1.0 }

  /** `ALPHABET[Math.floor(r * ALPHABET.length)]`. */
  function Pick(r: real): (c: char)
    requires IsRoll(r)
    ensures c in ALPHABET
  {
    ALPHABET[(r * 33.0).Floor]
  }

  /** An alphabet character: an upper-case letter other than I and O, or a digit 1..9. */
  predicate CodeChar(c: char) {
    ('A' <= c <= 'Z' && c != 'I' && c != 'O') || ('1' <= c <= '9')
  }

  /** The alphabet has 33 characters, none of them I, O, 0, a lower-case letter or white space. */
  lemma AlphabetShape()
    ensures |ALPHABET| == 33
    ensures forall i :: 0 <= i < |ALPHABET| ==> CodeChar(ALPHABET[i])
    ensures 'I' !in ALPHABET && 'O' !in ALPHABET && '0' !in ALPHABET
  {
  }

  /** A code character is its own upper case and is not white space. */
  lemma CodeCharShape(c: char)
    requires CodeChar(c)
    ensures UpperChar(c) == c && !IsSpace(c) && c != 'I' && c != 'O' && c != '0'
  {
  }

  /** The code `randomCode(len)` builds from the rolls `rs`. */
  function CodeFrom(rs: seq<real>, len: nat): (s: string)
    requires |rs| >= len && forall i :: 0 <= i < |rs| ==> IsRoll(rs[i])
    ensures |s| == len && forall i :: 0 <= i < len ==> s[i] in ALPHABET
  {
    seq(len, i requires 0 <= i < len => Pick(rs[i]))
  }

  /** A code made of alphabet characters is stored unchanged by the schema's `uppercase` and `trim`. */
  lemma AlphabetCodeWellFormed(s: string)
    requires |s| == 4 && forall i :: 0 <= i < |s| ==> s[i] in ALPHABET
    ensures WellFormedCode(s) && ToUpper(s) == s && Trim(s) == s
    ensures 'O' !in s && 'I' !in s && '0' !in s
  {
    AlphabetShape();
    forall i | 0 <= i < |s|
      ensures CodeChar(s[i])
    {
      var j :| 0 <= j < |ALPHABET| && ALPHABET[j] == s[i];
    }
    assert !IsSpace(s[0]) && !IsSpace(s[3]) by {
      CodeCharShape(s[0]);
      CodeCharShape(s[3]);
    }
    WellFormedCodeIsStored(s);
  }

  /** Enough rolls for `tries` codes of `len` characters each. */
  predicate RollsFor(rolls: seq<seq<real>>, tries: nat, len: nat) {
    |rolls| >= tries &&
    forall j :: 0 <= j < |rolls| ==> |rolls[j]| >= len && forall i :: 0 <= i < |rolls[j]| ==> IsRoll(rolls[j][i])
  }

  /** `randomCode(len)`: appends one picked character per position. */
  method RandomCode(len: nat, rs: seq<real>) returns (s: string)
    requires |rs| >= len && forall i :: 0 <= i < |rs| ==> IsRoll(rs[i])
    ensures s == CodeFrom(rs, len)
  {
    s := "";
    var i := 0;
    while i < len
      invariant 0 <= i <= len
      invariant s == CodeFrom(rs, len)[..i]
    {
      s := s + [Pick(rs[i])];
      i := i + 1;
    }
  }

  /**
   * `generateUniqueCode(len, tries)`: the first of up to `tries` random codes
   * that no invite record uses yet; `None` (an exception) when all were taken.
   */
  method GenerateUniqueCode(invites: InviteCodes, len: nat, tries: nat, rolls: seq<seq<real>>) returns (code: Option<string>)
    requires RollsFor(rolls, tries, len)
    ensures code.Some? ==> code.value !in invites.codes && |code.value| == len
    ensures code.Some? ==> forall i :: 0 <= i < len ==> code.value[i] in ALPHABET
    ensures code.Some? ==> exists j :: 0 <= j < tries && code.value == CodeFrom(rolls[j], len)
    ensures code.None? ==> forall j :: 0 <= j < tries ==> CodeFrom(rolls[j], len) in invites.codes
  {
    var i := 0;
    while i < tries
      invariant 0 <= i <= tries
      invariant forall j :: 0 <= j < i ==> CodeFrom(rolls[j], len) in invites.codes
    {
      var c := RandomCode(len, rolls[i]);
      if c !in invites.codes {
        return Some(c);
      }
      i := i + 1;
    }
    return None;
  }

  /**
   * The prize normalisation of `/spin/claim`: 'refund' and 'referrals' are
   * recognised, anything else is no prize; a referral limit outside 1..3
   * becomes 1, and other prizes keep `Number(limit) || 0`.
   */
  function NormalizePrize(prize: JsValue, limit: JsValue): (r: (SpinResult, int))
    ensures ToStr(prize) == "refund" ==> r.0 == Refund && r.1 == NumberOrZero(limit)
    ensures ToStr(prize) == "referrals" ==> r.0 == Referrals && r.1 in {1, 2, 3}
    ensures ToStr(prize) == "referrals" && NumberOrZero(limit) in {1, 2, 3} ==> r.1 == NumberOrZero(limit)
    ensures ToStr(prize) != "refund" && ToStr(prize) != "referrals" ==> r == (NoPrize, NumberOrZero(limit))
  {
    var lim := NumberOrZero(limit);
    var p := ToStr(prize);
    if p == "referrals" then (Referrals, if lim in {1, 2, 3} then lim else 1)
    else if p == "refund" then (Refund, lim)
    else (NoPrize, lim)
  }

  /** The invite record a referral prize creates: `limit` uses, none spent, active. */
  function SpinInvite(code: string, limit: int, now: int): (inv: Invite)
    ensures inv.code == code && !inv.used && inv.active == Some(true)
    ensures UsesOf(inv) == 0 && inv.maxUses == Some(limit)
  {
    NewInvite(code, now).(uses := Some(0), maxUses := Some(limit), active := Some(true))
  }

  /**
   * The code creation shared by both referral handlers: a fresh code is
   * generated and stored as a multi-use invite with `limit` uses. `None`
   * when no fresh code was found, and then nothing is stored.
   */
  method IssueCode(invites: InviteCodes, limit: int, now: int, rolls: seq<seq<real>>) returns (code: Option<string>)
    requires invites.Valid() && RollsFor(rolls, 12, 4) && 1 <= limit
    modifies invites
    ensures invites.Valid()
    ensures code.None? ==> invites.codes == old(invites.codes)
    ensures code.Some? ==> (WellFormedCode(code.value) && code.value !in old(invites.codes) &&
      invites.codes == old(invites.codes)[code.value := SpinInvite(code.value, limit, now)])
  {
    code := GenerateUniqueCode(invites, 4, 12, rolls);
    if code.Some? {
      AlphabetCodeWellFormed(code.value);
      invites.Create(SpinInvite(code.value, limit, now));
    }
  }

  /** `a.inviteCode || null`: the stored code, with an empty one reported as none. */
  function StoredCode(c: Option<string>): (r: Option<string>)
    ensures r.Some? <==> c.Some? && c.value != ""
    ensures r.Some? ==> r == c
  {
    if c.Some? && c.value != "" then c else None
  }

  datatype SpinReply =
    | PlayerIdRequired
    | AlreadySpun(result: SpinResult, limit: int, code: Option<string>)
    | Spun(result: SpinResult, limit: int, code: Option<string>)
    | SpinServerError

  /**
   * `POST /spin/claim`: one spin per player. A player who already has an
   * attempt gets 409 with the stored result and code (an empty code
   * reported as none) and nothing is created; otherwise
   * the normalised prize is recorded, and a referral prize also creates one
   * code with `maxUses` equal to its limit.
   */
  method SpinClaim(attempts: SpinAttempts, invites: InviteCodes, playerId: IdArg,
                   prize: JsValue, limit: JsValue, now: int, rolls: seq<seq<real>>)
    returns (reply: SpinReply)
    requires attempts.Valid() && invites.Valid() && RollsFor(rolls, 12, 4)
    modifies attempts, invites
    ensures attempts.Valid() && invites.Valid()
    ensures !playerId.Valid? ==> reply == PlayerIdRequired
    ensures playerId.Valid? && playerId.id in old(attempts.attempts) ==>
      var a := old(attempts.attempts)[playerId.id];
      reply == AlreadySpun(a.result, a.limit, StoredCode(a.inviteCode))
    ensures !reply.Spun? ==> attempts.attempts == old(attempts.attempts) && invites.codes == old(invites.codes)
    ensures reply.Spun? ==>
      playerId.Valid? && playerId.id !in old(attempts.attempts) &&
      (reply.result, reply.limit) == NormalizePrize(prize, limit) &&
      attempts.attempts == old(attempts.attempts)[playerId.id := SpinAttempt(playerId.id, reply.result, reply.limit, reply.code)] &&
      (reply.code.Some? <==> reply.result == Referrals)
    ensures reply.Spun? && reply.code.None? ==> invites.codes == old(invites.codes)
    ensures reply.Spun? && reply.code.Some? ==>
      reply.code.value !in old(invites.codes) &&
      invites.codes == old(invites.codes)[reply.code.value := SpinInvite(reply.code.value, reply.limit, now)]
  {
    if !playerId.Valid? {
      return PlayerIdRequired;
    }
    var pid := playerId.id;
    if pid in attempts.attempts {
      var a := attempts.attempts[pid];
      return AlreadySpun(a.result, a.limit, StoredCode(a.inviteCode));
    }
    var (result, lim) := NormalizePrize(prize, limit);
    var code: Option<string> := None;
    if result == Referrals {
      code := IssueCode(invites, lim, now, rolls);
      if code.None? {
        return SpinServerError;
      }
    }
    attempts.Create(SpinAttempt(pid, result, lim, code));
    reply := Spun(result, lim, code);
  }

  datatype ReferralsReply =
    | ReferralsPlayerIdRequired
    | ReferralsAlreadySpun(result: SpinResult, limit: int)
    | ReferralCodes(codes: seq<string>, limit: int)
    | ReferralsServerError

  /** `[1,2,3].includes(Number(count)) ? Number(count) : 1`. */
  function ReferralLimit(count: JsValue): (lim: int)
    ensures lim in {1, 2, 3}
    ensures ToNumber(count).Some? && ToNumber(count).value in {1, 2, 3} ==> lim == ToNumber(count).value
  {
    match ToNumber(count)
    case Some(n) => if n in {1, 2, 3} then n else 1
    case None => 1
  }

  /**
   * `POST /invites/referrals`: a player whose earlier attempt won referrals
   * gets that same code back; any other earlier attempt is 409; a player
   * without an attempt gets one new code and a referrals attempt.
   */
  method IssueReferrals(attempts: SpinAttempts, invites: InviteCodes, playerId: IdArg,
                   count: JsValue, now: int, rolls: seq<seq<real>>)
    returns (reply: ReferralsReply)
    requires attempts.Valid() && invites.Valid() && RollsFor(rolls, 12, 4)
    modifies attempts, invites
    ensures attempts.Valid() && invites.Valid()
    ensures !playerId.Valid? ==> reply == ReferralsPlayerIdRequired
    ensures playerId.Valid? && playerId.id in old(attempts.attempts) ==>
      var a := old(attempts.attempts)[playerId.id];
      reply == (if a.result == Referrals && a.inviteCode.Some? && a.inviteCode.value != ""
                then ReferralCodes([a.inviteCode.value], a.limit)
                else ReferralsAlreadySpun(a.result, a.limit))
    ensures playerId.Valid? && playerId.id in old(attempts.attempts) ==>
      attempts.attempts == old(attempts.attempts) && invites.codes == old(invites.codes)
    ensures playerId.Valid? && playerId.id !in old(attempts.attempts) && reply.ReferralCodes? ==>
      |reply.codes| == 1 &&
      var c := reply.codes[0];
      c !in old(invites.codes) && reply.limit == ReferralLimit(count) &&
      invites.codes == old(invites.codes)[c := SpinInvite(c, reply.limit, now)] &&
      attempts.attempts == old(attempts.attempts)[playerId.id := SpinAttempt(playerId.id, Referrals, reply.limit, Some(c))]
    ensures !reply.ReferralCodes? ==> attempts.attempts == old(attempts.attempts) && invites.codes == old(invites.codes)
  {
    if !playerId.Valid? {
      return ReferralsPlayerIdRequired;
    }
    var pid := playerId.id;
    var lim := ReferralLimit(count);
    if pid in attempts.attempts {
      var a := attempts.attempts[pid];
      if a.result == Referrals && a.inviteCode.Some? && a.inviteCode.value != "" {
        return ReferralCodes([a.inviteCode.value], a.limit);
      }
      return ReferralsAlreadySpun(a.result, a.limit);
    }
    var c := IssueCode(invites, lim, now, rolls);
    if c.None? {
      return ReferralsServerError;
    }
    attempts.Create(SpinAttempt(pid, Referrals, lim, c));
    reply := ReferralCodes([c.value], lim);
  }

  datatype StatusReply = StatusPlayerIdRequired | NotSpun | SpunStatus(result: SpinResult, limit: int, code: Option<string>)

  /** `GET /spin/status`: the stored attempt of the player, if any; nothing changes. */
  function SpinStatus(attempts: map<nat, SpinAttempt>, playerId: IdArg): (r: StatusReply)
    ensures !playerId.Valid? <==> r == StatusPlayerIdRequired
    ensures r.NotSpun? <==> playerId.Valid? && playerId.id !in attempts
    ensures r.SpunStatus? ==> (playerId.Valid? && playerId.id in attempts &&
      r.result == attempts[playerId.id].result && r.limit == attempts[playerId.id].limit)
    ensures r.SpunStatus? ==> (r.code.Some? <==>
      attempts[playerId.id].inviteCode.Some? && attempts[playerId.id].inviteCode.value != "")
    ensures r.SpunStatus? && r.code.Some? ==> r.code == attempts[playerId.id].inviteCode
  {
    if !playerId.Valid? then StatusPlayerIdRequired
    else if playerId.id !in attempts then NotSpun
    else
      var a := attempts[playerId.id];
      SpunStatus(a.result, a.limit, StoredCode(a.inviteCode))
  }

  datatype MultiClaimReply = CodeRequired | InvalidCode | CodeExhausted | CodeAlreadyTaken | MultiClaimed(remaining: int)

  /** `String(code || '').trim().toUpperCase()`. */
  function SpinCodeText(code: JsValue): (r: string)
    ensures code.Str? ==> r == ToUpper(Trim(code.s))
    ensures !Truthy(code) ==> r == ""
  {
    ToUpper(Trim(TextOrEmpty(code)))
  }

  /** A normalised code text of four characters has the shape of a stored code. */
  lemma SpinCodeTextShape(code: JsValue)
    ensures |SpinCodeText(code)| == 4 ==> WellFormedCode(SpinCodeText(code))
  {
    var t := Trim(TextOrEmpty(code));
    UpperShape(t);
  }

  /** Upper-casing a string without white space at its ends keeps its ends and leaves no lower-case letter. */
  lemma UpperShape(t: string)
    requires t == [] || (!IsSpace(t[0]) && !IsSpace(t[|t| - 1]))
    ensures |ToUpper(t)| == 4 ==> WellFormedCode(ToUpper(t))
  {
    var r := ToUpper(t);
    if |r| == 4 {
      assert r[0] == UpperChar(t[0]) && r[3] == UpperChar(t[3]);
      forall i | 0 <= i < 4 ensures !('a' <= r[i] <= 'z') {
        assert r[i] == UpperChar(t[i]);
      }
    }
  }

  /** The code has a record that is not deactivated (`active: false`). */
  predicate Listed(codes: map<string, Invite>, c: string) {
    c in codes && codes[c].active != Some(false)
  }

  /** `uses >= maxUses`, with their defaults. */
  predicate Exhausted(inv: Invite) {
    UsesOf(inv) >= MaxUsesOf(inv)
  }

  /**
   * The refusals of a multi-use claim: an empty code is 400, an unknown or
   * deactivated one 404, a spent one 410.
   */
  predicate RefusedAsListed(codes: map<string, Invite>, c: string, reply: MultiClaimReply) {
    && (c == "" ==> reply == CodeRequired)
    && (c != "" && !Listed(codes, c) ==> reply == InvalidCode)
    && (c != "" && Listed(codes, c) && Exhausted(codes[c]) ==> reply == CodeExhausted)
  }

  /**
   * `POST /invites/claim` of routes/spin.js: one more use of a multi-use code.
   * `c` is the code text `SpinCodeText` gives and `claimedBy` the player id
   * when it is well formed. Unknown or deactivated codes are 404, spent ones
   * 410; the increment only happens while `uses < maxUses`, so `uses` never
   * passes `maxUses`; the use that reaches the limit also marks the code used.
   */
  method MultiClaim(invites: InviteCodes, c: string, claimedBy: Option<nat>, now: int) returns (reply: MultiClaimReply)
    requires invites.Valid()
    modifies invites
    ensures invites.Valid()
    ensures RefusedAsListed(old(invites.codes), c, reply)
    ensures !reply.MultiClaimed? ==> invites.codes == old(invites.codes)
    ensures reply.MultiClaimed? ==> OneMoreUse(old(invites.codes), invites.codes, c, reply.remaining)
  {
    if c == "" {
      return CodeRequired;
    }
    if !Listed(invites.codes, c) {
      return InvalidCode;
    }
    if Exhausted(invites.codes[c]) {
      return CodeExhausted;
    }
    var remaining := invites.UseOnce(c, claimedBy, now);
    reply := if remaining.Some? then MultiClaimed(remaining.value) else CodeAlreadyTaken;
  }
}

=== FILE: spin_attempt.dfy ===
/**
 * Spin attempts (models/SpinAttempt.js): at most one per player, recording the
 * prize won, its referral limit and the referral code issued with it.
 */
module SpinAttemptModel {
  import opened Wrappers

  datatype SpinResult = NoPrize | Referrals | Refund

  /** The enum's text for a result. */
  function ResultName(r: SpinResult): (s: string)
    ensures s in {"none", "referrals", "refund"}
  {
    match r
    case NoPrize => "none"
    case Referrals => "referrals"
    case Refund => "refund"
  }

  datatype SpinAttempt = SpinAttempt(playerId: nat, result: SpinResult, limit: int, inviteCode: Option<string>)

  /** The collection, keyed by player id (the unique index on `playerId`). */
  class SpinAttempts {
    var attempts: map<nat, SpinAttempt>

    ghost predicate Valid()
      reads this
    {
      forall p :: p in attempts ==> attempts[p].playerId == p
    }

    constructor ()
      ensures Valid() && attempts == map[]
    {
      attempts := map[];
    }

    /** `SpinAttempt.create(a)` for a player without an attempt. */
    method Create(a: SpinAttempt)
      requires Valid() && a.playerId !in attempts
      modifies this
      ensures Valid()
      ensures attempts == old(attempts)[a.playerId := a]
    {
      attempts := attempts[a.playerId := a];
    }
  }
}

=== FILE: text.dfy ===
/**
 * The JavaScript string built-ins the routes and pages rely on, on `seq<char>`:
 * digit filtering (`replace(/\D+/g, '')`), `trim`, ASCII case mapping, number
 * formatting (`String(n)`, `toString(36)`), `padStart` and `parseInt(s, 10)`.
 */
module Text {
  import opened Wrappers

  predicate IsDigit(c: char) { '0' <= c <= '9' }

  predicate AllDigits(s: string) { forall i :: 0 <= i < |s| ==> IsDigit(s[i]) }

  /** `String(s).replace(/\D+/g, '')`: the digit characters of `s`, in order. */
  function Digits(s: string): (r: string)
    ensures AllDigits(r)
    ensures |r| <= |s|
  {
    if s == [] then []
    else if IsDigit(s[0]) then [s[0]] + Digits(s[1..])
    else Digits(s[1..])
  }

  /** Filtering distributes over concatenation. */
  lemma {:induction false} DigitsAppend(a: string, b: string)
    ensures Digits(a + b) == Digits(a) + Digits(b)
  {
    if a == [] {
      assert a + b == b;
    } else {
      assert (a + b)[0] == a[0];
      assert (a + b)[1..] == a[1..] + b;
      DigitsAppend(a[1..], b);
    }
  }

  /** A string of digits is left as it is, so filtering twice is filtering once. */
  lemma {:induction false} DigitsOfDigits(s: string)
    requires AllDigits(s)
    ensures Digits(s) == s
  {
    if s != [] {
      DigitsOfDigits(s[1..]);
    }
  }

  /**
   * The characters `String.prototype.trim` removes: ECMAScript WhiteSpace
   * (TAB, VT, FF, ZWNBSP and every Zs space) and LineTerminator (LF, CR, LS, PS).
   */
  predicate IsSpace(c: char) {
    c == '\t' || c == '\n' || c == '\U{000B}' || c == '\U{000C}' || c == '\r' || c == ' ' ||
    c == '\U{00A0}' || c == '\U{1680}' || ('\U{2000}' <= c <= '\U{200A}') ||
    c == '\U{2028}' || c == '\U{2029}' || c == '\U{202F}' || c == '\U{205F}' ||
    c == '\U{3000}' || c == '\U{FEFF}'
  }

  function TrimStart(s: string): (r: string)
    ensures |r| <= |s| && r == s[|s| - |r|..]
    ensures r == [] || !IsSpace(r[0])
    ensures forall i :: 0 <= i < |s| - |r| ==> IsSpace(s[i])
  {
    if s != [] && IsSpace(s[0]) then TrimStart(s[1..]) else s
  }

  function TrimEnd(s: string): (r: string)
    ensures |r| <= |s| && r == s[..|r|]
    ensures r == [] || !IsSpace(r[|r| - 1])
    ensures forall i :: |r| <= i < |s| ==> IsSpace(s[i])
  {
    if s != [] && IsSpace(s[|s| - 1]) then TrimEnd(s[..|s| - 1]) else s
  }

  /** `s.trim()`: no white space at either end, and nothing else removed. */
  function Trim(s: string): (r: string)
    ensures r == [] || (!IsSpace(r[0]) && !IsSpace(r[|r| - 1]))
    ensures |r| <= |s|
    ensures r <= TrimStart(s)
  {
    TrimEnd(TrimStart(s))
  }

  /** A string without white space at either end is its own trim. */
  lemma TrimFixed(s: string)
    requires s == [] || (!IsSpace(s[0]) && !IsSpace(s[|s| - 1]))
    ensures Trim(s) == s
  {
    assert TrimStart(s) == s;
    assert TrimEnd(s) == s;
  }

  /** Trimming only removes characters: what is left is a run of `s`. */
  lemma TrimIsInfix(s: string)
    ensures var t := Trim(s);
      forall i :: 0 <= i < |t| ==> t[i] == s[|s| - |TrimStart(s)| + i]
  {
    var a := TrimStart(s);
    var t := Trim(s);
    assert t == TrimEnd(a) == a[..|t|];
    assert a == s[|s| - |a|..];
  }

  /** No ASCII lower-case letter in `s`. */
  predicate NoLower(s: string) {
    forall i :: 0 <= i < |s| ==> !('a' <= s[i] <= 'z')
  }

  /** Upper-casing leaves no lower-case letter. */
  lemma UpperHasNoLower(s: string)
    ensures NoLower(ToUpper(s))
  {
    var u := ToUpper(s);
    forall i | 0 <= i < |u| ensures !('a' <= u[i] <= 'z') {
      assert u[i] == UpperChar(s[i]);
    }
  }

  /** Trimming adds no lower-case letter. */
  lemma NoLowerTrim(s: string)
    requires NoLower(s)
    ensures NoLower(Trim(s))
  {
    var t := Trim(s);
    TrimIsInfix(s);
    forall i | 0 <= i < |t| ensures !('a' <= t[i] <= 'z') {
      assert t[i] == s[|s| - |TrimStart(s)| + i];
    }
  }

  /** A string without lower-case letters is its own upper case. */
  lemma UpperFixed(s: string)
    requires forall i :: 0 <= i < |s| ==> UpperChar(s[i]) == s[i]
    ensures ToUpper(s) == s
  {
  }

  /** Trimming is idempotent. */
  lemma {:induction false} TrimTrimmed(s: string)
    ensures Trim(Trim(s)) == Trim(s)
  {
    var r := Trim(s);
    assert TrimStart(r) == r;
    assert TrimEnd(r) == r;
  }

  function UpperChar(c: char): char {
    if 'a' <= c <= 'z' then (c as int - 32) as char else c
  }

  function LowerChar(c: char): char {
    if 'A' <= c <= 'Z' then (c as int + 32) as char else c
  }

  /** `s.toUpperCase()` on the ASCII letters; other characters are kept. */
  function ToUpper(s: string): (r: string)
    ensures |r| == |s|
    ensures forall i :: 0 <= i < |s| ==> r[i] == UpperChar(s[i])
  {
    seq(|s|, i requires 0 <= i < |s| => UpperChar(s[i]))
  }

  /** `s.toLowerCase()` on the ASCII letters; other characters are kept. */
  function ToLower(s: string): (r: string)
    ensures |r| == |s|
    ensures forall i :: 0 <= i < |s| ==> r[i] == LowerChar(s[i])
  {
    seq(|s|, i requires 0 <= i < |s| => LowerChar(s[i]))
  }

  const DIGIT_CHARS: string := "0123456789abcdefghijklmnopqrstuvwxyz"

  function DigitChar(d: nat): (c: char)
    requires d < 36
  {
    DIGIT_CHARS[d]
  }

  /** `n.toString(base)` for a non-negative integer. */
  function NatToBase(n: nat, base: nat): (r: string)
    requires 2 <= base <= 36
    ensures 1 <= |r|
    ensures forall i :: 0 <= i < |r| ==> r[i] in DIGIT_CHARS[..base]
    decreases n
  {
    if n < base then [DigitChar(n)]
    else NatToBase(n / base, base) + [DigitChar(n % base)]
  }

  /** The character of a decimal digit. */
  function DecimalChar(d: nat): (c: char)
    requires d < 10
    ensures IsDigit(c) && DigitValue(c) == d
  {
    ('0' as int + d) as char
  }

  /** `String(n)` for a non-negative integer: its decimal digits, most significant first. */
  function NatToString(n: nat): (r: string)
    ensures 1 <= |r| && AllDigits(r)
    ensures r[0] == '0' ==> n == 0
  {
    if n < 10 then [DecimalChar(n)]
    else
      var p := NatToString(n / 10);
      var r := p + [DecimalChar(n % 10)];
      assert r[0] == p[0];
      r
  }

  function Pow10(k: nat): (r: nat)
    ensures r >= 1
  {
    if k == 0 then 1 else 10 * Pow10(k - 1)
  }

  /** A number with `k + 1` decimal digits prints as `k + 1` characters. */
  lemma {:induction false} NatToStringLength(n: nat, k: nat)
    requires Pow10(k) <= n < Pow10(k + 1)
    ensures |NatToString(n)| == k + 1
  {
    if k > 0 {
      assert Pow10(k) == 10 * Pow10(k - 1);
      assert Pow10(k + 1) == 10 * Pow10(k);
      assert Pow10(k - 1) <= n / 10 < Pow10(k);
      NatToStringLength(n / 10, k - 1);
      assert NatToString(n) == NatToString(n / 10) + [DecimalChar(n % 10)];
    }
  }

  /** `String(i)` for an integer. */
  function IntToString(i: int): (r: string)
    ensures 1 <= |r|
    ensures i >= 0 ==> r == NatToString(i)
  {
    if i < 0 then "-" + NatToString(-i) else NatToString(i)
  }

  function DigitValue(c: char): nat
    requires IsDigit(c)
  {
    c as int - '0' as int
  }

  /** The value of a decimal digit string. */
  function DecimalValue(s: string): nat
    requires AllDigits(s)
  {
    if s == [] then 0 else DecimalValue(s[..|s| - 1]) * 10 + DigitValue(s[|s| - 1])
  }

  /** Printing a number in decimal and reading it back gives the number. */
  lemma {:induction false} DecimalRoundTrip(n: nat)
    ensures DecimalValue(NatToString(n)) == n
  {
    var r := NatToString(n);
    if n >= 10 {
      var p := NatToString(n / 10);
      assert r == p + [DecimalChar(n % 10)];
      assert r[..|r| - 1] == p;
      DecimalRoundTrip(n / 10);
    }
  }

  function Repeat(c: char, k: nat): (r: string)
    ensures |r| == k && forall i :: 0 <= i < k ==> r[i] == c
  {
    seq(k, _ => c)
  }

  /** `s.padStart(width, c)`. */
  function PadStart(s: string, width: nat, c: char): (r: string)
    ensures |r| == if |s| < width then width else |s|
    ensures r[|r| - |s|..] == s
    ensures forall i :: 0 <= i < |r| - |s| ==> r[i] == c
  {
    if |s| < width then Repeat(c, width - |s|) + s else s
  }

  /** The longest prefix of `s` made of digits. */
  function DigitPrefix(s: string): (r: string)
    ensures |r| <= |s| && AllDigits(r) && r == s[..|r|]
    ensures |r| == |s| || !IsDigit(s[|r|])
  {
    if s != [] && IsDigit(s[0]) then [s[0]] + DigitPrefix(s[1..]) else []
  }

  /**
   * `parseInt(s, 10)`: leading white space skipped, an optional sign, then the
   * longest run of digits; `None` stands for NaN (no digit found).
   */
  function ParseInt(s: string): (r: Option<int>)
    ensures AllDigits(s) && s != [] ==> r == Some(DecimalValue(s) as int)
  {
    assert AllDigits(s) && s != [] ==> TrimStart(s) == s && DigitPrefix(s) == s by {
      if AllDigits(s) && s != [] {
        assert IsDigit(s[0]);
        TrimStartUnspaced(s);
        DigitPrefixOfDigits(s);
      }
    }
    ParseSigned(TrimStart(s))
  }

  /** The sign step of `parseInt`, on text whose leading space is gone. */
  function ParseSigned(t: string): Option<int>
  {
    if t != [] && t[0] == '-' then Negated(ParseDigits(t[1..]))
    else if t != [] && t[0] == '+' then ParseDigits(t[1..])
    else ParseDigits(t)
  }

  /** The digit step of `parseInt`: the value of the leading run of digits, if any. */
  function ParseDigits(b: string): Option<int>
  {
    var d := DigitPrefix(b);
    if d == [] then None else Some(DecimalValue(d) as int)
  }

  function Negated(p: Option<int>): Option<int>
  {
    if p.Some? then Some(-p.value) else None
  }

  lemma ParseDigitsOfDigits(d: string)
    requires AllDigits(d) && d != []
    ensures ParseDigits(d) == Some(DecimalValue(d) as int)
  {
    DigitPrefixOfDigits(d);
  }

  /** Text that does not start with white space is its own `TrimStart`. */
  lemma TrimStartUnspaced(s: string)
    requires s != [] && !IsSpace(s[0])
    ensures TrimStart(s) == s
  {
  }

  /** A run of digits is read by `parseInt` as its decimal value. */
  lemma ParseIntOfDigits(d: string)
    requires AllDigits(d) && d != []
    ensures ParseInt(d) == Some(DecimalValue(d) as int)
  {
    assert IsDigit(d[0]);
    TrimStartUnspaced(d);
    ParseDigitsOfDigits(d);
  }

  /** A minus sign in front of a run of digits negates what `parseInt` reads. */
  lemma ParseIntOfSignedDigits(s: string)
    requires |s| >= 2 && s[0] == '-' && AllDigits(s[1..])
    ensures ParseInt(s[1..]).Some? ==> ParseInt(s) == Some(-ParseInt(s[1..]).value)
  {
    TrimStartUnspaced(s);
    assert IsDigit(s[1..][0]);
    TrimStartUnspaced(s[1..]);
  }

  /** Text without a digit is NaN to `parseInt`. */
  lemma ParseIntOfNoDigits(s: string)
    requires forall i :: 0 <= i < |s| ==> !IsDigit(s[i])
    ensures ParseInt(s) == None
  {
    var t := TrimStart(s);
    assert t == s[|s| - |t|..];
    assert t == [] || !IsDigit(t[0]);
    assert |t| <= 1 || !IsDigit(t[1]);
  }

  /** A decimal numeral is read back by `parseInt` as the number it prints. */
  lemma ParseIntOfNatToString(n: nat)
    ensures ParseInt(NatToString(n)) == Some(n)
  {
    ParseIntOfDigits(NatToString(n));
    DecimalRoundTrip(n);
  }

  /** `parseInt(String(i))` gives `i` back, for negative `i` too. */
  lemma ParseIntOfIntToString(i: int)
    ensures ParseInt(IntToString(i)) == Some(i)
  {
    if i >= 0 {
      ParseIntOfNatToString(i);
    } else {
      ParseIntOfNegative(i);
    }
  }

  lemma ParseIntOfNegative(i: int)
    requires i < 0
    ensures ParseInt(IntToString(i)) == Some(i)
  {
    ParseIntOfMinusNat(-i);
  }

  lemma ParseIntOfMinusNat(n: nat)
    requires n > 0
    ensures ParseInt(IntToString(-(n as int))) == Some(-(n as int))
  {
    ParseIntOfNatToString(n);
    var s := IntToString(-(n as int));
    assert s == "-" + NatToString(n);
    assert s[1..] == NatToString(n);
    ParseIntOfMinus(s, NatToString(n), n);
  }

  lemma ParseIntOfMinus(s: string, t: string, n: int)
    requires |s| >= 2 && s[0] == '-' && AllDigits(s[1..]) && s[1..] == t && ParseInt(t) == Some(n)
    ensures ParseInt(s) == Some(-n)
  {
    TrimStartUnspaced(s);
    assert IsDigit(t[0]);
    TrimStartUnspaced(t);
    assert ParseInt(s) == Negated(ParseDigits(t));
  }

  lemma {:induction false} DigitPrefixOfDigits(s: string)
    requires AllDigits(s)
    ensures DigitPrefix(s) == s
  {
    if s != [] {
      DigitPrefixOfDigits(s[1..]);
    }
  }

  /** `s.replace(/O/g, '0')`. */
  function ReplaceLetterO(s: string): (r: string)
    ensures |r| == |s|
    ensures forall i :: 0 <= i < |s| ==> r[i] == (if s[i] == 'O' then '0' else s[i])
  {
    seq(|s|, i requires 0 <= i < |s| => if s[i] == 'O' then '0' else s[i])
  }

  /** A string without the letter O is left as it is by the swap. */
  lemma ReplaceLetterOFixed(s: string)
    requires 'O' !in s
    ensures ReplaceLetterO(s) == s
  {
  }

  /** `s.slice(-k)`: the last `k` characters, or all of `s` when it is shorter. */
  function TakeLast(s: string, k: nat): (r: string)
    ensures |r| == if |s| < k then |s| else k
    ensures r == s[|s| - |r|..]
  {
    if |s| <= k then s else s[|s| - k..]
  }

  /** `s.slice(0, k)`. */
  function TakeFirst(s: string, k: nat): (r: string)
    ensures |r| == if |s| < k then |s| else k
    ensures r == s[..|r|]
  {
    if |s| <= k then s else s[..k]
  }
}

=== FILE: wrappers.dfy ===
/** Optional values, used wherever the source has a nullable field or a missing key. */
module Wrappers {

  datatype Option<+T> = None | Some(value: T) {

    /** The value, or `default` when there is none (JavaScript's `x ?? default`). */
    function GetOr(default: T): T {
      match this
      case Some(v) => v
      case None => default
    }
  }
}
